=== FILE: README.md ===
# RePlan core, modelled in Dafny

RePlan turns scanned model-aircraft plans into cut lists and part templates.
A user segments each page into objects (ribs, formers, spars, ...). Each object is a set of instances, one per view or page. Each instance groups segment elements, and every element carries a binary mask over the page image.

This project models the part of RePlan that is sequential integer, grid and collection logic:

- **Masks and their codec.** Masks are H x W byte grids. The run-length codec stores a mask as `[value, count]` pairs in row-major order. The workspace crops masks to their bounding box on save and clips them back into the page on load. Element and parts-library records carry the same encoding (modules `Masks`, `Rle`, `Workspace`, `Elements`, `Parts`).
- **Mask algebra.** This covers union, intersection, xor and overlap of masks, the breadth-first flood fill of the iPad engine, and the bounding box and centroid of a mask or of a group of masks (`Segmentation`, `FloodFill`, `MaskGeometry`, `IpadElements`).
- **The render cache.** The base image is the page with every text, hatching and line mask painted white, blended with the overlay of the visible objects. The cache keeps one base with its key and page, and rebuilds only when either changes (`Rendering`).
- **Small state machines.** These are the undo manager and the drawing tools (`Undo`, `Drawing`).
- **The data model.** This covers pages, objects and instances, categories, physical attributes and application settings (`Page`, `Objects`, `Categories`, `Attributes`, `Config`).
- **Helpers.** These are one-dimensional First Fit Decreasing stock nesting, integer geometry, leader-line tracing on a skeleton, Textract line grouping and OCR label bucketing (`Nesting`, `Geometry`, `Trace`, `Textract`, `Ocr`).

Python's `None` and raised exceptions become `Option` and `Result` values (`Wrappers`). Python's `int()` of a quotient, which rounds toward zero, is `Arith.TruncDiv`. Square roots in distance tests are replaced by exact comparisons of squares. Floating-point values are modelled as exact reals: stock lengths, the PDF scale, Textract's normalised boxes and the gap ratio, the part scale, and the planform opacity. Where `int()` truncates a float product, the model truncates the exact product, so the two can differ by one when float rounding crosses an integer (see "## Left out").

Where the written description of the system and the code disagree, the model follows the code:

- The description specifies a run-length format of alternating runs of 0s and 1s. The code stores `[value, count]` pairs, so every byte value survives a round trip (`Rle.RoundTrip`).
- The description specifies per-category combined masks and incremental patches of the cached composite. The desktop renderer always rebuilds the whole base on a cache miss and reuses it unchanged on a hit, so `Rendering.RenderCache.RenderPage` models exactly that.
- The cache key of the code sums each hiding mask, so it can collide. `Rendering.KeyCollision` exhibits two inputs with the same key and page but different base images: a cache hit can return a stale base.
- `render_page` computes the objects' part of the key without a page id (src/replan/desktop/core/rendering.py:121), so `Rendering.Key` uses the empty page id.
- The flood-fill tool's `mode` property derives from its class name and reads "floodfill". The factory and the elements it creates say "flood" (`Drawing.ModeNameRoundTrip`).
- Linear nesting searches the descending stock lengths for the first that fits (`Nesting.FirstFitting`). Over a descending list that search, with its fall-back, always yields the largest stock, whatever the comment says (`Nesting.NewStockLength`).
- A region saved without a mode but with a mask is stored with its run-length mask and the mode "auto". On reload, its mask is therefore rebuilt from its box (`Workspace.ModelessRegionReloadsAsAuto`).

## Model

| member | source | states |
|---|---|---|
| Rle.Repeat | src/replan/desktop/io/workspace.py:341 | `[val] * count` has `count` copies of `val` when the count is positive and is empty otherwise |
| Rle.ExpandAppend | src/replan/desktop/io/workspace.py:339-341 | expanding two run lists one after the other is expanding their concatenation |
| Rle.Encode | src/replan/desktop/io/workspace.py:322-335 | the runs are maximal (every count is at least 1 and neighbouring runs differ in value) and they expand to the row-major flattening of the mask |
| Rle.EncodeStepMaximal | src/replan/desktop/io/workspace.py:329-334 | closing a run that stopped at a value change keeps the run list maximal |
| Rle.EncodeStepExpand | src/replan/desktop/io/workspace.py:329-334 | after a run is appended, the runs expand to exactly the part of the flattening scanned so far |
| Rle.MaximalLength | src/replan/desktop/io/workspace.py:339-341 | the expansion is as long as the sum of the counts |
| Rle.MaximalUnique | src/replan/desktop/io/workspace.py:322-335 | two maximal run lists with the same expansion are equal, so the encoding of a mask is unique |
| Rle.ExpandFirstRun | src/replan/desktop/io/workspace.py:339-341 | the expansion starts with the first run's value repeated count times, and the next value comes from the second run |
| Rle.ToBytes | src/replan/desktop/io/workspace.py:342 | a list whose values are all in 0..255 converts to `uint8` without change |
| Rle.Decode | src/replan/desktop/io/workspace.py:337-342 | decoding succeeds exactly when every value is a byte and the expansion has h·w entries, and then yields an h×w mask |
| Rle.DecodeOfFlattening | src/replan/desktop/io/workspace.py:337-342 | runs that expand to a mask's flattening decode, with that mask's shape, back to the mask |
| Rle.RoundTrip | src/replan/desktop/io/workspace.py:322-342 | decoding the encoding of any mask with its own shape returns the mask |
| Masks.Zeros | src/replan/desktop/io/workspace.py:360 | `np.zeros((h, w))` is an h×w mask that is off everywhere |
| Masks.Reshape | src/replan/desktop/io/workspace.py:342 | `reshape` succeeds exactly when the element count equals h·w, and the result flattens back to its input |
| Masks.FlattenLength | src/replan/desktop/io/workspace.py:324 | flattening h rows of width w gives h·w entries |
| Masks.FlattenInjective | src/replan/desktop/io/workspace.py:324 | two row lists of the same width with the same flattening are equal |
| Masks.ReshapeFlatten | src/replan/desktop/io/workspace.py:324-342 | reshaping a grid's flattening to the grid's shape gives the grid back |
| Masks.Crop | src/replan/desktop/io/workspace.py:311 | the slice `mask[y1:y2, x1:x2]` is a (y2−y1)×(x2−x1) grid whose cell (x, y) is cell (x1+x, y1+y) of the source |
| Masks.Paste | src/replan/desktop/io/workspace.py:507-509 | a slice assignment changes exactly the cells under the pasted grid and leaves all others |
| Masks.RowsCountZero | src/replan/desktop/models/elements.py:74 | the count of on pixels over a set of rows is zero exactly when every pixel is off |
| Masks.OnCountZero | src/replan/desktop/models/elements.py:74 | the area is zero exactly when no pixel is on |
| Masks.OnCountBound | src/replan/desktop/models/elements.py:74 | the area never exceeds h·w |
| Workspace.Clamp | src/replan/desktop/io/workspace.py:363-366 | the coordinate clamping keeps values already in range and sends the others to the nearer end |
| Workspace.SerializeMaskRegions | src/replan/desktop/io/workspace.py:279-320 | one record per region, in order; each holds the region's fields, and a manual region with a non-empty mask also holds the RLE of its bounding-box crop together with that box |
| Workspace.AutoMask | src/replan/desktop/io/workspace.py:358-373 | an automatic region's mask is the rectangle of its clamped bounding box, 255 inside and 0 outside |
| Workspace.PointMarker | src/replan/desktop/io/workspace.py:418-440 | the fallback mask is a small filled square around the region's clamped point |
| Workspace.PlaceCrop | src/replan/desktop/io/workspace.py:381-416 | a pixel takes the decoded crop's value exactly when it lies inside both the box and the crop, and is 0 elsewhere, after clipping to the image |
| Workspace.ManualMask | src/replan/desktop/io/workspace.py:375-440 | the load fails exactly when the record has RLE and box but the box is not four numbers or the shape not two (the unpacking sits outside the `try`); without RLE or box, or when decoding fails, the mask is the point marker |
| Workspace.SelectAll | src/replan/desktop/io/workspace.py:354-355 | every record the list comprehension keeps satisfies its condition |
| Workspace.SelectSplit | src/replan/desktop/io/workspace.py:354-355 | the records kept by a condition and by its negation together are a permutation of the input |
| Workspace.SelectPrefix | src/replan/desktop/io/workspace.py:354-355 | filtering a prefix gives a prefix of the filtered list |
| Workspace.AutosManualsSplit | src/replan/desktop/io/workspace.py:354-355 | the automatic and the manual records partition the saved list |
| Workspace.DeserializeMaskRegions | src/replan/desktop/io/workspace.py:344-445 | with no image or no data, no regions; otherwise the automatic records come first, then the manual ones, each with its fields kept and the mask its branch builds; the call fails exactly when some manual record's box or shape does not unpack |
| Workspace.ManualsPrefix | src/replan/desktop/io/workspace.py:375-416 | manual regions are rebuilt in the order they were saved |
| Workspace.LoadedRegionsArePermutation | src/replan/desktop/io/workspace.py:344-445 | every saved record comes back exactly once: the records behind the loaded regions are a permutation of the saved list |
| Workspace.SavedRegionReloads | src/replan/desktop/io/workspace.py:279-445 | a manual region with a non-empty mask is saved as a manual record whose mask reloads to the same mask |
| Workspace.ModelessRegionReloadsAsAuto | src/replan/desktop/io/workspace.py:300-355 | a region without a mode but with a non-empty mask is saved with its RLE under mode `auto`, so it reloads as an automatic region and the stored mask is ignored |
| Workspace.StoredCropReloads | src/replan/desktop/io/workspace.py:304-416 | the stored bounding-box crop pasted back at its box rebuilds the original mask |
| Workspace.ManualMaskDecodes | src/replan/desktop/io/workspace.py:375-416 | when the stored runs decode, the mask is that crop placed at its box |
| Workspace.PlaceCropInside | src/replan/desktop/io/workspace.py:381-416 | a box inside the image places the crop by a plain paste |
| Workspace.SliceBound | src/replan/desktop/io/workspace.py:507 | a numpy slice bound is clipped to 0..n, and a negative one counts from the end |
| Workspace.ElementMaskFromRle | src/replan/desktop/io/workspace.py:493-512 | the mask has the image's shape; when the box or the shape (each defaulting to the whole image) does not have the right number of entries, or the stored runs do not decode to that shape, the mask is all zeros; any pixel that is on lies inside the slice `[y1:y2, x1:x2]` of the box |
| Workspace.SavedElementReloads | src/replan/desktop/io/workspace.py:493-512 | an element mask saved by `to_dict` reloads to the same mask |
| Workspace.RleSliceInside | src/replan/desktop/io/workspace.py:501-509 | when the box lies inside the image and the shapes agree, the slice assignment is a paste of the decoded crop |
| Workspace.Kept | src/replan/desktop/io/workspace.py:231-258 | only objects that still have instances are kept, and never more than were loaded |
| Workspace.KeptAppend | src/replan/desktop/io/workspace.py:231-258 | each saved object is rebuilt independently of the others |
| Workspace.FailedObjectSkipped | src/replan/desktop/io/workspace.py:251-258 | an object whose reconstruction raises is skipped and leaves the others as they would be without it |
| Workspace.LoadObjects | src/replan/desktop/io/workspace.py:231-258 | the loop leaves exactly the objects `Kept` names, in their saved order |
| Masks.RectMask | src/replan/desktop/io/workspace.py:369-370 | a pixel is 255 exactly when it lies in the half-open rectangle `[x1, x2) × [y1, y2)`, and 0 elsewhere |
| Parts.NewPart | src/replan/desktop/io/parts_library.py:26-32 | a part built with no tags, elements or attributes gets an empty list or record in their place, and every other field as given |
| Parts.SerializeElements | src/replan/desktop/io/parts_library.py:137-152 | one record per element of every instance, in order; an element with a mask also stores its RLE and shape |
| Parts.PartName | src/replan/desktop/io/parts_library.py:135 | the name given if non-empty, else the object's name if non-empty, else `Part <id>`, so it is never empty |
| Parts.Select | src/replan/desktop/io/parts_library.py:196-206 | exactly the parts that pass the category and tag filters, never more than there are |
| Parts.SelectCompose | src/replan/desktop/io/parts_library.py:200-204 | filtering by category and tag together is filtering by category, then by tag |
| Parts.SelectAll | src/replan/desktop/io/parts_library.py:196-206 | with no filter every part is listed, in insertion order |
| Parts.PlacePoint | src/replan/desktop/io/parts_library.py:249-250 | at scale 1 a stored point is simply moved by the offset |
| Parts.RestoreMask | src/replan/desktop/io/parts_library.py:239-246 | there is no mask without both mask keys; at scale 1 the mask is the decoded RLE; an RLE that does not decode makes the call fail |
| Parts.RestoreElement | src/replan/desktop/io/parts_library.py:238-261 | the rebuilt element takes the stored fields or their defaults, the part's category as the default category, points scaled and moved, and the restored mask |
| Parts.SavedElementRestores | src/replan/desktop/io/parts_library.py:137-261 | saving an element and instantiating it at scale 1 with no offset gives the element back, apart from its new id and the anchor offset the library does not store |
| Parts.RemoveAtDistinct | src/replan/desktop/io/parts_library.py:208-214 | removing one entry from a list without repeats leaves a list without repeats that holds every other entry |
| Parts.PartsLibrary.constructor | src/replan/desktop/io/parts_library.py:76-77 | a new library holds no parts |
| Parts.PartsLibrary.AddPart | src/replan/desktop/io/parts_library.py:120-190 | the part is stored under the fresh id with its chosen name, the object's category, the serialized elements and the saved attributes (`SavedAttributes`: the first instance's record, or an empty one); other parts are unchanged |
| Parts.PartsLibrary.GetPart | src/replan/desktop/io/parts_library.py:192-194 | the part stored under the id, or none exactly when the id is unknown |
| Parts.PartsLibrary.ListParts | src/replan/desktop/io/parts_library.py:196-206 | every listed part is in the library and passes both filters, and every such part is listed |
| Parts.PartsLibrary.ListAll | src/replan/desktop/io/parts_library.py:196-206 | with no filter, all parts are listed in insertion order |
| Parts.PartsLibrary.FiltersCompose | src/replan/desktop/io/parts_library.py:200-204 | the tag filter applies to what the category filter leaves |
| Parts.PartsLibrary.DeletePart | src/replan/desktop/io/parts_library.py:208-214 | it returns true exactly when the id was present; the part is gone and every other part stays, in order |
| Parts.PartsLibrary.InstantiatePart | src/replan/desktop/io/parts_library.py:216-280 | nothing for an unknown id; otherwise one object named and categorised like the part, holding one instance numbered 1, on no page, whose attributes are restored from the part's record (`RestoredAttributes`) and which holds one restored element per stored record, in order; the call fails exactly when some stored mask does not decode |
| Parts.RestoredAttributes | src/replan/desktop/io/parts_library.py:269 | the instance's attributes are `from_dict` of the stored record, and an empty record gives the default attributes |
| Parts.SavedAttributesRestore | src/replan/desktop/io/parts_library.py:154-269 | the attributes saved with a part are restored on instantiation: the first instance's attributes, or the defaults for an object without instances |
| Elements.PostInit | src/replan/desktop/models/elements.py:45-47 | an empty element id is replaced by a fresh one; nothing else changes |
| Elements.ElementBounds | src/replan/desktop/models/elements.py:49-57 | no bounds exactly when there is no mask or no pixel is on; otherwise the smallest box enclosing every on pixel, each side touched by one |
| Elements.Area | src/replan/desktop/models/elements.py:69-74 | the area is zero exactly when the element is empty, and never exceeds the mask's size |
| Elements.ContainsPoint | src/replan/desktop/models/elements.py:114-121 | true exactly when there is a mask, the point is inside it and the pixel there is on |
| Elements.ContainedPointInBounds | src/replan/desktop/models/elements.py:49-121 | a point the element contains lies inside its bounds |
| Elements.ElementCentroid | src/replan/desktop/models/elements.py:59-67 | no centroid exactly when the element is empty; otherwise each coordinate is the floor of the mean of the on pixels' coordinates (c·n ≤ sum < (c+1)·n for n on pixels), and it lies inside the bounds |
| Elements.PlaceLabel | src/replan/desktop/models/elements.py:95-112 | when the centroid lies in the bounds, every position lies within 5 pixels of the box horizontally and between 5 above and 15 below it; an unknown name gives the centroid |
| Elements.LabelPosition | src/replan/desktop/models/elements.py:76-112 | none exactly when the element is empty; a set anchor offset moves the centroid; otherwise the named position around the bounds |
| Elements.Fields | src/replan/desktop/models/elements.py:125-132 | the record always carries id, category, mode, points and label position |
| Elements.CropToBounds | src/replan/desktop/models/elements.py:138-142 | the crop has the bounding box's size and each of its cells is the mask's cell at the same place inside the box |
| Elements.ToDict | src/replan/desktop/models/elements.py:123-160 | the plain fields are always stored; an RLE crop is stored exactly for `auto` and `rect` elements with some pixel on, and it holds the element's mask |
| Elements.PasteCropToBounds | src/replan/desktop/models/elements.py:138-142 | the crop pasted back at its box into a blank mask of the original size rebuilds the mask |
| Elements.CropRoundTrip | src/replan/desktop/models/elements.py:138-158 | the stored RLE decodes with the stored shape to the crop, the box lies inside the mask, and pasting the crop there rebuilds the mask |
| Elements.FromDict | src/replan/desktop/models/elements.py:162-179 | each field is read from the record or takes its default; the id is the record's own when non-empty and the fresh id otherwise, so it is never empty when a fresh id is available |
| Elements.FromDictToDict | src/replan/desktop/models/elements.py:123-179 | reading back what `to_dict` wrote, with the same mask and colour, gives the element back |
| IpadElements.AsDesktop | src/replan/ipad/models/elements.py:49-105 | the iPad element's bounds, centroid, area and hit test are the desktop ones, computed over the same mask: the conversion keeps the mask, adds no anchor offset, is well formed and empty exactly when the element is, and converts back to the element |
| IpadElements.LabelPosition | src/replan/ipad/models/elements.py:76-96 | none exactly when the element is empty; otherwise a point within the margins around the bounds, whose `center` (and fallback) is the floored middle of the box rather than the centroid |
| IpadElements.ToDict | src/replan/ipad/models/elements.py:107-115 | the record holds the five plain fields and never a mask |
| IpadElements.FromDict | src/replan/ipad/models/elements.py:117-129 | each field from the record or its default, with a fresh id for an empty one |
| IpadElements.FromDictToDict | src/replan/ipad/models/elements.py:107-129 | reading back `to_dict`'s record with the element's mask and colour gives the element back |
| Attributes.ToDict | src/replan/desktop/models/attributes.py:76-89 | every one of the ten fields is written |
| Attributes.FromDict | src/replan/desktop/models/attributes.py:91-105 | each of the ten fields is the record's value when present and otherwise its default (quantity 1, dimensions 0, text empty) |
| Attributes.FromEmptyDict | src/replan/desktop/models/attributes.py:91-105 | an empty dictionary gives the default attributes |
| Attributes.FromDictToDict | src/replan/desktop/models/attributes.py:76-105 | reading back `to_dict` gives the same attributes |
| Attributes.Join | src/replan/desktop/models/attributes.py:122 | `" × ".join` of no parts is empty, of one part is that part, and otherwise starts with the first part and ends with the last |
| Attributes.JoinSnoc | src/replan/desktop/models/attributes.py:122 | joining one more part onto a non-empty list appends the separator and that part, so the join is the parts with one separator between each two neighbours |
| Attributes.JoinThree | src/replan/desktop/models/attributes.py:122 | three parts join as first, separator, second, separator, third |
| Attributes.SizeParts | src/replan/desktop/models/attributes.py:115-121 | one part per positive dimension, in the order width, height, depth, each labelled with its letter |
| Attributes.HasDimensions | src/replan/desktop/models/attributes.py:108-110 | no dimension is set exactly when the size string has no part, whatever the number formatting; the default attributes have none |
| Attributes.SizeString | src/replan/desktop/models/attributes.py:107-122 | the string is the `" × "` join of the size parts; it is empty exactly when no dimension is set, starts with the width and ends with the depth when those are set |
| Attributes.SizeStringFull | src/replan/desktop/models/attributes.py:112-122 | with all three dimensions set the text is `W:…`, `H:…`, `D:…` joined by `" × "` in that order |
| Objects.TotalArea | src/replan/ipad/models/objects.py:55-58 | zero exactly when every element is empty, and at least the area of each element |
| Objects.ElementCount | src/replan/ipad/models/objects.py:113-116 | the number of elements over all instances, at least each instance's own count |
| Objects.InstanceCount | src/replan/ipad/models/objects.py:118-121 | more than one instance exactly when the object has multiple instances, and one for a simple object |
| Objects.IsSimple | src/replan/ipad/models/objects.py:123-127 | a simple object has exactly one element and no grouped instance |
| Objects.HasMultipleInstances | src/replan/ipad/models/objects.py:129-132 | an object on several pages is never simple |
| Objects.HasGroupedElements | src/replan/ipad/models/objects.py:134-137 | an object with a grouped instance has at least two elements |
| Objects.FindInstance | src/replan/ipad/models/objects.py:139-144 | the index of the first instance on the page, or none exactly when no instance is on it |
| Objects.InstanceForPage | src/replan/ipad/models/objects.py:139-144 | the first instance on the page, or none exactly when there is no such instance |
| Objects.AddInstance | src/replan/ipad/models/objects.py:146-154 | one empty instance numbered one past the old count is appended, with the given view and page; nothing else changes and the element count stays |
| Objects.InstanceFromDict | src/replan/ipad/models/objects.py:71-81 | each field from the record or its default; missing attributes are the defaults and present ones are read by `ObjectAttributes.from_dict`; an empty id is replaced |
| Objects.ObjectFromDict | src/replan/ipad/models/objects.py:165-179 | the id falls back to the old `group_id`; object-level attributes replace the first instance's only when there is an instance and they carry a material or a type; nothing else changes |
| Page.InstanceHitsCount | src/replan/ipad/models/page.py:117-121 | the search visits each element of an object exactly once |
| Page.PageElementCount | src/replan/ipad/models/page.py:98-101 | the page's element count is the number of (object, instance, element) triples |
| Page.FirstHit | src/replan/ipad/models/page.py:110-122 | the first triple whose element contains the point, or none exactly when none contains it |
| Page.ElementAtPoint | src/replan/ipad/models/page.py:110-122 | the hit contains the point and no earlier triple does; none exactly when no element contains the point |
| Page.FindObject | src/replan/ipad/models/page.py:128-134 | the index of the first object with the id, or none exactly when there is none |
| Page.ObjectById | src/replan/ipad/models/page.py:103-108 | the first object with the id, or none exactly when no object has it |
| Page.PageTab.constructor | src/replan/ipad/models/page.py:36-51 | a new page has no objects, is active, has 150 dpi and no PDF size, and gets a fresh id when none is given |
| Page.PageTab.DisplayName | src/replan/ipad/models/page.py:63-67 | `model - page`, prefixed with the pause mark exactly when the page is inactive |
| Page.PageTab.ImageSize | src/replan/ipad/models/page.py:69-75 | `(w, h)` of the image, or none exactly when there is no image |
| Page.PageTab.PixelsPerInch | src/replan/ipad/models/page.py:77-86 | the image width over the PDF width when both are known, else the dpi |
| Page.PageTab.AddObject | src/replan/ipad/models/page.py:124-126 | the object is appended and nothing else changes |
| Page.PageTab.RemoveObject | src/replan/ipad/models/page.py:128-134 | true exactly when some object has the id; then the first such object is removed and the others keep their order |
| Page.DisplayNameMarksInactive | src/replan/ipad/models/page.py:63-67 | when the model name does not itself start with the pause mark, the display name starts with it exactly when the page is inactive |
| Wrappers.Take | src/replan/desktop/config.py:94 | the slice `s[:n]` is a prefix of s, n long when n fits, and for a negative n it drops the last −n entries |
| Categories.MakeCategory | src/replan/ipad/models/categories.py:10-40 | a category keeps the fields given, starts with no instances, and without a BGR colour gets the RGB colour reversed |
| Categories.DigitValue | src/replan/ipad/models/categories.py:42-46 | a lower-case hex digit reads as its value, and anything else as −1 |
| Categories.DigitRoundTrip | src/replan/ipad/models/categories.py:42-46 | every hex digit reads back as the value it was written for |
| Categories.Hex | src/replan/ipad/models/categories.py:46 | the hex form of a number is non-empty and uses only lower-case hex digits |
| Categories.Hex02Byte | src/replan/ipad/models/categories.py:46 | `{n:02x}` of a byte is exactly two hex digits that read back as n |
| Categories.ThreePairsDigits | src/replan/ipad/models/categories.py:46 | `#` followed by three two-digit fields has hex digits at positions 1 to 6 |
| Categories.ColorHex | src/replan/ipad/models/categories.py:42-46 | the colour string starts with `#`, and for byte channels it is seven characters with six hex digits |
| Categories.ColorHexReadsBack | src/replan/ipad/models/categories.py:42-46 | each two-digit field of the colour string reads back as its channel |
| Categories.ToDict | src/replan/ipad/models/categories.py:48-57 | the record holds the name, prefix, full name, three colour channels, selection mode and visibility |
| Categories.FromDict | src/replan/ipad/models/categories.py:59-70 | missing fields take their defaults (grey, `flood`, visible); a colour with fewer than three channels is rejected, and otherwise the first three channels are the colour; the BGR colour is the RGB one reversed |
| Categories.FromDictToDict | src/replan/ipad/models/categories.py:48-70 | reading back `to_dict` gives the category with the BGR colour recomputed and its instance names dropped |
| Categories.CreateDefaultCategories | src/replan/ipad/models/categories.py:118-129 | one category per default key, whose name and prefix are the key and whose other fields come from the table |
| Categories.FromEntries | src/replan/ipad/models/categories.py:120-129 | the loop over distinct keys builds one category per entry, keyed by the entry's key |
| Categories.DefaultKeysDistinct | src/replan/ipad/models/categories.py:74-98 | the keys of the default table are pairwise distinct |
| Categories.NextColor | src/replan/ipad/models/categories.py:132-134 | the next colour is always one of the palette's |
| Categories.PaletteDistinct | src/replan/ipad/models/categories.py:102-115 | the twelve palette colours are pairwise distinct |
| Categories.NextColorCycles | src/replan/ipad/models/categories.py:132-134 | the colour repeats every twelve categories and not sooner |
| Config.GetLayoutMode | src/replan/desktop/config.py:427-436 | each mode is chosen exactly on its own width band, with bands bounded by 700, 1000 and 1400 |
| Config.LayoutMonotone | src/replan/desktop/config.py:427-436 | a wider window never gets a layout with fewer panels |
| Config.LayoutNamesDistinct | src/replan/desktop/config.py:429-436 | different modes have different names |
| Config.Themes | src/replan/desktop/config.py:98-390 | the theme table has exactly the keys `dark`, `light` and `high_contrast` |
| Config.GetTheme | src/replan/desktop/config.py:417-419 | a known name gives its theme, and an unknown one the dark theme |
| Config.GetThemeTotal | src/replan/desktop/config.py:417-419 | every name, known or not, resolves to one of the three themes, and unknown names to the dark one |
| Config.FirstIndex | src/replan/desktop/config.py:92 | `list.remove` finds the first occurrence |
| Config.RemoveFirst | src/replan/desktop/config.py:91-92 | removing a path that is present shortens the list by one, and otherwise leaves it |
| Config.AddRecent | src/replan/desktop/config.py:89-94 | with room for at least one entry the added path comes first, and the list holds nothing but the added path and paths already there |
| Config.AddRecentShape | src/replan/desktop/config.py:89-94 | the path comes first, the list never exceeds the maximum, and the other entries keep their old order |
| Config.RemoveFirstAt | src/replan/desktop/config.py:92 | after the removal, entries before the removed one stay in place and later ones move up by one |
| Config.RemoveFirstNoDuplicates | src/replan/desktop/config.py:92 | in a list without repeats, the removal keeps it without repeats and takes the path out completely |
| Config.AddRecentOnce | src/replan/desktop/config.py:89-94 | a list without repeats stays without repeats, and the path occurs in it exactly once, at the front |
| Config.AddRecentIdempotent | src/replan/desktop/config.py:89-94 | re-opening the most recent file leaves the list as it is |
| Config.AppSettings.constructor | src/replan/desktop/config.py:40-68 | the tracked fields start at their defaults: dark theme, no workspace, no recent files, at most ten |
| Config.AppSettings.AddRecentFile | src/replan/desktop/config.py:89-94 | the recent list becomes `AddRecent` of the old list, and no other field changes |
| Config.KnownFields | src/replan/desktop/config.py:399-400 | exactly the keys that are settings fields are kept, with their values |
| Config.KnownFieldsSafe | src/replan/desktop/config.py:399-401 | the filtered dictionary never holds a key the record does not declare; a file with only known keys passes unchanged; filtering twice is filtering once |
| Undo.ExecuteStep | src/replan/desktop/core/undo.py:35-50 | the command goes on top of the undo stack, the oldest entry is dropped when the stack grows past the depth, and the redo stack is emptied |
| Undo.UndoStep | src/replan/desktop/core/undo.py:52-65 | with an empty undo stack nothing changes; otherwise the top command moves to the redo stack |
| Undo.RedoStep | src/replan/desktop/core/undo.py:67-80 | with an empty redo stack nothing changes; otherwise the top command moves back to the undo stack |
| Undo.ExecuteBounded | src/replan/desktop/core/undo.py:43-47 | executing never leaves more than `max(max_depth, 0)` commands to undo |
| Undo.UndoRedoBounded | src/replan/desktop/core/undo.py:52-80 | undo and redo keep the undo stack within the depth |
| Undo.UndoThenRedo | src/replan/desktop/core/undo.py:52-80 | an undo followed by a redo restores both stacks |
| Undo.RedoThenUndo | src/replan/desktop/core/undo.py:52-80 | a redo followed by an undo restores both stacks |
| Undo.UndoManager.constructor | src/replan/desktop/core/undo.py:31-33 | a new manager has the given depth and two empty stacks |
| Undo.UndoManager.Execute | src/replan/desktop/core/undo.py:35-50 | the stacks become `ExecuteStep` of the old ones and the command runs once |
| Undo.UndoManager.Undo | src/replan/desktop/core/undo.py:52-65 | returns true exactly when there was something to undo; then the top command is reverted and the stacks become `UndoStep` of the old ones |
| Undo.UndoManager.Redo | src/replan/desktop/core/undo.py:67-80 | returns true exactly when there was something to redo; then that command runs again and the stacks become `RedoStep` of the old ones |
| Undo.UndoManager.CanUndo | src/replan/desktop/core/undo.py:82-84 | true exactly when the undo stack is non-empty |
| Undo.UndoManager.CanRedo | src/replan/desktop/core/undo.py:86-88 | true exactly when the redo stack is non-empty |
| Undo.UndoManager.UndoDescription | src/replan/desktop/core/undo.py:90-94 | the top undo command's description, or none exactly when nothing can be undone |
| Undo.UndoManager.RedoDescription | src/replan/desktop/core/undo.py:96-100 | the top redo command's description, or none exactly when nothing can be redone |
| Undo.UndoManager.Clear | src/replan/desktop/core/undo.py:102-105 | both stacks are emptied and nothing runs |
| Drawing.ToolFor | src/replan/desktop/core/drawing.py:295-330 | exactly the five mode names give a tool, each its own; any other name is the `ValueError` case |
| Drawing.ModeNameRoundTrip | src/replan/desktop/core/drawing.py:46-330 | a tool's mode name gives the tool back, except that the flood tool's name is not `flood`, so it does not |
| Drawing.NewElement | src/replan/desktop/core/drawing.py:126-132 | a created element has the tool's category and colour, the mode, points and mask given, the default label position and no anchor offset |
| Drawing.DrawingTool.constructor | src/replan/desktop/core/drawing.py:20-44 | a new tool is inactive, not drawing, has no points and nothing selected |
| Drawing.DrawingTool.ShapeMask | src/replan/desktop/core/drawing.py:191-206 | a shape with too few points gives an empty mask; with enough points a polyline gives the filled closed polygon, a line a polyline of the engine's thickness, and a freeform stroke a polyline three times as thick |
| Drawing.DrawingTool.Start | src/replan/desktop/core/drawing.py:50-53 | the tool becomes active with no points |
| Drawing.DrawingTool.Cancel | src/replan/desktop/core/drawing.py:55-59 | the tool becomes inactive, its points are cleared and the listener hears the empty list |
| Drawing.DrawingTool.UndoLastPoint | src/replan/desktop/core/drawing.py:61-65 | the last point is dropped and reported when there is one; otherwise nothing happens |
| Drawing.DrawingTool.SnapTarget | src/replan/desktop/core/drawing.py:208-212 | the first point, exactly when there are at least three |
| Drawing.DrawingTool.Finish | src/replan/desktop/core/drawing.py:191-292 | too few points: nothing; otherwise an element with the points and the shape's mask, after which the points are cleared and the listener is told |
| Drawing.DrawingTool.OnClick | src/replan/desktop/core/drawing.py:72-270 | an out-of-image click does nothing; a flood fill yields an element exactly when its mask has a pixel on; select records the element hit; a polyline with three points closes when the click snaps to its start and otherwise takes the point; freeform starts a stroke; a line takes the point |
| Drawing.DrawingTool.OnDoubleClick | src/replan/desktop/core/drawing.py:87-184 | only a polyline with at least three points finishes; otherwise nothing changes |
| Drawing.DrawingTool.OnKey | src/replan/desktop/core/drawing.py:99-275 | Return finishes a polyline or line that has enough points; any other key does nothing |
| Drawing.DrawingTool.OnDrag | src/replan/desktop/core/drawing.py:91-235 | while drawing, a point inside the image is appended and reported; otherwise nothing changes |
| Drawing.DrawingTool.OnRelease | src/replan/desktop/core/drawing.py:95-258 | ends the stroke: fewer than two points are dropped without an element; otherwise a freeform element with the stroke's points and mask is made |
| FloodFill.ReachableSeed | src/replan/ipad/core/segmentation.py:119-141 | an acceptable seed is reachable from itself |
| FloodFill.ReachableStep | src/replan/ipad/core/segmentation.py:143-147 | an acceptable neighbour of a reachable pixel is reachable |
| FloodFill.ClosedContainsPath | src/replan/ipad/core/segmentation.py:121-147 | a visited set that holds the seed and is closed under acceptable neighbours contains every path from the seed |
| FloodFill.Neighbours | src/replan/ipad/core/segmentation.py:144 | the four neighbours are exactly the adjacent pixels |
| FloodFill.Unvisited | src/replan/ipad/core/segmentation.py:145-147 | exactly the neighbours not yet visited are queued |
| FloodFill.SkipKeepsFrontier | src/replan/ipad/core/segmentation.py:124-138 | skipping a visited, outside or too different pixel keeps the search's frontier invariant |
| FloodFill.VisitKeepsFrontier | src/replan/ipad/core/segmentation.py:140-147 | visiting a pixel and queuing its neighbours keeps the frontier invariant |
| FloodFill.VisitKeepsQueue | src/replan/ipad/core/segmentation.py:140-147 | every queued pixel is the seed or a neighbour of a visited pixel |
| FloodFill.SetOn | src/replan/ipad/core/segmentation.py:141 | setting one pixel to 255 leaves all others |
| FloodFill.VisitKeepsSound | src/replan/ipad/core/segmentation.py:140-147 | only reachable pixels are ever visited |
| FloodFill.DoneIsComplete | src/replan/ipad/core/segmentation.py:121 | when the queue is empty every reachable pixel has been visited |
| FloodFill.VisitKeepsMask | src/replan/ipad/core/segmentation.py:140-141 | the mask is 255 exactly on the visited pixels |
| FloodFill.EnqueueNeighbours | src/replan/ipad/core/segmentation.py:144-147 | the queue grows by the unvisited neighbours, in order |
| FloodFill.VisitKeeps | src/replan/ipad/core/segmentation.py:140-147 | one visit preserves the whole loop invariant: soundness, the frontier, the queue's origin and the mask |
| FloodFill.FloodFillBfs | src/replan/ipad/core/segmentation.py:94-149 | the mask is 255 exactly on the pixels joined to the seed by a 4-connected path of pixels within the tolerance of the seed's colour, and 0 elsewhere |
| FloodFill.Fill | src/replan/ipad/core/segmentation.py:40-62 | a seed outside the image gives an all-zero mask; otherwise the fill's mask |
| FloodFill.DiffSumSelf | src/replan/ipad/core/segmentation.py:133 | a pixel differs from itself by zero |
| FloodFill.SeedFilled | src/replan/ipad/core/segmentation.py:133-141 | the seed is filled exactly when the tolerance is non-negative |
| FloodFill.AcceptsMonotone | src/replan/ipad/core/segmentation.py:132-138 | a pixel accepted at one tolerance is accepted at any larger one |
| FloodFill.ToleranceMonotone | src/replan/ipad/core/segmentation.py:94-149 | raising the tolerance never shrinks the filled region |
| Segmentation.ZipRow | src/replan/desktop/core/segmentation.py:224-229 | each pixel of the combined row is the pixel operation applied to the two input pixels |
| Segmentation.Zip | src/replan/desktop/core/segmentation.py:224-229 | the combined mask has the first mask's shape and is combined row by row |
| Segmentation.CombineStep | src/replan/desktop/core/segmentation.py:220-231 | combining with one more mask keeps the running result's shape |
| Segmentation.Fold | src/replan/desktop/core/segmentation.py:219-231 | folding in any number of masks keeps the first mask's shape |
| Segmentation.CombineMasks | src/replan/desktop/core/segmentation.py:203-231 | no masks give a 1×1 zero mask; otherwise the loop's result is the fold of the masks, with the first mask's shape |
| Segmentation.FoldUnionOn | src/replan/desktop/core/segmentation.py:220-225 | a pixel is on in the running union exactly when it is on in the start or in some same-shaped mask folded in |
| Segmentation.UnionOn | src/replan/desktop/core/segmentation.py:203-231 | a pixel of the union is on exactly when some mask of the first mask's shape has it on |
| Segmentation.FoldIntersectionOn | src/replan/desktop/core/segmentation.py:220-227 | a pixel is on in the running intersection exactly when it is on in the start and in every same-shaped mask folded in |
| Segmentation.StepUnknown | src/replan/desktop/core/segmentation.py:224-231 | an operation other than union, intersection and xor leaves the running result as it is |
| Segmentation.FoldUnknown | src/replan/desktop/core/segmentation.py:220-231 | folding any number of masks with an unknown operation leaves the start unchanged |
| Segmentation.CombineUnknown | src/replan/desktop/core/segmentation.py:203-231 | combining masks with an unknown operation gives the first mask back |
| Segmentation.OverlapIsIntersection | src/replan/desktop/core/segmentation.py:197-231 | two masks overlap exactly when they have the same shape and their intersection has a pixel on |
| Segmentation.RowsCountDisjointUnion | src/replan/desktop/core/segmentation.py:224-225 | for disjoint masks, the union's area is the sum of the areas |
| Segmentation.DisjointUnionCount | src/replan/desktop/core/segmentation.py:203-231 | the union of two disjoint masks has the sum of their areas |
| Segmentation.OrDefault | src/replan/desktop/core/segmentation.py:141 | `thickness or default`: a missing or zero thickness gives the default, any other the thickness |
| Segmentation.FloodFillGuarded | src/replan/desktop/core/segmentation.py:32-89 | a seed outside the image gives an all-zero mask; otherwise the fill |
| Segmentation.CreatePolygonMask | src/replan/desktop/core/segmentation.py:91-119 | fewer than three points give an empty mask; a closed polygon is filled and an open one drawn as a polyline three times the line thickness |
| Segmentation.CreateLineMask | src/replan/desktop/core/segmentation.py:121-145 | fewer than two points give an empty mask; otherwise a polyline of the given thickness, or of the line thickness when none is given |
| Segmentation.CreateFreeformMask | src/replan/desktop/core/segmentation.py:147-164 | fewer than two points give an empty mask; a missing or zero thickness gives a stroke three times the line thickness, and any other thickness is used as given |
| MaskGeometry.FirstOnRow | src/replan/desktop/models/elements.py:54-57 | the first row at or after y with a pixel on, or h when there is none |
| MaskGeometry.LastOnRow | src/replan/desktop/models/elements.py:54-57 | the last row before y with a pixel on, or −1 when there is none |
| MaskGeometry.FirstOnCol | src/replan/desktop/models/elements.py:54-57 | the first column at or after x with a pixel on, or w when there is none |
| MaskGeometry.LastOnCol | src/replan/desktop/models/elements.py:54-57 | the last column before x with a pixel on, or −1 when there is none |
| MaskGeometry.Bounds | src/replan/desktop/models/elements.py:49-57 | none exactly when no pixel is on; otherwise a box inside the mask that encloses every on pixel and whose four sides each touch one |
| MaskGeometry.ExtremesEnclose | src/replan/desktop/models/elements.py:54-57 | the box of the first and last occupied rows and columns encloses every on pixel |
| MaskGeometry.Centroid | src/replan/desktop/models/elements.py:59-67 | none exactly when no pixel is on; otherwise the floor of the mean x and the mean y of the on pixels |
| MaskGeometry.FloorDiv | src/replan/desktop/models/elements.py:67 | the quotient brackets the sum between two consecutive multiples of the count |
| MaskGeometry.RowsSumXBetween | src/replan/desktop/models/elements.py:64-67 | when every on pixel's x lies in [a, b], the sum of the x's lies between count·a and count·b |
| MaskGeometry.RowsSumYBetween | src/replan/desktop/models/elements.py:64-67 | when every on pixel's y lies in [a, b], the sum of the y's lies between count·a and count·b |
| MaskGeometry.CentroidInBounds | src/replan/desktop/models/elements.py:49-67 | the centroid of a non-empty mask lies inside its bounding box |
| MaskGeometry.TotalCountZero | src/replan/desktop/core/rendering.py:598-606 | the group has no on pixel exactly when the total count is zero |
| MaskGeometry.GroupCentroid | src/replan/desktop/core/rendering.py:583-612 | none exactly when no element has a pixel on; otherwise the floor of the mean position of all on pixels of all elements |
| MaskGeometry.GroupOfOne | src/replan/desktop/core/rendering.py:583-612 | the group centroid of one element is that element's own centroid |
| Rendering.Whiten | src/replan/desktop/core/rendering.py:182-192 | pixels under a mask of the page's shape turn white and all others keep their colour |
| Rendering.HideBase | src/replan/desktop/core/rendering.py:175-192 | a pixel turns white exactly when one of the text, hatch or line masks of the page's shape covers it; all others keep the original colour |
| Rendering.HideBaseWhiteIff | src/replan/desktop/core/rendering.py:175-192 | a pixel of the hidden base is white exactly when it is hidden or was already white |
| Rendering.MismatchedMaskIgnored | src/replan/desktop/core/rendering.py:182-184 | a text mask whose shape differs from the page's changes nothing |
| Rendering.PageElements | src/replan/desktop/core/rendering.py:218-223 | only elements of instances on the current page are drawn |
| Rendering.OtherPageIgnored | src/replan/desktop/core/rendering.py:218-221 | an instance on another page adds nothing to what is drawn |
| Rendering.FilledMask | src/replan/desktop/core/rendering.py:215-230 | a pixel of the fill is on exactly when some non-line element of the page's shape has it on |
| Rendering.GrowStep | src/replan/desktop/core/rendering.py:241-247 | one dilation step adds exactly the text pixels next to the grown region |
| Rendering.Grow | src/replan/desktop/core/rendering.py:237-249 | growing keeps the mask's shape |
| Rendering.GrowBounded | src/replan/desktop/core/rendering.py:237-249 | growing never loses a pixel and never adds one outside the text mask |
| Rendering.GrowFixpoint | src/replan/desktop/core/rendering.py:245-246 | once a step adds nothing, further steps change nothing, so the early `break` gives the same result |
| Rendering.ISqrt | src/replan/desktop/core/rendering.py:240 | the integer square root: r² ≤ n < (r+1)² |
| Rendering.GrowSteps | src/replan/desktop/core/rendering.py:240 | the number of growth steps never exceeds 100 |
| Rendering.Alpha | src/replan/desktop/core/rendering.py:211-212 | the alpha is a byte, and 178 for every category except the planform |
| Rendering.LineColour | src/replan/desktop/core/rendering.py:268-275 | a colour of average brightness at most 200 is kept; a brighter one is darkened in every channel and stays a byte colour |
| Rendering.FilledRegion | src/replan/desktop/core/rendering.py:215-249 | every filled pixel comes from an element's mask or from the text-mask growth |
| Rendering.PaintObject | src/replan/desktop/core/rendering.py:201-283 | a hidden, unknown or marking object leaves the overlay as it was; a contributing one sets each pixel under one of its line-like elements to its darkened line colour at alpha 255, each other pixel of its filled region to its category colour at the category's alpha, and leaves every other pixel unchanged |
| Rendering.PaintAll | src/replan/desktop/core/rendering.py:201-283 | the overlay has the page's shape |
| Rendering.PaintAllPixel | src/replan/desktop/core/rendering.py:201-283 | each overlay pixel is the colour left by the last object that paints it, and clear where no object paints |
| Rendering.Contributing | src/replan/desktop/core/rendering.py:201-209 | only objects of a known, visible, non-marking category are kept |
| Rendering.OnlyContributorsPaint | src/replan/desktop/core/rendering.py:201-209 | painting only the contributing objects gives the same overlay as painting all |
| Rendering.Overlay | src/replan/desktop/core/rendering.py:195-283 | the overlay has the page's shape; a pixel no object paints is clear, and any other is the colour the last object to paint it leaves |
| Rendering.ScaledUp | src/replan/desktop/core/rendering.py:315 | for a non-negative difference, `d * alpha // 255` lies in [0, d] |
| Rendering.ScaledDown | src/replan/desktop/core/rendering.py:315 | for a negative difference, the floored `d * alpha // 255` lies in [d, 0] |
| Rendering.BlendBetween | src/replan/desktop/core/rendering.py:313-316 | the blended channel lies between the base and the overlay, so the clip never changes it |
| Rendering.BlendEnds | src/replan/desktop/core/rendering.py:313-316 | alpha 0 keeps the base and alpha 255 gives the overlay |
| Rendering.WhiteChannelRange | src/replan/desktop/core/rendering.py:296-300 | the blend on white is a byte; alpha 0 gives white and alpha 255 the overlay |
| Rendering.Blended | src/replan/desktop/core/rendering.py:310-316 | the clipped blend is the unclipped one, between base and overlay, with the two ends exact |
| Rendering.Whitened | src/replan/desktop/core/rendering.py:296-300 | the clipped blend on white is the unclipped one, with the two ends exact |
| Rendering.BlendPixel | src/replan/desktop/core/rendering.py:285-317 | the result is opaque; a transparent overlay shows the base (white when the background is hidden) and an opaque one shows the overlay colour on either background |
| Rendering.Compose | src/replan/desktop/core/rendering.py:167-319 | the base image has the page's shape and each pixel is the overlay pixel blended onto the hidden base (onto white with `hide_background`) |
| Rendering.UnpaintedPixel | src/replan/desktop/core/rendering.py:285-317 | a pixel no object paints is white with the background hidden, white when a hide mask covers it, and the original colour otherwise |
| Rendering.LinePixelShown | src/replan/desktop/core/rendering.py:262-317 | where the last object to paint a pixel has a line-like element there, the output shows that object's line colour on either background |
| Rendering.RenderBase | src/replan/desktop/core/rendering.py:167-319 | the loop over the objects followed by the blend yields the composition |
| Rendering.Key | src/replan/desktop/core/rendering.py:109-122 | the key holds the opacity, the hide flag, the object and instance counts and the three mask sums |
| Rendering.SameMaskKey | src/replan/desktop/core/rendering.py:113-114 | two different masks can have the same pixel sum, and so the same key part |
| Rendering.DifferentBase | src/replan/desktop/core/rendering.py:175-192 | those two text masks give base images that differ at a pixel |
| Rendering.KeyCollision | src/replan/desktop/core/rendering.py:109-138 | two inputs with the same key and page can have different base images, so a cache hit may show a stale base |
| Rendering.RenderCache.constructor | src/replan/desktop/core/rendering.py:15-19 | a new cache holds no base, no key, no zoom levels and an empty page id |
| Rendering.RenderCache.Invalidate | src/replan/desktop/core/rendering.py:21-25 | the base, the key and the zoom levels are dropped and the page id is kept |
| Rendering.RenderCache.InvalidateZoom | src/replan/desktop/core/rendering.py:27-29 | only the zoom levels are dropped |
| Rendering.RenderCache.RenderPage | src/replan/desktop/core/rendering.py:71-141 | without an image, a blank 100×100 result and no change; otherwise the base is rebuilt exactly when there was none or the key or the page differs, and the cache then holds the composition, its key and page and no zoom levels; otherwise the cached base is returned unchanged |
| Rendering.RenderCache.Rebuild | src/replan/desktop/core/rendering.py:129-138 | the cache holds the composition of the inputs, their key and page, and no zoom levels |
| Rendering.HitHasSameKey | src/replan/desktop/core/rendering.py:123-127 | a cache hit returns the composition of inputs that had the same key |
| Rendering.GroupCentroid | src/replan/desktop/core/rendering.py:583-612 | none exactly when no element has a pixel on; otherwise each coordinate is the floor of the mean position over all on pixels of all the elements' masks |
| Nesting.MaxEnd | src/replan/desktop/core/nesting.py:517-523 | the farthest end is the end of some placed part and no placed part ends beyond it |
| Nesting.TotalLength | src/replan/desktop/core/nesting.py:471-474 | no copies or a zero length need nothing, one copy needs its length, and the need is never negative for non-negative inputs |
| Nesting.EndPosition | src/replan/desktop/core/nesting.py:484-487 | a part ends no earlier than it starts, and a part at position 0 ends at its length |
| Nesting.Utilization | src/replan/desktop/core/nesting.py:503-509 | utilization is 0 for a zero-length stock, otherwise the used length as a percentage of the stock length |
| Nesting.Waste | src/replan/desktop/core/nesting.py:511-515 | waste is never negative, and when positive it is exactly the stock length minus the used length |
| Nesting.RemainingLength | src/replan/desktop/core/nesting.py:517-523 | an empty stock has its whole length left; otherwise what is left is non-negative and, when positive, reaches from the farthest end to the end of the stock |
| Nesting.Copies | src/replan/desktop/core/nesting.py:604-607 | a part expands to `quantity` items (none for a negative quantity), numbered 1, 2, … in order |
| Nesting.ItemsCount | src/replan/desktop/core/nesting.py:604-607 | the expanded item list has exactly the total quantity of the parts |
| Nesting.CopiesTotal | src/replan/desktop/core/nesting.py:471-475 | the copies of a part add up to the part's `total_length` |
| Nesting.ItemsKeepTotalLength | src/replan/desktop/core/nesting.py:604-607 | the expanded items add up to the sum of the parts' `total_length` |
| Nesting.Insert | src/replan/desktop/core/nesting.py:609-613 | inserting into a sorted list keeps it sorted, adds exactly the one element, and leaves the old head first unless the new element goes before it |
| Nesting.StableSort | src/replan/desktop/core/nesting.py:609-613 | the sort result is ordered by the key and is a permutation of its input |
| Nesting.InsertKeepsOrder | src/replan/desktop/core/nesting.py:609-613 | insertion puts the new entry after every entry with the same key |
| Nesting.StableSortStable | src/replan/desktop/core/nesting.py:609-613 | the sort is stable: for every key, the entries with that key come out in their input order |
| Nesting.LongestFirst | src/replan/desktop/core/nesting.py:609-610 | the items are reordered, none lost or added, so that lengths never increase |
| Nesting.LargestFirst | src/replan/desktop/core/nesting.py:612-613 | the stock lengths are reordered, none lost or added, into non-increasing order |
| Nesting.FirstFitting | src/replan/desktop/core/nesting.py:648-652 | no stock length is found exactly when every one is too short; otherwise the found one fits and every earlier one is too short |
| Nesting.NewStockLength | src/replan/desktop/core/nesting.py:645-657 | over descending stock lengths, the first fitting stock (`FirstFitting`), or the largest as the fall-back, is always the largest stock length |
| Nesting.FirstFitIdx | src/replan/desktop/core/nesting.py:629-630 | no stock is chosen exactly when no stock has the room; otherwise the chosen stock has the room and every earlier one lacks it |
| Nesting.FirstFit | src/replan/desktop/core/nesting.py:628-642 | the loop over the stocks chooses exactly the stock `FirstFitIdx` names |
| Nesting.AppendKeepsStock | src/replan/desktop/core/nesting.py:620-632 | a part placed one kerf after the farthest end of a stock with room keeps every later part a kerf after the ones before it and inside the stock |
| Nesting.AppendToStock | src/replan/desktop/core/nesting.py:629-642 | the item is appended to stock `j` one kerf after its farthest end and nothing else changes (`Appended`); every stock stays well formed and exactly that one item is added to the placed multiset |
| Nesting.OpenStock | src/replan/desktop/core/nesting.py:645-662 | a new stock of the largest length holding only the item at position 0 is added after the old stocks, which are kept (`Opened`); every stock stays well formed and exactly that item is added |
| Nesting.PlaceItem | src/replan/desktop/core/nesting.py:623-662 | first fit: the item goes onto the first stock with room (`FirstFitIdx`) and a new stock is opened exactly when none has room; every stock stays well formed, exactly that item is added, and the first stock keeps its first part |
| Nesting.PlaceAll | src/replan/desktop/core/nesting.py:623-662 | the loop's stocks are the first-fit fold of the items (`FirstFitAll`), each item placed exactly once on well-formed stocks; stocks exist exactly when items do, and the first item leads the first stock |
| Nesting.LongestLeads | src/replan/desktop/core/nesting.py:609-610 | after the longest-first sort the leading item is at least as long as every item |
| Nesting.NestParts | src/replan/desktop/core/nesting.py:591-672 | no parts or no stock lengths give no stocks; otherwise the stocks are the first-fit fold of the copies, longest first, over the stock lengths, largest first; every copy of every part is placed exactly once, each stock has the largest stock length, and the longest copy leads the first stock |
| Nesting.Widths | src/replan/desktop/core/nesting.py:686-691 | the widths of the parts, each once, and every width of a part among them |
| Nesting.OfWidth | src/replan/desktop/core/nesting.py:686-691 | a width's group holds exactly the parts of that width |
| Nesting.StockFor | src/replan/desktop/core/nesting.py:695 | a width's own stock lengths if configured, else the first configuration's, else a single 36 |
| Nesting.NestWidth | src/replan/desktop/core/nesting.py:693-702 | a width's nesting is non-empty exactly when it has stock lengths and some copy to place, and then places every copy of that width's parts and is the First Fit Decreasing of its copies, longest first, onto its stock lengths, largest first, with the material of its first part |
| Nesting.NestByWidth | src/replan/desktop/core/nesting.py:674-704 | the result has an entry exactly for each width of the parts that has stock lengths and copies; each entry places every copy of that width's parts exactly once and is that width's First Fit Decreasing nesting; the entries are in order of the widths' first appearance among the parts |
| Nesting.NestedWidths | src/replan/desktop/core/nesting.py:687-702 | the widths that get an entry, in the order given, are exactly the given widths that have stock lengths and copies |
| Nesting.NestedWidthsNext | src/replan/desktop/core/nesting.py:694-702 | one more width extends the entered widths by that width exactly when it gets an entry |
| Nesting.KeepStep | src/replan/desktop/core/nesting.py:696-702 | one step of the loop over widths keeps the map holding exactly the nested widths seen so far |
| Nesting.Cuts | src/replan/desktop/core/nesting.py:711-718 | a stock's cuts are its placed parts, one cut each, in order of position |
| Nesting.CutList | src/replan/desktop/core/nesting.py:706-735 | one entry per stock, numbered from 1, with the stock's length, width, material, utilization, waste and its cuts in order of position |
| Nesting.GetSummary | src/replan/desktop/core/nesting.py:737-758 | no stocks give only a zero count; otherwise the stock count, the placed-part count, the total stock length, total placed length and total waste as sums over the stocks (the waste non-negative), and the overall utilization as the parts' share of the stock length (0 without stock length) |
| Nesting.PlacedCount | src/replan/desktop/core/nesting.py:757 | the summary's part count equals the number of placed (part, copy) pairs |
| Nesting.WasteNonNegative | src/replan/desktop/core/nesting.py:747 | the summed waste of any stocks is never negative |
| Nesting.NestedCount | src/replan/desktop/core/nesting.py:737-758 | when the placed pairs are a permutation of the expanded items (as `NestParts` ensures), the placed count and the summary's part count equal the total quantity ordered |
| Geometry.SquaredDistance | src/replan/ipad/utils/geometry.py:10-12 | the squared distance is zero exactly for equal points |
| Geometry.SnapToPoint | src/replan/ipad/utils/geometry.py:15-26 | the target is returned exactly when it lies within the snap distance of the current point (never for a negative snap distance), and nothing otherwise |
| Geometry.SnapSymmetric | src/replan/ipad/utils/geometry.py:15-26 | whether two points snap does not depend on which is the target, and a point always snaps onto itself |
| Geometry.BoundingBox | src/replan/ipad/utils/geometry.py:121-134 | no points give (0, 0, 0, 0); otherwise every point lies in the box and each of the four bounds is attained by some point, so the box is the smallest one |
| Geometry.DoubledPolygonArea | src/replan/ipad/utils/geometry.py:57-77 | fewer than three vertices give 0; otherwise the loop's sum is the absolute shoelace sum of the closed polygon, twice its area |
| Geometry.FlatPolygonHasNoArea | src/replan/ipad/utils/geometry.py:57-77 | a polygon whose vertices share one y coordinate has zero shoelace sum |
| Geometry.TranslationKeepsArea | src/replan/ipad/utils/geometry.py:57-77 | moving a polygon by any offset leaves its signed shoelace sum, hence its area, unchanged |
| Geometry.LineLength | src/replan/ipad/utils/geometry.py:137-146 | fewer than two points give 0; otherwise the loop's total is the sum of the distances between consecutive points |
| Geometry.PathLengthGrows | src/replan/ipad/utils/geometry.py:137-146 | with non-negative distances a polyline's length is non-negative and adding a point never shortens it |
| Geometry.Farthest | src/replan/ipad/utils/geometry.py:161-169 | the scan reports the first interior point of strictly largest positive deviation, or the start index with distance 0 when none deviates; no interior point deviates more |
| Geometry.SimplifyIndices | src/replan/ipad/utils/geometry.py:149-180 | for a non-negative tolerance the kept indices start and end at the window's ends and strictly increase within it |
| Geometry.SimplifyPolyline | src/replan/ipad/utils/geometry.py:149-180 | for a non-negative tolerance: two points or fewer are returned as they are; otherwise the result keeps the first and last point, is no longer than the input and is the input with points dropped |
| Geometry.NegativeToleranceSplitsAtStart | src/replan/ipad/utils/geometry.py:165-178 | on a straight three-point line the scan reports index 0 with distance 0, which exceeds a negative tolerance, so the right-hand call receives the whole input again |
| Ocr.UpperChar | src/replan/ipad/utils/ocr.py:67 | a lower-case ASCII letter becomes its capital (32 code points lower), dotless i becomes `I` and long s becomes `S`, every other character is kept, and the result is never a lower-case ASCII letter, dotless i or long s |
| Ocr.Upper | src/replan/ipad/utils/ocr.py:67 | `.upper()` keeps the length, maps each character by `UpperChar` and leaves no character the patterns' letter classes match in lower case |
| Ocr.UpperIdempotent | src/replan/ipad/utils/ocr.py:67-71 | upper-casing an upper-cased string changes nothing |
| Ocr.Chosen | src/replan/ipad/utils/ocr.py:67-71 | a pattern's forced prefix is used unless it is absent or empty, in which case the captured group is |
| Ocr.Filed | src/replan/ipad/utils/ocr.py:66-72 | each hit yields one (prefix, instance) filing, in the order of the hits |
| Ocr.Bucket | src/replan/ipad/utils/ocr.py:62-79 | the dictionary has exactly the filed prefixes as keys, even those that got no instance, and never holds an empty instance |
| Ocr.Labels | src/replan/ipad/utils/ocr.py:46-79 | every key is upper-case, no set holds the empty string, and no hits give an empty dictionary |
| Ocr.ParseLabelsFromText | src/replan/ipad/utils/ocr.py:62-79 | the loop over the hits builds exactly the dictionary `Labels` describes |
| Ocr.LabelsMembership | src/replan/ipad/utils/ocr.py:62-79 | a prefix is a key exactly when some hit produced it, and a string is filed under it exactly when it is non-empty and some hit produced it as the instance for that prefix |
| Ocr.StrLtTransitive | src/replan/ipad/utils/ocr.py:94-95 | the string order `sorted` uses is transitive |
| Ocr.StrLtTotal | src/replan/ipad/utils/ocr.py:94-95 | any two different strings are ordered one way or the other |
| Ocr.SortSet | src/replan/ipad/utils/ocr.py:94-95 | sorting a set of strings gives each member exactly once, in strictly ascending order |
| Ocr.FullName | src/replan/ipad/utils/ocr.py:11-26 | a known prefix gets its name from the fixed table, any other prefix is its own name |
| Ocr.Entry | src/replan/ipad/utils/ocr.py:95-97 | a prefix's entry carries the prefix, its full name and its instances ascending, exactly the set's members |
| Ocr.GroupLabels | src/replan/ipad/utils/ocr.py:82-99 | one entry per key, keys strictly ascending and exactly the dictionary's keys, each entry built from its own key |
| Ocr.GroupedHits | src/replan/ipad/utils/ocr.py:46-99 | grouping the labels read from hits lists every hit's prefix, each upper-case, with no empty instance |
| Textract.Strip | src/replan/desktop/utils/textract_utils.py:66 | `str.strip()` yields the slice of the text between a whitespace-only prefix and a whitespace-only suffix, and a non-empty result starts and ends with a non-space |
| Textract.StripIdempotent | src/replan/desktop/utils/textract_utils.py:66 | stripping a stripped text changes nothing |
| Textract.JoinSpaceLength | src/replan/desktop/utils/textract_utils.py:156 | the joined text holds every word plus one separator between each two neighbours |
| Textract.Clamp | src/replan/desktop/utils/textract_utils.py:58-61 | the coordinate is clamped into [0, hi] and left alone when already inside |
| Textract.PixelBox | src/replan/desktop/utils/textract_utils.py:51-61 | every coordinate of the truncated pixel box lies within the image |
| Textract.PixelBoxOrdered | src/replan/desktop/utils/textract_utils.py:51-55 | a box of non-negative width (height) gives a right (bottom) edge not before its left (top) edge |
| Textract.ParseBlock | src/replan/desktop/utils/textract_utils.py:34-84 | a block gives a region exactly when it is a WORD or LINE with a bounding box whose clamped pixel box is non-empty and whose stripped text is non-empty; the region then carries that box, that text, the block id, the truncated confidence, and a mask that is 255 exactly inside the box and 0 elsewhere |
| Textract.ParseAll | src/replan/desktop/utils/textract_utils.py:34-86 | at most one region per block, and every region is well formed in the sense above |
| Textract.ParseTextractBlocks | src/replan/desktop/utils/textract_utils.py:10-86 | the loop reads `blocks`, or `Blocks` when that is missing or empty, and returns exactly the regions of its accepted blocks in block order |
| Textract.SortByKey | src/replan/desktop/utils/textract_utils.py:105 | the sort orders the regions by the key pair and is a permutation of its input |
| Textract.InsertByKeyKeepsOrder | src/replan/desktop/utils/textract_utils.py:105 | insertion puts the new region after every region with the same key pair |
| Textract.SortByKeyStable | src/replan/desktop/utils/textract_utils.py:105 | the sort is stable: for every key pair, the regions with that key come out in their input order |
| Textract.UnionBox | src/replan/desktop/utils/textract_utils.py:150-153 | the combined box contains every member's box and each of its edges is some member's edge |
| Textract.CreateLineGroup | src/replan/desktop/utils/textract_utils.py:144-178 | no regions give no group; otherwise a LINE group keeping its word regions, with the union box, the texts joined by spaces in left-to-right order, a combined mask shaped like the first word's, and as confidence the mean of the words' confidences truncated toward zero |
| Textract.LineMask | src/replan/desktop/utils/textract_utils.py:163-169 | the union of the word masks is well formed and shaped like the first word's mask |
| Textract.LineMaskOn | src/replan/desktop/utils/textract_utils.py:163-169 | a pixel of the line group's mask is on exactly when some word mask of the first word's shape is on there |
| Textract.LineConfidenceRange | src/replan/desktop/utils/textract_utils.py:158-159 | the line's truncated mean confidence lies within the range of its words' confidences |
| Textract.GroupByLine | src/replan/desktop/utils/textract_utils.py:89-141 | no regions give no groups; otherwise the groups' word lists, concatenated, are the regions in top-to-bottom then left-to-right order, each group's neighbours are on one line, two consecutive groups are not, and each group is the line group of its words |
| Textract.SplitLines | src/replan/desktop/utils/textract_utils.py:114-139 | the loop cuts the sorted regions into consecutive same-line runs that concatenate back to them, building one group per run |
| Textract.PlaceNext | src/replan/desktop/utils/textract_utils.py:119-135 | handling one more region (extending the current line or closing it and starting a new one) keeps the loop's invariant |
| Textract.GroupsOfRuns | src/replan/desktop/utils/textract_utils.py:134-139 | the groups built from runs give back exactly those runs as their word lists |
| Trace.CountNeighbours | src/replan/findline/trace_with_points.py:320-327 | the loop counts exactly the skeleton pixels among the eight neighbours |
| Trace.FindJunctions | src/replan/findline/trace_with_points.py:297-333 | the result holds exactly the interior skeleton pixels with three or more skeleton neighbours, each once, in row-major order |
| Trace.BestNeighbour | src/replan/findline/trace_with_points.py:146-168 | no neighbour is chosen exactly when no neighbour is an unvisited skeleton pixel; otherwise the chosen one is such a neighbour and no other such neighbour is nearer the end |
| Trace.ScanSquare | src/replan/findline/trace_with_points.py:174-187 | a square scan finds an unvisited skeleton pixel within the radius that is strictly nearer the end than the current pixel, and finds nothing only when no such pixel exists |
| Trace.FallbackStep | src/replan/findline/trace_with_points.py:170-195 | the widening search finds an unvisited skeleton pixel within four pixels that is strictly nearer the end, and finds nothing only when there is none |
| Trace.WalkExtend | src/replan/findline/trace_with_points.py:197-204 | appending a legal step to a walk gives a walk |
| Trace.WalkNoRevisit | src/replan/findline/trace_with_points.py:133-134 | a walk never steps on a pixel twice |
| Trace.TraceBetweenPoints | src/replan/findline/trace_with_points.py:112-206 | the path starts at the start point and has at most 2002 points; it is a walk of legal steps, possibly followed by the end point when the last pixel is within three pixels of it; every pixel but the last two lies at least three pixels from the end, and a walk that did not arrive and stopped before 2000 steps, having nothing left to step on, ends at least three pixels from the end |
| Trace.Measurements | src/replan/findline/trace_with_points.py:236-288 | a sample of n points gives fewer than n measurements, one at most per consecutive pair |
| Trace.MeasureLineThickness | src/replan/findline/trace_with_points.py:209-294 | the loop collects the measurements of the first `sample_length` points' segments; no measurement gives 3, otherwise the truncated mean, at least 1 |
| Trace.ThicknessRange | src/replan/findline/trace_with_points.py:263-292 | with each measurement the sum of two edge distances found within 1..19 pixels, the thickness lies within 2..38 |
| Trace.KeptSound | src/replan/findline/trace_with_points.py:443-457 | every collision kept is a junction near the path |
| Trace.KeptSpread | src/replan/findline/trace_with_points.py:448-456 | no kept collision is close to one kept before it |
| Trace.KeptCovers | src/replan/findline/trace_with_points.py:443-457 | every junction near the path is kept or close to a kept one |
| Trace.KeptOrdered | src/replan/findline/trace_with_points.py:443-457 | kept collisions keep the junctions' order |
| Trace.IsNearPath | src/replan/findline/trace_with_points.py:445-447 | the scan reports true exactly when some path point lies within the limit of the junction |
| Trace.IsDuplicate | src/replan/findline/trace_with_points.py:449-453 | the scan reports true exactly when some collision already found is closer than the thickness |
| Trace.DetectCollisions | src/replan/findline/trace_with_points.py:411-459 | no skeleton gives no collisions; otherwise every collision is a junction within max(thickness, 5) of the path, they are in row-major order, none is closer than the thickness to an earlier one, and every near junction is kept or close to a kept one |
| Arith.TruncDiv | src/replan/desktop/utils/textract_utils.py:174 | `int()` of a quotient rounds toward zero: for a non-negative dividend q·b ≤ a < (q+1)·b, for a negative one (q−1)·b < a ≤ q·b |
| Arith.TruncQuotientUnique | src/replan/desktop/utils/textract_utils.py:174 | the truncated quotient is the only integer with that bracket, so the bracket defines it |
| Arith.TruncReal | src/replan/desktop/utils/textract_utils.py:52-55 | `int()` of a real rounds toward zero: the result is within one below a non-negative value and within one above a negative one |
| Arith.TruncOfInt | src/replan/desktop/io/parts_library.py:249-250 | `int()` of a whole number is that number |
| Arith.MeanBounds | src/replan/desktop/utils/textract_utils.py:159 | the truncated mean of non-negative values within [lo, hi] lies within [lo, hi] |
| Arith.DivBounds | src/replan/desktop/models/elements.py:67 | a sum between n·lo and n·hi, floor-divided by n, lies in [lo, hi]: a mean of values in [lo, hi] lies in [lo, hi] |

## Left out

- Rasterisation by OpenCV, PIL and scikit-image is not modelled. This covers cv2 flood fill, polygon and polyline filling, morphology, contours, resizing, skeletonisation and the rectpack 2-D nesting. Where the core calls one of these, the call is a function parameter, and only its guard cases are modelled.
- The 2-D `NestingEngine` is left out because it is a wrapper around rectpack. So are `NestedPart.get_placed_mask` and `NestedSheet.render`.
- Zoomed images are left out, because zooming is image resizing. The model's zoom cache is only ever emptied, never filled. Label and highlight drawing and thumbnails are left out too.
- The MD5 digest of the render key is left out. The key is modelled as the string and sums it is computed from.
- Generated ids (uuid) become parameters, because they are random.
- File and JSON reading and writing are left out. This covers the workspace, the parts library file, the settings file, Textract JSON files, thumbnails and images. The dictionaries they hold are modelled as typed records whose missing keys are `None`.
- The remaining `AppSettings` fields and the theme palettes' colour values are left out; they are plain data with no behaviour.
- The iPad renderer is left out. It repeats the desktop cache logic but blends in floating point.
- `detect_collisions_from_deformations` is left out: `detect_collisions` has its call commented out, so it never runs.
- The page's `to_dict` and `from_dict`, `clear_segmentation_layer`, `pixels_per_cm` and the file-name helpers are left out. They are dictionary and file I/O, or a scale conversion.
- `LibraryPart.to_dict`, `from_dict`, `load` and `save`, and the instance and object `to_dict`, are left out as JSON I/O. The `from_dict` migration of objects is modelled.
- `point_in_polygon`, `polygon_centroid` and `_point_line_distance` are left out as floating-point code. `Geometry.SimplifyPolyline` takes the point-to-line distance as a parameter.
- Masks.Reshape: numpy's `-1` ("infer this dimension") is not modelled, because the program always passes explicit shapes.
- Geometry.DoubledPolygonArea returns twice the area, because the area itself is a float half of that integer.
- Geometry.LineLength takes the Euclidean distance as a parameter, because it is a square root.
- Trace.MeasureLineThickness takes the measurement across one segment as a parameter. That measurement walks a float perpendicular through the image. The mean of integer measurements is modelled exactly.
- Trace.BestNeighbour does not say which of several equally near neighbours is chosen. The body keeps the first in scan order, as the program does.
- Trace.FallbackStep does not say which of several qualifying pixels is chosen. The body takes the first in the program's scan order.
- The `len(best_next) != 2` test in `trace_between_points` is not modelled, because a chosen pixel is always a pair and the test can never fire.
- Nesting.CutList states utilization and waste unrounded, because `round` is float rounding.
- Nesting.GetSummary states its totals as exact sums, unrounded, for the same reason.
- Ocr.ParseLabelsFromText takes the regular-expression matches as input, because regex matching is outside the model. The matches are given pattern by pattern, in order.
- Ocr.Upper: upper-cases ASCII letters plus dotless i and long s, the only non-ASCII characters that the patterns' `[A-Z]` classes match under IGNORECASE and that `.upper()` changes; any other non-ASCII letter is kept, although Python would upper-case it.
- Categories.FromDict: a colour list longer than three keeps its first three channels, while the program stores the whole tuple and fails only later, in `color_hex` (src/replan/ipad/models/categories.py:45).
- Attributes.SizeParts takes the text form of a float, which `f"W:{self.width}"` uses, as a parameter `show`, because float-to-text conversion is not modelled.
- Textract.Strip treats as whitespace the code points that `str.isspace` accepts.
- Textract.CreateLineGroup assumes every word region has a mask, which is true of every region `parse_textract_blocks` builds.
- Textract.PixelBox: truncates the exact real product of a normalised coordinate and the image side, whereas Python truncates the float product. The two differ when rounding lands just below an integer: `0.29 * 100` is `28.999999999999996` in floating point, so Python gives 28 and the model 29. Float rounding is not modelled.
- Textract.GapPixels: truncates the exact product of `max_vertical_gap` and the lowest bottom edge, for the same reason as Textract.PixelBox.
- Parts.PlacePoint: at a scale other than 1, truncates the exact product of coordinate and scale plus offset, for the same reason as Textract.PixelBox. At scale 1 the two agree.
- Parts.RestoreMask: the resized side is the truncated exact product of side and scale, for the same reason as Textract.PixelBox. A stored shape whose length is not 2 is an error here, while numpy's `reshape` accepts any shape whose product matches the data and the program keeps the array it gets; masks are always saved with two sides.
- Workspace.ElementMaskFromRle: a stored shape whose length is not 2 gives a blank mask. numpy's `reshape` accepts any shape whose product matches the data, and a one-side shape then broadcasts down the slice when its length is the slice's width or 1. Masks are always saved with two sides.
- Drawing.DrawingTool.OnClick snaps with `Geometry.SnapToPoint`, modelled from the iPad geometry module. The desktop module src/replan/desktop/utils/geometry.py is not part of this model; the two functions are taken to agree.
- Undo: a command's own effect on the document is outside the model. The manager's calls into commands are recorded in a log.

## Findings

| source | as written | input that shows it | evidently intended | confidence | as-written member | corrected member |
|---|---|---|---|---|---|---|
| src/replan/ipad/utils/geometry.py:165-178 | the farthest-point scan starts from index 0 and distance 0, and the line is split whenever that distance exceeds the tolerance | a negative tolerance with three collinear points: distance 0 exceeds it at index 0, so the right-hand call receives `points[0:]`, the same list, and it recurses until Python raises RecursionError | a tolerance that is not negative, so the split point is always interior | not executed | Geometry.NegativeToleranceSplitsAtStart | Geometry.SimplifyPolyline |

=== FILE: arith.dfy ===
/** Integer sums and means as Python computes them: `int(total / count)` rounds toward zero. */
module Arith {

  /** Python's `int(a / b)` for b > 0: the quotient rounded toward zero. */
  function TruncDiv(a: int, b: int): (q: int)
    requires b > 0
    ensures a >= 0 ==> q == a / b
    ensures a < 0 ==> q == -((-a) / b)
    ensures TruncQuotient(a, b, q)
  {
    if a >= 0 then a / b else -((-a) / b)
  }

  /** q is a / b rounded toward zero: b·q brackets a from below (a >= 0) or from above (a < 0) within b. */
  predicate TruncQuotient(a: int, b: int, q: int) {
    (a >= 0 ==> q * b <= a < (q + 1) * b) && (a < 0 ==> (q - 1) * b < a <= q * b)
  }

  /** The bracket determines the quotient. */
  lemma TruncQuotientUnique(a: int, b: int, q: int, q': int)
    requires b > 0 && TruncQuotient(a, b, q) && TruncQuotient(a, b, q')
    ensures q == q'
  {
    if q < q' {
      if a >= 0 {
        MulMono(q + 1, q', b);
      } else {
        MulMono(q, q' - 1, b);
      }
    } else if q' < q {
      if a >= 0 {
        MulMono(q' + 1, q, b);
      } else {
        MulMono(q', q - 1, b);
      }
    }
  }

  /** Python's `int(x)` for a float x, taken as an exact real: the integer part, rounded toward zero. */
  function TruncReal(x: real): (q: int)
    ensures x >= 0.0 ==> q as real <= x < q as real + 1.0
    ensures x < 0.0 ==> q as real - 1.0 < x <= q as real
  {
    if x >= 0.0 then x.Floor else -((-x).Floor)
  }

  /** Truncation toward zero is monotone. */
  lemma TruncRealMono(a: real, b: real)
    requires a <= b
    ensures TruncReal(a) <= TruncReal(b)
  {
  }

  /** An integer truncates to itself. */
  lemma TruncOfInt(n: int)
    ensures TruncReal(n as real) == n
  {
    if n < 0 {
      assert (-(n as real)).Floor == -n;
    }
  }

  function Sum(s: seq<int>): int {
    if s == [] then 0 else Sum(s[..|s| - 1]) + s[|s| - 1]
  }

  /** The mean of values within [lo, hi], rounded toward zero, stays within [lo, hi] when lo >= 0. */
  lemma {:induction false} MeanBounds(s: seq<int>, lo: int, hi: int)
    requires |s| > 0 && 0 <= lo
    requires forall i :: 0 <= i < |s| ==> lo <= s[i] <= hi
    ensures lo <= TruncDiv(Sum(s), |s|) <= hi
  {
    SumBounds(s, lo, hi);
    var n := |s|;
    assert n * lo <= Sum(s) <= n * hi;
    assert TruncDiv(Sum(s), n) == Sum(s) / n;
    DivBounds(Sum(s), n, lo, hi);
  }

  lemma {:induction false} SumBounds(s: seq<int>, lo: int, hi: int)
    requires forall i :: 0 <= i < |s| ==> lo <= s[i] <= hi
    ensures lo * |s| <= Sum(s) <= hi * |s|
  {
    if s != [] {
      SumBounds(s[..|s| - 1], lo, hi);
      assert lo * |s| == lo * (|s| - 1) + lo;
      assert hi * |s| == hi * (|s| - 1) + hi;
    }
  }

  lemma DivBounds(a: int, n: int, lo: int, hi: int)
    requires n > 0 && n * lo <= a <= n * hi
    ensures lo <= a / n <= hi
  {
    var q := a / n;
    assert a == n * q + a % n && 0 <= a % n < n;
    NonNegMul(lo - q - 1, n);
    assert (lo - q - 1) * n == n * lo - n * q - n;
    NonNegMul(q - hi - 1, n);
    assert (q - hi - 1) * n == n * q - n * hi - n;
  }

  /** A non-negative multiple of a positive number is non-negative. */
  lemma NonNegMul(d: int, n: int)
    requires n > 0
    ensures d >= 0 ==> d * n >= 0
  {
    if d >= 0 {
      MulMono(0, d, n);
    }
  }

  lemma MulMono(a: int, b: int, n: nat)
    requires a <= b
    ensures a * n <= b * n
  {
    var d := b - a;
    assert b * n == a * n + d * n;
  }
}

=== FILE: attributes.dfy ===
// Physical attributes attached to an object instance: material, dimensions,
// type, view and free-text fields, with their dictionary form.

module Attributes {
  import opened Wrappers

  datatype ObjectAttributes = ObjectAttributes(
    material: string,
    width: real,
    height: real,
    depth: real,
    objType: string,
    view: string,
    description: string,
    url: string,
    quantity: int,
    notes: string)

  /** The attributes a freshly constructed record carries. */
  const Default := ObjectAttributes("", 0.0, 0.0, 0.0, "", "", "", "", 1, "")

  /** Dictionary form: a missing key is `None`. */
  datatype AttributesRecord = AttributesRecord(
    material: Option<string>,
    width: Option<real>,
    height: Option<real>,
    depth: Option<real>,
    objType: Option<string>,
    view: Option<string>,
    description: Option<string>,
    url: Option<string>,
    quantity: Option<int>,
    notes: Option<string>)

  const EmptyRecord := AttributesRecord(None, None, None, None, None, None, None, None, None, None)

  /** Serialisation writes every key. */
  function ToDict(a: ObjectAttributes): (d: AttributesRecord)
    ensures d.material.Some? && d.width.Some? && d.height.Some? && d.depth.Some?
    ensures d.objType.Some? && d.view.Some? && d.description.Some? && d.url.Some?
    ensures d.quantity.Some? && d.notes.Some?
  {
    AttributesRecord(Some(a.material), Some(a.width), Some(a.height), Some(a.depth),
                     Some(a.objType), Some(a.view), Some(a.description), Some(a.url),
                     Some(a.quantity), Some(a.notes))
  }

  /** Deserialisation: a missing string is "", a missing dimension 0.0, a missing quantity 1. */
  function FromDict(d: AttributesRecord): (a: ObjectAttributes)
    ensures d.material.None? ==> a.material == ""
    ensures d.width.None? ==> a.width == 0.0
    ensures d.height.None? ==> a.height == 0.0
    ensures d.depth.None? ==> a.depth == 0.0
    ensures d.quantity.None? ==> a.quantity == 1
    ensures d.notes.None? ==> a.notes == ""
    ensures d.objType.None? ==> a.objType == ""
    ensures d.view.None? ==> a.view == ""
    ensures d.description.None? ==> a.description == ""
    ensures d.url.None? ==> a.url == ""
    ensures d.material.Some? ==> a.material == d.material.value
    ensures d.width.Some? ==> a.width == d.width.value
    ensures d.height.Some? ==> a.height == d.height.value
    ensures d.depth.Some? ==> a.depth == d.depth.value
    ensures d.objType.Some? ==> a.objType == d.objType.value
    ensures d.view.Some? ==> a.view == d.view.value
    ensures d.description.Some? ==> a.description == d.description.value
    ensures d.url.Some? ==> a.url == d.url.value
    ensures d.quantity.Some? ==> a.quantity == d.quantity.value
    ensures d.notes.Some? ==> a.notes == d.notes.value
  {
    ObjectAttributes(
      d.material.GetOr(""), d.width.GetOr(0.0), d.height.GetOr(0.0), d.depth.GetOr(0.0),
      d.objType.GetOr(""), d.view.GetOr(""), d.description.GetOr(""), d.url.GetOr(""),
      d.quantity.GetOr(1), d.notes.GetOr(""))
  }

  /** An empty dictionary yields the default attributes. */
  lemma FromEmptyDict()
    ensures FromDict(EmptyRecord) == Default
  {
  }

  /** Serialising then deserialising gives back the same attributes, field by field. */
  lemma FromDictToDict(a: ObjectAttributes)
    ensures FromDict(ToDict(a)) == a
  {
  }

  /**
   * `has_dimensions`: a dimension counts as set only when it is strictly
   * positive; exactly then `size_string` has a part, however numbers are shown.
   */
  function HasDimensions(a: ObjectAttributes): (r: bool)
    ensures !r <==> forall show: real -> string :: SizeParts(a, show) == []
    ensures a == Default ==> !r
  {
    assert |SizeParts(a, (v: real) => "")| > 0 ==> a.width > 0.0 || a.height > 0.0 || a.depth > 0.0;
    a.width > 0.0 || a.height > 0.0 || a.depth > 0.0
  }

  /** `s` is a suffix of `r`. */
  predicate EndsWith(r: string, s: string)
  {
    |s| <= |r| && r[|r| - |s|..] == s
  }

  lemma EndsWithExtend(a: string, r: string, s: string)
    requires EndsWith(r, s)
    ensures EndsWith(a + r, s)
  {
    assert (a + r)[|a + r| - |s|..] == r[|r| - |s|..];
  }

  /** Joins strings with a separator, as Python's `str.join`. */
  function Join(parts: seq<string>, sep: string): (r: string)
    ensures |parts| == 0 ==> r == ""
    ensures |parts| == 1 ==> r == parts[0]
    ensures |parts| > 0 ==> parts[0] <= r && EndsWith(r, parts[|parts| - 1])
    decreases |parts|
  {
    if |parts| == 0 then ""
    else if |parts| == 1 then parts[0]
    else
      var rest := Join(parts[1..], sep);
      assert parts[1..][|parts[1..]| - 1] == parts[|parts| - 1];
      EndsWithExtend(parts[0] + sep, rest, parts[|parts| - 1]);
      assert parts[0] <= parts[0] + sep + rest;
      parts[0] + sep + rest
  }

  /** Three parts joined read first, separator, second, separator, third. */
  lemma JoinThree(parts: seq<string>, sep: string)
    requires |parts| == 3
    ensures Join(parts, sep) == parts[0] + sep + parts[1] + sep + parts[2]
  {
    assert parts[1..][1..] == [parts[2]];
  }

  /** Joining one more part adds the separator and that part at the end. */
  lemma {:induction false} JoinSnoc(parts: seq<string>, s: string, sep: string)
    requires |parts| > 0
    ensures Join(parts + [s], sep) == Join(parts, sep) + sep + s
    decreases |parts|
  {
    var ps := parts + [s];
    if |parts| == 1 {
      assert ps[1..] == [s];
    } else {
      assert ps[1..] == parts[1..] + [s];
      JoinSnoc(parts[1..], s, sep);
    }
  }

  /** The labelled parts of `size_string`; `show` is the float formatting. */
  function SizeParts(a: ObjectAttributes, show: real -> string): (r: seq<string>)
    ensures |r| == (if a.width > 0.0 then 1 else 0) + (if a.height > 0.0 then 1 else 0)
                 + (if a.depth > 0.0 then 1 else 0)
    ensures forall i :: 0 <= i < |r| ==> |r[i]| >= 2
    ensures a.width > 0.0 ==> r[0] == "W:" + show(a.width)
    ensures a.depth > 0.0 ==> r[|r| - 1] == "D:" + show(a.depth)
    ensures a.height > 0.0 && a.width <= 0.0 ==> r[0] == "H:" + show(a.height)
    ensures a.height > 0.0 && a.depth <= 0.0 ==> r[|r| - 1] == "H:" + show(a.height)
    ensures a.width > 0.0 && a.height > 0.0 ==> r[1] == "H:" + show(a.height)
  {
    (if a.width > 0.0 then ["W:" + show(a.width)] else [])
    + (if a.height > 0.0 then ["H:" + show(a.height)] else [])
    + (if a.depth > 0.0 then ["D:" + show(a.depth)] else [])
  }

  /**
   * `size_string`: empty exactly when no dimension is set; otherwise it starts
   * with the first present part and ends with the last, in W, H, D order.
   */
  function SizeString(a: ObjectAttributes, show: real -> string): (r: string)
    ensures r == "" <==> !HasDimensions(a)
    ensures a.width > 0.0 ==> "W:" + show(a.width) <= r
    ensures a.depth > 0.0 ==> EndsWith(r, "D:" + show(a.depth))
    ensures a.width > 0.0 && a.height <= 0.0 && a.depth <= 0.0 ==> r == "W:" + show(a.width)
    ensures r == Join(SizeParts(a, show), " × ")
  {
    var parts := SizeParts(a, show);
    if |parts| > 0 then
      var r := Join(parts, " × ");
      assert |r| >= |parts[0]| >= 2;
      r
    else ""
  }

  /** With all three dimensions set the text reads W, H and D in that order. */
  lemma SizeStringFull(a: ObjectAttributes, show: real -> string)
    requires a.width > 0.0 && a.height > 0.0 && a.depth > 0.0
    ensures SizeString(a, show) ==
      ("W:" + show(a.width)) + " × " + ("H:" + show(a.height)) + " × " + ("D:" + show(a.depth))
  {
    var parts := SizeParts(a, show);
    assert |parts| == 3;
    assert parts[0] == "W:" + show(a.width) && parts[1] == "H:" + show(a.height) && parts[2] == "D:" + show(a.depth);
    JoinThree(parts, " × ");
  }
}

=== FILE: categories.dfy ===
/**
 * Categories classify objects (rib, former, spar, ...): each has a display
 * colour, a default selection mode and a visibility flag.
 */
module Categories {
  import opened Wrappers

  type Rgb = (int, int, int)

  datatype DynamicCategory = DynamicCategory(
    name: string,
    prefix: string,
    fullName: string,
    colorRgb: Rgb,
    colorBgr: Rgb,
    selectionMode: string,
    visible: bool,
    instances: seq<string>)

  /** Reverses the channel order. */
  function Swap(c: Rgb): Rgb {
    (c.2, c.1, c.0)
  }

  /**
   * Construction with `__post_init__`: a missing BGR colour is the RGB colour
   * with its channels reversed; a supplied one is kept.
   */
  function MakeCategory(name: string, prefix: string, fullName: string, rgb: Rgb,
                        bgr: Option<Rgb>, selectionMode: string, visible: bool): (c: DynamicCategory)
    ensures c.name == name && c.prefix == prefix && c.fullName == fullName
    ensures c.colorRgb == rgb && c.selectionMode == selectionMode && c.visible == visible
    ensures c.instances == []
    ensures bgr.None? ==> c.colorBgr.0 == rgb.2 && c.colorBgr.1 == rgb.1 && c.colorBgr.2 == rgb.0
    ensures bgr.Some? ==> c.colorBgr == bgr.value
  {
    DynamicCategory(name, prefix, fullName, rgb, bgr.GetOr(Swap(rgb)), selectionMode, visible, [])
  }

  // ---------------------------------------------------------------------
  // Hexadecimal colour
  // ---------------------------------------------------------------------

  const HexDigits := "0123456789abcdef"

  function Digit(d: nat): char
    requires d < 16
  {
    HexDigits[d]
  }

  /** The value of a lower-case hexadecimal digit, -1 for any other character. */
  function DigitValue(ch: char): (v: int)
    ensures -1 <= v < 16
    ensures v >= 0 ==> Digit(v) == ch
  {
    if '0' <= ch <= '9' then ch as int - '0' as int
    else if 'a' <= ch <= 'f' then ch as int - 'a' as int + 10
    else -1
  }

  lemma DigitRoundTrip(d: nat)
    requires d < 16
    ensures DigitValue(Digit(d)) == d
  {
  }

  /** Python's `format(n, "x")` for a non-negative integer: no leading zeros. */
  function Hex(n: nat): (s: string)
    ensures |s| >= 1
    ensures forall i :: 0 <= i < |s| ==> s[i] in HexDigits
  {
    if n < 16 then [Digit(n)] else Hex(n / 16) + [Digit(n % 16)]
  }

  /** Python's `format(n, "02x")`: zero-padded to width two, sign included in the width. */
  function Hex02(n: int): string {
    if n < 0 then "-" + Hex(-n)
    else
      var s := Hex(n);
      if |s| < 2 then "0" + s else s
  }

  /** Reads two hexadecimal digits back. */
  function ParseHex2(s: string): int
    requires |s| == 2
  {
    DigitValue(s[0]) * 16 + DigitValue(s[1])
  }

  /** A byte formats as exactly two lower-case digits that read back as the byte. */
  lemma Hex02Byte(n: int)
    requires 0 <= n < 256
    ensures |Hex02(n)| == 2
    ensures Hex02(n)[0] in HexDigits && Hex02(n)[1] in HexDigits
    ensures ParseHex2(Hex02(n)) == n
  {
    if n < 16 {
      assert Hex02(n) == ['0', Digit(n)];
      DigitRoundTrip(n);
    } else {
      assert Hex(n / 16) == [Digit(n / 16)];
      assert Hex02(n) == [Digit(n / 16), Digit(n % 16)];
      DigitRoundTrip(n / 16);
      DigitRoundTrip(n % 16);
    }
  }

  predicate ByteColor(c: Rgb) {
    0 <= c.0 < 256 && 0 <= c.1 < 256 && 0 <= c.2 < 256
  }

  /** Where the three pairs of "#" + a + b + c sit. */
  lemma ThreePairs(a: string, b: string, c: string)
    requires |a| == 2 && |b| == 2 && |c| == 2
    ensures var s := "#" + a + b + c;
      |s| == 7 && s[1..3] == a && s[3..5] == b && s[5..7] == c &&
      s[1] == a[0] && s[2] == a[1] && s[3] == b[0] && s[4] == b[1] && s[5] == c[0] && s[6] == c[1]
  {
  }

  /** "#" + a + b + c is hexadecimal after the "#" when a, b and c are. */
  lemma ThreePairsDigits(a: string, b: string, c: string)
    requires |a| == 2 && |b| == 2 && |c| == 2
    requires a[0] in HexDigits && a[1] in HexDigits && b[0] in HexDigits
    requires b[1] in HexDigits && c[0] in HexDigits && c[1] in HexDigits
    ensures var s := "#" + a + b + c; forall i :: 1 <= i < 7 ==> s[i] in HexDigits
  {
    var s := "#" + a + b + c;
    ThreePairs(a, b, c);
    forall i | 1 <= i < 7 ensures s[i] in HexDigits {
      if i == 1 || i == 2 { assert s[i] == a[i - 1]; }
      else if i == 3 || i == 4 { assert s[i] == b[i - 3]; }
      else { assert s[i] == c[i - 5]; }
    }
  }

  /** `color_hex`: "#" and then two lower-case hexadecimal digits for each of r, g, b. */
  function ColorHex(c: DynamicCategory): (s: string)
    ensures |s| >= 1 && s[0] == '#'
    ensures ByteColor(c.colorRgb) ==> |s| == 7 && forall i :: 1 <= i < 7 ==> s[i] in HexDigits
  {
    var (r, g, b) := c.colorRgb;
    if ByteColor(c.colorRgb) then
      Hex02Byte(r);
      Hex02Byte(g);
      Hex02Byte(b);
      ThreePairs(Hex02(r), Hex02(g), Hex02(b));
      ThreePairsDigits(Hex02(r), Hex02(g), Hex02(b));
      "#" + Hex02(r) + Hex02(g) + Hex02(b)
    else "#" + Hex02(r) + Hex02(g) + Hex02(b)
  }

  /** Each pair of digits of `color_hex` reads back as its channel, in r, g, b order. */
  lemma ColorHexReadsBack(c: DynamicCategory)
    requires ByteColor(c.colorRgb)
    ensures ParseHex2(ColorHex(c)[1..3]) == c.colorRgb.0
    ensures ParseHex2(ColorHex(c)[3..5]) == c.colorRgb.1
    ensures ParseHex2(ColorHex(c)[5..7]) == c.colorRgb.2
  {
    var (r, g, b) := c.colorRgb;
    Hex02Byte(r);
    Hex02Byte(g);
    Hex02Byte(b);
    ThreePairs(Hex02(r), Hex02(g), Hex02(b));
  }

  // ---------------------------------------------------------------------
  // Dictionary form
  // ---------------------------------------------------------------------

  /** The dictionary of a category; `colorRgb` is a JSON list. None is a missing key. */
  datatype CategoryRecord = CategoryRecord(
    name: Option<string>,
    prefix: Option<string>,
    fullName: Option<string>,
    colorRgb: Option<seq<int>>,
    selectionMode: Option<string>,
    visible: Option<bool>)

  /** `to_dict`: exactly the six persistent fields, without the BGR colour or instances. */
  function ToDict(c: DynamicCategory): (d: CategoryRecord)
    ensures d.name == Some(c.name) && d.prefix == Some(c.prefix) && d.fullName == Some(c.fullName)
    ensures d.colorRgb.Some? && |d.colorRgb.value| == 3
    ensures d.selectionMode == Some(c.selectionMode) && d.visible == Some(c.visible)
  {
    CategoryRecord(Some(c.name), Some(c.prefix), Some(c.fullName),
                   Some([c.colorRgb.0, c.colorRgb.1, c.colorRgb.2]),
                   Some(c.selectionMode), Some(c.visible))
  }

  /**
   * `from_dict`: missing keys become "", "", "", grey (128, 128, 128), "flood"
   * and visible. A colour list shorter than three gives None (the IndexError
   * of `__post_init__`); a longer one is read by its first three channels.
   */
  function FromDict(d: CategoryRecord): (r: Option<DynamicCategory>)
    ensures r.None? <==> d.colorRgb.Some? && |d.colorRgb.value| < 3
    ensures r.Some? && d.colorRgb.Some? ==>
      r.value.colorRgb == (d.colorRgb.value[0], d.colorRgb.value[1], d.colorRgb.value[2])
    ensures r.Some? ==> r.value.name == d.name.GetOr("") && r.value.prefix == d.prefix.GetOr("")
    ensures r.Some? ==> r.value.fullName == d.fullName.GetOr("")
    ensures r.Some? && d.colorRgb.None? ==> r.value.colorRgb == (128, 128, 128)
    ensures r.Some? ==> r.value.selectionMode == d.selectionMode.GetOr("flood")
    ensures r.Some? ==> r.value.visible == d.visible.GetOr(true)
    ensures r.Some? ==> r.value.colorBgr == Swap(r.value.colorRgb) && r.value.instances == []
  {
    var color := d.colorRgb.GetOr([128, 128, 128]);
    if |color| < 3 then None
    else
      Some(MakeCategory(d.name.GetOr(""), d.prefix.GetOr(""), d.fullName.GetOr(""),
                        (color[0], color[1], color[2]), None,
                        d.selectionMode.GetOr("flood"), d.visible.GetOr(true)))
  }

  /**
   * `from_dict(to_dict(c))` keeps the six persistent fields; the BGR colour
   * is recomputed from RGB and the instance list starts empty.
   */
  lemma FromDictToDict(c: DynamicCategory)
    ensures FromDict(ToDict(c)).Some?
    ensures FromDict(ToDict(c)).value ==
      c.(colorBgr := Swap(c.colorRgb), instances := [])
  {
  }

  // ---------------------------------------------------------------------
  // Defaults and palette
  // ---------------------------------------------------------------------

  datatype DefaultEntry = DefaultEntry(key: string, fullName: string, color: Rgb, mode: string)

  /** The built-in categories, in declaration order. */
  const DefaultCategories: seq<DefaultEntry> := [
    DefaultEntry("planform", "Planform/View", (0, 200, 100), "polyline"),
    DefaultEntry("textbox", "Text/Description", (200, 200, 100), "polyline"),
    DefaultEntry("mark_text", "Mark as Text", (255, 200, 0), "flood"),
    DefaultEntry("mark_hatch", "Mark as Hatching", (200, 0, 255), "flood"),
    DefaultEntry("longeron", "Longeron", (0, 80, 200), "line"),
    DefaultEntry("spar", "Spar", (0, 120, 255), "line"),
    DefaultEntry("R", "Rib", (220, 60, 60), "flood"),
    DefaultEntry("F", "Former", (200, 80, 80), "flood"),
    DefaultEntry("FS", "Fuselage Side", (80, 80, 200), "flood"),
    DefaultEntry("WT", "Wing Tip", (60, 150, 220), "flood"),
    DefaultEntry("T", "Tail", (200, 80, 200), "flood"),
    DefaultEntry("TS", "Tail Surface", (180, 100, 180), "flood"),
    DefaultEntry("M", "Motor Mount", (255, 140, 0), "flood"),
    DefaultEntry("UC", "Undercarriage", (255, 150, 180), "flood"),
    DefaultEntry("B", "Misc Part", (140, 140, 140), "flood"),
    DefaultEntry("L", "Longeron", (0, 80, 200), "line")]

  /** The category `create_default_categories` builds for an entry. */
  function FromEntry(e: DefaultEntry): DynamicCategory {
    MakeCategory(e.key, e.key, e.fullName, e.color, None, e.mode, true)
  }

  /**
   * `create_default_categories`: one category per default key, named and
   * prefixed by the key, with the listed full name, colour and mode.
   */
  method CreateDefaultCategories() returns (categories: map<string, DynamicCategory>)
    ensures categories.Keys == set i | 0 <= i < |DefaultCategories| :: DefaultCategories[i].key
    ensures forall i :: 0 <= i < |DefaultCategories| ==>
      categories[DefaultCategories[i].key] == FromEntry(DefaultCategories[i])
    ensures forall k :: k in categories ==>
      categories[k].name == k && categories[k].prefix == k && categories[k].visible
  {
    DefaultKeysDistinct();
    categories := FromEntries(DefaultCategories);
  }

  /** The loop of `create_default_categories` over a table of entries with distinct keys. */
  method FromEntries(entries: seq<DefaultEntry>) returns (categories: map<string, DynamicCategory>)
    requires forall i, j :: 0 <= i < j < |entries| ==> entries[i].key != entries[j].key
    ensures categories.Keys == set i | 0 <= i < |entries| :: entries[i].key
    ensures forall i :: 0 <= i < |entries| ==> categories[entries[i].key] == FromEntry(entries[i])
    ensures forall k :: k in categories ==>
      categories[k].name == k && categories[k].prefix == k && categories[k].visible
  {
    categories := map[];
    for i := 0 to |entries|
      invariant categories.Keys == set j | 0 <= j < i :: entries[j].key
      invariant forall j :: 0 <= j < i ==> categories[entries[j].key] == FromEntry(entries[j])
      invariant forall k :: k in categories ==>
        categories[k].name == k && categories[k].prefix == k && categories[k].visible
    {
      var e := entries[i];
      categories := categories[e.key := FromEntry(e)];
    }
  }

  /** The default keys are pairwise distinct, so no entry overwrites another. */
  lemma DefaultKeysDistinct()
    ensures forall i, j :: 0 <= i < j < |DefaultCategories| ==>
      DefaultCategories[i].key != DefaultCategories[j].key
  {
  }

  /** The palette for categories created at run time. */
  const CategoryColors: seq<Rgb> := [
    (220, 60, 60), (60, 180, 60), (60, 100, 220), (255, 140, 0),
    (200, 80, 200), (0, 180, 180), (140, 80, 180), (255, 150, 180),
    (180, 140, 100), (140, 140, 140), (200, 200, 60), (60, 200, 140)]

  /** `get_next_color`: the palette entry at the count modulo the palette size (Python's `%` floors). */
  function NextColor(existingCount: int): (c: Rgb)
    ensures c in CategoryColors
  {
    CategoryColors[existingCount % |CategoryColors|]
  }

  /** The palette holds twelve different colours. */
  lemma PaletteDistinct()
    ensures forall i, j :: 0 <= i < j < |CategoryColors| ==> CategoryColors[i] != CategoryColors[j]
  {
  }

  /**
   * The palette cycles with period 12, and counts less than 12 apart get
   * different colours.
   */
  lemma NextColorCycles(n: int, j: int)
    requires 0 < j < 12
    ensures NextColor(n + 12) == NextColor(n)
    ensures NextColor(n + j) != NextColor(n)
  {
    assert (n + 12) % 12 == n % 12;
    assert (n + j) % 12 != n % 12;
    PaletteDistinct();
  }
}

=== FILE: config.dfy ===
/**
 * Application settings: the recent-file list, the responsive layout
 * breakpoints, theme lookup and the key filter applied to a saved settings
 * file before the settings record is built from it.
 */
module Config {
  import opened Wrappers

  // ---------------------------------------------------------------------------
  // Layout breakpoints
  // ---------------------------------------------------------------------------

  /** Window widths, in pixels, at which the layout changes. */
  const MinimalWidth: int := 700
  const CompactWidth: int := 1000
  const StandardWidth: int := 1400
  const FullWidth: int := 1800

  datatype LayoutMode = Minimal | Compact | Standard | Full

  /** The name `get_layout_mode` returns for a mode. */
  function LayoutName(m: LayoutMode): (r: string)
    ensures |r| > 0
  {
    match m
    case Minimal => "minimal"
    case Compact => "compact"
    case Standard => "standard"
    case Full => "full"
  }

  /** How many panels a mode shows, from fewest to most. */
  function Rank(m: LayoutMode): nat {
    match m
    case Minimal => 0
    case Compact => 1
    case Standard => 2
    case Full => 3
  }

  /** `get_layout_mode`: the first breakpoint the width lies below decides the mode. */
  function GetLayoutMode(width: int): (m: LayoutMode)
    ensures m == Minimal <==> width < MinimalWidth
    ensures m == Compact <==> MinimalWidth <= width < CompactWidth
    ensures m == Standard <==> CompactWidth <= width < StandardWidth
    ensures m == Full <==> StandardWidth <= width
  {
    if width < MinimalWidth then Minimal
    else if width < CompactWidth then Compact
    else if width < StandardWidth then Standard
    else Full
  }

  /** A wider window never gets a layout with fewer panels. */
  lemma LayoutMonotone(narrow: int, wide: int)
    requires narrow <= wide
    ensures Rank(GetLayoutMode(narrow)) <= Rank(GetLayoutMode(wide))
  {
  }

  /** Different modes have different names, so the returned string identifies the mode. */
  lemma LayoutNamesDistinct(a: LayoutMode, b: LayoutMode)
    requires LayoutName(a) == LayoutName(b)
    ensures a == b
  {
  }

  // ---------------------------------------------------------------------------
  // Themes
  // ---------------------------------------------------------------------------

  /** A theme's colour table: colour role to CSS colour. */
  datatype Palette = Palette(colors: map<string, string>)

  /** The theme names in the order the table declares them (`get_theme_names`). */
  const ThemeNames: seq<string> := ["dark", "light", "high_contrast"]

  /** The theme table, keyed by the names above. */
  function Themes(dark: Palette, light: Palette, highContrast: Palette): (t: map<string, Palette>)
    ensures t.Keys == set n | n in ThemeNames
    ensures t["dark"] == dark && t["light"] == light && t["high_contrast"] == highContrast
  {
    map["dark" := dark, "light" := light, "high_contrast" := highContrast]
  }

  /** `get_theme`: the named theme, falling back to the dark one for an unknown name. */
  function GetTheme(themes: map<string, Palette>, name: string): (r: Palette)
    requires "dark" in themes
    ensures name in themes ==> r == themes[name]
    ensures name !in themes ==> r == themes["dark"]
  {
    if name in themes then themes[name] else themes["dark"]
  }

  /** Over the real table, every name, known or not, resolves to one of its three themes. */
  lemma GetThemeTotal(dark: Palette, light: Palette, highContrast: Palette, name: string)
    ensures var r := GetTheme(Themes(dark, light, highContrast), name);
            r == dark || r == light || r == highContrast
    ensures name !in ThemeNames ==> GetTheme(Themes(dark, light, highContrast), name) == dark
  {
  }

  // ---------------------------------------------------------------------------
  // Recent files
  // ---------------------------------------------------------------------------

  predicate NoDuplicates<T(==)>(s: seq<T>) {
    forall i, j :: 0 <= i < j < |s| ==> s[i] != s[j]
  }

  /** The index of the first occurrence of p in s, as `list.remove` finds it. */
  function FirstIndex<T(==)>(s: seq<T>, p: T): (i: nat)
    requires p in s
    ensures i < |s| && s[i] == p && p !in s[..i]
  {
    if s[0] == p then 0
    else
      var i := FirstIndex(s[1..], p);
      assert s[..i + 1] == [s[0]] + s[1..][..i];
      i + 1
  }

  /** `list.remove(p)` when p is present; s itself otherwise. */
  function RemoveFirst<T(==)>(s: seq<T>, p: T): (r: seq<T>)
    ensures p !in s ==> r == s
    ensures p in s ==> |r| == |s| - 1
    ensures forall q :: q in r ==> q in s
  {
    if p in s then
      var i := FirstIndex(s, p);
      s[..i] + s[i + 1..]
    else s
  }

  /**
   * The list `add_recent_file` leaves: p moved (or added) to the front, then
   * cut to the maximum. Nothing but p and old entries ever appears in it.
   */
  function AddRecent(s: seq<string>, p: string, maxRecent: int): (r: seq<string>)
    ensures maxRecent >= 1 ==> |r| > 0 && r[0] == p
    ensures forall q :: q in r ==> q == p || q in s
  {
    var q := [p] + RemoveFirst(s, p);
    var r := Take(q, maxRecent);
    assert r <= q;
    assert forall x :: x in r ==> x in q;
    r
  }

  /**
   * p is first, the list never exceeds the maximum, and every other entry
   * is an entry of the old list in its old relative order: the old list
   * with p's first occurrence taken out, cut short.
   */
  lemma AddRecentShape(s: seq<string>, p: string, maxRecent: int)
    ensures var r := AddRecent(s, p, maxRecent);
            (|r| > 0 ==> r[0] == p && r[1..] <= RemoveFirst(s, p)) &&
            (maxRecent >= 1 ==> |r| > 0) &&
            (maxRecent >= 0 ==> |r| <= maxRecent) &&
            |r| <= |s| + 1
  {
    var r := AddRecent(s, p, maxRecent);
    var q := [p] + RemoveFirst(s, p);
    assert r <= q;
    if |r| > 0 {
      assert r[0] == q[0];
      assert r[1..] == q[1..|r|];
      assert q[1..] == RemoveFirst(s, p);
    }
  }

  /** Entry k of the shortened list is entry k of the old one before the removed index, entry k + 1 after it. */
  lemma RemoveFirstAt<T>(s: seq<T>, p: T, k: nat)
    requires p in s && k < |RemoveFirst(s, p)|
    ensures RemoveFirst(s, p)[k] == s[if k < FirstIndex(s, p) then k else k + 1]
  {
    var i := FirstIndex(s, p);
    var front, back := s[..i], s[i + 1..];
    assert RemoveFirst(s, p) == front + back;
    if k < i {
      assert (front + back)[k] == front[k] == s[k];
    } else {
      assert (front + back)[k] == back[k - i] == s[k + 1];
    }
  }

  /** Removing the first occurrence keeps the remaining entries distinct and drops p entirely. */
  lemma RemoveFirstNoDuplicates<T>(s: seq<T>, p: T)
    requires NoDuplicates(s)
    ensures NoDuplicates(RemoveFirst(s, p)) && p !in RemoveFirst(s, p)
  {
    if p in s {
      var i := FirstIndex(s, p);
      var r := RemoveFirst(s, p);
      forall k | 0 <= k < |r| ensures r[k] != p {
        RemoveFirstAt(s, p, k);
        if k < i { assert s[k] in s[..i]; }
      }
      forall a, b | 0 <= a < b < |r| ensures r[a] != r[b] {
        RemoveFirstAt(s, p, a);
        RemoveFirstAt(s, p, b);
      }
    }
  }

  /** When the list held each path at most once, after the call p occurs exactly once and nothing repeats. */
  lemma AddRecentOnce(s: seq<string>, p: string, maxRecent: int)
    requires NoDuplicates(s) && maxRecent >= 1
    ensures var r := AddRecent(s, p, maxRecent);
            |r| > 0 && r[0] == p && p !in r[1..] && NoDuplicates(r)
  {
    RemoveFirstNoDuplicates(s, p);
    AddRecentShape(s, p, maxRecent);
    var rest := RemoveFirst(s, p);
    var q := [p] + rest;
    var r := AddRecent(s, p, maxRecent);
    assert NoDuplicates(q) by {
      forall i, j | 0 <= i < j < |q| ensures q[i] != q[j] {
        if i == 0 { assert q[j] == rest[j - 1]; }
        else { assert q[i] == rest[i - 1] && q[j] == rest[j - 1]; }
      }
    }
    assert r <= q;
    assert forall k :: 0 <= k < |r| ==> r[k] == q[k];
    assert p !in r[1..] by {
      forall k | 1 <= k < |r| ensures r[k] != p { assert q[k] != q[0]; }
    }
  }

  /** Opening the file that is already the most recent leaves the list as it is. */
  lemma AddRecentIdempotent(s: seq<string>, p: string, maxRecent: int)
    requires maxRecent >= 1
    ensures AddRecent(AddRecent(s, p, maxRecent), p, maxRecent) == AddRecent(s, p, maxRecent)
  {
    var r := AddRecent(s, p, maxRecent);
    AddRecentShape(s, p, maxRecent);
    assert FirstIndex(r, p) == 0;
    assert RemoveFirst(r, p) == r[1..];
    assert [p] + r[1..] == r;
  }

  /** The fields of the settings record that this model tracks. */
  class AppSettings {
    var theme: string
    var lastWorkspace: string
    var recentFiles: seq<string>
    var maxRecentFiles: int

    /** The record's defaults. */
    constructor()
      ensures theme == "dark" && lastWorkspace == "" && recentFiles == [] && maxRecentFiles == 10
    {
      theme := "dark";
      lastWorkspace := "";
      recentFiles := [];
      maxRecentFiles := 10;
    }

    /** `add_recent_file`: remove p if listed, insert it at the front, cut to the maximum. */
    method AddRecentFile(path: string)
      modifies this
      ensures recentFiles == AddRecent(old(recentFiles), path, maxRecentFiles)
      ensures theme == old(theme) && lastWorkspace == old(lastWorkspace) && maxRecentFiles == old(maxRecentFiles)
    {
      if path in recentFiles {
        var i := FirstIndex(recentFiles, path);
        recentFiles := recentFiles[..i] + recentFiles[i + 1..];
      }
      recentFiles := [path] + recentFiles;
      recentFiles := Take(recentFiles, maxRecentFiles);
    }
  }

  // ---------------------------------------------------------------------------
  // Loading
  // ---------------------------------------------------------------------------

  /** The field names of the settings record. */
  const FieldNames: set<string> := {
    "theme", "ui_scale", "tolerance", "line_thickness", "planform_opacity", "snap_distance",
    "window_width", "window_height", "window_x", "window_y", "window_maximized",
    "sidebar_width", "sidebar_visible", "sidebar_collapsed",
    "tree_width", "tree_visible", "tree_collapsed",
    "last_workspace", "recent_files", "max_recent_files",
    "show_labels", "show_grid", "default_zoom", "tree_density",
    "show_ruler", "ruler_unit", "default_dpi",
    "auto_collapse_panels", "compact_toolbar",
    "auto_detect_text", "auto_detect_hatch"
  }

  /** The filter `load_settings` applies to the decoded file: unknown keys are dropped. */
  function KnownFields<V>(data: map<string, V>): (r: map<string, V>)
    ensures forall k :: k in r <==> k in data && k in FieldNames
    ensures forall k :: k in r ==> r[k] == data[k]
  {
    map k | k in data && k in FieldNames :: data[k]
  }

  /**
   * Filtering never yields a key the record does not declare, so building
   * the record from it cannot fail on an unexpected keyword; and a file the
   * application wrote itself (keys are field names) passes unchanged.
   */
  lemma KnownFieldsSafe<V>(data: map<string, V>)
    ensures KnownFields(data).Keys <= FieldNames
    ensures data.Keys <= FieldNames ==> KnownFields(data) == data
    ensures KnownFields(KnownFields(data)) == KnownFields(data)
  {
  }
}

=== FILE: drawing.dfy ===
/**
 * The drawing tools: each collects points from mouse and key events and,
 * when a selection is complete, yields a new segment element whose mask
 * the segmentation engine draws. The tools of the program are subclasses
 * of one base; here one class carries the kind of tool it is.
 */
module Drawing {
  import opened Wrappers
  import opened Masks
  import opened Elements
  import opened Segmentation
  import Geometry

  datatype ToolKind = FloodFill | Select | Polyline | Freeform | Line

  /** `create_tool`: the tool for a mode name; None stands for the ValueError on any other name. */
  function ToolFor(mode: string): (r: Option<ToolKind>)
    ensures r.Some? <==> mode in {"flood", "select", "polyline", "freeform", "line"}
    ensures r == Some(FloodFill) <==> mode == "flood"
    ensures r == Some(Polyline) <==> mode == "polyline"
  {
    if mode == "flood" then Some(FloodFill)
    else if mode == "select" then Some(Select)
    else if mode == "polyline" then Some(Polyline)
    else if mode == "freeform" then Some(Freeform)
    else if mode == "line" then Some(Line)
    else None
  }

  /** The `mode` property: the class name without "Tool", in lower case. */
  function ModeName(kind: ToolKind): string {
    match kind
    case FloodFill => "floodfill"
    case Select => "select"
    case Polyline => "polyline"
    case Freeform => "freeform"
    case Line => "line"
  }

  /**
   * The factory accepts every tool's own mode name except the flood fill
   * tool's: that class is named FloodFillTool, so its mode reads
   * "floodfill", while the factory and its elements say "flood".
   */
  lemma ModeNameRoundTrip(kind: ToolKind)
    ensures kind != FloodFill ==> ToolFor(ModeName(kind)) == Some(kind)
    ensures ToolFor(ModeName(FloodFill)) == None
  {
    assert ModeName(FloodFill) != "flood";
  }

  /**
   * The engine calls a tool makes: cv2's polygon filling and polyline
   * drawing, the engine's line thickness, and its flood fill over the
   * tool's source image.
   */
  datatype Engine = Engine(
    lineThickness: int,
    floodFill: Point -> Mask,
    fillPoly: (Mask, seq<Point>) -> Mask,
    polylines: (Mask, seq<Point>, int) -> Mask)

  /** The fewest points a tool finishes with. */
  function MinPoints(kind: ToolKind): nat {
    match kind
    case Polyline => 3
    case Line => 2
    case Freeform => 2
    case _ => 1
  }

  /** An element as the tools create it: a fresh id, the default label position, no anchor offset. */
  function NewElement(id: string, category: string, mode: string, points: seq<Point>, mask: Mask, color: Rgb): (e: SegmentElement)
    ensures e.elementId == id && e.category == category && e.mode == mode && e.points == points
    ensures e.mask == Some(mask) && e.color == color
    ensures e.labelPosition == "center" && e.labelAnchorOffset.None?
  {
    SegmentElement(id, category, mode, points, Some(mask), color, "center", None)
  }

  class DrawingTool {
    const kind: ToolKind
    const engine: Engine
    const category: string
    const color: Rgb
    /** image_shape is (h, w). */
    const h: nat
    const w: nat
    /** How near the first point a polyline click closes the polygon. */
    const snapDistance: int
    /** `get_element_at_point` for the select tool: the id of the element hit, if any. */
    const elementAt: (int, int) -> Option<string>

    var points: seq<Point>
    var isActive: bool
    var isDrawing: bool
    var selectedElementId: Option<string>
    /** The point lists handed to `on_points_changed`, oldest first. */
    var notices: seq<seq<Point>>

    /** Every collected point lies in the image, and only a freeform tool draws. */
    ghost predicate Valid()
      reads this
    {
      (forall p :: p in points ==> ValidPoint(p.0, p.1)) &&
      (isDrawing ==> kind == Freeform)
    }

    constructor(kind: ToolKind, engine: Engine, category: string, color: Rgb, h: nat, w: nat,
                snapDistance: int, elementAt: (int, int) -> Option<string>)
      ensures Valid()
      ensures this.kind == kind && this.engine == engine && this.category == category && this.color == color
      ensures this.h == h && this.w == w && this.snapDistance == snapDistance && this.elementAt == elementAt
      ensures points == [] && !isActive && !isDrawing && selectedElementId.None? && notices == []
    {
      this.kind := kind;
      this.engine := engine;
      this.category := category;
      this.color := color;
      this.h := h;
      this.w := w;
      this.snapDistance := snapDistance;
      this.elementAt := elementAt;
      points := [];
      isActive := false;
      isDrawing := false;
      selectedElementId := None;
      notices := [];
    }

    /** `_validate_point`: inside the image. */
    predicate ValidPoint(x: int, y: int) {
      0 <= x < w && 0 <= y < h
    }

    /**
     * The mask of a finished selection: the closed polygon for a polyline,
     * a line of the engine's thickness, or a freeform stroke three times as thick.
     */
    function ShapeMask(pts: seq<Point>): (m: Mask)
      requires kind in {Polyline, Line, Freeform}
      ensures |pts| < MinPoints(kind) ==> m == Zeros(h, w)
      ensures kind == Polyline && |pts| >= 3 ==> m == engine.fillPoly(Zeros(h, w), pts)
      ensures kind == Line && |pts| >= 2 ==> m == engine.polylines(Zeros(h, w), pts, engine.lineThickness)
      ensures kind == Freeform && |pts| >= 2 ==> m == engine.polylines(Zeros(h, w), pts, 3 * engine.lineThickness)
    {
      match kind
      case Polyline => CreatePolygonMask(h, w, pts, true, engine.lineThickness, engine.fillPoly, engine.polylines)
      case Line => CreateLineMask(h, w, pts, None, engine.lineThickness, engine.polylines)
      case Freeform => CreateFreeformMask(h, w, pts, None, engine.lineThickness, engine.polylines)
    }

    /** `start`: active, with no points. */
    method Start()
      requires Valid()
      modifies this
      ensures Valid()
      ensures isActive && points == []
      ensures isDrawing == old(isDrawing) && selectedElementId == old(selectedElementId) && notices == old(notices)
    {
      isActive := true;
      points := [];
    }

    /** `cancel`: no points, inactive, and one notice of the empty list; a freeform stroke stays drawing. */
    method Cancel()
      requires Valid()
      modifies this
      ensures Valid()
      ensures !isActive && points == [] && notices == old(notices) + [[]]
      ensures isDrawing == old(isDrawing) && selectedElementId == old(selectedElementId)
    {
      points := [];
      isActive := false;
      notices := notices + [points];
    }

    /** `undo_last_point`: drops the last point and notifies, or does nothing without points. */
    method UndoLastPoint()
      requires Valid()
      modifies this
      ensures Valid()
      ensures |old(points)| == 0 ==> points == [] && notices == old(notices)
      ensures |old(points)| > 0 ==> points == old(points)[..|old(points)| - 1] && notices == old(notices) + [points]
      ensures isActive == old(isActive) && isDrawing == old(isDrawing) && selectedElementId == old(selectedElementId)
    {
      if |points| > 0 {
        points := points[..|points| - 1];
        notices := notices + [points];
      }
    }

    /** `get_preview_points`. */
    function PreviewPoints(): seq<Point>
      reads this
    {
      points
    }

    /** `get_snap_target` of the polyline tool: the first point once there are three. */
    function SnapTarget(): (r: Option<Point>)
      reads this
      ensures r.Some? <==> |points| >= 3
      ensures r.Some? ==> r.value == points[0]
    {
      if |points| >= 3 then Some(points[0]) else None
    }

    /**
     * `_finish` of the polyline and line tools: with enough points, an
     * element holding them, the points cleared and a notice sent; with
     * fewer, nothing changes.
     */
    method Finish(freshId: string) returns (e: Option<SegmentElement>)
      requires Valid() && kind in {Polyline, Line}
      modifies this
      ensures Valid()
      ensures |old(points)| < MinPoints(kind) ==> e.None? && points == old(points) && notices == old(notices)
      ensures |old(points)| >= MinPoints(kind) ==>
        e == Some(NewElement(freshId, category, ModeName(kind), old(points), ShapeMask(old(points)), color)) &&
        points == [] && notices == old(notices) + [[]]
      ensures e.Some? ==> forall p :: p in e.value.points ==> ValidPoint(p.0, p.1)
      ensures isActive == old(isActive) && isDrawing == old(isDrawing) && selectedElementId == old(selectedElementId)
    {
      if |points| < MinPoints(kind) {
        return None;
      }
      var mask := ShapeMask(points);
      var pts := points;
      points := [];
      notices := notices + [points];
      e := Some(NewElement(freshId, category, ModeName(kind), pts, mask, color));
    }

    /**
     * `on_click`. An invalid point changes nothing. A flood fill yields an
     * element unless the filled mask is all zero; select records the id of
     * the element hit; a polyline with three points closes when the click
     * snaps to its first point and otherwise takes the point; a freeform
     * tool starts a new stroke; a line takes the point.
     */
    method OnClick(x: int, y: int, freshId: string) returns (e: Option<SegmentElement>)
      requires Valid()
      modifies this
      ensures Valid()
      ensures isActive == old(isActive)
      ensures !ValidPoint(x, y) ==>
        e.None? && points == old(points) && isDrawing == old(isDrawing) &&
        selectedElementId == old(selectedElementId) && notices == old(notices)
      ensures ValidPoint(x, y) && kind == FloodFill ==>
        points == old(points) && notices == old(notices) &&
        (e.Some? <==> OnCount(engine.floodFill((x, y))) > 0) &&
        (e.Some? ==> e.value == NewElement(freshId, category, "flood", [(x, y)], engine.floodFill((x, y)), color))
      ensures ValidPoint(x, y) && kind == Select ==>
        e.None? && selectedElementId == elementAt(x, y) && points == old(points) && notices == old(notices)
      ensures ValidPoint(x, y) && kind == Polyline &&
              |old(points)| >= 3 && Geometry.SnapToPoint((x, y), old(points)[0], snapDistance).Some? ==>
        e == Some(NewElement(freshId, category, "polyline", old(points), ShapeMask(old(points)), color)) &&
        points == [] && notices == old(notices) + [[]]
      ensures ValidPoint(x, y) && kind == Polyline &&
              !(|old(points)| >= 3 && Geometry.SnapToPoint((x, y), old(points)[0], snapDistance).Some?) ==>
        e.None? && points == old(points) + [(x, y)] && notices == old(notices) + [points]
      ensures ValidPoint(x, y) && kind == Freeform ==>
        e.None? && isDrawing && points == [(x, y)] && notices == old(notices) + [points]
      ensures ValidPoint(x, y) && kind == Line ==>
        e.None? && points == old(points) + [(x, y)] && notices == old(notices) + [points]
      ensures kind != Freeform ==> isDrawing == old(isDrawing)
      ensures e.Some? ==> forall p :: p in e.value.points ==> ValidPoint(p.0, p.1)
      ensures kind != Select ==> selectedElementId == old(selectedElementId)
    {
      if !ValidPoint(x, y) {
        return None;
      }
      match kind
      case FloodFill =>
        var mask := engine.floodFill((x, y));
        if OnCount(mask) == 0 {
          return None;
        }
        e := Some(NewElement(freshId, category, "flood", [(x, y)], mask, color));
      case Select =>
        selectedElementId := elementAt(x, y);
        e := None;
      case Polyline =>
        if |points| >= 3 && Geometry.SnapToPoint((x, y), points[0], snapDistance).Some? {
          e := Finish(freshId);
          return;
        }
        points := points + [(x, y)];
        notices := notices + [points];
        e := None;
      case Freeform =>
        isDrawing := true;
        points := [(x, y)];
        notices := notices + [points];
        e := None;
      case Line =>
        points := points + [(x, y)];
        notices := notices + [points];
        e := None;
    }

    /** `on_double_click`: a polyline with three points finishes; otherwise nothing happens. */
    method OnDoubleClick(x: int, y: int, freshId: string) returns (e: Option<SegmentElement>)
      requires Valid()
      modifies this
      ensures Valid()
      ensures kind == Polyline && |old(points)| >= 3 ==>
        e == Some(NewElement(freshId, category, "polyline", old(points), ShapeMask(old(points)), color)) &&
        points == [] && notices == old(notices) + [[]]
      ensures !(kind == Polyline && |old(points)| >= 3) ==> e.None? && points == old(points) && notices == old(notices)
      ensures isActive == old(isActive) && isDrawing == old(isDrawing) && selectedElementId == old(selectedElementId)
    {
      if kind == Polyline && |points| >= 3 {
        e := Finish(freshId);
      } else {
        e := None;
      }
    }

    /** `on_key`: Return finishes a polyline with three points or a line with two; anything else does nothing. */
    method OnKey(key: string, freshId: string) returns (e: Option<SegmentElement>)
      requires Valid()
      modifies this
      ensures Valid()
      ensures kind in {Polyline, Line} && key == "Return" && |old(points)| >= MinPoints(kind) ==>
        e == Some(NewElement(freshId, category, ModeName(kind), old(points), ShapeMask(old(points)), color)) &&
        points == [] && notices == old(notices) + [[]]
      ensures !(kind in {Polyline, Line} && key == "Return" && |old(points)| >= MinPoints(kind)) ==>
        e.None? && points == old(points) && notices == old(notices)
      ensures isActive == old(isActive) && isDrawing == old(isDrawing) && selectedElementId == old(selectedElementId)
    {
      if kind in {Polyline, Line} && key == "Return" && |points| >= MinPoints(kind) {
        e := Finish(freshId);
      } else {
        e := None;
      }
    }

    /** `on_drag`: a freeform stroke in progress takes each valid point. */
    method OnDrag(x: int, y: int)
      requires Valid()
      modifies this
      ensures Valid()
      ensures isDrawing && ValidPoint(x, y) ==> points == old(points) + [(x, y)] && notices == old(notices) + [points]
      ensures !(isDrawing && ValidPoint(x, y)) ==> points == old(points) && notices == old(notices)
      ensures isActive == old(isActive) && isDrawing == old(isDrawing) && selectedElementId == old(selectedElementId)
    {
      if isDrawing && ValidPoint(x, y) {
        points := points + [(x, y)];
        notices := notices + [points];
      }
    }

    /**
     * `on_release`: ends a freeform stroke. A stroke of one point is
     * dropped without a notice; a longer one becomes a "freeform" element.
     */
    method OnRelease(x: int, y: int, freshId: string) returns (e: Option<SegmentElement>)
      requires Valid()
      modifies this
      ensures Valid()
      ensures !old(isDrawing) ==> e.None? && points == old(points) && notices == old(notices) && !isDrawing
      ensures old(isDrawing) && |old(points)| < 2 ==> e.None? && points == [] && notices == old(notices) && !isDrawing
      ensures old(isDrawing) && |old(points)| >= 2 ==>
        e == Some(NewElement(freshId, category, "freeform", old(points), ShapeMask(old(points)), color)) &&
        points == [] && notices == old(notices) + [[]] && !isDrawing
      ensures e.Some? ==> forall p :: p in e.value.points ==> ValidPoint(p.0, p.1)
      ensures isActive == old(isActive) && selectedElementId == old(selectedElementId)
    {
      if !isDrawing {
        return None;
      }
      isDrawing := false;
      if |points| < 2 {
        points := [];
        return None;
      }
      var mask := ShapeMask(points);
      var pts := points;
      points := [];
      notices := notices + [points];
      e := Some(NewElement(freshId, category, "freeform", pts, mask, color));
    }
  }
}

=== FILE: elements.dfy ===
/**
 * The desktop `SegmentElement`: one selected region with its mask, its
 * label placement and its dictionary form (which carries the mask as a
 * cropped run-length encoding for the 'auto' and 'rect' modes).
 */
module Elements {
  import opened Wrappers
  import opened Masks
  import opened MaskGeometry
  import opened Rle

  type Rgb = (int, int, int)

  datatype SegmentElement = SegmentElement(
    elementId: string,
    category: string,
    mode: string,
    points: seq<Point>,
    mask: Option<Mask>,
    color: Rgb,
    labelPosition: string,
    labelAnchorOffset: Option<Point>)

  predicate ElementOk(e: SegmentElement) {
    e.mask.Some? ==> WellFormed(e.mask.value)
  }

  /** No mask, or a mask with no pixel on. */
  predicate Empty(e: SegmentElement)
    requires ElementOk(e)
  {
    e.mask.None? || !HasOn(e.mask.value)
  }

  /** `__post_init__`: an empty id is replaced by a fresh id (a uuid prefix in Python). */
  function PostInit(e: SegmentElement, freshId: string): (r: SegmentElement)
    ensures r.(elementId := e.elementId) == e
    ensures r.elementId == (if e.elementId == "" then freshId else e.elementId)
  {
    if e.elementId == "" then e.(elementId := freshId) else e
  }

  /** `bounds`: the inclusive extremes of the pixels that are on, None without any. */
  function ElementBounds(e: SegmentElement): (r: Option<Box>)
    requires ElementOk(e)
    ensures r.None? <==> Empty(e)
    ensures r.Some? ==> (Encloses(e.mask.value, r.value) &&
      ColHasOn(e.mask.value, r.value.x1) && ColHasOn(e.mask.value, r.value.x2) &&
      RowHasOn(e.mask.value, r.value.y1) && RowHasOn(e.mask.value, r.value.y2))
  {
    if e.mask.None? then None else Bounds(e.mask.value)
  }

  /** `area`: the number of pixels above 0; 0 without a mask. */
  function Area(e: SegmentElement): (r: nat)
    requires ElementOk(e)
    ensures r == 0 <==> Empty(e)
    ensures e.mask.Some? ==> r <= e.mask.value.h * e.mask.value.w
  {
    if e.mask.None? then 0
    else
      OnCountZero(e.mask.value);
      OnCountBound(e.mask.value);
      OnCount(e.mask.value)
  }

  /** `contains_point`: false without a mask or outside it, else whether the pixel is on. */
  function ContainsPoint(e: SegmentElement, x: int, y: int): (r: bool)
    requires ElementOk(e)
    ensures r <==> e.mask.Some? && On(e.mask.value, x, y)
  {
    if e.mask.None? then false
    else if !(0 <= x < e.mask.value.w && 0 <= y < e.mask.value.h) then false
    else e.mask.value.rows[y][x] > 0
  }

  /** A point the element contains lies inside its bounding box. */
  lemma ContainedPointInBounds(e: SegmentElement, x: int, y: int)
    requires ElementOk(e) && ContainsPoint(e, x, y)
    ensures ElementBounds(e).Some?
    ensures var b := ElementBounds(e).value; b.x1 <= x <= b.x2 && b.y1 <= y <= b.y2
  {
  }

  /** `centroid`: the floor of the mean coordinates of the on pixels; it lies inside the bounds. */
  function ElementCentroid(e: SegmentElement): (r: Option<Point>)
    requires ElementOk(e)
    ensures r.None? <==> Empty(e)
    ensures r.Some? ==> (ElementBounds(e).Some? &&
      var b := ElementBounds(e).value;
      b.x1 <= r.value.0 <= b.x2 && b.y1 <= r.value.1 <= b.y2)
    ensures r.Some? ==> var m := e.mask.value;
      r.value.0 * OnCount(m) <= RowsSumX(m.rows) < (r.value.0 + 1) * OnCount(m) &&
      r.value.1 * OnCount(m) <= RowsSumY(m.rows) < (r.value.1 + 1) * OnCount(m)
  {
    if e.mask.None? then None
    else
      if HasOn(e.mask.value) then CentroidInBounds(e.mask.value); Centroid(e.mask.value)
      else Centroid(e.mask.value)
  }

  const LabelPositions: seq<string> := [
    "top-left", "top-center", "top-right",
    "middle-left", "center", "middle-right",
    "bottom-left", "bottom-center", "bottom-right"]

  /** The fixed placement table of `get_label_position`, relative to the bounds and the anchor point. */
  function PlaceLabel(position: string, b: Box, cx: int, cy: int): (p: Point)
    ensures b.x1 <= cx <= b.x2 && b.y1 <= cy <= b.y2 ==>
      b.x1 - 5 <= p.0 <= b.x2 + 5 && b.y1 - 5 <= p.1 <= b.y2 + 15
    ensures position !in LabelPositions ==> p == (cx, cy)
  {
    match position
    case "top-left" => (b.x1, b.y1 - 5)
    case "top-center" => (cx, b.y1 - 5)
    case "top-right" => (b.x2, b.y1 - 5)
    case "middle-left" => (b.x1 - 5, cy)
    case "center" => (cx, cy)
    case "middle-right" => (b.x2 + 5, cy)
    case "bottom-left" => (b.x1, b.y2 + 15)
    case "bottom-center" => (cx, b.y2 + 15)
    case "bottom-right" => (b.x2, b.y2 + 15)
    case _ => (cx, cy)
  }

  /**
   * `get_label_position`: None without pixels on; centroid plus offset when
   * a custom offset is set; otherwise a table entry near the bounds, with
   * unknown names falling back to the centroid.
   */
  function LabelPosition(e: SegmentElement): (r: Option<Point>)
    requires ElementOk(e)
    ensures r.None? <==> Empty(e)
    ensures r.Some? && e.labelAnchorOffset.Some? ==>
      var c, d := ElementCentroid(e).value, e.labelAnchorOffset.value;
      r.value == (c.0 + d.0, c.1 + d.1)
    ensures r.Some? && e.labelAnchorOffset.None? ==>
      var b := ElementBounds(e).value;
      b.x1 - 5 <= r.value.0 <= b.x2 + 5 && b.y1 - 5 <= r.value.1 <= b.y2 + 15
    ensures r.Some? && e.labelAnchorOffset.None? && e.labelPosition !in LabelPositions ==>
      r == ElementCentroid(e)
  {
    match ElementCentroid(e)
    case None => None
    case Some(c) =>
      if e.labelAnchorOffset.Some? then
        Some((c.0 + e.labelAnchorOffset.value.0, c.1 + e.labelAnchorOffset.value.1))
      else
        match ElementBounds(e)
        case None => Some(c)
        case Some(b) => Some(PlaceLabel(e.labelPosition, b, c.0, c.1))
  }

  // ---------------------------------------------------------------------
  // Dictionary form
  // ---------------------------------------------------------------------

  /** The cropped mask of a dictionary: `mask_bbox`, `mask_shape`, `mask_rle`. */
  datatype MaskRecord = MaskRecord(bbox: seq<int>, shape: seq<int>, rle: seq<Run>)

  /** A dictionary as read or written; None is a missing key (or a null value). */
  datatype ElementRecord = ElementRecord(
    elementId: Option<string>,
    category: Option<string>,
    mode: Option<string>,
    points: Option<seq<Point>>,
    labelPosition: Option<string>,
    labelAnchorOffset: Option<Point>,
    maskData: Option<MaskRecord>)

  /** The six keys every `to_dict` writes. */
  function Fields(e: SegmentElement): (d: ElementRecord)
    ensures d.elementId.Some? && d.category.Some? && d.mode.Some? && d.points.Some? && d.labelPosition.Some?
    ensures d.maskData.None?
  {
    ElementRecord(Some(e.elementId), Some(e.category), Some(e.mode), Some(e.points),
                  Some(e.labelPosition), e.labelAnchorOffset, None)
  }

  /** The inclusive bounds made exclusive: `[x1, y1, x2 + 1, y2 + 1]`. */
  function ExclusiveBox(b: Box): seq<int> {
    [b.x1, b.y1, b.x2 + 1, b.y2 + 1]
  }

  /** The crop of a mask to its bounding box. */
  function CropToBounds(m: Mask): (c: Mask)
    requires WellFormed(m) && HasOn(m)
    ensures WellFormed(c)
    ensures var b := Bounds(m).value; c.h == b.y2 + 1 - b.y1 && c.w == b.x2 + 1 - b.x1
    ensures var b := Bounds(m).value;
      forall x, y :: 0 <= x < c.w && 0 <= y < c.h ==> c.rows[y][x] == m.rows[b.y1 + y][b.x1 + x]
  {
    var b := Bounds(m).value;
    Crop(m, b.x1, b.y1, b.x2 + 1, b.y2 + 1)
  }

  /** True when the record holds m cropped to its bounds with a maximal encoding of the crop. */
  predicate HoldsCrop(m: Mask, md: MaskRecord)
    requires WellFormed(m) && HasOn(m)
  {
    var b, c := Bounds(m).value, CropToBounds(m);
    md.bbox == ExclusiveBox(b) && md.shape == [c.h, c.w] &&
    Maximal(md.rle) && Expand(md.rle) == Flatten(c.rows)
  }

  /**
   * `to_dict`: the six fields, plus `mask_bbox`, `mask_shape` and `mask_rle`
   * exactly when the mode is 'auto' or 'rect' and some pixel is on.
   */
  method ToDict(e: SegmentElement) returns (d: ElementRecord)
    requires ElementOk(e)
    ensures d.(maskData := None) == Fields(e)
    ensures d.maskData.Some? <==> (e.mode == "auto" || e.mode == "rect") && !Empty(e)
    ensures d.maskData.Some? ==> HoldsCrop(e.mask.value, d.maskData.value)
  {
    d := Fields(e);
    if (e.mode == "auto" || e.mode == "rect") && e.mask.Some? {
      var m := e.mask.value;
      var b := Bounds(m);
      if b.Some? {
        var cropped := CropToBounds(m);
        var runs := Encode(cropped);
        d := d.(maskData := Some(MaskRecord(ExclusiveBox(b.value), [cropped.h, cropped.w], runs)));
      }
    }
  }

  /** Writing the crop back at its bounds into a blank mask of the same size reproduces the mask. */
  lemma PasteCropToBounds(m: Mask)
    requires WellFormed(m) && HasOn(m)
    ensures var b := Bounds(m).value;
      Paste(Zeros(m.h, m.w), CropToBounds(m), b.x1, b.y1) == m
  {
    var b := Bounds(m).value;
    var c := CropToBounds(m);
    forall x, y | 0 <= x < m.w && 0 <= y < m.h && !(b.x1 <= x < b.x1 + c.w && b.y1 <= y < b.y1 + c.h)
      ensures m.rows[y][x] == 0
    {
      assert !(m.rows[y][x] > 0);
    }
    PasteWindowBack(m, c, b.x1, b.y1);
  }

  /** Pasting into a blank mask a window of m, where m is 0 outside the window, gives m. */
  lemma PasteWindowBack(m: Mask, c: Mask, x1: nat, y1: nat)
    requires WellFormed(m) && WellFormed(c) && x1 + c.w <= m.w && y1 + c.h <= m.h
    requires forall x, y :: 0 <= x < c.w && 0 <= y < c.h ==> c.rows[y][x] == m.rows[y1 + y][x1 + x]
    requires forall x, y :: 0 <= x < m.w && 0 <= y < m.h && !(x1 <= x < x1 + c.w && y1 <= y < y1 + c.h) ==>
      m.rows[y][x] == 0
    ensures Paste(Zeros(m.h, m.w), c, x1, y1) == m
  {
    var p := Paste(Zeros(m.h, m.w), c, x1, y1);
    forall x, y | 0 <= x < m.w && 0 <= y < m.h ensures p.rows[y][x] == m.rows[y][x] {
      if x1 <= x < x1 + c.w && y1 <= y < y1 + c.h {
        assert c.rows[y - y1][x - x1] == m.rows[y1 + (y - y1)][x1 + (x - x1)];
      }
    }
    GridExt(p, m);
  }

  /**
   * Decoding a written crop with its `mask_shape` gives the crop back, and
   * writing that crop at its `mask_bbox` into a blank mask of the element's
   * size reproduces the whole mask (every pixel outside the bounds is 0).
   */
  lemma CropRoundTrip(m: Mask, md: MaskRecord)
    requires WellFormed(m) && HasOn(m) && HoldsCrop(m, md)
    ensures DecodeSpec(md.rle, md.shape[0], md.shape[1]) == Ok(CropToBounds(m))
    ensures 0 <= md.bbox[0] && md.bbox[2] <= m.w && 0 <= md.bbox[1] && md.bbox[3] <= m.h
    ensures Paste(Zeros(m.h, m.w), CropToBounds(m), md.bbox[0], md.bbox[1]) == m
  {
    DecodeOfFlattening(CropToBounds(m), md.rle);
    PasteCropToBounds(m);
  }

  /** `from_dict`: missing keys default to "", "", "flood", [], "center" and no offset. */
  function FromDict(d: ElementRecord, mask: Option<Mask>, color: Rgb, freshId: string): (e: SegmentElement)
    ensures e.mask == mask && e.color == color
    ensures e.category == d.category.GetOr("") && e.mode == d.mode.GetOr("flood")
    ensures e.points == d.points.GetOr([]) && e.labelPosition == d.labelPosition.GetOr("center")
    ensures e.labelAnchorOffset == d.labelAnchorOffset
    ensures e.elementId == (if d.elementId.GetOr("") == "" then freshId else d.elementId.value)
    ensures e.elementId != "" <== freshId != ""
  {
    PostInit(SegmentElement(d.elementId.GetOr(""), d.category.GetOr(""), d.mode.GetOr("flood"),
                            d.points.GetOr([]), mask, color, d.labelPosition.GetOr("center"),
                            d.labelAnchorOffset), freshId)
  }

  /**
   * `from_dict(to_dict(e))` with e's own mask and colour gives e back:
   * id, category, mode, points, label position and offset all survive,
   * whatever mask data the dictionary also carries.
   */
  lemma FromDictToDict(e: SegmentElement, md: Option<MaskRecord>, freshId: string)
    requires e.elementId != ""
    ensures FromDict(Fields(e).(maskData := md), e.mask, e.color, freshId) == e
  {
  }
}

=== FILE: floodfill.dfy ===
/**
 * The pure-Python breadth-first flood fill of the iPad segmentation engine
 * (`_flood_fill_pil`), used when OpenCV is not available, and the seed
 * guard of its `flood_fill` entry point.
 */
module FloodFill {
  import opened Masks

  /** A pixel as its channel values: one for a grey image, three for colour. */
  type Pixel = seq<Byte>

  type Image = Grid<Pixel>

  /**
   * A well-formed image as the fill reads it after converting to RGB or to
   * grey: every pixel has three channels, or every pixel has one.
   */
  predicate ImageOk(img: Image) {
    WellFormed(img) && img.h > 0 && img.w > 0 &&
    (|img.rows[0][0]| == 1 || |img.rows[0][0]| == 3) &&
    forall x, y :: 0 <= x < img.w && 0 <= y < img.h ==> |img.rows[y][x]| == |img.rows[0][0]|
  }

  function Abs(n: int): nat {
    if n < 0 then -n else n
  }

  /** The sum over channels of the absolute channel differences. */
  function DiffSum(p: Pixel, t: Pixel): nat
    requires |p| == |t|
  {
    if p == [] then 0 else Abs(p[0] as int - t[0] as int) + DiffSum(p[1..], t[1..])
  }

  /**
   * The colour test: `diff = sum(|a - b|) / channels` (or `|p - t|` for a
   * grey pixel) must not exceed the tolerance. Both forms are the exact
   * integer comparison below.
   */
  predicate Accepts(p: Pixel, t: Pixel, tolerance: int)
    requires |p| == |t|
  {
    DiffSum(p, t) <= tolerance * |p|
  }

  /** The pixel is inside the image and passes the colour test against the seed's colour. */
  predicate Acceptable(img: Image, seed: Point, tolerance: int, q: Point)
    requires ImageOk(img) && InBounds(img, seed.0, seed.1)
  {
    InBounds(img, q.0, q.1) && Accepts(img.rows[q.1][q.0], img.rows[seed.1][seed.0], tolerance)
  }

  /** q is one of the four neighbours of p. */
  predicate Adjacent(p: Point, q: Point) {
    q == (p.0 - 1, p.1) || q == (p.0 + 1, p.1) || q == (p.0, p.1 - 1) || q == (p.0, p.1 + 1)
  }

  /** A 4-connected path from the seed through acceptable pixels. */
  ghost predicate IsPath(img: Image, seed: Point, tolerance: int, path: seq<Point>)
    requires ImageOk(img) && InBounds(img, seed.0, seed.1)
  {
    |path| >= 1 && path[0] == seed &&
    (forall k :: 0 <= k < |path| ==> Acceptable(img, seed, tolerance, path[k])) &&
    (forall k :: 0 < k < |path| ==> Adjacent(path[k - 1], path[k]))
  }

  /** The connectivity specification of the fill. */
  ghost predicate Reachable(img: Image, seed: Point, tolerance: int, q: Point)
    requires ImageOk(img) && InBounds(img, seed.0, seed.1)
  {
    exists path :: IsPath(img, seed, tolerance, path) && path[|path| - 1] == q
  }

  ghost function Cells(img: Image): set<Point> {
    set x, y | 0 <= x < img.w && 0 <= y < img.h :: (x, y)
  }

  lemma ReachableSeed(img: Image, seed: Point, tolerance: int)
    requires ImageOk(img) && InBounds(img, seed.0, seed.1)
    requires Acceptable(img, seed, tolerance, seed)
    ensures Reachable(img, seed, tolerance, seed)
  {
    assert IsPath(img, seed, tolerance, [seed]);
  }

  lemma ReachableStep(img: Image, seed: Point, tolerance: int, p: Point, q: Point)
    requires ImageOk(img) && InBounds(img, seed.0, seed.1)
    requires Reachable(img, seed, tolerance, p) && Adjacent(p, q) && Acceptable(img, seed, tolerance, q)
    ensures Reachable(img, seed, tolerance, q)
  {
    var path :| IsPath(img, seed, tolerance, path) && path[|path| - 1] == p;
    assert IsPath(img, seed, tolerance, path + [q]);
  }

  /** Every pixel of a path lies in a set that holds the path's start and is closed under acceptable steps. */
  lemma {:induction false} ClosedContainsPath(img: Image, seed: Point, tolerance: int,
                                              visited: set<Point>, path: seq<Point>, k: nat)
    requires ImageOk(img) && InBounds(img, seed.0, seed.1)
    requires IsPath(img, seed, tolerance, path) && k < |path|
    requires seed in visited
    requires forall p, q :: p in visited && Adjacent(p, q) && Acceptable(img, seed, tolerance, q) ==> q in visited
    ensures path[k] in visited
  {
    if k > 0 {
      ClosedContainsPath(img, seed, tolerance, visited, path, k - 1);
      assert Adjacent(path[k - 1], path[k]);
    }
  }

  function Neighbours(p: Point): (ns: seq<Point>)
    ensures |ns| == 4 && forall q :: Adjacent(p, q) <==> q in ns
  {
    [(p.0 - 1, p.1), (p.0 + 1, p.1), (p.0, p.1 - 1), (p.0, p.1 + 1)]
  }

  /** The points of ns that are not in visited, in order (what the neighbour loop enqueues). */
  function Unvisited(ns: seq<Point>, visited: set<Point>): (r: seq<Point>)
    ensures forall e :: e in r <==> e in ns && e !in visited
  {
    if ns == [] then []
    else Unvisited(ns[..|ns| - 1], visited) + (if ns[|ns| - 1] in visited then [] else [ns[|ns| - 1]])
  }

  // The loop invariant of the search, in named parts.

  ghost predicate Sound(img: Image, seed: Point, tolerance: int, visited: set<Point>)
    requires ImageOk(img) && InBounds(img, seed.0, seed.1)
  {
    visited <= Cells(img) && forall p :: p in visited ==> Reachable(img, seed, tolerance, p)
  }

  predicate MaskMatches(img: Image, mask: Mask, visited: set<Point>) {
    WellFormed(mask) && mask.h == img.h && mask.w == img.w &&
    forall x, y :: 0 <= x < img.w && 0 <= y < img.h ==> mask.rows[y][x] == if (x, y) in visited then 255 else 0
  }

  /** Every queued point is the seed or a neighbour of a visited pixel. */
  ghost predicate QueueFromVisited(seed: Point, visited: set<Point>, queue: seq<Point>) {
    forall k :: 0 <= k < |queue| ==> queue[k] == seed || exists p :: p in visited && Adjacent(p, queue[k])
  }

  /** Every acceptable neighbour of a visited pixel is visited or still queued, and so is the seed. */
  ghost predicate Frontier(img: Image, seed: Point, tolerance: int, visited: set<Point>, queue: seq<Point>)
    requires ImageOk(img) && InBounds(img, seed.0, seed.1)
  {
    (seed in visited || seed in queue || !Acceptable(img, seed, tolerance, seed)) &&
    forall p, q :: p in visited && Adjacent(p, q) ==>
      q in visited || q in queue || !Acceptable(img, seed, tolerance, q)
  }

  /** Dropping a dequeued point that is visited or not acceptable keeps the frontier. */
  lemma SkipKeepsFrontier(img: Image, seed: Point, tolerance: int, visited: set<Point>, queue: seq<Point>)
    requires ImageOk(img) && InBounds(img, seed.0, seed.1)
    requires queue != [] && Frontier(img, seed, tolerance, visited, queue)
    requires queue[0] in visited || !Acceptable(img, seed, tolerance, queue[0])
    ensures Frontier(img, seed, tolerance, visited, queue[1..])
  {
    assert forall q :: q in queue && q != queue[0] ==> q in queue[1..];
  }

  /** Visiting the dequeued point and enqueueing its unvisited neighbours keeps the frontier. */
  lemma VisitKeepsFrontier(img: Image, seed: Point, tolerance: int, visited: set<Point>, queue: seq<Point>)
    requires ImageOk(img) && InBounds(img, seed.0, seed.1)
    requires queue != [] && Frontier(img, seed, tolerance, visited, queue)
    ensures Frontier(img, seed, tolerance, visited + {queue[0]},
                     queue[1..] + Unvisited(Neighbours(queue[0]), visited + {queue[0]}))
  {
    var c := queue[0];
    var v2 := visited + {c};
    var q2 := queue[1..] + Unvisited(Neighbours(c), v2);
    assert forall q :: q in queue && q != c ==> q in q2;
    forall p, q | p in v2 && Adjacent(p, q)
      ensures q in v2 || q in q2 || !Acceptable(img, seed, tolerance, q)
    {
      if p == c {
        assert q in Neighbours(c);
      }
    }
  }

  lemma VisitKeepsQueue(seed: Point, visited: set<Point>, queue: seq<Point>)
    requires queue != [] && QueueFromVisited(seed, visited, queue)
    ensures QueueFromVisited(seed, visited + {queue[0]},
                             queue[1..] + Unvisited(Neighbours(queue[0]), visited + {queue[0]}))
  {
    var c := queue[0];
    var v2 := visited + {c};
    var q2 := queue[1..] + Unvisited(Neighbours(c), v2);
    forall k | 0 <= k < |q2| ensures q2[k] == seed || exists p :: p in v2 && Adjacent(p, q2[k]) {
      if k < |queue| - 1 {
        assert q2[k] == queue[k + 1];
      } else {
        assert q2[k] in Unvisited(Neighbours(c), v2);
        assert Adjacent(c, q2[k]);
      }
    }
  }

  /** Marking pixel c as 255. */
  function SetOn(mask: Mask, c: Point): (m: Mask)
    requires WellFormed(mask) && InBounds(mask, c.0, c.1)
    ensures WellFormed(m) && SameShape(m, mask)
    ensures forall x, y :: InBounds(mask, x, y) ==> m.rows[y][x] == if (x, y) == c then 255 else mask.rows[y][x]
  {
    mask.(rows := mask.rows[c.1 := mask.rows[c.1][c.0 := 255]])
  }

  lemma VisitKeepsSound(img: Image, seed: Point, tolerance: int, visited: set<Point>, queue: seq<Point>)
    requires ImageOk(img) && InBounds(img, seed.0, seed.1)
    requires queue != [] && Sound(img, seed, tolerance, visited) && QueueFromVisited(seed, visited, queue)
    requires Acceptable(img, seed, tolerance, queue[0])
    ensures Sound(img, seed, tolerance, visited + {queue[0]})
  {
    var c := queue[0];
    if c == seed {
      ReachableSeed(img, seed, tolerance);
    } else {
      var p :| p in visited && Adjacent(p, c);
      ReachableStep(img, seed, tolerance, p, c);
    }
    assert c in Cells(img);
  }

  /** Once the queue is empty, every reachable pixel has been visited. */
  lemma DoneIsComplete(img: Image, seed: Point, tolerance: int, visited: set<Point>, x: int, y: int)
    requires ImageOk(img) && InBounds(img, seed.0, seed.1)
    requires Frontier(img, seed, tolerance, visited, [])
    requires Reachable(img, seed, tolerance, (x, y))
    ensures (x, y) in visited
  {
    var path :| IsPath(img, seed, tolerance, path) && path[|path| - 1] == (x, y);
    ClosedContainsPath(img, seed, tolerance, visited, path, |path| - 1);
  }

  lemma VisitKeepsMask(img: Image, mask: Mask, visited: set<Point>, c: Point)
    requires MaskMatches(img, mask, visited) && InBounds(img, c.0, c.1)
    ensures MaskMatches(img, SetOn(mask, c), visited + {c})
  {
  }

  /** The neighbour loop: append each of the four neighbours of c that is not yet visited. */
  method EnqueueNeighbours(queue: seq<Point>, c: Point, visited: set<Point>) returns (q: seq<Point>)
    ensures q == queue + Unvisited(Neighbours(c), visited)
  {
    var ns := Neighbours(c);
    q := queue;
    for i := 0 to 4
      invariant q == queue + Unvisited(ns[..i], visited)
    {
      assert ns[..i + 1][..i] == ns[..i];
      if ns[i] !in visited {
        q := q + [ns[i]];
      }
    }
    assert ns[..4] == ns;
  }

  /** The loop invariant of the search: what is visited is reachable and on, and nothing reachable is lost. */
  ghost predicate Searching(img: Image, seed: Point, tolerance: int, visited: set<Point>, mask: Mask, queue: seq<Point>)
    requires ImageOk(img) && InBounds(img, seed.0, seed.1)
  {
    Sound(img, seed, tolerance, visited) && MaskMatches(img, mask, visited) &&
    QueueFromVisited(seed, visited, queue) && Frontier(img, seed, tolerance, visited, queue)
  }

  /** Visiting the head of the queue keeps the invariant and visits one more cell of the image. */
  lemma VisitKeeps(img: Image, seed: Point, tolerance: int, visited: set<Point>, mask: Mask, queue: seq<Point>)
    requires ImageOk(img) && InBounds(img, seed.0, seed.1)
    requires queue != [] && Searching(img, seed, tolerance, visited, mask, queue)
    requires queue[0] !in visited && Acceptable(img, seed, tolerance, queue[0])
    ensures var c := queue[0]; var v := visited + {c};
      InBounds(mask, c.0, c.1) &&
      Searching(img, seed, tolerance, v, SetOn(mask, c), queue[1..] + Unvisited(Neighbours(c), v)) &&
      Cells(img) - v < Cells(img) - visited
  {
    var c := queue[0];
    VisitKeepsSound(img, seed, tolerance, visited, queue);
    VisitKeepsFrontier(img, seed, tolerance, visited, queue);
    VisitKeepsQueue(seed, visited, queue);
    VisitKeepsMask(img, mask, visited, c);
    assert c in Cells(img);
  }

  /**
   * `_flood_fill_pil`: breadth-first search from the seed with a visited set;
   * a dequeued pixel is skipped when already visited, outside the image or
   * too far from the seed colour, and otherwise marked 255 and its four
   * neighbours that are not yet visited are enqueued.
   */
  method FloodFillBfs(img: Image, seed: Point, tolerance: int) returns (mask: Mask)
    requires ImageOk(img) && InBounds(img, seed.0, seed.1)
    ensures WellFormed(mask) && mask.h == img.h && mask.w == img.w
    ensures forall x, y :: 0 <= x < img.w && 0 <= y < img.h ==>
      mask.rows[y][x] == if Reachable(img, seed, tolerance, (x, y)) then 255 else 0
  {
    var target := img.rows[seed.1][seed.0];
    mask := Zeros(img.h, img.w);
    var visited: set<Point> := {};
    var queue: seq<Point> := [seed];
    while queue != []
      invariant Searching(img, seed, tolerance, visited, mask, queue)
      decreases Cells(img) - visited, |queue|
    {
      var c := queue[0];
      var skip := c in visited;
      if !skip {
        skip := !(0 <= c.0 < img.w && 0 <= c.1 < img.h);
      }
      if !skip {
        skip := !Accepts(img.rows[c.1][c.0], target, tolerance);
      }
      if skip {
        SkipKeepsFrontier(img, seed, tolerance, visited, queue);
        queue := queue[1..];
        continue;
      }
      ghost var before := Cells(img) - visited;
      VisitKeeps(img, seed, tolerance, visited, mask, queue);
      visited := visited + {c};
      mask := SetOn(mask, c);
      queue := EnqueueNeighbours(queue[1..], c, visited);
      assert Cells(img) - visited < before;
    }
    forall x, y | 0 <= x < img.w && 0 <= y < img.h && Reachable(img, seed, tolerance, (x, y))
      ensures (x, y) in visited
    {
      DoneIsComplete(img, seed, tolerance, visited, x, y);
    }
  }

  /**
   * `flood_fill` without OpenCV: a seed outside the image gives an all-zero
   * mask, otherwise the mask is 255 exactly on the pixels reachable from the seed.
   */
  method Fill(img: Image, seed: Point, tolerance: int) returns (mask: Mask)
    requires ImageOk(img)
    ensures WellFormed(mask) && mask.h == img.h && mask.w == img.w
    ensures !InBounds(img, seed.0, seed.1) ==> mask == Zeros(img.h, img.w)
    ensures InBounds(img, seed.0, seed.1) ==> forall x, y :: 0 <= x < img.w && 0 <= y < img.h ==>
      mask.rows[y][x] == if Reachable(img, seed, tolerance, (x, y)) then 255 else 0
  {
    if !(0 <= seed.0 < img.w && 0 <= seed.1 < img.h) {
      return Zeros(img.h, img.w);
    }
    mask := FloodFillBfs(img, seed, tolerance);
  }

  lemma {:induction false} DiffSumSelf(p: Pixel)
    ensures DiffSum(p, p) == 0
  {
    if p != [] {
      DiffSumSelf(p[1..]);
    }
  }

  /** The seed is filled exactly when the tolerance is not negative (its own difference is 0). */
  lemma SeedFilled(img: Image, seed: Point, tolerance: int)
    requires ImageOk(img) && InBounds(img, seed.0, seed.1)
    ensures Reachable(img, seed, tolerance, seed) <==> tolerance >= 0
  {
    var t := img.rows[seed.1][seed.0];
    DiffSumSelf(t);
    if tolerance >= 0 {
      ReachableSeed(img, seed, tolerance);
    }
  }

  lemma AcceptsMonotone(p: Pixel, t: Pixel, t1: int, t2: int)
    requires |p| == |t| && t1 <= t2 && Accepts(p, t, t1)
    ensures Accepts(p, t, t2)
  {
    assert (t2 - t1) * |p| >= 0;
    assert t1 * |p| <= t2 * |p|;
  }

  /** A larger tolerance never fills fewer pixels. */
  lemma ToleranceMonotone(img: Image, seed: Point, t1: int, t2: int, q: Point)
    requires ImageOk(img) && InBounds(img, seed.0, seed.1)
    requires t1 <= t2 && Reachable(img, seed, t1, q)
    ensures Reachable(img, seed, t2, q)
  {
    var path: seq<Point> :| IsPath(img, seed, t1, path) && path[|path| - 1] == q;
    forall k | 0 <= k < |path| ensures Acceptable(img, seed, t2, path[k]) {
      var pk: Point := path[k];
      assert Acceptable(img, seed, t1, pk);
      AcceptsMonotone(img.rows[pk.1][pk.0], img.rows[seed.1][seed.0], t1, t2);
    }
    assert IsPath(img, seed, t2, path);
  }
}

=== FILE: geometry.dfy ===
/**
 * Integer geometry helpers on pixel points: bounding boxes, the shoelace
 * polygon area, snapping, polyline length and Douglas-Peucker simplification.
 * Square roots and the point-to-segment distance are floating point in the
 * program; here they are parameters or replaced by squared comparisons.
 */
module Geometry {
  import opened Wrappers

  type Point = (int, int)

  /** The squared Euclidean distance between two points. */
  function SquaredDistance(p: Point, q: Point): (r: nat)
    ensures r == 0 <==> p == q
  {
    var dx := q.0 - p.0;
    var dy := q.1 - p.1;
    assert dx * dx >= 0 && dy * dy >= 0;
    dx * dx + dy * dy
  }

  /**
   * `snap_to_point`: the target when the distance is at most the snap
   * distance. Comparing the square root with a snap distance equals
   * comparing squares when the snap distance is not negative; a negative
   * one never snaps, since a distance is never negative.
   */
  function SnapToPoint(current: Point, target: Point, snapDistance: int): (r: Option<Point>)
    ensures r.Some? <==> snapDistance >= 0 && SquaredDistance(current, target) <= snapDistance * snapDistance
    ensures r.Some? ==> r.value == target
  {
    if snapDistance >= 0 && SquaredDistance(current, target) <= snapDistance * snapDistance then Some(target)
    else None
  }

  /** Snapping is symmetric in the two points and always snaps a point onto itself. */
  lemma SnapSymmetric(p: Point, q: Point, snapDistance: int)
    ensures SnapToPoint(p, q, snapDistance).Some? <==> SnapToPoint(q, p, snapDistance).Some?
    ensures snapDistance >= 0 ==> SnapToPoint(p, p, snapDistance) == Some(p)
  {
    var a := q.0 - p.0;
    var b := q.1 - p.1;
    assert (p.0 - q.0) * (p.0 - q.0) == a * a;
    assert (p.1 - q.1) * (p.1 - q.1) == b * b;
  }

  /** The box (x_min, y_min, x_max, y_max). */
  type Box = (int, int, int, int)

  predicate Inside(p: Point, b: Box) {
    b.0 <= p.0 <= b.2 && b.1 <= p.1 <= b.3
  }

  /**
   * `bounding_box`: (0, 0, 0, 0) for no points; otherwise the smallest
   * box holding every point: each bound is attained by some point.
   */
  method BoundingBox(points: seq<Point>) returns (b: Box)
    ensures |points| == 0 ==> b == (0, 0, 0, 0)
    ensures forall p :: p in points ==> Inside(p, b)
    ensures |points| > 0 ==> (exists p :: p in points && p.0 == b.0)
    ensures |points| > 0 ==> (exists p :: p in points && p.1 == b.1)
    ensures |points| > 0 ==> (exists p :: p in points && p.0 == b.2)
    ensures |points| > 0 ==> (exists p :: p in points && p.1 == b.3)
  {
    if |points| == 0 {
      return (0, 0, 0, 0);
    }
    b := (points[0].0, points[0].1, points[0].0, points[0].1);
    for i := 1 to |points|
      invariant forall k :: 0 <= k < i ==> Inside(points[k], b)
      invariant exists k :: 0 <= k < i && points[k].0 == b.0
      invariant exists k :: 0 <= k < i && points[k].1 == b.1
      invariant exists k :: 0 <= k < i && points[k].0 == b.2
      invariant exists k :: 0 <= k < i && points[k].1 == b.3
    {
      var p := points[i];
      b := (if p.0 < b.0 then p.0 else b.0, if p.1 < b.1 then p.1 else b.1,
            if p.0 > b.2 then p.0 else b.2, if p.1 > b.3 then p.1 else b.3);
    }
  }

  /** The shoelace term of the edge from vertex j to vertex i. */
  function Edge(pj: Point, pi: Point): int {
    (pj.0 + pi.0) * (pj.1 - pi.1)
  }

  /** The edge terms of vertices 0..i-1, each paired with its predecessor (vertex n-1 before vertex 0). */
  function ShoelacePrefix(polygon: seq<Point>, i: nat): int
    requires |polygon| > 0 && i <= |polygon|
  {
    if i == 0 then 0
    else ShoelacePrefix(polygon, i - 1) + Edge(polygon[if i == 1 then |polygon| - 1 else i - 2], polygon[i - 1])
  }

  /** The signed doubled area of a closed polygon. */
  function Shoelace(polygon: seq<Point>): int {
    if |polygon| == 0 then 0 else ShoelacePrefix(polygon, |polygon|)
  }

  function Abs(v: int): nat {
    if v < 0 then -v else v
  }

  /**
   * `polygon_area`, doubled so that it stays an integer: 0 for fewer than
   * three vertices, otherwise |shoelace sum|; the area itself is half of it.
   */
  method DoubledPolygonArea(polygon: seq<Point>) returns (a: nat)
    ensures |polygon| < 3 ==> a == 0
    ensures |polygon| >= 3 ==> a == Abs(Shoelace(polygon))
  {
    var n := |polygon|;
    if n < 3 {
      return 0;
    }
    var area := 0;
    var j := n - 1;
    for i := 0 to n
      invariant j == (if i == 0 then n - 1 else i - 1)
      invariant area == ShoelacePrefix(polygon, i)
    {
      area := area + (polygon[j].0 + polygon[i].0) * (polygon[j].1 - polygon[i].1);
      j := i;
    }
    a := if area < 0 then -area else area;
  }

  /** Vertices all on one horizontal line enclose nothing: every edge term vanishes. */
  lemma {:induction false} FlatPrefix(polygon: seq<Point>, i: nat)
    requires |polygon| > 0 && i <= |polygon|
    requires forall k :: 0 <= k < |polygon| ==> polygon[k].1 == polygon[0].1
    ensures ShoelacePrefix(polygon, i) == 0
  {
    if i > 0 {
      FlatPrefix(polygon, i - 1);
      var j := if i == 1 then |polygon| - 1 else i - 2;
      assert polygon[j].1 - polygon[i - 1].1 == 0;
    }
  }

  lemma FlatPolygonHasNoArea(polygon: seq<Point>)
    requires forall k :: 0 <= k < |polygon| ==> polygon[k].1 == polygon[0].1
    ensures Shoelace(polygon) == 0
  {
    if |polygon| > 0 {
      FlatPrefix(polygon, |polygon|);
    }
  }

  /** The polygon moved by (dx, dy). */
  function Translate(polygon: seq<Point>, dx: int, dy: int): (r: seq<Point>)
    ensures |r| == |polygon|
    ensures forall k :: 0 <= k < |r| ==> r[k] == (polygon[k].0 + dx, polygon[k].1 + dy)
  {
    seq(|polygon|, k requires 0 <= k < |polygon| => (polygon[k].0 + dx, polygon[k].1 + dy))
  }

  /** The sum of the edges' y differences over vertices 0..i-1. */
  function DyPrefix(polygon: seq<Point>, i: nat): int
    requires |polygon| > 0 && i <= |polygon|
  {
    if i == 0 then 0
    else DyPrefix(polygon, i - 1) + (polygon[if i == 1 then |polygon| - 1 else i - 2].1 - polygon[i - 1].1)
  }

  /** The y differences telescope: after the first i edges they sum to y[n-1] - y[i-1]. */
  lemma {:induction false} DyTelescopes(polygon: seq<Point>, i: nat)
    requires |polygon| > 0 && 0 < i <= |polygon|
    ensures DyPrefix(polygon, i) == polygon[|polygon| - 1].1 - polygon[i - 1].1
  {
    if i > 1 {
      DyTelescopes(polygon, i - 1);
    }
  }

  /** A shifted edge term: the x shift adds twice the shift times the y difference. */
  lemma ShiftedEdge(xj: int, yj: int, xi: int, yi: int, dx: int, dy: int)
    ensures Edge((xj + dx, yj + dy), (xi + dx, yi + dy)) == Edge((xj, yj), (xi, yi)) + 2 * dx * (yj - yi)
  {
    assert (xj + dx + xi + dx) * (yj - yi) == (xj + xi) * (yj - yi) + (2 * dx) * (yj - yi);
  }

  lemma Distribute(c: int, a: int, b: int)
    ensures c * (a + b) == c * a + c * b
  {
  }

  lemma {:induction false} TranslatePrefix(polygon: seq<Point>, dx: int, dy: int, i: nat)
    requires |polygon| > 0 && i <= |polygon|
    ensures ShoelacePrefix(Translate(polygon, dx, dy), i) == ShoelacePrefix(polygon, i) + 2 * dx * DyPrefix(polygon, i)
  {
    if i > 0 {
      TranslatePrefix(polygon, dx, dy, i - 1);
      var t := Translate(polygon, dx, dy);
      var j := if i == 1 then |polygon| - 1 else i - 2;
      ShiftedEdge(polygon[j].0, polygon[j].1, polygon[i - 1].0, polygon[i - 1].1, dx, dy);
      var a := DyPrefix(polygon, i - 1);
      var b := polygon[j].1 - polygon[i - 1].1;
      var e := Edge(polygon[j], polygon[i - 1]);
      assert Edge(t[j], t[i - 1]) == e + 2 * dx * b;
      assert DyPrefix(polygon, i) == a + b;
      assert ShoelacePrefix(t, i) == ShoelacePrefix(t, i - 1) + Edge(t[j], t[i - 1]);
      assert ShoelacePrefix(polygon, i) == ShoelacePrefix(polygon, i - 1) + e;
      Distribute(2 * dx, a, b);
    }
  }

  /** Moving a polygon does not change its area. */
  lemma TranslationKeepsArea(polygon: seq<Point>, dx: int, dy: int)
    ensures Shoelace(Translate(polygon, dx, dy)) == Shoelace(polygon)
  {
    if |polygon| > 0 {
      TranslatePrefix(polygon, dx, dy, |polygon|);
      DyTelescopes(polygon, |polygon|);
    }
  }

  /**
   * `line_length`: 0 for fewer than two points, else the sum of the
   * distances between consecutive points; `dist` is the Euclidean distance.
   */
  function PathLength(points: seq<Point>, dist: (Point, Point) -> real): real {
    if |points| < 2 then 0.0
    else PathLength(points[..|points| - 1], dist) + dist(points[|points| - 2], points[|points| - 1])
  }

  method LineLength(points: seq<Point>, dist: (Point, Point) -> real) returns (total: real)
    ensures |points| < 2 ==> total == 0.0
    ensures total == PathLength(points, dist)
  {
    if |points| < 2 {
      return 0.0;
    }
    total := 0.0;
    for i := 0 to |points| - 1
      invariant total == PathLength(points[..i + 1], dist)
    {
      assert points[..i + 2][..i + 1] == points[..i + 1];
      total := total + dist(points[i], points[i + 1]);
    }
    assert points[..|points|] == points;
  }

  /** With distances never negative, neither is the length, and adding a point never shortens the line. */
  lemma {:induction false} PathLengthGrows(points: seq<Point>, p: Point, dist: (Point, Point) -> real)
    requires forall a, b :: dist(a, b) >= 0.0
    ensures PathLength(points, dist) >= 0.0
    ensures PathLength(points + [p], dist) >= PathLength(points, dist)
  {
    if |points| >= 2 {
      PathLengthGrows(points[..|points| - 1], points[|points| - 1], dist);
    }
    if |points| >= 1 {
      assert (points + [p])[..|points|] == points;
    }
  }

  /**
   * The scan for the farthest interior point of the window [lo, hi]: the
   * first strictly largest deviation among lo+1 .. i-1, starting from
   * (lo, 0) as the program starts from index 0 and distance 0.
   */
  function Farthest(points: seq<Point>, lo: nat, hi: nat, i: nat, dev: (Point, Point, Point) -> real): (r: (nat, real))
    requires lo < hi < |points| && lo < i <= hi
    ensures r.1 >= 0.0
    ensures r.0 == lo ==> r.1 == 0.0
    ensures r.0 != lo ==> lo < r.0 < i && r.1 == dev(points[r.0], points[lo], points[hi]) && r.1 > 0.0
    ensures forall k :: lo < k < i ==> dev(points[k], points[lo], points[hi]) <= r.1
  {
    if i == lo + 1 then (lo, 0.0)
    else
      var best := Farthest(points, lo, hi, i - 1, dev);
      var d := dev(points[i - 1], points[lo], points[hi]);
      if d > best.1 then (i - 1, d) else best
  }

  predicate Increasing(idx: seq<nat>) {
    forall a, b :: 0 <= a < b < |idx| ==> idx[a] < idx[b]
  }

  /**
   * `simplify_polyline` on the window [lo, hi] of the points, as the
   * indices it keeps. A window of at most two points is kept whole; else
   * the farthest interior point splits it when its deviation exceeds the
   * tolerance, and only the end points are kept otherwise.
   */
  function SimplifyIndices(points: seq<Point>, lo: nat, hi: nat, tolerance: real, dev: (Point, Point, Point) -> real): (r: seq<nat>)
    requires lo < hi < |points| && tolerance >= 0.0
    ensures |r| >= 2 && r[0] == lo && r[|r| - 1] == hi
    ensures Increasing(r)
    ensures forall k :: 0 <= k < |r| ==> lo <= r[k] <= hi
    decreases hi - lo
  {
    if hi - lo == 1 then [lo, hi]
    else
      var (k, d) := Farthest(points, lo, hi, hi, dev);
      if d > tolerance then
        var left := SimplifyIndices(points, lo, k, tolerance, dev);
        var right := SimplifyIndices(points, k, hi, tolerance, dev);
        JoinIncreasing(left, right, lo, k, hi);
        left[..|left| - 1] + right
      else [lo, hi]
  }

  /** Joining the kept indices of [lo, k] and [k, hi] at their shared k keeps them increasing. */
  lemma JoinIncreasing(left: seq<nat>, right: seq<nat>, lo: nat, k: nat, hi: nat)
    requires |left| >= 2 && left[0] == lo && left[|left| - 1] == k && Increasing(left)
    requires |right| >= 2 && right[0] == k && right[|right| - 1] == hi && Increasing(right)
    requires forall a :: 0 <= a < |left| ==> lo <= left[a] <= k
    requires forall a :: 0 <= a < |right| ==> k <= right[a] <= hi
    ensures var r := left[..|left| - 1] + right;
            |r| >= 2 && r[0] == lo && r[|r| - 1] == hi && Increasing(r) &&
            forall a :: 0 <= a < |r| ==> lo <= r[a] <= hi
  {
    var r := left[..|left| - 1] + right;
    assert forall a :: 0 <= a < |left| - 1 ==> left[a] < k by {
      forall a | 0 <= a < |left| - 1 ensures left[a] < k {
        assert left[a] < left[|left| - 1];
      }
    }
    assert forall a :: 0 <= a < |r| ==> (a < |left| - 1 ==> r[a] == left[a]) && (a >= |left| - 1 ==> r[a] == right[a - |left| + 1]);
  }

  /** `a` can be obtained from `b` by dropping entries. */
  ghost predicate IsSubsequence(a: seq<Point>, b: seq<Point>) {
    exists idx: seq<nat> :: |idx| == |a| && Increasing(idx) &&
      forall k :: 0 <= k < |idx| ==> idx[k] < |b| && a[k] == b[idx[k]]
  }

  /**
   * `simplify_polyline`: the input itself when it has at most two points;
   * otherwise the kept points of the whole line. The tolerance is not
   * negative (see the findings for a negative one).
   */
  function SimplifyPolyline(points: seq<Point>, tolerance: real, dev: (Point, Point, Point) -> real): (r: seq<Point>)
    requires tolerance >= 0.0
    ensures |points| <= 2 ==> r == points
    ensures |points| > 0 ==> |r| > 0 && r[0] == points[0] && r[|r| - 1] == points[|points| - 1]
    ensures |r| <= |points|
    ensures IsSubsequence(r, points)
  {
    if |points| <= 2 then
      var idx: seq<nat> := seq(|points|, k requires 0 <= k < |points| => k);
      assert forall k :: 0 <= k < |idx| ==> idx[k] < |points| && points[k] == points[idx[k]];
      points
    else
      var idx := SimplifyIndices(points, 0, |points| - 1, tolerance, dev);
      var r := seq(|idx|, k requires 0 <= k < |idx| => points[idx[k]]);
      IncreasingBounded(idx, |points|);
      r
  }

  /** An increasing index list into n positions has at most n entries. */
  lemma {:induction false} IncreasingBounded(idx: seq<nat>, n: nat)
    requires Increasing(idx)
    requires forall k :: 0 <= k < |idx| ==> idx[k] < n
    ensures |idx| <= n
  {
    if |idx| > 0 {
      var last := idx[|idx| - 1];
      var front := idx[..|idx| - 1];
      assert forall k :: 0 <= k < |front| ==> front[k] < last;
      IncreasingBounded(front, last);
    }
  }

  /**
   * The scan as written, run on a window where no interior point deviates:
   * it reports index lo with distance 0. With a negative tolerance 0 exceeds
   * it, so the program's second recursive call receives `points[0:]`, the
   * very list it was given, and it recurses on that list until Python
   * raises RecursionError at its recursion limit.
   */
  lemma NegativeToleranceSplitsAtStart()
    ensures var pts := [(0, 0), (1, 0), (2, 0)];
            var dev := (p: Point, a: Point, b: Point) => 0.0;
            var (k, d) := Farthest(pts, 0, 2, 2, dev);
            k == 0 && d > -1.0 && pts[k..] == pts
  {
  }
}

=== FILE: ipad_elements.dfy ===
/**
 * The iPad `SegmentElement`: the same mask queries as the desktop element
 * (answered through `AsDesktop`), a label placed relative to the centre of
 * the bounding box, and a dictionary form without mask data.
 */
module IpadElements {
  import opened Wrappers
  import opened Masks
  import opened MaskGeometry
  import Elements

  type Rgb = (int, int, int)

  datatype SegmentElement = SegmentElement(
    elementId: string,
    category: string,
    mode: string,
    points: seq<Point>,
    mask: Option<Mask>,
    color: Rgb,
    labelPosition: string)

  predicate ElementOk(e: SegmentElement) {
    e.mask.Some? ==> WellFormed(e.mask.value)
  }

  predicate Empty(e: SegmentElement)
    requires ElementOk(e)
  {
    e.mask.None? || !HasOn(e.mask.value)
  }

  /**
   * The iPad element as a desktop element: the same fields and no label
   * anchor offset. `bounds`, `centroid`, `area` and `contains_point` are
   * the same code in both classes, so the iPad element answers them as
   * `Elements.ElementBounds`, `Elements.ElementCentroid`, `Elements.Area`
   * and `Elements.ContainsPoint` of this element.
   */
  function AsDesktop(e: SegmentElement): (d: Elements.SegmentElement)
    ensures Elements.ElementOk(d) <==> ElementOk(e)
    ensures Elements.ElementOk(d) ==> (Elements.Empty(d) <==> Empty(e))
    ensures d.labelAnchorOffset.None? && d.mask == e.mask
    ensures FromDesktop(d) == e
  {
    Elements.SegmentElement(e.elementId, e.category, e.mode, e.points, e.mask, e.color, e.labelPosition, None)
  }

  /** The inverse: a desktop element without its anchor offset. */
  function FromDesktop(d: Elements.SegmentElement): SegmentElement {
    SegmentElement(d.elementId, d.category, d.mode, d.points, d.mask, d.color, d.labelPosition)
  }

  /**
   * `get_label_position`: None without pixels on; otherwise a table entry
   * around the bounding box whose anchor is the box centre
   * ((x1 + x2) // 2, (y1 + y2) // 2), unknown names mapping to that centre.
   */
  function LabelPosition(e: SegmentElement): (r: Option<Point>)
    requires ElementOk(e)
    ensures r.None? <==> Empty(e)
    ensures r.Some? ==> (
      var b := Elements.ElementBounds(AsDesktop(e)).value;
      b.x1 - 5 <= r.value.0 <= b.x2 + 5 && b.y1 - 5 <= r.value.1 <= b.y2 + 15)
    ensures r.Some? && e.labelPosition == "center" ==> (
      var b := Elements.ElementBounds(AsDesktop(e)).value;
      2 * r.value.0 <= b.x1 + b.x2 < 2 * r.value.0 + 2 && 2 * r.value.1 <= b.y1 + b.y2 < 2 * r.value.1 + 2)
    ensures r.Some? && e.labelPosition !in Elements.LabelPositions ==> (
      var b := Elements.ElementBounds(AsDesktop(e)).value;
      r.value == ((b.x1 + b.x2) / 2, (b.y1 + b.y2) / 2))
  {
    match Elements.ElementBounds(AsDesktop(e))
    case None => None
    case Some(b) =>
      var cx, cy := (b.x1 + b.x2) / 2, (b.y1 + b.y2) / 2;
      Some(Elements.PlaceLabel(e.labelPosition, b, cx, cy))
  }

  /** The dictionary form: five keys and never any mask data. */
  datatype ElementRecord = ElementRecord(
    elementId: Option<string>,
    category: Option<string>,
    mode: Option<string>,
    points: Option<seq<Point>>,
    labelPosition: Option<string>)

  /** `to_dict`: the five fields, no mask. */
  function ToDict(e: SegmentElement): (d: ElementRecord)
    ensures d.elementId == Some(e.elementId) && d.labelPosition == Some(e.labelPosition)
  {
    ElementRecord(Some(e.elementId), Some(e.category), Some(e.mode), Some(e.points), Some(e.labelPosition))
  }

  /** `from_dict` (with `__post_init__`): missing keys default to "", "", "flood", [], "center". */
  function FromDict(d: ElementRecord, mask: Option<Mask>, color: Rgb, freshId: string): (e: SegmentElement)
    ensures e.mask == mask && e.color == color
    ensures e.category == d.category.GetOr("") && e.mode == d.mode.GetOr("flood")
    ensures e.points == d.points.GetOr([]) && e.labelPosition == d.labelPosition.GetOr("center")
    ensures e.elementId == (if d.elementId.GetOr("") == "" then freshId else d.elementId.value)
  {
    var id := d.elementId.GetOr("");
    SegmentElement(if id == "" then freshId else id, d.category.GetOr(""), d.mode.GetOr("flood"),
                   d.points.GetOr([]), mask, color, d.labelPosition.GetOr("center"))
  }

  /** `from_dict(to_dict(e))` preserves id, category, mode, points and label position. */
  lemma FromDictToDict(e: SegmentElement, freshId: string)
    requires e.elementId != ""
    ensures FromDict(ToDict(e), e.mask, e.color, freshId) == e
  {
  }
}

=== FILE: maskgeom.dfy ===
/**
 * Geometry of the pixels that are on in a mask: the inclusive bounding box
 * (`np.where(mask > 0)` then min/max) and the centroid (`int(np.mean(xs))`,
 * `int(np.mean(ys))`), for one mask and for a group of masks.
 */
module MaskGeometry {
  import opened Wrappers
  import opened Masks
  import Arith

  /** The first row at or after y that has a pixel on, or h when there is none. */
  function FirstOnRow(m: Mask, y: nat): (r: nat)
    requires WellFormed(m) && y <= m.h
    ensures y <= r <= m.h
    ensures forall k :: y <= k < r ==> !RowHasOn(m, k)
    ensures r < m.h ==> RowHasOn(m, r)
    decreases m.h - y
  {
    if y == m.h then m.h else if RowHasOn(m, y) then y else FirstOnRow(m, y + 1)
  }

  /** The last row before y that has a pixel on, or -1 when there is none. */
  function LastOnRow(m: Mask, y: nat): (r: int)
    requires WellFormed(m) && y <= m.h
    ensures -1 <= r < y
    ensures forall k :: r < k < y ==> !RowHasOn(m, k)
    ensures r >= 0 ==> RowHasOn(m, r)
  {
    if y == 0 then -1 else if RowHasOn(m, y - 1) then y - 1 else LastOnRow(m, y - 1)
  }

  function FirstOnCol(m: Mask, x: nat): (r: nat)
    requires WellFormed(m) && x <= m.w
    ensures x <= r <= m.w
    ensures forall k :: x <= k < r ==> !ColHasOn(m, k)
    ensures r < m.w ==> ColHasOn(m, r)
    decreases m.w - x
  {
    if x == m.w then m.w else if ColHasOn(m, x) then x else FirstOnCol(m, x + 1)
  }

  function LastOnCol(m: Mask, x: nat): (r: int)
    requires WellFormed(m) && x <= m.w
    ensures -1 <= r < x
    ensures forall k :: r < k < x ==> !ColHasOn(m, k)
    ensures r >= 0 ==> ColHasOn(m, r)
  {
    if x == 0 then -1 else if ColHasOn(m, x - 1) then x - 1 else LastOnCol(m, x - 1)
  }

  datatype Box = Box(x1: int, y1: int, x2: int, y2: int)

  /** Every pixel that is on lies in the (inclusive) box. */
  predicate Encloses(m: Mask, b: Box)
    requires WellFormed(m)
  {
    forall x, y :: 0 <= x < m.w && 0 <= y < m.h && m.rows[y][x] > 0 ==> b.x1 <= x <= b.x2 && b.y1 <= y <= b.y2
  }

  /**
   * `bounds`: None when no pixel is on; otherwise the inclusive extremes
   * (min x, min y, max x, max y) of the pixels that are on.
   */
  function Bounds(m: Mask): (r: Option<Box>)
    requires WellFormed(m)
    ensures r.None? <==> !HasOn(m)
    ensures r.Some? ==>
      0 <= r.value.x1 <= r.value.x2 < m.w && 0 <= r.value.y1 <= r.value.y2 < m.h &&
      ColHasOn(m, r.value.x1) && ColHasOn(m, r.value.x2) &&
      RowHasOn(m, r.value.y1) && RowHasOn(m, r.value.y2) &&
      Encloses(m, r.value)
  {
    var y1 := FirstOnRow(m, 0);
    if y1 == m.h then
      assert !HasOn(m) by {
        if HasOn(m) {
          var x, y :| 0 <= x < m.w && 0 <= y < m.h && m.rows[y][x] > 0;
          assert On(m, x, y);
          assert RowHasOn(m, y);
        }
      }
      None
    else
      var x1, x2, y2 := FirstOnCol(m, 0), LastOnCol(m, m.w), LastOnRow(m, m.h);
      assert ColHasOn(m, x1) && ColHasOn(m, x2) by {
        var x :| 0 <= x < m.w && On(m, x, y1);
        assert ColHasOn(m, x);
      }
      assert RowHasOn(m, y2);
      ExtremesEnclose(m, Box(x1, y1, x2, y2));
      Some(Box(x1, y1, x2, y2))
  }

  lemma ExtremesEnclose(m: Mask, b: Box)
    requires WellFormed(m)
    requires forall k :: 0 <= k < b.y1 ==> !RowHasOn(m, k)
    requires forall k :: b.y2 < k < m.h ==> !RowHasOn(m, k)
    requires forall k :: 0 <= k < b.x1 ==> !ColHasOn(m, k)
    requires forall k :: b.x2 < k < m.w ==> !ColHasOn(m, k)
    ensures Encloses(m, b)
  {
    forall x, y | 0 <= x < m.w && 0 <= y < m.h && m.rows[y][x] > 0
      ensures b.x1 <= x <= b.x2 && b.y1 <= y <= b.y2
    {
      assert On(m, x, y);
      assert RowHasOn(m, y) && ColHasOn(m, x);
    }
  }

  // ---------------------------------------------------------------------
  // Coordinate sums of the pixels that are on
  // ---------------------------------------------------------------------

  function RowSumX(row: seq<Byte>): int {
    if row == [] then 0
    else RowSumX(row[..|row| - 1]) + (if row[|row| - 1] > 0 then |row| - 1 else 0)
  }

  function RowsSumX(rows: seq<seq<Byte>>): int {
    if rows == [] then 0 else RowsSumX(rows[..|rows| - 1]) + RowSumX(rows[|rows| - 1])
  }

  function RowsSumY(rows: seq<seq<Byte>>): int {
    if rows == [] then 0 else RowsSumY(rows[..|rows| - 1]) + (|rows| - 1) * RowCount(rows[|rows| - 1])
  }

  /** The floor of the mean of the coordinates of the pixels that are on. */
  function Centroid(m: Mask): (r: Option<Point>)
    requires WellFormed(m)
    ensures r.None? <==> !HasOn(m)
    ensures r.Some? ==>
      r.value.0 * OnCount(m) <= RowsSumX(m.rows) < (r.value.0 + 1) * OnCount(m) &&
      r.value.1 * OnCount(m) <= RowsSumY(m.rows) < (r.value.1 + 1) * OnCount(m)
  {
    OnCountZero(m);
    var n := OnCount(m);
    if n == 0 then None
    else
      var cx, cy := RowsSumX(m.rows) / n, RowsSumY(m.rows) / n;
      FloorDiv(RowsSumX(m.rows), n);
      FloorDiv(RowsSumY(m.rows), n);
      Some((cx, cy))
  }

  lemma FloorDiv(s: int, n: int)
    requires n > 0
    ensures (s / n) * n <= s < (s / n + 1) * n
  {
  }

  lemma {:induction false} RowSumXBetween(row: seq<Byte>, a: int, b: int)
    requires forall x :: 0 <= x < |row| && row[x] > 0 ==> a <= x <= b
    ensures RowCount(row) * a <= RowSumX(row) <= RowCount(row) * b
  {
    if row != [] {
      var k := |row| - 1;
      var init := row[..k];
      assert forall x :: 0 <= x < k ==> init[x] == row[x];
      RowSumXBetween(init, a, b);
      var c, s := RowCount(init), RowSumX(init);
      if row[k] > 0 {
        assert RowCount(row) == c + 1 && RowSumX(row) == s + k;
        AddBetween(c, 1, s, k, a, b);
      } else {
        assert RowCount(row) == c && RowSumX(row) == s;
      }
    }
  }

  lemma {:induction false} RowsSumXBetween(rows: seq<seq<Byte>>, a: int, b: int)
    requires forall y, x :: 0 <= y < |rows| && 0 <= x < |rows[y]| && rows[y][x] > 0 ==> a <= x <= b
    ensures RowsCount(rows) * a <= RowsSumX(rows) <= RowsCount(rows) * b
  {
    if rows != [] {
      var k := |rows| - 1;
      assert forall y :: 0 <= y < k ==> rows[..k][y] == rows[y];
      RowsSumXBetween(rows[..k], a, b);
      RowSumXBetween(rows[k], a, b);
      AddBetween(RowsCount(rows[..k]), RowCount(rows[k]), RowsSumX(rows[..k]), RowSumX(rows[k]), a, b);
    }
  }

  lemma {:induction false} RowsSumYBetween(rows: seq<seq<Byte>>, a: int, b: int)
    requires forall y, x :: 0 <= y < |rows| && 0 <= x < |rows[y]| && rows[y][x] > 0 ==> a <= y <= b
    ensures RowsCount(rows) * a <= RowsSumY(rows) <= RowsCount(rows) * b
  {
    if rows != [] {
      var k := |rows| - 1;
      assert forall y :: 0 <= y < k ==> rows[..k][y] == rows[y];
      RowsSumYBetween(rows[..k], a, b);
      var c := RowCount(rows[k]);
      if c > 0 {
        RowCountZero(rows[k]);
        assert a <= k <= b;
        Arith.MulMono(a, k, c);
        Arith.MulMono(k, b, c);
      }
      AddBetween(RowsCount(rows[..k]), c, RowsSumY(rows[..k]), k * c, a, b);
    }
  }

  lemma AddBetween(p: int, q: int, sp: int, sq: int, a: int, b: int)
    requires p * a <= sp <= p * b && q * a <= sq <= q * b
    ensures (p + q) * a <= sp + sq <= (p + q) * b
  {
    assert (p + q) * a == p * a + q * a;
    assert (p + q) * b == p * b + q * b;
  }

  /** The centroid of a mask lies inside its bounding box. */
  lemma CentroidInBounds(m: Mask)
    requires WellFormed(m) && HasOn(m)
    ensures Centroid(m).Some? && Bounds(m).Some?
    ensures var c, b := Centroid(m).value, Bounds(m).value;
      b.x1 <= c.0 <= b.x2 && b.y1 <= c.1 <= b.y2
  {
    var b := Bounds(m).value;
    OnCountZero(m);
    RowsSumXBetween(m.rows, b.x1, b.x2);
    RowsSumYBetween(m.rows, b.y1, b.y2);
    Arith.DivBounds(RowsSumX(m.rows), OnCount(m), b.x1, b.x2);
    Arith.DivBounds(RowsSumY(m.rows), OnCount(m), b.y1, b.y2);
  }

  // ---------------------------------------------------------------------
  // Group centroid over several masks (rendering's `_calculate_group_centroid`)
  // ---------------------------------------------------------------------

  predicate AllOk(masks: seq<Option<Mask>>) {
    forall i :: 0 <= i < |masks| ==> masks[i].Some? ==> WellFormed(masks[i].value)
  }

  function CountOf(m: Option<Mask>): nat {
    if m.None? then 0 else OnCount(m.value)
  }

  function TotalCount(masks: seq<Option<Mask>>): nat {
    if masks == [] then 0 else CountOf(masks[0]) + TotalCount(masks[1..])
  }

  function TotalSumX(masks: seq<Option<Mask>>): int {
    if masks == [] then 0 else (if masks[0].None? then 0 else RowsSumX(masks[0].value.rows)) + TotalSumX(masks[1..])
  }

  function TotalSumY(masks: seq<Option<Mask>>): int {
    if masks == [] then 0 else (if masks[0].None? then 0 else RowsSumY(masks[0].value.rows)) + TotalSumY(masks[1..])
  }

  /** Some element of the group has a mask with a pixel on. */
  predicate AnyOn(masks: seq<Option<Mask>>)
    requires AllOk(masks)
  {
    exists i :: 0 <= i < |masks| && masks[i].Some? && HasOn(masks[i].value)
  }

  lemma {:induction false} TotalCountZero(masks: seq<Option<Mask>>)
    requires AllOk(masks)
    ensures TotalCount(masks) == 0 <==> !AnyOn(masks)
  {
    if masks != [] {
      TotalCountZero(masks[1..]);
      if masks[0].Some? {
        OnCountZero(masks[0].value);
      }
      assert forall i :: 1 <= i < |masks| ==> masks[i] == masks[1..][i - 1];
    }
  }

  /**
   * `_calculate_group_centroid`: None when no element has a pixel on,
   * else the floor of the mean x and mean y over all on pixels of all elements.
   */
  function GroupCentroid(masks: seq<Option<Mask>>): (r: Option<Point>)
    requires AllOk(masks)
    ensures r.None? <==> !AnyOn(masks)
    ensures r.Some? ==>
      r.value.0 * TotalCount(masks) <= TotalSumX(masks) < (r.value.0 + 1) * TotalCount(masks) &&
      r.value.1 * TotalCount(masks) <= TotalSumY(masks) < (r.value.1 + 1) * TotalCount(masks)
  {
    TotalCountZero(masks);
    var n := TotalCount(masks);
    if n == 0 then None
    else
      FloorDiv(TotalSumX(masks), n);
      FloorDiv(TotalSumY(masks), n);
      Some((TotalSumX(masks) / n, TotalSumY(masks) / n))
  }

  /** The group centroid of a single element is that element's own centroid. */
  lemma GroupOfOne(m: Mask)
    requires WellFormed(m)
    ensures GroupCentroid([Some(m)]) == Centroid(m)
  {
    var g := [Some(m)];
    assert g[1..] == [];
    assert TotalCount(g) == OnCount(m);
    assert TotalSumX(g) == RowsSumX(m.rows);
    assert TotalSumY(g) == RowsSumY(m.rows);
    OnCountZero(m);
    TotalCountZero(g);
  }
}

=== FILE: masks.dfy ===
/**
 * Binary masks and images as rectangular grids.
 *
 * A mask is an H x W grid of bytes in which 0 means "off" and any value
 * above 0 means "on". Rows are indexed by y and columns by x, so the pixel
 * at (x, y) is `rows[y][x]`, as in numpy's `mask[y, x]`.
 */
module Masks {
  import opened Wrappers

  /** An unsigned 8-bit value (numpy's uint8). */
  type Byte = x: int | 0 <= x < 256

  /** A pixel position (x, y). */
  type Point = (int, int)

  datatype Grid<T> = Grid(h: nat, w: nat, rows: seq<seq<T>>)

  type Mask = Grid<Byte>

  /** The grid really is h rows of w cells each. */
  predicate WellFormed<T>(g: Grid<T>) {
    |g.rows| == g.h && forall y :: 0 <= y < |g.rows| ==> |g.rows[y]| == g.w
  }

  predicate InBounds<T>(g: Grid<T>, x: int, y: int) {
    0 <= x < g.w && 0 <= y < g.h
  }

  predicate SameShape<T, U>(a: Grid<T>, b: Grid<U>) {
    a.h == b.h && a.w == b.w
  }

  function At<T>(g: Grid<T>, x: int, y: int): T
    requires WellFormed(g) && InBounds(g, x, y)
  {
    g.rows[y][x]
  }

  /** The h x w grid whose cell (x, y) is f(x, y). */
  function Tabulate<T>(h: nat, w: nat, f: (int, int) -> T): (g: Grid<T>)
    ensures WellFormed(g) && g.h == h && g.w == w
    ensures forall x, y :: 0 <= x < w && 0 <= y < h ==> g.rows[y][x] == f(x, y)
  {
    Grid(h, w, seq(h, y => seq(w, x => f(x, y))))
  }

  /** `np.zeros((h, w), dtype=np.uint8)` */
  function Zeros(h: nat, w: nat): (m: Mask)
    ensures WellFormed(m) && m.h == h && m.w == w
    ensures forall x, y :: 0 <= x < w && 0 <= y < h ==> m.rows[y][x] == 0
  {
    Tabulate(h, w, (x, y) => 0)
  }

  /** The h x w mask that is 255 on [x1, x2) x [y1, y2) and 0 elsewhere. */
  function RectMask(h: nat, w: nat, x1: int, y1: int, x2: int, y2: int): (m: Mask)
    ensures WellFormed(m) && m.h == h && m.w == w
    ensures forall x, y :: 0 <= x < w && 0 <= y < h ==>
      m.rows[y][x] == if x1 <= x < x2 && y1 <= y < y2 then 255 else 0
  {
    Tabulate(h, w, (x, y) => if x1 <= x < x2 && y1 <= y < y2 then 255 else 0)
  }

  /** Pixel (x, y) of m is on. */
  predicate On(m: Mask, x: int, y: int)
    requires WellFormed(m)
  {
    InBounds(m, x, y) && m.rows[y][x] > 0
  }

  /** Some pixel of row y is on. */
  predicate RowHasOn(m: Mask, y: int)
    requires WellFormed(m)
  {
    exists x :: 0 <= x < m.w && On(m, x, y)
  }

  /** Some pixel of column x is on. */
  predicate ColHasOn(m: Mask, x: int)
    requires WellFormed(m)
  {
    exists y :: 0 <= y < m.h && On(m, x, y)
  }

  /** `np.any(mask > 0)` */
  predicate HasOn(m: Mask)
    requires WellFormed(m)
  {
    exists x, y :: 0 <= x < m.w && 0 <= y < m.h && m.rows[y][x] > 0
  }

  // ---------------------------------------------------------------------
  // Row-major flattening and reshaping (numpy's flatten / reshape)
  // ---------------------------------------------------------------------

  function Flatten<T>(rows: seq<seq<T>>): seq<T> {
    if rows == [] then [] else rows[0] + Flatten(rows[1..])
  }

  lemma {:induction false} FlattenLength<T>(rows: seq<seq<T>>, w: nat)
    requires forall y :: 0 <= y < |rows| ==> |rows[y]| == w
    ensures |Flatten(rows)| == |rows| * w
  {
    if rows != [] {
      FlattenLength(rows[1..], w);
    }
  }

  /** Cuts flat into h consecutive rows of w cells. */
  function Chunks<T>(flat: seq<T>, h: nat, w: nat): (rows: seq<seq<T>>)
    requires |flat| == h * w
    ensures |rows| == h && forall y :: 0 <= y < h ==> |rows[y]| == w
    ensures Flatten(rows) == flat
  {
    if h == 0 then []
    else
      assert |flat[w..]| == (h - 1) * w;
      [flat[..w]] + Chunks(flat[w..], h - 1, w)
  }

  datatype ShapeError = SizeMismatch(size: int, h: int, w: int)

  /**
   * `np.array(flat).reshape((h, w))`: fails unless flat holds exactly h*w
   * cells. (numpy's -1 "infer this dimension" is not modelled: a negative
   * dimension fails.)
   */
  function Reshape<T>(flat: seq<T>, h: int, w: int): (r: Result<Grid<T>, ShapeError>)
    ensures r.Ok? <==> h >= 0 && w >= 0 && |flat| == h * w
    ensures r.Ok? ==> WellFormed(r.value) && r.value.h == h && r.value.w == w
                      && Flatten(r.value.rows) == flat
  {
    if h >= 0 && w >= 0 && |flat| == h * w then Ok(Grid(h, w, Chunks(flat, h, w)))
    else Err(SizeMismatch(|flat|, h, w))
  }

  /** Rows of equal width are determined by their flattening. */
  lemma {:induction false} FlattenInjective<T>(a: seq<seq<T>>, b: seq<seq<T>>, w: nat)
    requires |a| == |b|
    requires forall y :: 0 <= y < |a| ==> |a[y]| == w && |b[y]| == w
    requires Flatten(a) == Flatten(b)
    ensures a == b
  {
    if a != [] {
      var fa, fb := Flatten(a[1..]), Flatten(b[1..]);
      assert a[0] == (a[0] + fa)[..w];
      assert b[0] == (b[0] + fb)[..w];
      assert fa == (a[0] + fa)[w..];
      assert fb == (b[0] + fb)[w..];
      FlattenInjective(a[1..], b[1..], w);
      assert a == [a[0]] + a[1..];
      assert b == [b[0]] + b[1..];
    }
  }

  /** Reshaping a grid's own flattening to its own shape gives the grid back. */
  lemma ReshapeFlatten<T>(g: Grid<T>)
    requires WellFormed(g)
    ensures Reshape(Flatten(g.rows), g.h, g.w) == Ok(g)
  {
    FlattenLength(g.rows, g.w);
    var r := Reshape(Flatten(g.rows), g.h, g.w);
    FlattenInjective(r.value.rows, g.rows, g.w);
  }

  // ---------------------------------------------------------------------
  // Cropping and pasting
  // ---------------------------------------------------------------------

  /** `mask[y1:y2, x1:x2]` for a window inside the grid. */
  function Crop<T>(g: Grid<T>, x1: nat, y1: nat, x2: nat, y2: nat): (c: Grid<T>)
    requires WellFormed(g) && x1 <= x2 <= g.w && y1 <= y2 <= g.h
    ensures WellFormed(c) && c.h == y2 - y1 && c.w == x2 - x1
    ensures forall x, y :: 0 <= x < c.w && 0 <= y < c.h ==> c.rows[y][x] == g.rows[y1 + y][x1 + x]
  {
    Grid(y2 - y1, x2 - x1, seq(y2 - y1, i requires 0 <= i < y2 - y1 => g.rows[y1 + i][x1..x2]))
  }

  /** `dst[y:y+src.h, x:x+src.w] = src` for a window inside dst. */
  function Paste<T>(dst: Grid<T>, src: Grid<T>, x: int, y: int): (r: Grid<T>)
    requires WellFormed(dst) && WellFormed(src)
    requires 0 <= x && x + src.w <= dst.w && 0 <= y && y + src.h <= dst.h
    ensures WellFormed(r) && SameShape(r, dst)
    ensures forall px, py :: 0 <= px < dst.w && 0 <= py < dst.h ==>
      r.rows[py][px] == if x <= px < x + src.w && y <= py < y + src.h then src.rows[py - y][px - x] else dst.rows[py][px]
  {
    Grid(dst.h, dst.w, seq(dst.h, py requires 0 <= py < dst.h =>
      seq(dst.w, px requires 0 <= px < dst.w =>
        if x <= px < x + src.w && y <= py < y + src.h then src.rows[py - y][px - x] else dst.rows[py][px])))
  }

  /** Two well-formed grids of one shape with equal cells are equal. */
  lemma GridExt<T>(a: Grid<T>, b: Grid<T>)
    requires WellFormed(a) && WellFormed(b) && SameShape(a, b)
    requires forall x, y :: 0 <= x < a.w && 0 <= y < a.h ==> a.rows[y][x] == b.rows[y][x]
    ensures a == b
  {
    forall y | 0 <= y < a.h ensures a.rows[y] == b.rows[y] {
      assert forall x :: 0 <= x < a.w ==> a.rows[y][x] == b.rows[y][x];
    }
  }

  // ---------------------------------------------------------------------
  // Counting the pixels that are on
  // ---------------------------------------------------------------------

  function RowCount(row: seq<Byte>): nat {
    if row == [] then 0 else (if row[|row| - 1] > 0 then 1 else 0) + RowCount(row[..|row| - 1])
  }

  function RowsCount(rows: seq<seq<Byte>>): nat {
    if rows == [] then 0 else RowCount(rows[|rows| - 1]) + RowsCount(rows[..|rows| - 1])
  }

  /** `np.sum(mask > 0)`: the number of pixels that are on. */
  function OnCount(m: Mask): nat {
    RowsCount(m.rows)
  }

  lemma {:induction false} RowCountZero(row: seq<Byte>)
    ensures RowCount(row) == 0 <==> forall x :: 0 <= x < |row| ==> row[x] == 0
  {
    if row != [] {
      RowCountZero(row[..|row| - 1]);
    }
  }

  lemma {:induction false} RowsCountZero(rows: seq<seq<Byte>>)
    ensures RowsCount(rows) == 0 <==>
      forall y, x :: 0 <= y < |rows| && 0 <= x < |rows[y]| ==> rows[y][x] == 0
  {
    if rows != [] {
      RowCountZero(rows[|rows| - 1]);
      RowsCountZero(rows[..|rows| - 1]);
      assert forall y :: 0 <= y < |rows| - 1 ==> rows[..|rows| - 1][y] == rows[y];
    }
  }

  /** The count of on pixels is zero exactly when no pixel is on. */
  lemma OnCountZero(m: Mask)
    requires WellFormed(m)
    ensures OnCount(m) == 0 <==> !HasOn(m)
  {
    RowsCountZero(m.rows);
  }

  lemma {:induction false} RowCountBound(row: seq<Byte>)
    ensures RowCount(row) <= |row|
  {
    if row != [] {
      RowCountBound(row[..|row| - 1]);
    }
  }

  /** At most h*w pixels are on. */
  lemma {:induction false} OnCountBound(m: Mask)
    requires WellFormed(m)
    ensures OnCount(m) <= m.h * m.w
    decreases m.h
  {
    if m.h > 0 {
      var n := m.h - 1;
      OnCountBound(Grid(n, m.w, m.rows[..n]));
      RowCountBound(m.rows[n]);
      assert m.h * m.w == n * m.w + m.w;
    }
  }
}

=== FILE: nesting.dfy ===
/**
 * One-dimensional stock nesting: linear parts (sticks, strips, dowels) are
 * cut from stock lengths by First Fit Decreasing. Lengths are exact reals.
 */
module Nesting {
  import opened Wrappers

  datatype LinearPart = LinearPart(
    objectId: string, instanceId: string, name: string,
    length: real, width: real, material: string, quantity: int)

  /** `total_length`: the length of all copies; nothing for no copies, never negative for real parts. */
  function TotalLength(p: LinearPart): (r: real)
    ensures p.quantity == 0 || p.length == 0.0 ==> r == 0.0
    ensures p.quantity == 1 ==> r == p.length
    ensures p.length >= 0.0 && p.quantity >= 0 ==> r >= 0.0
  {
    p.length * p.quantity as real
  }

  /** A part placed on a stock, copy `copyNum` (from 1) of its part. */
  datatype NestedLinearPart = NestedLinearPart(part: LinearPart, position: real, copyNum: int)

  /** `end_position`: where the part ends on the stock; a part of length 0 or more never ends before it starts. */
  function EndPosition(p: NestedLinearPart): (r: real)
    ensures p.part.length >= 0.0 ==> p.position <= r
    ensures p.position == 0.0 ==> r == p.part.length
  {
    p.position + p.part.length
  }

  datatype NestedStock = NestedStock(stockId: string, length: real, width: real, material: string, parts: seq<NestedLinearPart>)

  function Max(a: real, b: real): real {
    if a >= b then a else b
  }

  /** The farthest end among placed parts. */
  function MaxEnd(parts: seq<NestedLinearPart>): (r: real)
    requires |parts| > 0
    ensures forall k :: 0 <= k < |parts| ==> EndPosition(parts[k]) <= r
    ensures exists k :: 0 <= k < |parts| && EndPosition(parts[k]) == r
  {
    if |parts| == 1 then EndPosition(parts[0])
    else
      var rest := MaxEnd(parts[..|parts| - 1]);
      assert forall k :: 0 <= k < |parts| - 1 ==> parts[k] == parts[..|parts| - 1][k];
      Max(rest, EndPosition(parts[|parts| - 1]))
  }

  /** The summed length of the placed parts. */
  function UsedLength(parts: seq<NestedLinearPart>): real {
    if |parts| == 0 then 0.0 else UsedLength(parts[..|parts| - 1]) + parts[|parts| - 1].part.length
  }

  /** `utilization`: the used share of the stock in percent, 0 for a stock of length 0. */
  function Utilization(s: NestedStock): (r: real)
    ensures s.length == 0.0 ==> r == 0.0
    ensures s.length != 0.0 ==> r * s.length == UsedLength(s.parts) * 100.0
  {
    if s.length == 0.0 then 0.0 else (UsedLength(s.parts) / s.length) * 100.0
  }

  /** `waste`: the stock length not used by parts, never negative. */
  function Waste(s: NestedStock): (r: real)
    ensures r >= 0.0
    ensures r == 0.0 || r + UsedLength(s.parts) == s.length
  {
    Max(0.0, s.length - UsedLength(s.parts))
  }

  /** `remaining_length`: the whole stock when empty, else what is left after the farthest end, never negative. */
  function RemainingLength(s: NestedStock): (r: real)
    ensures |s.parts| == 0 ==> r == s.length
    ensures |s.parts| > 0 ==> r >= 0.0 && (r == 0.0 || r + MaxEnd(s.parts) == s.length)
  {
    if |s.parts| == 0 then s.length else Max(0.0, s.length - MaxEnd(s.parts))
  }

  /** The copies of one part, numbered from 1; a quantity below 1 gives none. */
  function Copies(p: LinearPart): (r: seq<(LinearPart, int)>)
    ensures |r| == (if p.quantity < 0 then 0 else p.quantity)
    ensures forall k :: 0 <= k < |r| ==> r[k] == (p, k + 1)
  {
    var n := if p.quantity < 0 then 0 else p.quantity;
    seq(n, k requires 0 <= k < n => (p, k + 1))
  }

  /** Every copy of every part, in part order: the items before sorting. */
  function Items(parts: seq<LinearPart>): seq<(LinearPart, int)> {
    if |parts| == 0 then [] else Items(parts[..|parts| - 1]) + Copies(parts[|parts| - 1])
  }

  function TotalQuantity(parts: seq<LinearPart>): nat {
    if |parts| == 0 then 0
    else TotalQuantity(parts[..|parts| - 1]) + (if parts[|parts| - 1].quantity < 0 then 0 else parts[|parts| - 1].quantity)
  }

  lemma {:induction false} ItemsCount(parts: seq<LinearPart>)
    ensures |Items(parts)| == TotalQuantity(parts)
  {
    if |parts| > 0 {
      ItemsCount(parts[..|parts| - 1]);
    }
  }

  function ItemsLength(items: seq<(LinearPart, int)>): real {
    if |items| == 0 then 0.0 else ItemsLength(items[..|items| - 1]) + items[|items| - 1].0.length
  }

  function PartsTotalLength(parts: seq<LinearPart>): real {
    if |parts| == 0 then 0.0 else PartsTotalLength(parts[..|parts| - 1]) + TotalLength(parts[|parts| - 1])
  }

  lemma {:induction false} ItemsLengthAppend(a: seq<(LinearPart, int)>, b: seq<(LinearPart, int)>)
    ensures ItemsLength(a + b) == ItemsLength(a) + ItemsLength(b)
    decreases |b|
  {
    if |b| > 0 {
      assert (a + b)[..|a + b| - 1] == a + b[..|b| - 1];
      ItemsLengthAppend(a, b[..|b| - 1]);
    } else {
      assert a + b == a;
    }
  }

  lemma {:induction false} CopiesLength(p: LinearPart, n: nat)
    requires n <= |Copies(p)|
    ensures ItemsLength(Copies(p)[..n]) == p.length * n as real
  {
    if n > 0 {
      assert Copies(p)[..n][..n - 1] == Copies(p)[..n - 1];
      CopiesLength(p, n - 1);
    }
  }

  lemma CopiesTotal(p: LinearPart)
    requires p.quantity >= 0
    ensures ItemsLength(Copies(p)) == TotalLength(p)
  {
    CopiesLength(p, p.quantity);
    assert Copies(p)[..p.quantity] == Copies(p);
  }

  /**
   * The items together are as long as the parts' total lengths, when no
   * quantity is negative: expanding by quantity keeps the material needed.
   */
  lemma {:induction false} ItemsKeepTotalLength(parts: seq<LinearPart>)
    requires forall k :: 0 <= k < |parts| ==> parts[k].quantity >= 0
    ensures ItemsLength(Items(parts)) == PartsTotalLength(parts)
  {
    if |parts| > 0 {
      var front := parts[..|parts| - 1];
      var last := parts[|parts| - 1];
      assert forall k :: 0 <= k < |front| ==> front[k] == parts[k];
      ItemsKeepTotalLength(front);
      assert Items(parts) == Items(front) + Copies(last);
      ItemsLengthAppend(Items(front), Copies(last));
      CopiesTotal(last);
      assert PartsTotalLength(parts) == PartsTotalLength(front) + TotalLength(last);
    }
  }

  predicate SortedBy<T>(s: seq<T>, key: T -> real) {
    forall i, j :: 0 <= i < j < |s| ==> key(s[i]) <= key(s[j])
  }

  /** Puts x after every entry whose key is not above its own, so equal keys keep their order. */
  function Insert<T>(x: T, s: seq<T>, key: T -> real): (r: seq<T>)
    requires SortedBy(s, key)
    ensures |r| == |s| + 1 && SortedBy(r, key)
    ensures multiset(r) == multiset(s) + multiset{x}
    ensures r[0] == x || (|s| > 0 && r[0] == s[0])
  {
    if |s| == 0 then [x]
    else if key(x) < key(s[0]) then [x] + s
    else
      var rest := Insert(x, s[1..], key);
      assert s == [s[0]] + s[1..];
      [s[0]] + rest
  }

  /** Python's stable sort by a key: insertion of each entry after the earlier ones with keys not above its own. */
  function StableSort<T>(xs: seq<T>, key: T -> real): (r: seq<T>)
    ensures SortedBy(r, key)
    ensures multiset(r) == multiset(xs)
    ensures |r| == |xs|
  {
    if |xs| == 0 then []
    else
      var r := Insert(xs[|xs| - 1], StableSort(xs[..|xs| - 1], key), key);
      assert xs == xs[..|xs| - 1] + [xs[|xs| - 1]];
      r
  }

  /** The entries of `s` whose key is `v`, in their order in `s`. */
  function WithKey<T>(s: seq<T>, key: T -> real, v: real): (r: seq<T>)
    ensures |r| <= |s|
  {
    if |s| == 0 then [] else (if key(s[0]) == v then [s[0]] else []) + WithKey(s[1..], key, v)
  }

  lemma {:induction false} WithKeySnoc<T>(s: seq<T>, x: T, key: T -> real, v: real)
    ensures WithKey(s + [x], key, v) == WithKey(s, key, v) + (if key(x) == v then [x] else [])
  {
    if |s| == 0 {
      assert [x][1..] == [];
    } else {
      var head := if key(s[0]) == v then [s[0]] else [];
      var last := if key(x) == v then [x] else [];
      assert (s + [x])[0] == s[0] && (s + [x])[1..] == s[1..] + [x];
      WithKeySnoc(s[1..], x, key, v);
      calc {
        WithKey(s + [x], key, v);
        head + WithKey(s[1..] + [x], key, v);
        head + (WithKey(s[1..], key, v) + last);
        (head + WithKey(s[1..], key, v)) + last;
      }
    }
  }

  /** A sorted sequence whose first key is above `v` has no entry with key `v`. */
  lemma {:induction false} WithKeyAbove<T>(s: seq<T>, key: T -> real, v: real)
    requires SortedBy(s, key) && |s| > 0 && v < key(s[0])
    ensures WithKey(s, key, v) == []
  {
    if |s| > 1 {
      WithKeyAbove(s[1..], key, v);
    }
  }

  /** The entries with key `v` of a sequence with a first entry `a`. */
  lemma WithKeyCons<T>(a: T, rest: seq<T>, key: T -> real, v: real)
    ensures WithKey([a] + rest, key, v) == (if key(a) == v then [a] else []) + WithKey(rest, key, v)
  {
    assert ([a] + rest)[0] == a && ([a] + rest)[1..] == rest;
  }

  /** Putting the same entry in front of both sides keeps an appended tail apart. */
  lemma WithKeyShift<T>(a: T, rest: seq<T>, tail: seq<T>, key: T -> real, v: real, last: seq<T>)
    requires WithKey(rest, key, v) == WithKey(tail, key, v) + last
    ensures WithKey([a] + rest, key, v) == ((if key(a) == v then [a] else []) + WithKey(tail, key, v)) + last
  {
    WithKeyCons(a, rest, key, v);
  }

  /** x put in front of a sorted sequence whose keys are all above its own. */
  lemma WithKeyFront<T>(x: T, s: seq<T>, key: T -> real, v: real)
    requires SortedBy(s, key) && |s| > 0 && key(x) < key(s[0])
    ensures WithKey([x] + s, key, v) == WithKey(s, key, v) + (if key(x) == v then [x] else [])
  {
    WithKeyCons(x, s, key, v);
    if key(x) == v {
      WithKeyAbove(s, key, v);
    }
  }

  /** Inserting x adds it after every entry with the same key. */
  lemma {:induction false} InsertKeepsOrder<T>(x: T, s: seq<T>, key: T -> real, v: real)
    requires SortedBy(s, key)
    ensures WithKey(Insert(x, s, key), key, v) == WithKey(s, key, v) + (if key(x) == v then [x] else [])
  {
    var last := if key(x) == v then [x] else [];
    if |s| == 0 {
      WithKeyCons(x, [], key, v);
    } else if key(x) < key(s[0]) {
      WithKeyFront(x, s, key, v);
    } else {
      InsertKeepsOrder(x, s[1..], key, v);
      WithKeyShift(s[0], Insert(x, s[1..], key), s[1..], key, v, last);
    }
  }

  /** The entries with key `v`, read up to the last entry and then that entry. */
  lemma WithKeyLast<T>(xs: seq<T>, key: T -> real, v: real)
    requires |xs| > 0
    ensures WithKey(xs, key, v) ==
      WithKey(xs[..|xs| - 1], key, v) + (if key(xs[|xs| - 1]) == v then [xs[|xs| - 1]] else [])
  {
    WithKeySnoc(xs[..|xs| - 1], xs[|xs| - 1], key, v);
    assert xs == xs[..|xs| - 1] + [xs[|xs| - 1]];
  }

  /** Stability: the entries with any one key come out in their input order. */
  lemma {:induction false} StableSortStable<T>(xs: seq<T>, key: T -> real, v: real)
    ensures WithKey(StableSort(xs, key), key, v) == WithKey(xs, key, v)
  {
    if |xs| > 0 {
      var n := |xs| - 1;
      StableSortStable(xs[..n], key, v);
      InsertKeepsOrder(xs[n], StableSort(xs[..n], key), key, v);
      WithKeyLast(xs, key, v);
    }
  }

  /** `items.sort(key=length, reverse=True)`: a stable sort on the negated length. */
  function LongestFirst(items: seq<(LinearPart, int)>): (r: seq<(LinearPart, int)>)
    ensures multiset(r) == multiset(items) && |r| == |items|
    ensures forall i, j :: 0 <= i < j < |r| ==> r[i].0.length >= r[j].0.length
  {
    var r := StableSort(items, (t: (LinearPart, int)) => -t.0.length);
    assert forall i, j :: 0 <= i < j < |r| ==> -r[i].0.length <= -r[j].0.length;
    r
  }

  /** `sorted(stock_lengths, reverse=True)`. */
  function LargestFirst(lengths: seq<real>): (r: seq<real>)
    ensures multiset(r) == multiset(lengths) && |r| == |lengths|
    ensures forall i, j :: 0 <= i < j < |r| ==> r[i] >= r[j]
  {
    var r := StableSort(lengths, (v: real) => -v);
    assert forall i, j :: 0 <= i < j < |r| ==> -r[i] <= -r[j];
    r
  }

  /** The first of the stock lengths that holds `need`, if any: the search loop of `nest_parts`. */
  function FirstFitting(stockLengths: seq<real>, need: real): (r: Option<real>)
    ensures r.None? <==> forall k :: 0 <= k < |stockLengths| ==> stockLengths[k] < need
    ensures r.Some? ==> r.value >= need && exists i ::
      0 <= i < |stockLengths| && stockLengths[i] == r.value && forall k :: 0 <= k < i ==> stockLengths[k] < need
  {
    if |stockLengths| == 0 then None
    else if stockLengths[0] >= need then Some(stockLengths[0])
    else
      var rest := FirstFitting(stockLengths[1..], need);
      assert forall k :: 1 <= k < |stockLengths| ==> stockLengths[k] == stockLengths[1..][k - 1];
      if rest.Some? then
        var i :| 0 <= i < |stockLengths[1..]| && stockLengths[1..][i] == rest.value &&
                 forall k :: 0 <= k < i ==> stockLengths[1..][k] < need;
        assert stockLengths[i + 1] == rest.value;
        rest
      else rest
  }

  /**
   * The length of a new stock: the first of the descending stock lengths
   * that holds the part, else the largest. The first entry is the largest,
   * so when any entry fits the first does: the result is always the largest
   * stock, whatever the comment beside the search says.
   */
  function NewStockLength(sortedStocks: seq<real>, need: real): (r: real)
    requires |sortedStocks| > 0
    requires forall i, j :: 0 <= i < j < |sortedStocks| ==> sortedStocks[i] >= sortedStocks[j]
    ensures r == sortedStocks[0]
  {
    match FirstFitting(sortedStocks, need)
    case Some(v) =>
      var i :| 0 <= i < |sortedStocks| && sortedStocks[i] == v && forall k :: 0 <= k < i ==> sortedStocks[k] < need;
      assert sortedStocks[0] >= v;
      v
    case None => sortedStocks[0]
  }

  /** The (part, copy) of each placed part of a stock. */
  function Pairs(parts: seq<NestedLinearPart>): (r: seq<(LinearPart, int)>)
    ensures |r| == |parts|
    ensures forall k :: 0 <= k < |r| ==> r[k] == (parts[k].part, parts[k].copyNum)
  {
    seq(|parts|, k requires 0 <= k < |parts| => (parts[k].part, parts[k].copyNum))
  }

  /** Every (part, copy) placed on any stock, stock by stock. */
  function Placed(stocks: seq<NestedStock>): seq<(LinearPart, int)> {
    if |stocks| == 0 then [] else Placed(stocks[..|stocks| - 1]) + Pairs(stocks[|stocks| - 1].parts)
  }

  /** Appending one placed part to stock j adds its (part, copy) to what is placed. */
  lemma {:induction false} PlacedAfterAppend(stocks: seq<NestedStock>, j: nat, np: NestedLinearPart)
    requires j < |stocks|
    ensures multiset(Placed(stocks[j := stocks[j].(parts := stocks[j].parts + [np])])) ==
            multiset(Placed(stocks)) + multiset{(np.part, np.copyNum)}
  {
    var n := |stocks|;
    var s' := stocks[j].(parts := stocks[j].parts + [np]);
    var updated := stocks[j := s'];
    var front := stocks[..n - 1];
    var pair := (np.part, np.copyNum);
    assert Placed(updated) == Placed(updated[..n - 1]) + Pairs(updated[n - 1].parts);
    assert Placed(stocks) == Placed(front) + Pairs(stocks[n - 1].parts);
    var before := multiset(Placed(front));
    var last := multiset(Pairs(stocks[n - 1].parts));
    assert multiset(Placed(stocks)) == before + last;
    if j == n - 1 {
      assert updated[..n - 1] == front;
      PairsAppend(stocks[j].parts, np);
      assert multiset(Pairs(updated[n - 1].parts)) == last + multiset{pair};
      assert multiset(Placed(updated)) == before + (last + multiset{pair});
    } else {
      assert updated[..n - 1] == front[j := s'];
      assert updated[n - 1] == stocks[n - 1];
      PlacedAfterAppend(front, j, np);
      assert multiset(Placed(updated[..n - 1])) == before + multiset{pair};
      assert multiset(Placed(updated)) == (before + multiset{pair}) + last;
    }
  }

  lemma PairsAppend(ps: seq<NestedLinearPart>, np: NestedLinearPart)
    ensures Pairs(ps + [np]) == Pairs(ps) + [(np.part, np.copyNum)]
  {
  }

  /** The shape every stock `nest_parts` builds keeps. */
  predicate StockOk(s: NestedStock, stockLength: real, material: string, kerf: real) {
    s.length == stockLength && s.material == material && |s.parts| > 0 &&
    s.parts[0].position == 0.0 && s.width == s.parts[0].part.width &&
    (forall k :: 1 <= k < |s.parts| ==> s.parts[k].position == MaxEnd(s.parts[..k]) + kerf) &&
    (forall k :: 1 <= k < |s.parts| ==> s.parts[k].part.length + kerf > 0.0 ==> EndPosition(s.parts[k]) <= s.length)
  }

  /** The index of the first stock with room for `need`, if any. */
  function FirstFitIdx(stocks: seq<NestedStock>, need: real): (r: Option<nat>)
    ensures r.None? <==> forall k :: 0 <= k < |stocks| ==> RemainingLength(stocks[k]) < need
    ensures r.Some? ==> r.value < |stocks| && RemainingLength(stocks[r.value]) >= need
    ensures r.Some? ==> forall k :: 0 <= k < r.value ==> RemainingLength(stocks[k]) < need
  {
    if |stocks| == 0 then None
    else if RemainingLength(stocks[0]) >= need then Some(0)
    else
      var rest := FirstFitIdx(stocks[1..], need);
      assert forall k :: 1 <= k < |stocks| ==> stocks[k] == stocks[1..][k - 1];
      if rest.None? then None else Some(rest.value + 1)
  }

  /** A stock with room that comes after only stocks without room is the first fit. */
  lemma FirstFitIdxAt(stocks: seq<NestedStock>, need: real, k: nat)
    requires k < |stocks| && RemainingLength(stocks[k]) >= need
    requires forall i :: 0 <= i < k ==> RemainingLength(stocks[i]) < need
    ensures FirstFitIdx(stocks, need) == Some(k)
  {
    var r := FirstFitIdx(stocks, need);
    assert r.Some?;
    assert !(r.value < k) && !(k < r.value);
  }

  /** The scan `for stock in stocks: if stock.remaining_length >= part_length` of `nest_parts`. */
  method FirstFit(stocks: seq<NestedStock>, need: real) returns (j: Option<nat>)
    ensures j == FirstFitIdx(stocks, need)
  {
    var k := 0;
    while k < |stocks|
      invariant 0 <= k <= |stocks|
      invariant forall i :: 0 <= i < k ==> RemainingLength(stocks[i]) < need
    {
      if RemainingLength(stocks[k]) >= need {
        FirstFitIdxAt(stocks, need, k);
        return Some(k);
      }
      k := k + 1;
    }
    return None;
  }

  /** Where the next part of a stock starts: a kerf after the farthest end, or 0 on an empty stock. */
  function NextPosition(parts: seq<NestedLinearPart>, kerf: real): real {
    if |parts| == 0 then 0.0 else MaxEnd(parts) + kerf
  }

  /** Stock j with the item appended at its next position; every other stock as it was. */
  function Appended(stocks: seq<NestedStock>, j: nat, item: (LinearPart, int), kerf: real): seq<NestedStock>
    requires j < |stocks|
  {
    stocks[j := stocks[j].(parts := stocks[j].parts + [NestedLinearPart(item.0, NextPosition(stocks[j].parts, kerf), item.1)])]
  }

  /** The stocks with a new one, of the length the search chooses, holding the item at 0. */
  function Opened(stocks: seq<NestedStock>, item: (LinearPart, int), sortedStocks: seq<real>, material: string,
                  kerf: real, freshId: nat -> string): seq<NestedStock>
    requires |sortedStocks| > 0
    requires forall i, j :: 0 <= i < j < |sortedStocks| ==> sortedStocks[i] >= sortedStocks[j]
  {
    stocks + [NestedStock(freshId(|stocks|), NewStockLength(sortedStocks, item.0.length + kerf), item.0.width, material,
                          [NestedLinearPart(item.0, 0.0, item.1)])]
  }

  /** One step of the first fit, on values: into the first stock with room, else onto a new stock. */
  function FirstFitStep(stocks: seq<NestedStock>, item: (LinearPart, int), sortedStocks: seq<real>, material: string,
                        kerf: real, freshId: nat -> string): seq<NestedStock>
    requires |sortedStocks| > 0
    requires forall i, j :: 0 <= i < j < |sortedStocks| ==> sortedStocks[i] >= sortedStocks[j]
  {
    match FirstFitIdx(stocks, item.0.length + kerf)
    case Some(j) => Appended(stocks, j, item, kerf)
    case None => Opened(stocks, item, sortedStocks, material, kerf, freshId)
  }

  /** The first fit of the first `n` items in order, from no stocks: a left fold of `FirstFitStep`. */
  function FirstFitPrefix(items: seq<(LinearPart, int)>, n: nat, sortedStocks: seq<real>, material: string, kerf: real,
                          freshId: nat -> string): seq<NestedStock>
    requires n <= |items| && |sortedStocks| > 0
    requires forall i, j :: 0 <= i < j < |sortedStocks| ==> sortedStocks[i] >= sortedStocks[j]
  {
    if n == 0 then []
    else FirstFitStep(FirstFitPrefix(items, n - 1, sortedStocks, material, kerf, freshId),
                      items[n - 1], sortedStocks, material, kerf, freshId)
  }

  /** The first fit of all the items. */
  function FirstFitAll(items: seq<(LinearPart, int)>, sortedStocks: seq<real>, material: string, kerf: real,
                       freshId: nat -> string): seq<NestedStock>
    requires |sortedStocks| > 0
    requires forall i, j :: 0 <= i < j < |sortedStocks| ==> sortedStocks[i] >= sortedStocks[j]
  {
    FirstFitPrefix(items, |items|, sortedStocks, material, kerf, freshId)
  }

  /** Appending a part a kerf after the farthest end of a stock with room keeps the stock's shape. */
  lemma AppendKeepsStock(s: NestedStock, np: NestedLinearPart, stockLength: real, material: string, kerf: real)
    requires StockOk(s, stockLength, material, kerf)
    requires RemainingLength(s) >= np.part.length + kerf
    requires np.position == MaxEnd(s.parts) + kerf
    ensures StockOk(s.(parts := s.parts + [np]), stockLength, material, kerf)
  {
    AppendKeepsPositions(s.parts, np, kerf);
    AppendKeepsInside(s, np, kerf);
  }

  lemma AppendKeepsPositions(ps: seq<NestedLinearPart>, np: NestedLinearPart, kerf: real)
    requires |ps| > 0 && np.position == MaxEnd(ps) + kerf
    requires forall k :: 1 <= k < |ps| ==> ps[k].position == MaxEnd(ps[..k]) + kerf
    ensures forall k :: 1 <= k < |ps + [np]| ==> (ps + [np])[k].position == MaxEnd((ps + [np])[..k]) + kerf
  {
    var qs := ps + [np];
    assert qs[..|ps|] == ps;
    forall k | 1 <= k < |qs|
      ensures qs[k].position == MaxEnd(qs[..k]) + kerf
    {
      if k < |ps| {
        assert qs[..k] == ps[..k];
      }
    }
  }

  lemma AppendKeepsInside(s: NestedStock, np: NestedLinearPart, kerf: real)
    requires |s.parts| > 0 && RemainingLength(s) >= np.part.length + kerf
    requires np.position == MaxEnd(s.parts) + kerf
    requires forall k :: 1 <= k < |s.parts| ==> s.parts[k].part.length + kerf > 0.0 ==> EndPosition(s.parts[k]) <= s.length
    ensures forall k :: 1 <= k < |s.parts + [np]| ==> (s.parts + [np])[k].part.length + kerf > 0.0 ==>
      EndPosition((s.parts + [np])[k]) <= s.length
  {
    var qs := s.parts + [np];
    forall k | 1 <= k < |qs| && qs[k].part.length + kerf > 0.0
      ensures EndPosition(qs[k]) <= s.length
    {
      if k < |s.parts| {
        assert qs[k] == s.parts[k];
      }
    }
  }

  /** The stocks `nest_parts` builds: each has the given length and material, its own id, and its shape kept. */
  predicate StocksOk(stocks: seq<NestedStock>, stockLength: real, material: string, kerf: real, freshId: nat -> string) {
    forall k :: 0 <= k < |stocks| ==> StockOk(stocks[k], stockLength, material, kerf) && stocks[k].stockId == freshId(k)
  }

  lemma ReplaceKeepsStocks(stocks: seq<NestedStock>, j: nat, s': NestedStock, stockLength: real, material: string,
                           kerf: real, freshId: nat -> string)
    requires j < |stocks| && StocksOk(stocks, stockLength, material, kerf, freshId)
    requires StockOk(s', stockLength, material, kerf) && s'.stockId == stocks[j].stockId
    requires s'.parts[0] == stocks[j].parts[0]
    ensures StocksOk(stocks[j := s'], stockLength, material, kerf, freshId)
    ensures stocks[j := s'][0].parts[0] == stocks[0].parts[0]
  {
  }

  lemma AddKeepsStocks(stocks: seq<NestedStock>, s: NestedStock, stockLength: real, material: string,
                       kerf: real, freshId: nat -> string)
    requires StocksOk(stocks, stockLength, material, kerf, freshId)
    requires StockOk(s, stockLength, material, kerf) && s.stockId == freshId(|stocks|)
    ensures StocksOk(stocks + [s], stockLength, material, kerf, freshId)
  {
    var next := stocks + [s];
    forall k | 0 <= k < |next|
      ensures StockOk(next[k], stockLength, material, kerf) && next[k].stockId == freshId(k)
    {
      if k < |stocks| {
        assert next[k] == stocks[k];
      }
    }
  }

  /** The item a kerf after the farthest end of stock j, which has room for it. */
  method AppendToStock(stocks: seq<NestedStock>, j: nat, item: (LinearPart, int), stockLength: real, material: string,
                       kerf: real, freshId: nat -> string) returns (next: seq<NestedStock>)
    requires j < |stocks| && StocksOk(stocks, stockLength, material, kerf, freshId)
    requires RemainingLength(stocks[j]) >= item.0.length + kerf
    ensures StocksOk(next, stockLength, material, kerf, freshId)
    ensures multiset(Placed(next)) == multiset(Placed(stocks)) + multiset{item}
    ensures |next| == |stocks| && next[0].parts[0] == stocks[0].parts[0]
    ensures next == Appended(stocks, j, item, kerf)
  {
    var np := NestedLinearPart(item.0, MaxEnd(stocks[j].parts) + kerf, item.1);
    var s' := stocks[j].(parts := stocks[j].parts + [np]);
    AppendKeepsStock(stocks[j], np, stockLength, material, kerf);
    PlacedAfterAppend(stocks, j, np);
    ReplaceKeepsStocks(stocks, j, s', stockLength, material, kerf, freshId);
    next := stocks[j := s'];
  }

  /** A new stock of the largest length holding the item at 0. */
  method OpenStock(stocks: seq<NestedStock>, item: (LinearPart, int), sortedStocks: seq<real>, material: string,
                   kerf: real, freshId: nat -> string) returns (next: seq<NestedStock>)
    requires |sortedStocks| > 0
    requires forall i, j :: 0 <= i < j < |sortedStocks| ==> sortedStocks[i] >= sortedStocks[j]
    requires StocksOk(stocks, sortedStocks[0], material, kerf, freshId)
    ensures StocksOk(next, sortedStocks[0], material, kerf, freshId)
    ensures multiset(Placed(next)) == multiset(Placed(stocks)) + multiset{item}
    ensures |next| == |stocks| + 1 && next[..|stocks|] == stocks && next[|stocks|].parts[0].part == item.0
    ensures next == Opened(stocks, item, sortedStocks, material, kerf, freshId)
  {
    var length := NewStockLength(sortedStocks, item.0.length + kerf);
    var s := NestedStock(freshId(|stocks|), length, item.0.width, material, [NestedLinearPart(item.0, 0.0, item.1)]);
    NewStockOk(s, kerf);
    PlacedAfterAdd(stocks, s);
    AddKeepsStocks(stocks, s, sortedStocks[0], material, kerf, freshId);
    next := stocks + [s];
  }

  lemma NewStockOk(s: NestedStock, kerf: real)
    requires |s.parts| == 1 && s.parts[0].position == 0.0 && s.width == s.parts[0].part.width
    ensures StockOk(s, s.length, s.material, kerf)
  {
  }

  lemma PlacedAfterAdd(stocks: seq<NestedStock>, s: NestedStock)
    ensures Placed(stocks + [s]) == Placed(stocks) + Pairs(s.parts)
  {
    assert (stocks + [s])[..|stocks|] == stocks;
  }

  /**
   * One step of the first fit: the item goes a kerf after the farthest end
   * of the first stock with room for it and the kerf, or at 0 on a new
   * stock of the largest length.
   */
  method PlaceItem(stocks: seq<NestedStock>, item: (LinearPart, int), sortedStocks: seq<real>, material: string,
                   kerf: real, freshId: nat -> string) returns (next: seq<NestedStock>)
    requires |sortedStocks| > 0
    requires forall i, j :: 0 <= i < j < |sortedStocks| ==> sortedStocks[i] >= sortedStocks[j]
    requires StocksOk(stocks, sortedStocks[0], material, kerf, freshId)
    ensures StocksOk(next, sortedStocks[0], material, kerf, freshId)
    ensures multiset(Placed(next)) == multiset(Placed(stocks)) + multiset{item}
    ensures |next| > 0
    ensures |stocks| > 0 ==> next[0].parts[0] == stocks[0].parts[0]
    ensures |stocks| == 0 ==> next[0].parts[0].part == item.0
    ensures FirstFitIdx(stocks, item.0.length + kerf).Some? ==>
      next == Appended(stocks, FirstFitIdx(stocks, item.0.length + kerf).value, item, kerf)
    ensures FirstFitIdx(stocks, item.0.length + kerf).None? ==> next == Opened(stocks, item, sortedStocks, material, kerf, freshId)
    ensures next == FirstFitStep(stocks, item, sortedStocks, material, kerf, freshId)
  {
    var fit := FirstFit(stocks, item.0.length + kerf);
    if fit.Some? {
      next := AppendToStock(stocks, fit.value, item, sortedStocks[0], material, kerf, freshId);
    } else {
      next := OpenStock(stocks, item, sortedStocks, material, kerf, freshId);
      if |stocks| > 0 {
        assert next[0] == next[..|stocks|][0];
      }
    }
  }

  /**
   * `nest_parts`: nothing for no parts or no stock lengths; otherwise every
   * copy of every part is placed exactly once, longest first, each into the
   * first stock with room a kerf after its farthest end, or at 0 on a new
   * stock of the largest length. A part placed into an existing stock ends
   * within it; only the first part of a stock may overhang it.
   */
  method NestParts(parts: seq<LinearPart>, stockLengths: seq<real>, material: string, kerf: real,
                   freshId: nat -> string) returns (stocks: seq<NestedStock>)
    ensures |parts| == 0 || |stockLengths| == 0 ==> stocks == []
    ensures |parts| > 0 && |stockLengths| > 0 ==> multiset(Placed(stocks)) == multiset(Items(parts))
    ensures |stocks| == 0 <==> |parts| == 0 || |stockLengths| == 0 || |Items(parts)| == 0
    ensures |stockLengths| > 0 ==> StocksOk(stocks, LargestFirst(stockLengths)[0], material, kerf, freshId)
    ensures |stocks| > 0 ==> |stocks[0].parts| > 0 && forall t :: t in Items(parts) ==> t.0.length <= stocks[0].parts[0].part.length
    ensures |parts| > 0 && |stockLengths| > 0 ==>
      stocks == FirstFitAll(LongestFirst(Items(parts)), LargestFirst(stockLengths), material, kerf, freshId)
  {
    if |parts| == 0 || |stockLengths| == 0 {
      return [];
    }
    var items := LongestFirst(Items(parts));
    var sortedStocks := LargestFirst(stockLengths);
    stocks := PlaceAll(items, sortedStocks, material, kerf, freshId);
    if |stocks| > 0 {
      LongestLeads(items, Items(parts));
    }
  }

  /** The first-fit loop over the sorted items. */
  method PlaceAll(items: seq<(LinearPart, int)>, sortedStocks: seq<real>, material: string, kerf: real,
                  freshId: nat -> string) returns (stocks: seq<NestedStock>)
    requires |sortedStocks| > 0
    requires forall i, j :: 0 <= i < j < |sortedStocks| ==> sortedStocks[i] >= sortedStocks[j]
    ensures multiset(Placed(stocks)) == multiset(items)
    ensures StocksOk(stocks, sortedStocks[0], material, kerf, freshId)
    ensures |stocks| > 0 <==> |items| > 0
    ensures |stocks| > 0 ==> stocks[0].parts[0].part == items[0].0
    ensures stocks == FirstFitAll(items, sortedStocks, material, kerf, freshId)
  {
    stocks := [];
    for i := 0 to |items|
      invariant stocks == FirstFitPrefix(items, i, sortedStocks, material, kerf, freshId)
      invariant multiset(Placed(stocks)) == multiset(items[..i])
      invariant StocksOk(stocks, sortedStocks[0], material, kerf, freshId)
      invariant i > 0 <==> |stocks| > 0
      invariant i > 0 ==> stocks[0].parts[0].part == items[0].0
    {
      PrefixSnoc(items, i);
      stocks := PlaceItem(stocks, items[i], sortedStocks, material, kerf, freshId);
    }
    assert items[..|items|] == items;
  }

  /** One more item of the prefix adds exactly that item to its multiset. */
  lemma PrefixSnoc(items: seq<(LinearPart, int)>, i: nat)
    requires i < |items|
    ensures multiset(items[..i + 1]) == multiset(items[..i]) + multiset{items[i]}
  {
    assert items[..i + 1] == items[..i] + [items[i]];
  }

  /** After sorting longest first, the first item is as long as any. */
  lemma LongestLeads(items: seq<(LinearPart, int)>, unsorted: seq<(LinearPart, int)>)
    requires multiset(items) == multiset(unsorted) && |items| > 0
    requires forall i, j :: 0 <= i < j < |items| ==> items[i].0.length >= items[j].0.length
    ensures forall t :: t in unsorted ==> t.0.length <= items[0].0.length
  {
    forall t | t in unsorted
      ensures t.0.length <= items[0].0.length
    {
      assert t in multiset(items);
    }
  }

  /** Parts grouped by width, in order of the first part of each width. */
  function Widths(parts: seq<LinearPart>): (r: seq<real>)
    ensures forall v :: v in r <==> exists k :: 0 <= k < |parts| && parts[k].width == v
    ensures forall i, j :: 0 <= i < j < |r| ==> r[i] != r[j]
  {
    if |parts| == 0 then []
    else
      var front := Widths(parts[..|parts| - 1]);
      assert forall k :: 0 <= k < |parts| - 1 ==> parts[k] == parts[..|parts| - 1][k];
      if parts[|parts| - 1].width in front then front else front + [parts[|parts| - 1].width]
  }

  /** The parts of one width, in order. */
  function OfWidth(parts: seq<LinearPart>, width: real): (r: seq<LinearPart>)
    ensures forall p :: p in r <==> p in parts && p.width == width
  {
    if |parts| == 0 then []
    else
      var front := OfWidth(parts[..|parts| - 1], width);
      assert parts == parts[..|parts| - 1] + [parts[|parts| - 1]];
      if parts[|parts| - 1].width == width then front + [parts[|parts| - 1]] else front
  }

  /**
   * The stock lengths for a width: its own entry, else the first entry of
   * the configuration, else a single 36.
   */
  function StockFor(configs: map<real, seq<real>>, configOrder: seq<real>, width: real): (r: seq<real>)
    requires forall k :: 0 <= k < |configOrder| ==> configOrder[k] in configs
    requires forall v :: v in configs ==> v in configOrder
    ensures width in configs ==> r == configs[width]
    ensures width !in configs && |configOrder| > 0 ==> r == configs[configOrder[0]]
    ensures |configs| == 0 ==> r == [36.0]
  {
    if width in configs then configs[width]
    else if |configOrder| > 0 then configs[configOrder[0]]
    else
      assert forall v :: v !in configs;
      [36.0]
  }

  /**
   * `nest_by_width`: each width of the parts, in order of first
   * appearance, is nested onto its stock lengths; a width whose stock list
   * is empty gets no entry, and its parts are not placed.
   */
  method NestByWidth(parts: seq<LinearPart>, configs: map<real, seq<real>>, configOrder: seq<real>, kerf: real,
                     freshId: nat -> string) returns (results: map<real, seq<NestedStock>>, order: seq<real>)
    requires forall k :: 0 <= k < |configOrder| ==> configOrder[k] in configs
    requires forall v :: v in configs ==> v in configOrder
    ensures forall v :: v in results <==> v in Widths(parts) && Nests(parts, configs, configOrder, v)
    ensures forall v :: v in order <==> v in results
    ensures forall v :: v in results ==> multiset(Placed(results[v])) == multiset(Items(OfWidth(parts, v)))
    ensures forall v :: v in results ==> (|OfWidth(parts, v)| > 0 && |StockFor(configs, configOrder, v)| > 0 &&
      results[v] == FirstFitAll(LongestFirst(Items(OfWidth(parts, v))), LargestFirst(StockFor(configs, configOrder, v)),
                                OfWidth(parts, v)[0].material, kerf, freshId))
    ensures order == NestedWidths(parts, configs, configOrder, Widths(parts))
  {
    var widths := Widths(parts);
    ghost var nests := u => Nests(parts, configs, configOrder, u);
    ghost var holds := (u, st) => multiset(Placed(st)) == multiset(Items(OfWidth(parts, u))) &&
      |OfWidth(parts, u)| > 0 && |StockFor(configs, configOrder, u)| > 0 &&
      st == FirstFitAll(LongestFirst(Items(OfWidth(parts, u))), LargestFirst(StockFor(configs, configOrder, u)),
                        OfWidth(parts, u)[0].material, kerf, freshId);
    results := map[];
    order := [];
    for i := 0 to |widths|
      invariant KeptSoFar(widths, i, results, order, nests, holds)
      invariant order == NestedWidths(parts, configs, configOrder, widths[..i])
    {
      var v := widths[i];
      assert v in widths;
      NestedWidthsNext(parts, configs, configOrder, widths, i);
      var nested := NestWidth(parts, v, configs, configOrder, kerf, freshId);
      KeepStep(widths, i, results, order, nests, holds, nested, nested != []);
      if nested != [] {
        results := results[v := nested];
        order := order + [v];
      }
    }
    assert widths[..|widths|] == widths;
    forall v | v in Widths(parts) && Nests(parts, configs, configOrder, v) ensures v in results {
      var k :| 0 <= k < |widths| && widths[k] == v;
      assert nests(widths[k]);
    }
  }

  /**
   * After the first i keys: each entry is for a key that is kept and holds
   * a fitting value, each of those keys that is kept has an entry, and
   * `order` lists the entries.
   */
  ghost predicate KeptSoFar<K(!new), V>(keys: seq<K>, i: int, results: map<K, V>, order: seq<K>,
                                  keep: K -> bool, fits: (K, V) -> bool)
  {
    0 <= i <= |keys| &&
    (forall u :: u in results ==> u in keys && keep(u) && fits(u, results[u])) &&
    (forall k :: 0 <= k < i && keep(keys[k]) ==> keys[k] in results) &&
    (forall u :: u in order <==> u in results)
  }

  /** Entering key i's value exactly when the key is kept extends the invariant by one key. */
  lemma KeepStep<K(!new), V>(keys: seq<K>, i: int, results: map<K, V>, order: seq<K>,
                       keep: K -> bool, fits: (K, V) -> bool, value: V, kept: bool)
    requires 0 <= i < |keys| && KeptSoFar(keys, i, results, order, keep, fits)
    requires kept <==> keep(keys[i])
    requires kept ==> fits(keys[i], value)
    ensures KeptSoFar(keys, i + 1, if kept then results[keys[i] := value] else results,
                      if kept then order + [keys[i]] else order, keep, fits)
  {
    var results' := if kept then results[keys[i] := value] else results;
    forall k | 0 <= k < i + 1 && keep(keys[k]) ensures keys[k] in results' {
      if k < i { assert keys[k] in results; }
    }
  }

  /**
   * The widths among `widths` that get an entry, in the order given: the
   * order in which `nest_by_width` enters them into its dictionary.
   */
  function NestedWidths(parts: seq<LinearPart>, configs: map<real, seq<real>>, configOrder: seq<real>,
                        widths: seq<real>): (r: seq<real>)
    requires forall k :: 0 <= k < |configOrder| ==> configOrder[k] in configs
    requires forall v :: v in configs ==> v in configOrder
    ensures |r| <= |widths|
    ensures forall v :: v in r <==> v in widths && Nests(parts, configs, configOrder, v)
  {
    if |widths| == 0 then []
    else
      var last := widths[|widths| - 1];
      assert widths == widths[..|widths| - 1] + [last];
      NestedWidths(parts, configs, configOrder, widths[..|widths| - 1]) +
        (if Nests(parts, configs, configOrder, last) then [last] else [])
  }

  /** One more width extends the entered widths by that width exactly when it gets an entry. */
  lemma NestedWidthsNext(parts: seq<LinearPart>, configs: map<real, seq<real>>, configOrder: seq<real>,
                         widths: seq<real>, i: nat)
    requires forall k :: 0 <= k < |configOrder| ==> configOrder[k] in configs
    requires forall v :: v in configs ==> v in configOrder
    requires i < |widths|
    ensures NestedWidths(parts, configs, configOrder, widths[..i + 1]) ==
      NestedWidths(parts, configs, configOrder, widths[..i]) +
      (if Nests(parts, configs, configOrder, widths[i]) then [widths[i]] else [])
  {
    assert widths[..i + 1][..i] == widths[..i];
  }

  /** A width gets an entry when it has stock lengths and some copy to place. */
  predicate Nests(parts: seq<LinearPart>, configs: map<real, seq<real>>, configOrder: seq<real>, v: real)
    requires forall k :: 0 <= k < |configOrder| ==> configOrder[k] in configs
    requires forall v :: v in configs ==> v in configOrder
  {
    |StockFor(configs, configOrder, v)| > 0 && |Items(OfWidth(parts, v))| > 0
  }

  /** The nesting of one width's parts onto its stock lengths, with the material of its first part. */
  method NestWidth(parts: seq<LinearPart>, v: real, configs: map<real, seq<real>>, configOrder: seq<real>, kerf: real,
                   freshId: nat -> string) returns (nested: seq<NestedStock>)
    requires forall k :: 0 <= k < |configOrder| ==> configOrder[k] in configs
    requires forall v :: v in configs ==> v in configOrder
    requires v in Widths(parts)
    ensures nested != [] <==> Nests(parts, configs, configOrder, v)
    ensures nested != [] ==> multiset(Placed(nested)) == multiset(Items(OfWidth(parts, v)))
    ensures nested != [] ==> (|OfWidth(parts, v)| > 0 &&
      nested == FirstFitAll(LongestFirst(Items(OfWidth(parts, v))), LargestFirst(StockFor(configs, configOrder, v)),
                            OfWidth(parts, v)[0].material, kerf, freshId))
  {
    var group := OfWidth(parts, v);
    var k :| 0 <= k < |parts| && parts[k].width == v;
    assert parts[k] in group;
    var stockLengths := StockFor(configs, configOrder, v);
    nested := NestParts(group, stockLengths, group[0].material, kerf, freshId);
  }

  /** One cut of a cut list. */
  datatype Cut = Cut(partName: string, length: real, position: real, copy: int)

  /** One stock of a cut list; utilization and waste are not rounded here. */
  datatype CutEntry = CutEntry(stockNum: nat, stockLength: real, width: real, material: string,
                               utilization: real, waste: real, cuts: seq<Cut>)

  function CutOf(p: NestedLinearPart): Cut {
    Cut(p.part.name, p.part.length, p.position, p.copyNum)
  }

  function CutsOf(ps: seq<NestedLinearPart>): (r: seq<Cut>)
    ensures |r| == |ps| && forall k :: 0 <= k < |ps| ==> r[k] == CutOf(ps[k])
  {
    seq(|ps|, k requires 0 <= k < |ps| => CutOf(ps[k]))
  }

  /**
   * The cuts of a stock in order of position. Python sorts the placed parts
   * by position and then makes a cut of each; sorting the cuts by the same
   * position stably gives the same list.
   */
  function Cuts(s: NestedStock): (r: seq<Cut>)
    ensures |r| == |s.parts|
    ensures forall i, j :: 0 <= i < j < |r| ==> r[i].position <= r[j].position
    ensures multiset(r) == multiset(CutsOf(s.parts))
  {
    StableSort(CutsOf(s.parts), (c: Cut) => c.position)
  }

  /** `generate_cut_list`: one entry per stock, numbered from 1, with its cuts in order of position. */
  function CutList(stocks: seq<NestedStock>): (r: seq<CutEntry>)
    ensures |r| == |stocks|
    ensures forall i :: 0 <= i < |r| ==> r[i].stockNum == i + 1 && r[i].stockLength == stocks[i].length &&
                                         r[i].width == stocks[i].width && r[i].material == stocks[i].material
    ensures forall i :: 0 <= i < |r| ==> r[i].cuts == Cuts(stocks[i])
    ensures forall i :: 0 <= i < |r| ==> r[i].utilization == Utilization(stocks[i]) && r[i].waste == Waste(stocks[i])
  {
    seq(|stocks|, i requires 0 <= i < |stocks| =>
      CutEntry(i + 1, stocks[i].length, stocks[i].width, stocks[i].material,
               Utilization(stocks[i]), Waste(stocks[i]), Cuts(stocks[i])))
  }

  datatype Summary =
    | NoStock
    | Summary(stockCount: nat, totalStockLength: real, totalPartsLength: real, totalWaste: real,
              overallUtilization: real, partsCount: nat)

  function StocksLength(stocks: seq<NestedStock>): real {
    if |stocks| == 0 then 0.0 else StocksLength(stocks[..|stocks| - 1]) + stocks[|stocks| - 1].length
  }

  function StocksUsed(stocks: seq<NestedStock>): real {
    if |stocks| == 0 then 0.0 else StocksUsed(stocks[..|stocks| - 1]) + UsedLength(stocks[|stocks| - 1].parts)
  }

  function StocksWaste(stocks: seq<NestedStock>): real {
    if |stocks| == 0 then 0.0 else StocksWaste(stocks[..|stocks| - 1]) + Waste(stocks[|stocks| - 1])
  }

  function PartsCount(stocks: seq<NestedStock>): nat {
    if |stocks| == 0 then 0 else PartsCount(stocks[..|stocks| - 1]) + |stocks[|stocks| - 1].parts|
  }

  /**
   * `get_summary`: only the stock count (0) for no stocks; otherwise the
   * totals, the overall utilization (0 without stock length) and the number
   * of placed parts.
   */
  function GetSummary(stocks: seq<NestedStock>): (r: Summary)
    ensures r.NoStock? <==> |stocks| == 0
    ensures r.Summary? ==> r.stockCount == |stocks| && r.partsCount == |Placed(stocks)|
    ensures r.Summary? ==> r.totalStockLength == StocksLength(stocks) && r.totalPartsLength == StocksUsed(stocks) &&
                           r.totalWaste == StocksWaste(stocks)
    ensures r.Summary? ==> r.totalWaste >= 0.0
    ensures r.Summary? && r.totalStockLength > 0.0 ==> r.overallUtilization * r.totalStockLength == r.totalPartsLength * 100.0
    ensures r.Summary? && r.totalStockLength <= 0.0 ==> r.overallUtilization == 0.0
  {
    if |stocks| == 0 then NoStock
    else
      var total := StocksLength(stocks);
      var used := StocksUsed(stocks);
      PlacedCount(stocks);
      WasteNonNegative(stocks);
      Summary(|stocks|, total, used, StocksWaste(stocks),
              if total > 0.0 then (used / total) * 100.0 else 0.0, PartsCount(stocks))
  }

  lemma {:induction false} PlacedCount(stocks: seq<NestedStock>)
    ensures |Placed(stocks)| == PartsCount(stocks)
  {
    if |stocks| > 0 {
      PlacedCount(stocks[..|stocks| - 1]);
    }
  }

  lemma {:induction false} WasteNonNegative(stocks: seq<NestedStock>)
    ensures StocksWaste(stocks) >= 0.0
  {
    if |stocks| > 0 {
      WasteNonNegative(stocks[..|stocks| - 1]);
    }
  }

  /**
   * The placed count equals the total quantity after nesting non-empty
   * input: every copy is placed once.
   */
  lemma NestedCount(parts: seq<LinearPart>, stocks: seq<NestedStock>)
    requires multiset(Placed(stocks)) == multiset(Items(parts))
    ensures |Placed(stocks)| == TotalQuantity(parts)
    ensures GetSummary(stocks).Summary? ==> GetSummary(stocks).partsCount == TotalQuantity(parts)
  {
    ItemsCount(parts);
    assert |multiset(Placed(stocks))| == |multiset(Items(parts))|;
  }
}

=== FILE: objects.dfy ===
/**
 * Named objects and their instances. An object ("R1") appears as one or more
 * instances (one per view or page); an instance groups the elements that
 * together form that view, and carries its own physical attributes.
 */
module Objects {
  import opened Wrappers
  import opened Masks
  import opened Elements
  import Attributes

  datatype ObjectInstance = ObjectInstance(
    instanceId: string,
    instanceNum: int,
    elements: seq<SegmentElement>,
    pageId: Option<string>,
    viewType: string,
    attributes: Attributes.ObjectAttributes)

  datatype SegmentedObject = SegmentedObject(
    objectId: string,
    name: string,
    category: string,
    instances: seq<ObjectInstance>)

  predicate InstanceOk(inst: ObjectInstance) {
    forall k :: 0 <= k < |inst.elements| ==> ElementOk(inst.elements[k])
  }

  /** `is_grouped`: more than one element. */
  predicate IsGrouped(inst: ObjectInstance) {
    |inst.elements| > 1
  }

  /** `total_area`: the sum of the element areas; 0 exactly when every element is empty. */
  function TotalArea(elements: seq<SegmentElement>): (r: nat)
    requires forall k :: 0 <= k < |elements| ==> ElementOk(elements[k])
    ensures r == 0 <==> forall k :: 0 <= k < |elements| ==> Empty(elements[k])
    ensures forall k :: 0 <= k < |elements| ==> Area(elements[k]) <= r
  {
    if |elements| == 0 then 0
    else
      var rest := TotalArea(elements[1..]);
      assert forall k :: 1 <= k < |elements| ==> elements[k] == elements[1..][k - 1];
      Area(elements[0]) + rest
  }

  /** All elements of all instances, instance by instance. */
  function AllElements(instances: seq<ObjectInstance>): seq<SegmentElement> {
    if |instances| == 0 then [] else instances[0].elements + AllElements(instances[1..])
  }

  /** `element_count`: the number of elements across all instances. */
  function ElementCount(instances: seq<ObjectInstance>): (r: nat)
    ensures r == |AllElements(instances)|
    ensures forall k :: 0 <= k < |instances| ==> |instances[k].elements| <= r
  {
    if |instances| == 0 then 0
    else
      var rest := ElementCount(instances[1..]);
      assert forall k :: 1 <= k < |instances| ==> instances[k] == instances[1..][k - 1];
      |instances[0].elements| + rest
  }

  /** `instance_count`: more than one exactly when the object has multiple instances; 1 for a simple object. */
  function InstanceCount(o: SegmentedObject): (r: nat)
    ensures r > 1 <==> HasMultipleInstances(o)
    ensures IsSimple(o) ==> r == 1
  {
    |o.instances|
  }

  /** `has_multiple_instances`: a simple object never has several instances. */
  function HasMultipleInstances(o: SegmentedObject): (r: bool)
    ensures r ==> !IsSimple(o)
  {
    |o.instances| > 1
  }

  /** `is_simple`: exactly one instance holding exactly one element, so one element in all and no group. */
  function IsSimple(o: SegmentedObject): (r: bool)
    ensures r ==> ElementCount(o.instances) == 1 && !HasGroupedElements(o)
  {
    if |o.instances| == 1 && |o.instances[0].elements| == 1 then
      assert o.instances[1..] == [];
      true
    else false
  }

  /** `has_grouped_elements`: some instance groups several elements, so the object has at least two. */
  function HasGroupedElements(o: SegmentedObject): (r: bool)
    ensures r ==> ElementCount(o.instances) >= 2
  {
    exists k :: 0 <= k < |o.instances| && IsGrouped(o.instances[k])
  }

  /** The index of the first instance on the page, if any. */
  function FindInstance(instances: seq<ObjectInstance>, pageId: string): (r: Option<nat>)
    ensures r.None? <==> forall k :: 0 <= k < |instances| ==> instances[k].pageId != Some(pageId)
    ensures r.Some? ==> r.value < |instances| && instances[r.value].pageId == Some(pageId)
    ensures r.Some? ==> forall k :: 0 <= k < r.value ==> instances[k].pageId != Some(pageId)
  {
    if |instances| == 0 then None
    else if instances[0].pageId == Some(pageId) then Some(0)
    else
      var rest := FindInstance(instances[1..], pageId);
      assert forall k :: 1 <= k < |instances| ==> instances[k] == instances[1..][k - 1];
      if rest.None? then None else Some(rest.value + 1)
  }

  /** `get_instance_for_page`: the first instance whose page id is `pageId`, or None. */
  function InstanceForPage(o: SegmentedObject, pageId: string): (r: Option<ObjectInstance>)
    ensures r.None? <==> forall k :: 0 <= k < |o.instances| ==> o.instances[k].pageId != Some(pageId)
    ensures r.Some? ==> r.value.pageId == Some(pageId)
    ensures r.Some? ==> (exists k :: 0 <= k < |o.instances| && o.instances[k] == r.value &&
                           forall j :: 0 <= j < k ==> o.instances[j].pageId != Some(pageId))
  {
    match FindInstance(o.instances, pageId)
    case None => None
    case Some(k) => Some(o.instances[k])
  }

  /**
   * `add_instance`: appends a new empty instance numbered one past the old
   * instance count, with the given view type and page, and returns it.
   * `freshId` stands for the generated uuid prefix.
   */
  function AddInstance(o: SegmentedObject, viewType: string, pageId: Option<string>, freshId: string)
    : (r: (SegmentedObject, ObjectInstance))
    ensures r.0 == o.(instances := o.instances + [r.1])
    ensures r.1.instanceNum == |o.instances| + 1 && InstanceCount(r.0) == r.1.instanceNum
    ensures r.1.viewType == viewType && r.1.pageId == pageId
    ensures r.1.elements == [] && r.1.attributes == Attributes.Default
    ensures ElementCount(r.0.instances) == ElementCount(o.instances)
  {
    var inst := ObjectInstance(freshId, |o.instances| + 1, [], pageId, viewType, Attributes.Default);
    AllElementsAppend(o.instances, inst);
    (o.(instances := o.instances + [inst]), inst)
  }

  lemma {:induction false} AllElementsAppend(instances: seq<ObjectInstance>, inst: ObjectInstance)
    ensures AllElements(instances + [inst]) == AllElements(instances) + inst.elements
  {
    if |instances| == 0 {
      assert [inst][1..] == [];
    } else {
      assert (instances + [inst])[1..] == instances[1..] + [inst];
      AllElementsAppend(instances[1..], inst);
    }
  }

  // ---------------------------------------------------------------------
  // Dictionary form
  // ---------------------------------------------------------------------

  datatype InstanceRecord = InstanceRecord(
    instanceId: Option<string>,
    instanceNum: Option<int>,
    pageId: Option<string>,
    viewType: Option<string>,
    attributes: Option<Attributes.AttributesRecord>)

  /**
   * `ObjectInstance.from_dict`: missing keys default to "", 1, no page and "";
   * missing attributes are those of an empty dictionary; an empty id is
   * replaced by `freshId`.
   */
  function InstanceFromDict(d: InstanceRecord, elements: seq<SegmentElement>, freshId: string)
    : (r: ObjectInstance)
    ensures r.instanceNum == d.instanceNum.GetOr(1) && r.pageId == d.pageId
    ensures r.viewType == d.viewType.GetOr("") && r.elements == elements
    ensures d.attributes.None? ==> r.attributes == Attributes.Default
    ensures d.attributes.Some? ==> r.attributes == Attributes.FromDict(d.attributes.value)
    ensures r.instanceId == (if d.instanceId.GetOr("") == "" then freshId else d.instanceId.value)
  {
    Attributes.FromEmptyDict();
    var id := d.instanceId.GetOr("");
    ObjectInstance(if id == "" then freshId else id, d.instanceNum.GetOr(1), elements,
                   d.pageId, d.viewType.GetOr(""), Attributes.FromDict(d.attributes.GetOr(Attributes.EmptyRecord)))
  }

  datatype ObjectRecord = ObjectRecord(
    objectId: Option<string>,
    groupId: Option<string>,
    name: Option<string>,
    category: Option<string>,
    attributes: Option<Attributes.AttributesRecord>)

  /** Object-level attributes are migrated only when they hold a material or a type. */
  predicate WorthMigrating(a: Attributes.ObjectAttributes) {
    a.material != "" || a.objType != ""
  }

  /**
   * `SegmentedObject.from_dict`: the id falls back to the legacy `group_id`;
   * legacy object-level attributes overwrite the first instance's attributes
   * only when there is an instance and they carry a material or a type;
   * nothing else about the instances changes.
   */
  function ObjectFromDict(d: ObjectRecord, instances: seq<ObjectInstance>, freshId: string)
    : (r: SegmentedObject)
    ensures |r.instances| == |instances|
    ensures r.name == d.name.GetOr("") && r.category == d.category.GetOr("")
    ensures forall k :: 1 <= k < |instances| ==> r.instances[k] == instances[k]
    ensures |instances| > 0 ==> r.instances[0].(attributes := instances[0].attributes) == instances[0]
    ensures |instances| > 0 ==>
      (r.instances[0].attributes != instances[0].attributes ==>
        d.attributes.Some? && WorthMigrating(Attributes.FromDict(d.attributes.value)))
    ensures |instances| > 0 && d.attributes.Some? && WorthMigrating(Attributes.FromDict(d.attributes.value)) ==>
      r.instances[0].attributes == Attributes.FromDict(d.attributes.value)
    ensures d.objectId.Some? && d.objectId.value != "" ==> r.objectId == d.objectId.value
    ensures d.objectId.None? && d.groupId.Some? && d.groupId.value != "" ==> r.objectId == d.groupId.value
  {
    var id := if d.objectId.Some? then d.objectId.value else d.groupId.GetOr("");
    var insts :=
      if d.attributes.Some? && |instances| > 0 && WorthMigrating(Attributes.FromDict(d.attributes.value))
      then instances[0 := instances[0].(attributes := Attributes.FromDict(d.attributes.value))]
      else instances;
    SegmentedObject(if id == "" then freshId else id, d.name.GetOr(""), d.category.GetOr(""), insts)
  }
}

=== FILE: ocr.dfy ===
/**
 * Component labels read from OCR text: the pattern matches are bucketed by
 * their upper-cased prefix, and the buckets are listed in prefix order with
 * the prefix's full name and the sorted instances.
 */
module Ocr {
  import opened Wrappers
  import Textract

  /** The full names of the prefixes used on model-aircraft plans. */
  const KnownPrefixes: map<string, string> := map[
    "F" := "Former", "R" := "Rib", "FS" := "Fuselage Side", "WT" := "Wing Tip",
    "T" := "Tail", "TS" := "Tail Surface", "M" := "Motor Mount", "UC" := "Undercarriage",
    "B" := "Misc Part", "L" := "Longeron", "W" := "Wing", "E" := "Elevator",
    "S" := "Spar", "N" := "Nose"
  ]

  // ---------------------------------------------------------------------------
  // Bucketing matches
  // ---------------------------------------------------------------------------

  /**
   * One `re.findall` result: the tuple of a pattern with two groups (prefix,
   * number), or the single group of a pattern with one.
   */
  datatype Match = Pair(first: string, second: string) | Single(group: string)

  /** A match together with its pattern's forced prefix. */
  datatype Hit = Hit(m: Match, force: Option<string>)

  /**
   * The two non-ASCII letters the patterns' `[A-Z]`, `S` and `I` match under
   * `re.IGNORECASE` that `str.upper` changes: dotless i (U+0131) and long s
   * (U+017F).
   */
  const DotlessI: char := '\U{0131}'
  const LongS: char := '\U{017F}'

  /**
   * `str.upper` on one character a pattern can capture: ASCII lower-case
   * letters become upper-case, dotless i becomes I and long s becomes S.
   */
  function UpperChar(c: char): (u: char)
    ensures !('a' <= u <= 'z') && u != DotlessI && u != LongS
    ensures 'a' <= c <= 'z' ==> u as int == c as int - 32
    ensures c == DotlessI ==> u == 'I'
    ensures c == LongS ==> u == 'S'
    ensures !('a' <= c <= 'z') && c != DotlessI && c != LongS ==> u == c
  {
    if 'a' <= c <= 'z' then (c as int - 32) as char
    else if c == DotlessI then 'I'
    else if c == LongS then 'S'
    else c
  }

  predicate NoLower(s: string) {
    forall i :: 0 <= i < |s| ==> !('a' <= s[i] <= 'z')
  }

  /** `str.upper`. */
  function Upper(s: string): (r: string)
    ensures |r| == |s| && NoLower(r)
    ensures forall i :: 0 <= i < |s| ==> r[i] == UpperChar(s[i])
  {
    seq(|s|, i requires 0 <= i < |s| => UpperChar(s[i]))
  }

  /** Upper-casing is idempotent. */
  lemma UpperIdempotent(s: string)
    ensures Upper(Upper(s)) == Upper(s)
  {
    var u := Upper(s);
    forall i | 0 <= i < |s| ensures Upper(u)[i] == u[i] {
      assert !('a' <= u[i] <= 'z');
    }
  }

  /** `force_prefix or captured`: a forced prefix wins unless it is None or empty. */
  function Chosen(force: Option<string>, captured: string): (p: string)
    ensures force.Some? && force.value != "" ==> p == force.value
    ensures force.None? || force.value == "" ==> p == captured
  {
    if force.Some? && force.value != "" then force.value else captured
  }

  /** The key a hit is filed under. */
  function PrefixOf(h: Hit): string {
    match h.m
    case Pair(first, _) => Upper(Chosen(h.force, first))
    case Single(group) => Upper(Chosen(h.force, group))
  }

  /** The instance a hit adds: prefix and number, stripped, for a pair; the prefix alone otherwise. */
  function InstanceOf(h: Hit): string {
    match h.m
    case Pair(_, second) => Textract.Strip(PrefixOf(h) + second)
    case Single(_) => PrefixOf(h)
  }

  /** What each hit files: its key and its instance. */
  function Filed(hits: seq<Hit>): (ps: seq<(string, string)>)
    ensures |ps| == |hits| && forall i :: 0 <= i < |hits| ==> ps[i] == (PrefixOf(hits[i]), InstanceOf(hits[i]))
  {
    seq(|hits|, i requires 0 <= i < |hits| => (PrefixOf(hits[i]), InstanceOf(hits[i])))
  }

  /** The keys filed. */
  function Keys(ps: seq<(string, string)>): set<string> {
    set i | 0 <= i < |ps| :: ps[i].0
  }

  /** The non-empty instances filed under k. */
  function InstancesUnder(ps: seq<(string, string)>, k: string): set<string> {
    set i | 0 <= i < |ps| && ps[i].0 == k && ps[i].1 != "" :: ps[i].1
  }

  /**
   * The dictionary a sequence of filings leaves: one key per key filed,
   * even when none of its instances was non-empty, holding that key's
   * non-empty instances.
   */
  function Bucket(ps: seq<(string, string)>): (r: map<string, set<string>>)
    ensures r.Keys == Keys(ps)
    ensures forall k :: k in r ==> "" !in r[k]
    ensures ps == [] ==> r == map[]
  {
    map k | k in Keys(ps) :: InstancesUnder(ps, k)
  }

  /** The dictionary the hits leave; keys are upper-case. */
  function Labels(hits: seq<Hit>): (r: map<string, set<string>>)
    ensures forall k :: k in r ==> NoLower(k) && "" !in r[k]
    ensures hits == [] ==> r == map[]
  {
    var r := Bucket(Filed(hits));
    assert forall k :: k in r ==> NoLower(k) by {
      forall k | k in r ensures NoLower(k) {
        var i :| 0 <= i < |hits| && Filed(hits)[i].0 == k;
      }
    }
    r
  }

  /** Filing (p, inst): the key is created if missing, and the instance added when non-empty. */
  function File(found: map<string, set<string>>, p: string, inst: string): map<string, set<string>> {
    var f := if p in found then found else found[p := {}];
    if inst != "" then f[p := f[p] + {inst}] else f
  }

  lemma KeysSnoc(ps: seq<(string, string)>, q: (string, string))
    ensures Keys(ps + [q]) == Keys(ps) + {q.0}
  {
    var s := ps + [q];
    forall p | p in Keys(s) ensures p in Keys(ps) + {q.0} {
      var i :| 0 <= i < |s| && s[i].0 == p;
      if i < |ps| { assert s[i] == ps[i]; }
    }
    forall p | p in Keys(ps) ensures p in Keys(s) {
      var i :| 0 <= i < |ps| && ps[i].0 == p;
      assert s[i] == ps[i];
    }
    assert s[|ps|] == q;
  }

  lemma InstancesSnoc(ps: seq<(string, string)>, q: (string, string), k: string)
    ensures InstancesUnder(ps + [q], k) == InstancesUnder(ps, k) + (if q.0 == k && q.1 != "" then {q.1} else {})
  {
    var s := ps + [q];
    var extra: set<string> := if q.0 == k && q.1 != "" then {q.1} else {};
    forall x | x in InstancesUnder(s, k) ensures x in InstancesUnder(ps, k) + extra {
      var i :| 0 <= i < |s| && s[i].0 == k && s[i].1 != "" && s[i].1 == x;
      if i < |ps| { assert s[i] == ps[i]; }
    }
    forall x | x in InstancesUnder(ps, k) ensures x in InstancesUnder(s, k) {
      var i :| 0 <= i < |ps| && ps[i].0 == k && ps[i].1 != "" && ps[i].1 == x;
      assert s[i] == ps[i];
    }
    assert s[|ps|] == q;
  }

  /** Filing one more pair into the dictionary of the earlier ones gives the dictionary of all of them. */
  lemma BucketSnoc(ps: seq<(string, string)>, q: (string, string))
    ensures Bucket(ps + [q]) == File(Bucket(ps), q.0, q.1)
  {
    var a, b := Bucket(ps + [q]), File(Bucket(ps), q.0, q.1);
    KeysSnoc(ps, q);
    assert a.Keys == b.Keys;
    forall k | k in a ensures a[k] == b[k] {
      InstancesSnoc(ps, q, k);
      if k != q.0 {
        assert b[k] == Bucket(ps)[k];
      } else if k !in Bucket(ps) {
        assert forall i :: 0 <= i < |ps| ==> ps[i].0 != k;
        assert InstancesUnder(ps, k) == {};
      }
    }
  }

  /**
   * `parse_labels_from_text`, with the regular-expression search replaced
   * by its results: the hits of every pattern, patterns in order.
   */
  method ParseLabelsFromText(hits: seq<Hit>) returns (found: map<string, set<string>>)
    ensures found == Labels(hits)
  {
    ghost var ps := Filed(hits);
    found := map[];
    for i := 0 to |hits|
      invariant found == Bucket(ps[..i])
    {
      var prefix := PrefixOf(hits[i]);
      var instance := InstanceOf(hits[i]);
      assert ps[..i + 1] == ps[..i] + [(prefix, instance)];
      BucketSnoc(ps[..i], (prefix, instance));
      if prefix !in found {
        found := found[prefix := {}];
      }
      if instance != "" {
        found := found[prefix := found[prefix] + {instance}];
      }
    }
    assert ps[..|hits|] == ps;
  }

  /** A prefix is a key exactly when some hit produced it; a string is filed under it exactly when such a hit produced it as its instance. */
  lemma LabelsMembership(hits: seq<Hit>, k: string, x: string)
    ensures k in Labels(hits) <==> exists i :: 0 <= i < |hits| && PrefixOf(hits[i]) == k
    ensures k in Labels(hits) ==>
      (x in Labels(hits)[k] <==> x != "" && exists i :: 0 <= i < |hits| && PrefixOf(hits[i]) == k && InstanceOf(hits[i]) == x)
  {
    var ps := Filed(hits);
    if k in Labels(hits) {
      if x in Labels(hits)[k] {
        var i :| 0 <= i < |ps| && ps[i].0 == k && ps[i].1 != "" && ps[i].1 == x;
      }
      if x != "" && exists i :: 0 <= i < |hits| && PrefixOf(hits[i]) == k && InstanceOf(hits[i]) == x {
        var i :| 0 <= i < |hits| && PrefixOf(hits[i]) == k && InstanceOf(hits[i]) == x;
        assert ps[i] == (k, x);
      }
    }
    if exists i :: 0 <= i < |hits| && PrefixOf(hits[i]) == k {
      var i :| 0 <= i < |hits| && PrefixOf(hits[i]) == k;
      assert ps[i].0 == k;
    }
  }

  // ---------------------------------------------------------------------------
  // String order
  // ---------------------------------------------------------------------------

  /** Python's `<` on strings: code points compared left to right, a proper prefix first. */
  predicate StrLt(a: string, b: string) {
    if a == [] then b != []
    else if b == [] then false
    else a[0] < b[0] || (a[0] == b[0] && StrLt(a[1..], b[1..]))
  }

  lemma {:induction false} StrLtIrreflexive(a: string)
    ensures !StrLt(a, a)
  {
    if a != [] { StrLtIrreflexive(a[1..]); }
  }

  lemma {:induction false} StrLtTransitive(a: string, b: string, c: string)
    requires StrLt(a, b) && StrLt(b, c)
    ensures StrLt(a, c)
  {
    if a != [] && b != [] && c != [] && a[0] == b[0] && b[0] == c[0] {
      StrLtTransitive(a[1..], b[1..], c[1..]);
    }
  }

  lemma {:induction false} StrLtTotal(a: string, b: string)
    requires a != b
    ensures StrLt(a, b) || StrLt(b, a)
  {
    if a != [] && b != [] && a[0] == b[0] {
      assert a == [a[0]] + a[1..] && b == [b[0]] + b[1..];
      StrLtTotal(a[1..], b[1..]);
    }
  }

  lemma StrLtAsymmetric(a: string, b: string)
    requires StrLt(a, b)
    ensures !StrLt(b, a)
  {
    if StrLt(b, a) {
      StrLtTransitive(a, b, a);
      StrLtIrreflexive(a);
    }
  }

  predicate IsLeast(m: string, s: set<string>) {
    m in s && forall x :: x in s && x != m ==> StrLt(m, x)
  }

  lemma {:induction false} LeastExists(s: set<string>)
    requires s != {}
    ensures exists m :: IsLeast(m, s)
    decreases |s|
  {
    var x :| x in s;
    var rest := s - {x};
    if rest == {} {
      forall y | y in s ensures y == x {
        assert y !in rest;
      }
      assert IsLeast(x, s);
    } else {
      LeastExists(rest);
      var m :| IsLeast(m, rest);
      if StrLt(m, x) {
        assert IsLeast(m, s);
      } else {
        StrLtTotal(m, x);
        forall y | y in s && y != x ensures StrLt(x, y) {
          if y != m { StrLtTransitive(x, m, y); }
        }
        assert IsLeast(x, s);
      }
    }
  }

  lemma LeastUnique(s: set<string>)
    ensures forall a, b :: IsLeast(a, s) && IsLeast(b, s) ==> a == b
  {
    forall a, b | IsLeast(a, s) && IsLeast(b, s) ensures a == b {
      if a != b { StrLtAsymmetric(a, b); }
    }
  }

  /** The least string of a non-empty set. */
  function Least(s: set<string>): (m: string)
    requires s != {}
    ensures IsLeast(m, s)
  {
    LeastExists(s);
    LeastUnique(s);
    var m :| IsLeast(m, s);
    m
  }

  predicate StrictlyAscending(r: seq<string>) {
    forall i, j :: 0 <= i < j < |r| ==> StrLt(r[i], r[j])
  }

  /** `sorted(s)` for a set of strings: its members, each once, in ascending order. */
  function SortSet(s: set<string>): (r: seq<string>)
    ensures |r| == |s| && StrictlyAscending(r)
    ensures forall x :: x in r <==> x in s
    decreases |s|
  {
    if s == {} then []
    else
      var m := Least(s);
      var rest := SortSet(s - {m});
      var r := [m] + rest;
      assert forall j :: 1 <= j < |r| ==> r[j] == rest[j - 1];
      forall i, j | 0 <= i < j < |r| ensures StrLt(r[i], r[j]) {
        if i == 0 { assert r[j] in s - {m}; }
      }
      r
  }

  // ---------------------------------------------------------------------------
  // Grouping
  // ---------------------------------------------------------------------------

  /** `KNOWN_PREFIXES.get(prefix, prefix)`. */
  function FullName(prefix: string): (n: string)
    ensures prefix in KnownPrefixes ==> n == KnownPrefixes[prefix]
    ensures prefix !in KnownPrefixes ==> n == prefix
  {
    if prefix in KnownPrefixes then KnownPrefixes[prefix] else prefix
  }

  datatype LabelGroup = LabelGroup(prefix: string, fullName: string, instances: seq<string>)

  /** The entry of one key. */
  function Entry(labels: map<string, set<string>>, k: string): (e: LabelGroup)
    requires k in labels
    ensures e.prefix == k && e.fullName == FullName(k)
    ensures StrictlyAscending(e.instances) && forall x :: x in e.instances <==> x in labels[k]
  {
    LabelGroup(k, FullName(k), SortSet(labels[k]))
  }

  function Prefixes'(r: seq<LabelGroup>): (ps: seq<string>)
    ensures |ps| == |r| && forall i :: 0 <= i < |r| ==> ps[i] == r[i].prefix
  {
    seq(|r|, i requires 0 <= i < |r| => r[i].prefix)
  }

  /**
   * `group_labels`: one entry per key, keys ascending, each with its full
   * name and its instances in ascending order.
   */
  function GroupLabels(labels: map<string, set<string>>): (r: seq<LabelGroup>)
    ensures |r| == |labels.Keys|
    ensures StrictlyAscending(Prefixes'(r))
    ensures forall k :: k in labels <==> k in Prefixes'(r)
    ensures forall i :: 0 <= i < |r| ==> r[i].prefix in labels && r[i] == Entry(labels, r[i].prefix)
  {
    var keys := SortSet(labels.Keys);
    var r := seq(|keys|, i requires 0 <= i < |keys| => Entry(labels, keys[i]));
    assert Prefixes'(r) == keys;
    r
  }

  /** The listing of the labels read from hits names every hit's prefix, upper-case, and only non-empty instances. */
  lemma GroupedHits(hits: seq<Hit>)
    ensures var g := GroupLabels(Labels(hits));
            (forall i :: 0 <= i < |g| ==> NoLower(g[i].prefix) && "" !in g[i].instances) &&
            (forall j :: 0 <= j < |hits| ==> PrefixOf(hits[j]) in Prefixes'(g))
  {
    var g := GroupLabels(Labels(hits));
    forall j | 0 <= j < |hits| ensures PrefixOf(hits[j]) in Prefixes'(g) {
      LabelsMembership(hits, PrefixOf(hits[j]), "");
    }
  }
}

=== FILE: page.dfy ===
/**
 * A page (tab) of a document: its raster image, the objects segmented on
 * it, and scale information from the PDF it came from.
 */
module Page {
  import opened Wrappers
  import opened Masks
  import opened Elements
  import opened Objects

  /** A colour pixel in OpenCV's blue-green-red order. */
  type Bgr = (Byte, Byte, Byte)
  type Image = Grid<Bgr>

  type Hit = (SegmentedObject, ObjectInstance, SegmentElement)

  /** Every (object, instance, element) of an object, in list order. */
  function InstanceHits(o: SegmentedObject, instances: seq<ObjectInstance>): seq<Hit> {
    if |instances| == 0 then []
    else
      var es := instances[0].elements;
      seq(|es|, k requires 0 <= k < |es| => (o, instances[0], es[k])) + InstanceHits(o, instances[1..])
  }

  /** Every (object, instance, element) of a page, in the order the page walks them. */
  function AllHits(objects: seq<SegmentedObject>): seq<Hit> {
    if |objects| == 0 then [] else InstanceHits(objects[0], objects[0].instances) + AllHits(objects[1..])
  }

  /** Every element mask on the page is a well-formed grid. */
  predicate ObjectsOk(objects: seq<SegmentedObject>) {
    forall t :: t in AllHits(objects) ==> ElementOk(t.2)
  }

  lemma {:induction false} InstanceHitsCount(o: SegmentedObject, instances: seq<ObjectInstance>)
    ensures |InstanceHits(o, instances)| == ElementCount(instances)
  {
    if |instances| > 0 {
      InstanceHitsCount(o, instances[1..]);
    }
  }

  /** `element_count` of a page: the sum over its objects. */
  function PageElementCount(objects: seq<SegmentedObject>): (r: nat)
    ensures r == |AllHits(objects)|
  {
    if |objects| == 0 then 0
    else
      InstanceHitsCount(objects[0], objects[0].instances);
      ElementCount(objects[0].instances) + PageElementCount(objects[1..])
  }

  /** The first hit whose element contains the point. */
  function FirstHit(hits: seq<Hit>, x: int, y: int): (r: Option<nat>)
    requires forall t :: t in hits ==> ElementOk(t.2)
    ensures r.None? <==> forall k :: 0 <= k < |hits| ==> !ContainsPoint(hits[k].2, x, y)
    ensures r.Some? ==> r.value < |hits| && ContainsPoint(hits[r.value].2, x, y)
    ensures r.Some? ==> forall k :: 0 <= k < r.value ==> !ContainsPoint(hits[k].2, x, y)
  {
    if |hits| == 0 then None
    else if ContainsPoint(hits[0].2, x, y) then Some(0)
    else
      assert forall k :: 1 <= k < |hits| ==> hits[k] == hits[1..][k - 1];
      var rest := FirstHit(hits[1..], x, y);
      if rest.None? then None else Some(rest.value + 1)
  }

  /**
   * `get_element_at_point`: the first (object, instance, element) in list
   * order whose element contains the point; None when no element does.
   */
  function ElementAtPoint(objects: seq<SegmentedObject>, x: int, y: int): (r: Option<Hit>)
    requires ObjectsOk(objects)
    ensures r.None? <==> forall t :: t in AllHits(objects) ==> !ContainsPoint(t.2, x, y)
    ensures r.Some? ==> r.value in AllHits(objects) && ContainsPoint(r.value.2, x, y)
    ensures r.Some? ==> (exists k :: 0 <= k < |AllHits(objects)| && AllHits(objects)[k] == r.value &&
                           forall j :: 0 <= j < k ==> !ContainsPoint(AllHits(objects)[j].2, x, y))
  {
    var hits := AllHits(objects);
    match FirstHit(hits, x, y)
    case None => None
    case Some(k) => Some(hits[k])
  }

  /** The index of the first object with the id. */
  function FindObject(objects: seq<SegmentedObject>, objectId: string): (r: Option<nat>)
    ensures r.None? <==> forall k :: 0 <= k < |objects| ==> objects[k].objectId != objectId
    ensures r.Some? ==> r.value < |objects| && objects[r.value].objectId == objectId
    ensures r.Some? ==> forall k :: 0 <= k < r.value ==> objects[k].objectId != objectId
  {
    if |objects| == 0 then None
    else if objects[0].objectId == objectId then Some(0)
    else
      assert forall k :: 1 <= k < |objects| ==> objects[k] == objects[1..][k - 1];
      var rest := FindObject(objects[1..], objectId);
      if rest.None? then None else Some(rest.value + 1)
  }

  /** `get_object_by_id`: the first object with the id, or None. */
  function ObjectById(objects: seq<SegmentedObject>, objectId: string): (r: Option<SegmentedObject>)
    ensures r.None? <==> forall k :: 0 <= k < |objects| ==> objects[k].objectId != objectId
    ensures r.Some? ==> r.value.objectId == objectId
    ensures r.Some? ==> (exists k :: 0 <= k < |objects| && objects[k] == r.value &&
                           forall j :: 0 <= j < k ==> objects[j].objectId != objectId)
  {
    match FindObject(objects, objectId)
    case None => None
    case Some(k) => Some(objects[k])
  }

  class PageTab {
    var tabId: string
    var modelName: string
    var pageName: string
    var image: Option<Image>
    var objects: seq<SegmentedObject>
    var active: bool
    var dpi: real
    var pdfWidthInches: real
    var pdfHeightInches: real

    /** A new page with no objects; an empty id is replaced by `freshId`. */
    constructor(tabId: string, modelName: string, pageName: string, image: Option<Image>, freshId: string)
      ensures this.tabId == (if tabId == "" then freshId else tabId)
      ensures this.modelName == modelName && this.pageName == pageName && this.image == image
      ensures objects == [] && active && dpi == 150.0
      ensures pdfWidthInches == 0.0 && pdfHeightInches == 0.0
    {
      this.tabId := if tabId == "" then freshId else tabId;
      this.modelName := modelName;
      this.pageName := pageName;
      this.image := image;
      objects := [];
      active := true;
      dpi := 150.0;
      pdfWidthInches := 0.0;
      pdfHeightInches := 0.0;
    }

    /** Every field except the object list is as before. */
    twostate predicate OthersUnchanged()
      reads this
    {
      tabId == old(tabId) && modelName == old(modelName) && pageName == old(pageName) &&
      image == old(image) && active == old(active) && dpi == old(dpi) &&
      pdfWidthInches == old(pdfWidthInches) && pdfHeightInches == old(pdfHeightInches)
    }

    /** `display_name`: "model - page", prefixed with a pause sign when the page is inactive. */
    function DisplayName(): (r: string)
      reads this
      ensures active ==> r == modelName + " - " + pageName
      ensures !active ==> r == "⏸ " + modelName + " - " + pageName
    {
      (if active then "" else "⏸ ") + modelName + " - " + pageName
    }

    /** `image_size`: (width, height) of the image, None without one. */
    function ImageSize(): (r: Option<(nat, nat)>)
      reads this
      ensures r.None? <==> image.None?
      ensures r.Some? ==> r.value == (image.value.w, image.value.h)
    {
      if image.None? then None else Some((image.value.w, image.value.h))
    }

    /**
     * `pixels_per_inch`: the image width over the PDF width when both are
     * known and the PDF width is positive, else the rasterisation dpi.
     */
    function PixelsPerInch(): (r: real)
      reads this
      ensures image.None? || pdfWidthInches <= 0.0 ==> r == dpi
      ensures image.Some? && pdfWidthInches > 0.0 ==> r * pdfWidthInches == image.value.w as real
    {
      if image.None? then dpi
      else if pdfWidthInches > 0.0 then image.value.w as real / pdfWidthInches
      else dpi
    }

    /** `add_object`: appends, keeping the order of the others. */
    method AddObject(o: SegmentedObject)
      modifies this
      ensures objects == old(objects) + [o]
      ensures OthersUnchanged()
    {
      objects := objects + [o];
    }

    /**
     * `remove_object`: removes the first object with the id and reports
     * whether there was one; without a match the list is unchanged.
     */
    method RemoveObject(objectId: string) returns (removed: bool)
      modifies this
      ensures removed <==> FindObject(old(objects), objectId).Some?
      ensures removed ==>
        var k := FindObject(old(objects), objectId).value;
        objects == old(objects)[..k] + old(objects)[k + 1..]
      ensures !removed ==> objects == old(objects)
      ensures OthersUnchanged()
    {
      var i := 0;
      while i < |objects|
        invariant 0 <= i <= |objects|
        invariant forall k :: 0 <= k < i ==> objects[k].objectId != objectId
        invariant objects == old(objects)
      {
        if objects[i].objectId == objectId {
          objects := objects[..i] + objects[i + 1..];
          return true;
        }
        i := i + 1;
      }
      return false;
    }
  }

  /** A page's display name begins with the pause sign exactly when it is inactive. */
  lemma DisplayNameMarksInactive(p: PageTab)
    requires |p.modelName| == 0 || p.modelName[0] != '⏸'
    ensures (p.DisplayName()[0] == '⏸') <==> !p.active
  {
    if p.active {
      if |p.modelName| == 0 {
        assert p.DisplayName() == " - " + p.pageName;
      } else {
        assert p.DisplayName()[0] == p.modelName[0];
      }
    }
  }
}

=== FILE: parts_library.dfy ===
/**
 * The parts library: reusable part templates saved from segmented objects,
 * keyed by part id, listed with optional category and tag filters, and
 * instantiated back into objects. Element masks are stored run-length
 * encoded with their full shape.
 */
module Parts {
  import opened Wrappers
  import opened Masks
  import opened Rle
  import opened Elements
  import Objects
  import Attributes
  import Arith

  /** An element as the library stores it; None is a missing key. */
  datatype ElementData = ElementData(
    mode: Option<string>,
    points: Option<seq<Point>>,
    category: Option<string>,
    color: Option<Rgb>,
    labelPosition: Option<string>,
    maskRle: Option<seq<Run>>,
    maskShape: Option<seq<int>>)

  datatype LibraryPart = LibraryPart(
    partId: string,
    name: string,
    category: string,
    description: string,
    tags: seq<string>,
    elements: seq<ElementData>,
    attributes: Attributes.AttributesRecord)

  /**
   * `LibraryPart.__post_init__`: a part always has a tag list, an element
   * list and an attribute dictionary; a missing one becomes empty and a
   * given one is kept.
   */
  function NewPart(partId: string, name: string, category: string, description: string,
                   tags: Option<seq<string>>, elements: Option<seq<ElementData>>,
                   attributes: Option<Attributes.AttributesRecord>): (p: LibraryPart)
    ensures p.partId == partId && p.name == name && p.category == category && p.description == description
    ensures tags.None? ==> p.tags == []
    ensures tags.Some? ==> p.tags == tags.value
    ensures elements.None? ==> p.elements == []
    ensures elements.Some? ==> p.elements == elements.value
    ensures attributes.None? ==> p.attributes == Attributes.EmptyRecord
    ensures attributes.Some? ==> p.attributes == attributes.value
  {
    LibraryPart(partId, name, category, description, tags.GetOr([]), elements.GetOr([]),
                attributes.GetOr(Attributes.EmptyRecord))
  }

  /**
   * The record `add_part` writes for an element: its mode, points, category,
   * colour and label position, and `mask_rle` and `mask_shape` exactly when
   * it has a mask, the shape being the full mask's and the runs a maximal
   * encoding of it.
   */
  predicate Saved(e: SegmentElement, d: ElementData)
    requires ElementOk(e)
  {
    d.mode == Some(e.mode) && d.points == Some(e.points) && d.category == Some(e.category) &&
    d.color == Some(e.color) && d.labelPosition == Some(e.labelPosition) &&
    (d.maskRle.Some? <==> e.mask.Some?) && (d.maskShape.Some? <==> e.mask.Some?) &&
    (e.mask.Some? ==>
      d.maskShape.value == [e.mask.value.h, e.mask.value.w] &&
      Maximal(d.maskRle.value) && Expand(d.maskRle.value) == Flatten(e.mask.value.rows))
  }

  /** The element records of `add_part`, one per element, in order. */
  method SerializeElements(elements: seq<SegmentElement>) returns (out: seq<ElementData>)
    requires forall k :: 0 <= k < |elements| ==> ElementOk(elements[k])
    ensures |out| == |elements|
    ensures forall k :: 0 <= k < |elements| ==> Saved(elements[k], out[k])
  {
    out := [];
    for i := 0 to |elements|
      invariant |out| == i
      invariant forall k :: 0 <= k < i ==> Saved(elements[k], out[k])
    {
      var e := elements[i];
      var d := ElementData(Some(e.mode), Some(e.points), Some(e.category), Some(e.color),
                           Some(e.labelPosition), None, None);
      if e.mask.Some? {
        var runs := Encode(e.mask.value);
        d := d.(maskRle := Some(runs), maskShape := Some([e.mask.value.h, e.mask.value.w]));
      }
      out := out + [d];
    }
  }

  /** `name or obj.name or f"Part {part_id}"`: never empty. */
  function PartName(name: Option<string>, objName: string, partId: string): (r: string)
    ensures r != ""
    ensures name.Some? && name.value != "" ==> r == name.value
    ensures (name.None? || name.value == "") && objName != "" ==> r == objName
    ensures (name.None? || name.value == "") && objName == "" ==> r == "Part " + partId
  {
    if name.Some? && name.value != "" then name.value
    else if objName != "" then objName
    else "Part " + partId
  }

  /** A part passes `list_parts`' filters; an empty filter is no filter. */
  predicate Passes(p: LibraryPart, category: Option<string>, tag: Option<string>) {
    (category.None? || category.value == "" || p.category == category.value) &&
    (tag.None? || tag.value == "" || tag.value in p.tags)
  }

  /** The parts under the keys, in key order, that pass the filters. */
  function Select(keys: seq<string>, parts: map<string, LibraryPart>, category: Option<string>, tag: Option<string>)
    : (r: seq<LibraryPart>)
    requires forall k :: 0 <= k < |keys| ==> keys[k] in parts
    ensures |r| <= |keys|
    ensures forall p :: p in r ==> Passes(p, category, tag)
    ensures forall k :: 0 <= k < |keys| && Passes(parts[keys[k]], category, tag) ==> parts[keys[k]] in r
    ensures forall p :: p in r ==> exists k :: 0 <= k < |keys| && parts[keys[k]] == p
  {
    if |keys| == 0 then []
    else
      var p := parts[keys[0]];
      var rest := Select(keys[1..], parts, category, tag);
      assert forall k :: 1 <= k < |keys| ==> keys[k] == keys[1..][k - 1];
      if Passes(p, category, tag) then [p] + rest else rest
  }

  /** Keeping the parts with a tag after filtering by category is filtering by both. */
  lemma {:induction false} SelectCompose(keys: seq<string>, parts: map<string, LibraryPart>, category: Option<string>, tag: Option<string>)
    requires forall k :: 0 <= k < |keys| ==> keys[k] in parts
    ensures Select(keys, parts, category, tag) == TagFilter(Select(keys, parts, category, None), tag)
  {
    if |keys| > 0 {
      SelectCompose(keys[1..], parts, category, tag);
    }
  }

  /** The parts of a list that carry the tag (no tag: all of them). */
  function TagFilter(ps: seq<LibraryPart>, tag: Option<string>): seq<LibraryPart> {
    if |ps| == 0 then []
    else (if tag.None? || tag.value == "" || tag.value in ps[0].tags then [ps[0]] else []) + TagFilter(ps[1..], tag)
  }

  /** Without filters every key's part is listed, in key order. */
  lemma {:induction false} SelectAll(keys: seq<string>, parts: map<string, LibraryPart>)
    requires forall k :: 0 <= k < |keys| ==> keys[k] in parts
    ensures |Select(keys, parts, None, None)| == |keys|
    ensures forall k :: 0 <= k < |keys| ==> Select(keys, parts, None, None)[k] == parts[keys[k]]
  {
    if |keys| > 0 {
      SelectAll(keys[1..], parts);
    }
  }

  /** A stored point scaled and offset: `(int(px * scale + x), int(py * scale + y))`. */
  function PlacePoint(p: Point, scale: real, x: int, y: int): (q: Point)
    ensures scale == 1.0 ==> q == (p.0 + x, p.1 + y)
  {
    // At scale 1 the product is the coordinate itself, so the sum is an integer.
    if scale == 1.0 then
      Arith.TruncOfInt(p.0 + x);
      Arith.TruncOfInt(p.1 + y);
      (Arith.TruncReal((p.0 + x) as real), Arith.TruncReal((p.1 + y) as real))
    else
    (Arith.TruncReal(p.0 as real * scale + x as real), Arith.TruncReal(p.1 as real * scale + y as real))
  }

  /**
   * The mask `instantiate_part` rebuilds for a stored element: none without
   * both mask keys; otherwise the decoded mask, resized by `resize` when the
   * scale is not 1 and both scaled sides are positive. A mask that does not
   * decode makes the call fail.
   */
  function RestoreMask(d: ElementData, scale: real, resize: (Mask, nat, nat) -> Mask): (r: Result<Option<Mask>, DecodeError>)
    ensures d.maskRle.None? || d.maskShape.None? ==> r == Ok(None)
    ensures r.Err? ==> d.maskRle.Some? && d.maskShape.Some?
    ensures d.maskRle.Some? && d.maskShape.Some? && scale == 1.0 && |d.maskShape.value| == 2 ==>
      r == (match DecodeSpec(d.maskRle.value, d.maskShape.value[0], d.maskShape.value[1])
            case Ok(m) => Ok(Some(m))
            case Err(e) => Err(e))
  {
    if d.maskRle.Some? && d.maskShape.Some? then
      var s := d.maskShape.value;
      if |s| != 2 then Err(ShapeMismatch(SizeMismatch(|Expand(d.maskRle.value)|, -1, -1)))
      else match DecodeSpec(d.maskRle.value, s[0], s[1])
        case Err(e) => Err(e)
        case Ok(m) =>
          if scale != 1.0 then
            var nh, nw := Arith.TruncReal(m.h as real * scale), Arith.TruncReal(m.w as real * scale);
            if nh > 0 && nw > 0 then Ok(Some(resize(m, nh, nw))) else Ok(Some(m))
          else Ok(Some(m))
    else Ok(None)
  }

  /** The element `instantiate_part` builds from a stored record, given its new id. */
  function RestoreElement(d: ElementData, partCategory: string, scale: real, x: int, y: int,
                          resize: (Mask, nat, nat) -> Mask, id: string): (r: Result<SegmentElement, DecodeError>)
    ensures r.Ok? <==> RestoreMask(d, scale, resize).Ok?
    ensures r.Ok? ==>
      r.value.elementId == id && r.value.category == d.category.GetOr(partCategory) &&
      r.value.mode == d.mode.GetOr("flood") && r.value.color == d.color.GetOr((128, 128, 128)) &&
      r.value.labelPosition == d.labelPosition.GetOr("center") && r.value.labelAnchorOffset.None? &&
      r.value.mask == RestoreMask(d, scale, resize).value
    ensures r.Ok? ==> (|r.value.points| == |d.points.GetOr([])| &&
      forall k :: 0 <= k < |r.value.points| ==> r.value.points[k] == PlacePoint(d.points.GetOr([])[k], scale, x, y))
  {
    match RestoreMask(d, scale, resize)
    case Err(e) => Err(e)
    case Ok(mask) =>
      var pts := d.points.GetOr([]);
      Ok(SegmentElement(id, d.category.GetOr(partCategory), d.mode.GetOr("flood"),
                        seq(|pts|, k requires 0 <= k < |pts| => PlacePoint(pts[k], scale, x, y)),
                        mask, d.color.GetOr((128, 128, 128)), d.labelPosition.GetOr("center"), None))
  }

  /**
   * Saving an element and instantiating it at scale 1 with no offset gives
   * the element back, apart from its fresh id and its label anchor offset,
   * which the library does not store.
   */
  lemma SavedElementRestores(e: SegmentElement, d: ElementData, partCategory: string,
                             resize: (Mask, nat, nat) -> Mask, id: string)
    requires ElementOk(e) && Saved(e, d)
    ensures RestoreElement(d, partCategory, 1.0, 0, 0, resize, id) == Ok(e.(elementId := id, labelAnchorOffset := None))
  {
    if e.mask.Some? {
      DecodeOfFlattening(e.mask.value, d.maskRle.value);
    }
    var r := RestoreElement(d, partCategory, 1.0, 0, 0, resize, id).value;
    assert r.points == e.points;
  }

  /** Dropping entry i of a list without repeats leaves a list without repeats holding every other entry. */
  lemma RemoveAtDistinct<T>(s: seq<T>, i: nat)
    requires i < |s| && forall j, l :: 0 <= j < l < |s| ==> s[j] != s[l]
    ensures var r := s[..i] + s[i + 1..];
      (forall j, l :: 0 <= j < l < |r| ==> r[j] != r[l]) &&
      (forall x :: x in r <==> x in s && x != s[i])
  {
    var r := s[..i] + s[i + 1..];
    assert forall j :: 0 <= j < |r| ==> r[j] == s[if j < i then j else j + 1];
    forall x | x in s && x != s[i] ensures x in r {
      var k :| 0 <= k < |s| && s[k] == x;
      assert r[if k < i then k else k - 1] == x;
    }
  }

  /** The attributes `add_part` stores: the first instance's, as a dictionary, or an empty dictionary. */
  function SavedAttributes(obj: Objects.SegmentedObject): Attributes.AttributesRecord {
    if |obj.instances| > 0 then Attributes.ToDict(obj.instances[0].attributes) else Attributes.EmptyRecord
  }

  /**
   * The attributes `instantiate_part` gives the new instance: `from_dict` of
   * a non-empty dictionary, else fresh defaults. Both branches agree, since
   * an empty dictionary reads as the defaults.
   */
  function RestoredAttributes(d: Attributes.AttributesRecord): (a: Attributes.ObjectAttributes)
    ensures a == Attributes.FromDict(d)
    ensures d == Attributes.EmptyRecord ==> a == Attributes.Default
  {
    Attributes.FromEmptyDict();
    if d != Attributes.EmptyRecord then Attributes.FromDict(d) else Attributes.Default
  }

  /**
   * A part stored by `add_part` and instantiated again carries the first
   * instance's attributes, or the defaults when the object had no instance.
   */
  lemma SavedAttributesRestore(obj: Objects.SegmentedObject)
    ensures RestoredAttributes(SavedAttributes(obj)) ==
      if |obj.instances| > 0 then obj.instances[0].attributes else Attributes.Default
  {
    if |obj.instances| > 0 {
      Attributes.FromDictToDict(obj.instances[0].attributes);
    }
  }

  class PartsLibrary {
    var parts: map<string, LibraryPart>
    /** The keys of `parts` in insertion order, which is the order a dictionary lists them in. */
    var order: seq<string>

    ghost predicate Valid()
      reads this
    {
      (forall i, j :: 0 <= i < j < |order| ==> order[i] != order[j]) &&
      (forall k :: k in parts <==> k in order)
    }

    /** An empty library (reading the library file is not part of this model). */
    constructor()
      ensures Valid() && parts == map[] && order == []
    {
      parts := map[];
      order := [];
    }

    /**
     * `add_part`: stores a part under `freshId` (the generated id) and
     * returns that id. The part holds one record per element of every
     * instance, in order, the first instance's attributes (an empty
     * dictionary without instances) and the name rule of `PartName`.
     */
    method AddPart(obj: Objects.SegmentedObject, name: Option<string>, description: string,
                   tags: Option<seq<string>>, freshId: string) returns (partId: string)
      requires Valid()
      requires forall e :: e in Objects.AllElements(obj.instances) ==> ElementOk(e)
      modifies this
      ensures Valid()
      ensures partId == freshId && partId in parts
      ensures parts == old(parts)[partId := parts[partId]]
      ensures order == if partId in old(parts) then old(order) else old(order) + [partId]
      ensures var p := parts[partId];
        p.partId == partId && p.name == PartName(name, obj.name, partId) &&
        p.category == obj.category && p.description == description && p.tags == tags.GetOr([])
      ensures var p, all := parts[partId], Objects.AllElements(obj.instances);
        |p.elements| == |all| && forall k :: 0 <= k < |all| ==> Saved(all[k], p.elements[k])
      ensures parts[partId].attributes == SavedAttributes(obj)
    {
      partId := freshId;
      var all := Objects.AllElements(obj.instances);
      var elements := SerializeElements(all);
      var attrs := SavedAttributes(obj);
      var part := NewPart(partId, PartName(name, obj.name, partId), obj.category, description,
                          Some(tags.GetOr([])), Some(elements), Some(attrs));
      if partId !in parts {
        order := order + [partId];
      }
      parts := parts[partId := part];
    }

    /** `get_part`: the part under the id, or None. */
    function GetPart(partId: string): (r: Option<LibraryPart>)
      reads this
      ensures r.Some? <==> partId in parts
      ensures r.Some? ==> r.value == parts[partId]
    {
      if partId in parts then Some(parts[partId]) else None
    }

    /** `list_parts`: the parts in insertion order that pass both filters. */
    function ListParts(category: Option<string>, tag: Option<string>): (r: seq<LibraryPart>)
      reads this
      requires Valid()
      ensures forall p :: p in r ==> p in parts.Values && Passes(p, category, tag)
      ensures forall k :: k in parts && Passes(parts[k], category, tag) ==> parts[k] in r
    {
      assert forall k :: 0 <= k < |order| ==> order[k] in parts;
      var r := Select(order, parts, category, tag);
      forall p | p in r ensures p in parts.Values {
        var k :| 0 <= k < |order| && parts[order[k]] == p;
      }
      forall k | k in parts && Passes(parts[k], category, tag) ensures parts[k] in r {
        assert k in order;
        var i :| 0 <= i < |order| && order[i] == k;
      }
      r
    }

    /** With no filters every part is listed, in insertion order. */
    lemma ListAll()
      requires Valid()
      ensures |ListParts(None, None)| == |order|
      ensures forall k :: 0 <= k < |order| ==> ListParts(None, None)[k] == parts[order[k]]
    {
      SelectAll(order, parts);
    }

    /** The tag filter applied to the category-filtered list is the two filters together. */
    lemma FiltersCompose(category: Option<string>, tag: Option<string>)
      requires Valid()
      ensures ListParts(category, tag) == TagFilter(ListParts(category, None), tag)
    {
      SelectCompose(order, parts, category, tag);
    }

    /**
     * `delete_part`: removes the part and reports True when the id is
     * present; otherwise reports False and changes nothing.
     */
    method DeletePart(partId: string) returns (deleted: bool)
      requires Valid()
      modifies this
      ensures Valid()
      ensures deleted <==> partId in old(parts)
      ensures parts == old(parts) - {partId}
      ensures !deleted ==> order == old(order)
      ensures deleted ==> exists i :: 0 <= i < |old(order)| && old(order)[i] == partId &&
                                      order == old(order)[..i] + old(order)[i + 1..]
    {
      if partId !in parts {
        return false;
      }
      var i := 0;
      while order[i] != partId
        invariant 0 <= i < |order|
        invariant partId in order[i..]
        decreases |order| - i
      {
        i := i + 1;
      }
      RemoveAtDistinct(order, i);
      order := order[..i] + order[i + 1..];
      parts := parts - {partId};
      return true;
    }

    /**
     * `instantiate_part`: None for an unknown id; otherwise one object with
     * one instance holding one element per stored record, in order. A stored
     * mask that does not decode makes the call fail. `freshId(k)` is the
     * generated id of element k; the instance and object take the next two.
     */
    method InstantiatePart(partId: string, scale: real, x: int, y: int,
                           resize: (Mask, nat, nat) -> Mask, freshId: nat -> string)
      returns (r: Result<Option<Objects.SegmentedObject>, DecodeError>)
      ensures partId !in parts ==> r == Ok(None)
      ensures partId in parts ==>
        (r.Err? <==> exists k :: 0 <= k < |parts[partId].elements| &&
                                RestoreMask(parts[partId].elements[k], scale, resize).Err?)
      ensures r.Ok? && partId in parts ==>
        var p := parts[partId];
        r.value.Some? && r.value.value.name == p.name && r.value.value.category == p.category &&
        |r.value.value.instances| == 1 && r.value.value.instances[0].instanceNum == 1 &&
        r.value.value.instances[0].pageId == Some("") && r.value.value.instances[0].viewType == "" &&
        r.value.value.instances[0].attributes == RestoredAttributes(p.attributes) &&
        |r.value.value.instances[0].elements| == |p.elements| &&
        forall k :: 0 <= k < |p.elements| ==>
          RestoreElement(p.elements[k], p.category, scale, x, y, resize, freshId(k)) ==
          Ok(r.value.value.instances[0].elements[k])
    {
      if partId !in parts {
        return Ok(None);
      }
      var p := parts[partId];
      var elements: seq<SegmentElement> := [];
      for i := 0 to |p.elements|
        invariant |elements| == i
        invariant forall k :: 0 <= k < i ==> RestoreElement(p.elements[k], p.category, scale, x, y, resize, freshId(k)) == Ok(elements[k])
      {
        var e := RestoreElement(p.elements[i], p.category, scale, x, y, resize, freshId(i));
        if e.Err? {
          return Err(e.error);
        }
        elements := elements + [e.value];
      }
      var n := |p.elements|;
      var attrs := if p.attributes != Attributes.EmptyRecord then Attributes.FromDict(p.attributes) else Attributes.Default;
      var inst := Objects.ObjectInstance(freshId(n), 1, elements, Some(""), "", attrs);
      r := Ok(Some(Objects.SegmentedObject(freshId(n + 1), p.name, p.category, [inst])));
    }
  }
}

=== FILE: rendering.dfy ===
/**
 * The desktop renderer's base image and its cache.
 *
 * The base image is the page image with every text, hatching and line mask
 * of the page's shape painted white, blended with a colour overlay of the
 * visible objects. `RenderCache` keeps one base image together with the key
 * of the inputs that produced it and the page it belongs to; `render_page`
 * rebuilds the base only when the key or the page changes.
 */
module Rendering {
  import opened Wrappers
  import opened Masks
  import opened Elements
  import opened Objects
  import opened Page
  import MaskGeometry
  import Arith
  import Categories
  import Attributes

  /** A pixel of the blended output: blue, green, red, alpha. */
  type Bgra = (Byte, Byte, Byte, Byte)
  type BgraImage = Grid<Bgra>

  // ---------------------------------------------------------------------
  // Hiding text, hatching and lines
  // ---------------------------------------------------------------------

  /** `mask is not None and mask.shape == (h, w)` */
  predicate Matches(m: Option<Mask>, h: nat, w: nat) {
    m.Some? && WellFormed(m.value) && m.value.h == h && m.value.w == w
  }

  /** The optional mask has the page's shape and is on at (x, y). */
  predicate HiddenBy(m: Option<Mask>, h: nat, w: nat, x: int, y: int) {
    Matches(m, h, w) && On(m.value, x, y)
  }

  datatype HideMasks = HideMasks(text: Option<Mask>, hatch: Option<Mask>, line: Option<Mask>)

  predicate Hidden(hm: HideMasks, h: nat, w: nat, x: int, y: int) {
    HiddenBy(hm.text, h, w, x, y) || HiddenBy(hm.hatch, h, w, x, y) || HiddenBy(hm.line, h, w, x, y)
  }

  const White: Bgr := (255, 255, 255)

  /** `base_image[mask > 0] = [255, 255, 255]`, done only for a mask of the image's shape. */
  function Whiten(img: Image, m: Option<Mask>): (r: Image)
    requires WellFormed(img)
    ensures WellFormed(r) && SameShape(r, img)
    ensures forall x, y :: InBounds(img, x, y) && HiddenBy(m, img.h, img.w, x, y) ==> r.rows[y][x] == White
    ensures forall x, y :: InBounds(img, x, y) && !HiddenBy(m, img.h, img.w, x, y) ==>
      r.rows[y][x] == img.rows[y][x]
  {
    if !Matches(m, img.h, img.w) then img
    else Tabulate(img.h, img.w, (x, y) =>
      if InBounds(img, x, y) then (if On(m.value, x, y) then White else img.rows[y][x]) else White)
  }

  /**
   * The page image with text, hatching and line masks applied in turn: a
   * pixel is white when some mask of the page's shape is on there, and
   * keeps its original colour otherwise.
   */
  function HideBase(original: Image, hm: HideMasks): (r: Image)
    requires WellFormed(original)
    ensures WellFormed(r) && SameShape(r, original)
    ensures forall x, y :: InBounds(original, x, y) && Hidden(hm, original.h, original.w, x, y) ==>
      r.rows[y][x] == White
    ensures forall x, y :: InBounds(original, x, y) && !Hidden(hm, original.h, original.w, x, y) ==>
      r.rows[y][x] == original.rows[y][x]
  {
    Whiten(Whiten(Whiten(original, hm.text), hm.hatch), hm.line)
  }

  /**
   * A pixel of the hidden base is white exactly when a mask hides it or it
   * was white already; masks of any other shape are ignored.
   */
  lemma HideBaseWhiteIff(original: Image, hm: HideMasks, x: int, y: int)
    requires WellFormed(original) && InBounds(original, x, y)
    ensures HideBase(original, hm).rows[y][x] == White <==>
      Hidden(hm, original.h, original.w, x, y) || original.rows[y][x] == White
  {
  }

  /** Dropping a mask whose shape differs from the page changes nothing. */
  lemma MismatchedMaskIgnored(original: Image, hm: HideMasks)
    requires WellFormed(original) && !Matches(hm.text, original.h, original.w)
    ensures HideBase(original, hm) == HideBase(original, hm.(text := None))
  {
    var a, b := HideBase(original, hm), HideBase(original, hm.(text := None));
    forall x, y | InBounds(original, x, y)
      ensures a.rows[y][x] == b.rows[y][x]
    {
      assert Hidden(hm, original.h, original.w, x, y) == Hidden(hm.(text := None), original.h, original.w, x, y);
    }
    GridExt(a, b);
  }

  // ---------------------------------------------------------------------
  // Overlay
  // ---------------------------------------------------------------------

  /** The elements of the instances on the page, in order; other pages' instances are skipped. */
  function PageElements(instances: seq<ObjectInstance>, tabId: string): (r: seq<SegmentElement>)
    ensures forall e :: e in r ==> (exists k :: 0 <= k < |instances| &&
                                     instances[k].pageId == Some(tabId) && e in instances[k].elements)
  {
    if |instances| == 0 then []
    else
      var rest := PageElements(instances[1..], tabId);
      assert forall e :: e in rest ==> (exists k :: 1 <= k < |instances| &&
                                          instances[k].pageId == Some(tabId) && e in instances[k].elements) by {
        forall e | e in rest
          ensures exists k :: 1 <= k < |instances| && instances[k].pageId == Some(tabId) && e in instances[k].elements
        {
          var j :| 0 <= j < |instances[1..]| && instances[1..][j].pageId == Some(tabId) && e in instances[1..][j].elements;
          assert instances[j + 1] == instances[1..][j];
        }
      }
      (if instances[0].pageId == Some(tabId) then instances[0].elements else []) + rest
  }

  /** An instance on another page adds no element. */
  lemma {:induction false} OtherPageIgnored(instances: seq<ObjectInstance>, inst: ObjectInstance, tabId: string)
    requires inst.pageId != Some(tabId)
    ensures PageElements(instances + [inst], tabId) == PageElements(instances, tabId)
  {
    if |instances| == 0 {
      assert [inst][1..] == [];
    } else {
      assert (instances + [inst])[1..] == instances[1..] + [inst];
      OtherPageIgnored(instances[1..], inst, tabId);
    }
  }

  /** The element mask has the page's shape. */
  predicate Fits(e: SegmentElement, h: nat, w: nat) {
    e.mask.Some? && WellFormed(e.mask.value) && e.mask.value.h == h && e.mask.value.w == w
  }

  predicate IsLineMode(mode: string) {
    mode == "line" || mode == "perimeter" || mode == "polyline"
  }

  /** Some filled (not line-like) element of the page's shape covers (x, y). */
  predicate FilledAt(elems: seq<SegmentElement>, h: nat, w: nat, x: int, y: int) {
    exists k :: 0 <= k < |elems| && Fits(elems[k], h, w) && !IsLineMode(elems[k].mode) &&
      On(elems[k].mask.value, x, y)
  }

  /** Some line-like element of the page's shape covers (x, y). */
  predicate LineAt(elems: seq<SegmentElement>, h: nat, w: nat, x: int, y: int) {
    exists k :: 0 <= k < |elems| && Fits(elems[k], h, w) && IsLineMode(elems[k].mode) &&
      On(elems[k].mask.value, x, y)
  }

  /** The pixel-wise maximum of the filled element masks, as an on/off mask. */
  function FilledMask(elems: seq<SegmentElement>, h: nat, w: nat): (m: Mask)
    ensures WellFormed(m) && m.h == h && m.w == w
    ensures forall x, y :: On(m, x, y) <==> InBounds(m, x, y) && FilledAt(elems, h, w, x, y)
  {
    Tabulate(h, w, (x, y) => if FilledAt(elems, h, w, x, y) then 255 else 0)
  }

  // Text-ghost growth: the filled mask is dilated with the 3x3 cross kernel
  // (cv2's 3x3 ellipse), each round adding only pixels of the text mask.

  predicate NeighbourOn(g: Mask, x: int, y: int)
    requires WellFormed(g)
  {
    On(g, x - 1, y) || On(g, x + 1, y) || On(g, x, y - 1) || On(g, x, y + 1)
  }

  /** One round of growth: off pixels under text next to an on pixel turn on (255). */
  function GrowStep(g: Mask, text: Mask): (r: Mask)
    requires WellFormed(g) && WellFormed(text) && SameShape(g, text)
    ensures WellFormed(r) && SameShape(r, g)
    ensures forall x, y :: On(r, x, y) <==> On(g, x, y) || (On(text, x, y) && NeighbourOn(g, x, y))
  {
    Tabulate(g.h, g.w, (x, y) =>
      if !InBounds(g, x, y) then 0
      else if g.rows[y][x] > 0 then g.rows[y][x]
      else if On(text, x, y) && NeighbourOn(g, x, y) then 255
      else 0)
  }

  /** `steps` rounds of growth; the source stops early once a round adds nothing. */
  function Grow(g: Mask, text: Mask, steps: nat): (r: Mask)
    requires WellFormed(g) && WellFormed(text) && SameShape(g, text)
    ensures WellFormed(r) && SameShape(r, g)
    decreases steps
  {
    if steps == 0 then g else Grow(GrowStep(g, text), text, steps - 1)
  }

  /** Growth keeps every filled pixel and adds only text pixels. */
  lemma {:induction false} GrowBounded(g: Mask, text: Mask, steps: nat, x: int, y: int)
    requires WellFormed(g) && WellFormed(text) && SameShape(g, text)
    ensures On(g, x, y) ==> On(Grow(g, text, steps), x, y)
    ensures On(Grow(g, text, steps), x, y) ==> On(g, x, y) || On(text, x, y)
    decreases steps
  {
    if steps > 0 {
      GrowBounded(GrowStep(g, text), text, steps - 1, x, y);
    }
  }

  /** Once a round adds nothing, further rounds add nothing, so stopping early is the same. */
  lemma {:induction false} GrowFixpoint(g: Mask, text: Mask, steps: nat)
    requires WellFormed(g) && WellFormed(text) && SameShape(g, text)
    requires GrowStep(g, text) == g
    ensures Grow(g, text, steps) == g
  {
    if steps > 0 {
      GrowFixpoint(g, text, steps - 1);
    }
  }

  /** The integer square root. */
  function ISqrt(n: nat): (r: nat)
    ensures r * r <= n < (r + 1) * (r + 1)
  {
    ISqrtFrom(n, 0)
  }

  function ISqrtFrom(n: nat, r: nat): (s: nat)
    requires r * r <= n
    ensures s * s <= n < (s + 1) * (s + 1)
    decreases n - r * r
  {
    if (r + 1) * (r + 1) <= n then ISqrtFrom(n, r + 1) else r
  }

  /** `min(100, int(sqrt(h * w) / 10))` */
  function GrowSteps(h: nat, w: nat): (r: nat)
    ensures r <= 100
  {
    var s := ISqrt(h * w) / 10;
    if s < 100 then s else 100
  }

  /** Overlay opacity: the planform slider for "planform", 0.7 otherwise, as `int(255 * opacity)`. */
  function Alpha(category: string, planformOpacity: real): (a: int)
    requires 0.0 <= planformOpacity <= 1.0
    ensures 0 <= a <= 255
    ensures category != "planform" ==> a == 178
  {
    if category == "planform" then (255.0 * planformOpacity).Floor else (255.0 * 0.7).Floor
  }

  /** A light category colour (mean above 200) is darkened by 150 per channel for lines. */
  function LineColour(c: Attributes_Rgb): (r: Attributes_Rgb)
    ensures Categories.ByteColor(c) ==> Categories.ByteColor(r)
    ensures c.0 + c.1 + c.2 <= 600 ==> r == c
    ensures Categories.ByteColor(c) && c.0 + c.1 + c.2 > 600 ==> r.0 < c.0 && r.1 < c.1 && r.2 < c.2
  {
    if c.0 + c.1 + c.2 > 600 then (Max0(c.0 - 150), Max0(c.1 - 150), Max0(c.2 - 150)) else c
  }

  type Attributes_Rgb = (int, int, int)

  function Max0(v: int): int {
    if v < 0 then 0 else v
  }

  const MarkCategories: seq<string> := ["mark_text", "mark_hatch", "mark_line"]

  /** Objects of a missing or hidden category, and marker objects, are not painted. */
  predicate Contributes(obj: SegmentedObject, categories: map<string, Categories.DynamicCategory>) {
    obj.category in categories && categories[obj.category].visible && obj.category !in MarkCategories
  }

  predicate CategoriesOk(categories: map<string, Categories.DynamicCategory>) {
    forall k :: k in categories ==> Categories.ByteColor(categories[k].colorBgr)
  }

  datatype RenderInputs = RenderInputs(
    original: Image,
    tabId: string,
    objects: seq<SegmentedObject>,
    categories: map<string, Categories.DynamicCategory>,
    planformOpacity: real,
    hideBackground: bool,
    masks: HideMasks)

  predicate InputsOk(inp: RenderInputs) {
    WellFormed(inp.original) && 0.0 <= inp.planformOpacity <= 1.0 && CategoriesOk(inp.categories)
  }

  /** `has_text_mask`: a text mask of the page's shape with some pixel on. */
  predicate HasText(inp: RenderInputs) {
    Matches(inp.masks.text, inp.original.h, inp.original.w) && HasOn(inp.masks.text.value)
  }

  /** The filled region of an object: its filled mask, grown into text when there is text. */
  function FilledRegion(inp: RenderInputs, elems: seq<SegmentElement>): (m: Mask)
    ensures WellFormed(m) && m.h == inp.original.h && m.w == inp.original.w
    ensures forall x, y :: On(m, x, y) ==>
      (FilledAt(elems, m.h, m.w, x, y) || (HasText(inp) && On(inp.masks.text.value, x, y)))
  {
    var h, w := inp.original.h, inp.original.w;
    var filled := FilledMask(elems, h, w);
    if HasText(inp) && HasOn(filled) then
      var grown := Grow(filled, inp.masks.text.value, GrowSteps(h, w));
      assert forall x, y :: On(grown, x, y) ==> FilledAt(elems, h, w, x, y) || On(inp.masks.text.value, x, y) by {
        forall x, y ensures On(grown, x, y) ==> FilledAt(elems, h, w, x, y) || On(inp.masks.text.value, x, y) {
          GrowBounded(filled, inp.masks.text.value, GrowSteps(h, w), x, y);
        }
      }
      grown
    else filled
  }

  const Clear: Bgra := (0, 0, 0, 0)

  /** A contributing object has a line-like element on (x, y). */
  predicate DrawsLine(obj: SegmentedObject, inp: RenderInputs, x: int, y: int) {
    Contributes(obj, inp.categories) &&
    LineAt(PageElements(obj.instances, inp.tabId), inp.original.h, inp.original.w, x, y)
  }

  /** A contributing object paints (x, y): a line-like element or its filled region covers it. */
  predicate Paints(obj: SegmentedObject, inp: RenderInputs, x: int, y: int) {
    DrawsLine(obj, inp, x, y) ||
    (Contributes(obj, inp.categories) && On(FilledRegion(inp, PageElements(obj.instances, inp.tabId)), x, y))
  }

  /**
   * The overlay pixel a contributing object leaves where it paints: the
   * darkened line colour, opaque, on a line; the category colour at the
   * category's alpha elsewhere in its filled region.
   */
  function PaintColour(obj: SegmentedObject, inp: RenderInputs, x: int, y: int): Bgra
    requires InputsOk(inp) && Contributes(obj, inp.categories)
  {
    var c := inp.categories[obj.category].colorBgr;
    var lc := LineColour(c);
    if DrawsLine(obj, inp, x, y) then (lc.0, lc.1, lc.2, 255)
    else (c.0, c.1, c.2, Alpha(obj.category, inp.planformOpacity))
  }

  /**
   * One iteration of the object loop: the filled region gets the category
   * colour at the object's opacity, then line-like elements overwrite it at
   * full opacity; objects that do not contribute leave the overlay alone.
   */
  function PaintObject(ov: BgraImage, obj: SegmentedObject, inp: RenderInputs): (r: BgraImage)
    requires InputsOk(inp) && WellFormed(ov) && SameShape(ov, inp.original)
    ensures WellFormed(r) && SameShape(r, ov)
    ensures !Contributes(obj, inp.categories) ==> r == ov
    ensures forall x, y :: InBounds(ov, x, y) && r.rows[y][x] != ov.rows[y][x] ==>
      Contributes(obj, inp.categories)
    ensures forall x, y :: InBounds(ov, x, y) && Paints(obj, inp, x, y) ==>
      r.rows[y][x] == PaintColour(obj, inp, x, y)
    ensures forall x, y :: InBounds(ov, x, y) && !Paints(obj, inp, x, y) ==> r.rows[y][x] == ov.rows[y][x]
  {
    if !Contributes(obj, inp.categories) then ov
    else
      var h, w := inp.original.h, inp.original.w;
      var cat := inp.categories[obj.category];
      var c := cat.colorBgr;
      var a := Alpha(obj.category, inp.planformOpacity);
      var lc := LineColour(c);
      var elems := PageElements(obj.instances, inp.tabId);
      var region := FilledRegion(inp, elems);
      Tabulate(h, w, (x, y) =>
        if !InBounds(ov, x, y) then Clear
        else if LineAt(elems, h, w, x, y) then (lc.0, lc.1, lc.2, 255)
        else if On(region, x, y) then (c.0, c.1, c.2, a)
        else ov.rows[y][x])
  }

  /** The overlay after painting `objects` in order onto a clear overlay. */
  function PaintAll(objects: seq<SegmentedObject>, inp: RenderInputs): (r: BgraImage)
    requires InputsOk(inp)
    ensures WellFormed(r) && SameShape(r, inp.original)
  {
    if |objects| == 0 then Tabulate(inp.original.h, inp.original.w, (x, y) => Clear)
    else PaintObject(PaintAll(objects[..|objects| - 1], inp), objects[|objects| - 1], inp)
  }

  /** Object `k` paints (x, y) and no later object does. */
  predicate LastPainter(objects: seq<SegmentedObject>, inp: RenderInputs, x: int, y: int, k: int) {
    0 <= k < |objects| && Paints(objects[k], inp, x, y) &&
    forall j :: k < j < |objects| ==> !Paints(objects[j], inp, x, y)
  }

  /** No object paints (x, y). */
  predicate NoPainter(objects: seq<SegmentedObject>, inp: RenderInputs, x: int, y: int) {
    forall k :: 0 <= k < |objects| ==> !Paints(objects[k], inp, x, y)
  }

  /** When the last object does not paint (x, y), the painters are those of the prefix. */
  lemma PainterInPrefix(objects: seq<SegmentedObject>, inp: RenderInputs, x: int, y: int)
    requires |objects| > 0 && !Paints(objects[|objects| - 1], inp, x, y)
    ensures forall k :: LastPainter(objects, inp, x, y, k) ==> LastPainter(objects[..|objects| - 1], inp, x, y, k)
    ensures NoPainter(objects, inp, x, y) ==> NoPainter(objects[..|objects| - 1], inp, x, y)
  {
    var prev := objects[..|objects| - 1];
    forall k | 0 <= k < |prev|
      ensures prev[k] == objects[k]
    {
    }
  }

  /**
   * Each overlay pixel comes from the last object that paints it, and stays
   * clear where none does.
   */
  lemma {:induction false} PaintAllPixel(objects: seq<SegmentedObject>, inp: RenderInputs, x: int, y: int)
    requires InputsOk(inp) && InBounds(inp.original, x, y)
    ensures NoPainter(objects, inp, x, y) ==> PaintAll(objects, inp).rows[y][x] == Clear
    ensures forall k :: LastPainter(objects, inp, x, y, k) ==>
      PaintAll(objects, inp).rows[y][x] == PaintColour(objects[k], inp, x, y)
  {
    if |objects| > 0 {
      var n := |objects| - 1;
      var prev := objects[..n];
      PaintAllPixel(prev, inp, x, y);
      var ov := PaintAll(prev, inp);
      var r := PaintObject(ov, objects[n], inp);
      assert PaintAll(objects, inp) == r;
      if Paints(objects[n], inp, x, y) {
        assert r.rows[y][x] == PaintColour(objects[n], inp, x, y);
        forall k | LastPainter(objects, inp, x, y, k)
          ensures k == n
        {
        }
      } else {
        assert r.rows[y][x] == ov.rows[y][x];
        PainterInPrefix(objects, inp, x, y);
      }
    }
  }

  function Contributing(objects: seq<SegmentedObject>, categories: map<string, Categories.DynamicCategory>)
    : (r: seq<SegmentedObject>)
    ensures forall o :: o in r ==> o in objects && Contributes(o, categories)
  {
    if |objects| == 0 then []
    else
      var k := |objects| - 1;
      Contributing(objects[..k], categories) +
      (if Contributes(objects[k], categories) then [objects[k]] else [])
  }

  /** Objects that do not contribute can be dropped without changing the overlay. */
  lemma {:induction false} OnlyContributorsPaint(objects: seq<SegmentedObject>, inp: RenderInputs)
    requires InputsOk(inp)
    ensures PaintAll(Contributing(objects, inp.categories), inp) == PaintAll(objects, inp)
  {
    if |objects| > 0 {
      var k := |objects| - 1;
      OnlyContributorsPaint(objects[..k], inp);
      var prefix := Contributing(objects[..k], inp.categories);
      if Contributes(objects[k], inp.categories) {
        assert (prefix + [objects[k]])[..|prefix|] == prefix;
      } else {
        assert prefix + [] == prefix;
      }
    }
  }

  /** The overlay of the inputs' objects. */
  function Overlay(inp: RenderInputs): (r: BgraImage)
    requires InputsOk(inp)
    ensures WellFormed(r) && SameShape(r, inp.original)
    ensures forall x, y :: InBounds(inp.original, x, y) && NoPainter(inp.objects, inp, x, y) ==>
      r.rows[y][x] == Clear
    ensures forall x, y, k :: InBounds(inp.original, x, y) && LastPainter(inp.objects, inp, x, y, k) ==>
      r.rows[y][x] == PaintColour(inp.objects[k], inp, x, y)
  {
    var r := PaintAll(inp.objects, inp);
    forall x, y | InBounds(inp.original, x, y)
      ensures NoPainter(inp.objects, inp, x, y) ==> r.rows[y][x] == Clear
      ensures forall k :: LastPainter(inp.objects, inp, x, y, k) ==> r.rows[y][x] == PaintColour(inp.objects[k], inp, x, y)
    {
      PaintAllPixel(inp.objects, inp, x, y);
    }
    r
  }

  // ---------------------------------------------------------------------
  // Blending
  // ---------------------------------------------------------------------

  /** `base + (overlay - base) * alpha // 255` in 32-bit integers (no overflow for bytes). */
  function BlendChannel(base: Byte, over: Byte, alpha: Byte): int {
    base + (over - base) * alpha / 255
  }

  /** `255 - alpha + overlay * alpha // 255` in 16-bit integers (no overflow for bytes). */
  function WhiteChannel(over: Byte, alpha: Byte): int {
    255 - alpha + over * alpha / 255
  }

  function Clip(v: int): Byte {
    if v < 0 then 0 else if v > 255 then 255 else v
  }

  /** Scaling a difference by alpha / 255 (floored) keeps it between 0 and the difference. */
  lemma ScaledUp(d: nat, alpha: Byte)
    ensures 0 <= d * alpha / 255 <= d
  {
    Arith.MulMono(alpha, 255, d);
    Arith.DivBounds(d * alpha, 255, 0, d);
  }

  lemma ScaledDown(d: int, alpha: Byte)
    requires d < 0
    ensures d <= d * alpha / 255 <= 0
  {
    var p := d * alpha;
    Arith.MulMono(alpha, 255, -d);
    assert alpha * (-d) == -p;
    Arith.DivBounds(p, 255, d, 0);
  }

  /** The blend lies between base and overlay, so clipping never changes it. */
  lemma BlendBetween(base: Byte, over: Byte, alpha: Byte)
    ensures base <= over ==> base <= BlendChannel(base, over, alpha) <= over
    ensures over <= base ==> over <= BlendChannel(base, over, alpha) <= base
    ensures Clip(BlendChannel(base, over, alpha)) == BlendChannel(base, over, alpha)
  {
    var d := over - base;
    if d >= 0 {
      ScaledUp(d, alpha);
    } else {
      ScaledDown(d, alpha);
    }
  }

  /** No overlay alpha leaves the base; full alpha gives the overlay. */
  lemma BlendEnds(base: Byte, over: Byte, alpha: Byte)
    ensures alpha == 0 ==> BlendChannel(base, over, alpha) == base
    ensures alpha == 255 ==> BlendChannel(base, over, alpha) == over
  {
    var d := over - base;
    if alpha == 255 {
      assert d * alpha == d * 255;
    }
  }

  /** The white-background blend stays in [0, 255]; no overlay gives white. */
  lemma WhiteChannelRange(over: Byte, alpha: Byte)
    ensures 0 <= WhiteChannel(over, alpha) <= 255
    ensures alpha == 0 ==> WhiteChannel(over, alpha) == 255
    ensures alpha == 255 ==> WhiteChannel(over, alpha) == over
    ensures Clip(WhiteChannel(over, alpha)) == WhiteChannel(over, alpha)
  {
    Arith.MulMono(over, 255, alpha);
    Arith.DivBounds(over * alpha, 255, 0, alpha);
  }

  /** One blended channel, clipped to a byte as `np.clip(..., 0, 255)` does. */
  function Blended(base: Byte, over: Byte, alpha: Byte): (r: Byte)
    ensures r == BlendChannel(base, over, alpha)
    ensures alpha == 0 ==> r == base
    ensures alpha == 255 ==> r == over
    ensures base <= over ==> base <= r <= over
    ensures over <= base ==> over <= r <= base
  {
    BlendBetween(base, over, alpha);
    BlendEnds(base, over, alpha);
    Clip(BlendChannel(base, over, alpha))
  }

  /** One channel blended onto white, clipped to a byte. */
  function Whitened(over: Byte, alpha: Byte): (r: Byte)
    ensures r == WhiteChannel(over, alpha)
    ensures alpha == 0 ==> r == 255
    ensures alpha == 255 ==> r == over
  {
    WhiteChannelRange(over, alpha);
    Clip(WhiteChannel(over, alpha))
  }

  /** One output pixel: on white with `hide_background`, else over the hidden base; alpha is 255. */
  function BlendPixel(hideBackground: bool, base: Bgr, o: Bgra): (p: Bgra)
    ensures p.3 == 255
    ensures !hideBackground && o.3 == 0 ==> (p.0, p.1, p.2) == base
    ensures !hideBackground && o.3 == 255 ==> (p.0, p.1, p.2) == (o.0, o.1, o.2)
    ensures hideBackground && o.3 == 0 ==> (p.0, p.1, p.2) == White
    ensures hideBackground && o.3 == 255 ==> (p.0, p.1, p.2) == (o.0, o.1, o.2)
  {
    if hideBackground then
      (Whitened(o.0, o.3), Whitened(o.1, o.3), Whitened(o.2, o.3), 255)
    else
      (Blended(base.0, o.0, o.3), Blended(base.1, o.1, o.3), Blended(base.2, o.2, o.3), 255)
  }

  /** `_render_base`: hide, paint the overlay, blend. */
  function Compose(inp: RenderInputs): (r: BgraImage)
    requires InputsOk(inp)
    ensures WellFormed(r) && SameShape(r, inp.original)
    ensures forall x, y :: InBounds(inp.original, x, y) ==>
      r.rows[y][x] == BlendPixel(inp.hideBackground, HideBase(inp.original, inp.masks).rows[y][x], Overlay(inp).rows[y][x])
  {
    var base := HideBase(inp.original, inp.masks);
    var ov := Overlay(inp);
    Tabulate(inp.original.h, inp.original.w, (x, y) =>
      if InBounds(base, x, y) then BlendPixel(inp.hideBackground, base.rows[y][x], ov.rows[y][x])
      else (255, 255, 255, 255))
  }

  /**
   * Where no object paints, the output is the hidden base (white where a
   * mask hides the page) or, with `hide_background`, plain white.
   */
  lemma UnpaintedPixel(inp: RenderInputs, x: int, y: int)
    requires InputsOk(inp) && InBounds(inp.original, x, y) && Overlay(inp).rows[y][x].3 == 0
    ensures inp.hideBackground ==> Compose(inp).rows[y][x] == (255, 255, 255, 255)
    ensures !inp.hideBackground && Hidden(inp.masks, inp.original.h, inp.original.w, x, y) ==>
      Compose(inp).rows[y][x] == (255, 255, 255, 255)
    ensures !inp.hideBackground && !Hidden(inp.masks, inp.original.h, inp.original.w, x, y) ==>
      var o := inp.original.rows[y][x]; Compose(inp).rows[y][x] == (o.0, o.1, o.2, 255)
  {
  }

  /**
   * Where the last object to paint a pixel draws a line there, the output
   * shows that object's line colour, whatever the background setting.
   */
  lemma LinePixelShown(inp: RenderInputs, x: int, y: int, k: int)
    requires InputsOk(inp) && InBounds(inp.original, x, y)
    requires LastPainter(inp.objects, inp, x, y, k) && DrawsLine(inp.objects[k], inp, x, y)
    ensures var lc := LineColour(inp.categories[inp.objects[k].category].colorBgr);
      Compose(inp).rows[y][x] == (lc.0, lc.1, lc.2, 255)
  {
    PaintAllPixel(inp.objects, inp, x, y);
  }

  /** `render_page` without a page image: a 100 x 100 transparent black image. */
  const EmptyRender: BgraImage := Tabulate(100, 100, (x, y) => Clear)

  /**
   * The loop of `_render_base` over the objects, painting into the overlay
   * in place, then the blend.
   */
  method RenderBase(inp: RenderInputs) returns (r: BgraImage)
    requires InputsOk(inp)
    ensures r == Compose(inp)
  {
    var overlay := Tabulate(inp.original.h, inp.original.w, (x, y) => Clear);
    for i := 0 to |inp.objects|
      invariant overlay == PaintAll(inp.objects[..i], inp)
    {
      assert inp.objects[..i + 1][..i] == inp.objects[..i];
      overlay := PaintObject(overlay, inp.objects[i], inp);
    }
    assert inp.objects[..|inp.objects|] == inp.objects;
    var base := HideBase(inp.original, inp.masks);
    r := Tabulate(inp.original.h, inp.original.w, (x, y) =>
      if InBounds(base, x, y) then BlendPixel(inp.hideBackground, base.rows[y][x], overlay.rows[y][x])
      else (255, 255, 255, 255));
  }

  // ---------------------------------------------------------------------
  // Cache key
  // ---------------------------------------------------------------------

  /** Decimal digits of a natural number, as `str(n)`. */
  function Dec(n: nat): (s: string)
    ensures |s| >= 1
  {
    if n < 10 then ["0123456789"[n]] else Dec(n / 10) + ["0123456789"[n % 10]]
  }

  function BoolText(b: bool): string {
    if b then "True" else "False"
  }

  function RowSum(row: seq<Byte>): nat {
    if row == [] then 0 else row[0] + RowSum(row[1..])
  }

  /** `np.sum(mask)`: the sum of all pixel values. */
  function MaskSum(rows: seq<seq<Byte>>): nat {
    if rows == [] then 0 else RowSum(rows[0]) + MaskSum(rows[1..])
  }

  /** `str(np.sum(mask))` for a mask of the page's shape, else "". */
  function MaskKey(m: Option<Mask>, h: nat, w: nat): string {
    if Matches(m, h, w) then Dec(MaskSum(m.value.rows)) else ""
  }

  /** The "|"-separated parts after the page id and opacity in the objects hash. */
  function ObjectEntries(objects: seq<SegmentedObject>, categories: map<string, Categories.DynamicCategory>)
    : seq<string>
  {
    if |objects| == 0 then []
    else
      var o := objects[0];
      var visible := if o.category in categories then categories[o.category].visible else true;
      [o.objectId + ":" + Dec(|o.instances|) + ":" + BoolText(visible)] +
      seq(|o.instances|, k requires 0 <= k < |o.instances| =>
        o.instances[k].instanceId + ":" + Dec(|o.instances[k].elements|)) +
      ObjectEntries(objects[1..], categories)
  }

  /**
   * `current_hash`: the objects digest (MD5 of "|"-joined parts with an empty
   * page id; represented by its input), the hide flag, and the three mask
   * sums written one after another.
   */
  datatype RenderKey = RenderKey(opacity: real, entries: string, hide: bool, maskSums: string)

  function Key(inp: RenderInputs): (k: RenderKey)
    ensures k.hide == inp.hideBackground && k.opacity == inp.planformOpacity
  {
    var h, w := inp.original.h, inp.original.w;
    RenderKey(inp.planformOpacity, Attributes.Join(ObjectEntries(inp.objects, inp.categories), "|"),
              inp.hideBackground,
              MaskKey(inp.masks.text, h, w) + MaskKey(inp.masks.hatch, h, w) + MaskKey(inp.masks.line, h, w))
  }

  /** Two different one-row text masks whose pixel sums, and so whose keys, agree. */
  const MaskA: Mask := Grid(1, 2, [[255, 0]])
  const MaskB: Mask := Grid(1, 2, [[0, 255]])
  const BlackPair: Image := Grid(1, 2, [[(0, 0, 0), (0, 0, 0)]])
  const InputsA := RenderInputs(BlackPair, "p", [], map[], 0.5, false, HideMasks(Some(MaskA), None, None))
  const InputsB := InputsA.(masks := HideMasks(Some(MaskB), None, None))

  lemma SameMaskKey()
    ensures MaskA != MaskB
    ensures MaskKey(Some(MaskA), 1, 2) == MaskKey(Some(MaskB), 1, 2) == "255"
  {
    assert MaskA.rows[0][0] != MaskB.rows[0][0];
    assert MaskSum(MaskA.rows) == 255;
    assert MaskSum(MaskB.rows) == 255;
    assert Dec(255) == "255";
  }

  lemma DifferentBase()
    ensures InputsOk(InputsA) && InputsOk(InputsB)
    ensures Compose(InputsA).rows[0][0] != Compose(InputsB).rows[0][0]
  {
    assert InputsB.original == InputsA.original == BlackPair && InputsB.objects == InputsA.objects == [];
    assert WellFormed(BlackPair) && InBounds(BlackPair, 0, 0);
    assert InputsOk(InputsA) && InputsOk(InputsB);
    assert Overlay(InputsA).rows[0][0].3 == 0;
    assert Overlay(InputsB).rows[0][0].3 == 0;
    assert Hidden(InputsA.masks, 1, 2, 0, 0);
    assert !Hidden(InputsB.masks, 1, 2, 0, 0);
    UnpaintedPixel(InputsA, 0, 0);
    UnpaintedPixel(InputsB, 0, 0);
  }

  /**
   * The key does not determine the base image: a text mask moved to another
   * pixel keeps its sum, so two inputs share a key and a page while their
   * base images differ, and the cache keeps showing the older one.
   */
  lemma KeyCollision()
    ensures InputsOk(InputsA) && InputsOk(InputsB)
    ensures Key(InputsA) == Key(InputsB) && InputsA.tabId == InputsB.tabId
    ensures Compose(InputsA) != Compose(InputsB)
  {
    DifferentBase();
    SameMaskKey();
    assert InputsB.objects == InputsA.objects && InputsB.categories == InputsA.categories;
  }

  // ---------------------------------------------------------------------
  // The cache
  // ---------------------------------------------------------------------

  class RenderCache {
    var baseImage: Option<BgraImage>
    /** The key of the cached base; `None` is the source's empty string, which no key equals. */
    var baseHash: Option<RenderKey>
    var zoomedCache: map<real, BgraImage>
    var pageId: string
    /** The inputs that produced the cached base. */
    ghost var source: Option<RenderInputs>

    /** A cached base is the composition of the inputs whose key and page are stored. */
    ghost predicate Valid()
      reads this
    {
      baseImage.Some? ==>
        source.Some? && InputsOk(source.value) && baseImage.value == Compose(source.value) &&
        baseHash == Some(Key(source.value)) && pageId == source.value.tabId
    }

    constructor()
      ensures Valid()
      ensures baseImage == None && baseHash == None && zoomedCache == map[] && pageId == ""
    {
      baseImage := None;
      baseHash := None;
      zoomedCache := map[];
      pageId := "";
      source := None;
    }

    /** `invalidate`: drops the base, its key and the zoom cache, but keeps the page id. */
    method Invalidate()
      modifies this
      ensures Valid()
      ensures baseImage == None && baseHash == None && zoomedCache == map[]
      ensures pageId == old(pageId)
    {
      baseImage := None;
      baseHash := None;
      zoomedCache := map[];
    }

    /** `invalidate_zoom`: empties only the zoom cache. */
    method InvalidateZoom()
      modifies this
      requires Valid()
      ensures Valid()
      ensures zoomedCache == map[]
      ensures baseImage == old(baseImage) && baseHash == old(baseHash) && pageId == old(pageId)
      ensures source == old(source)
    {
      zoomedCache := map[];
    }

    /**
     * The cache decision of `render_page`: rebuild exactly when there is no
     * base, the key differs or the page differs; after a rebuild the cache
     * holds the new key and page and an empty zoom cache. Returns the base.
     * Without a page image the result is a blank 100 x 100 image.
     */
    method RenderPage(page: PageTab, categories: map<string, Categories.DynamicCategory>,
                      planformOpacity: real, hideBackground: bool, objects: Option<seq<SegmentedObject>>,
                      textMask: Option<Mask>, hatchMask: Option<Mask>, lineMask: Option<Mask>)
      returns (out: BgraImage)
      requires Valid()
      requires page.image.Some? ==> WellFormed(page.image.value)
      requires 0.0 <= planformOpacity <= 1.0 && CategoriesOk(categories)
      modifies this
      ensures Valid()
      ensures page.image.None? ==> out == EmptyRender && unchanged(this)
      ensures page.image.Some? ==>
        var inp := RenderInputs(page.image.value, page.tabId, objects.GetOr(page.objects), categories,
                                planformOpacity, hideBackground, HideMasks(textMask, hatchMask, lineMask));
        var rebuild := old(baseImage).None? || old(baseHash) != Some(Key(inp)) || old(pageId) != page.tabId;
        baseImage == Some(out) && baseHash == Some(Key(inp)) && pageId == page.tabId &&
        (rebuild ==> out == Compose(inp) && zoomedCache == map[]) &&
        (!rebuild ==> out == old(baseImage).value && zoomedCache == old(zoomedCache))
    {
      if page.image.None? {
        return EmptyRender;
      }
      var inp := RenderInputs(page.image.value, page.tabId, objects.GetOr(page.objects), categories,
                              planformOpacity, hideBackground, HideMasks(textMask, hatchMask, lineMask));
      var key := Key(inp);
      if baseImage.None? || baseHash != Some(key) || pageId != page.tabId {
        Rebuild(inp);
      }
      out := baseImage.value;
    }

    /** The rebuild branch of `render_page`: a fresh base for the inputs, its key and page, no zoom levels. */
    method Rebuild(inp: RenderInputs)
      requires InputsOk(inp)
      modifies this
      ensures Valid()
      ensures baseImage == Some(Compose(inp)) && baseHash == Some(Key(inp)) && pageId == inp.tabId
      ensures zoomedCache == map[]
    {
      var b := RenderBase(inp);
      baseImage := Some(b);
      baseHash := Some(Key(inp));
      pageId := inp.tabId;
      source := Some(inp);
      zoomedCache := map[];
    }
  }

  /** A cache hit returns a base built from inputs with the same key and page. */
  lemma HitHasSameKey(c: RenderCache, inp: RenderInputs)
    requires c.Valid() && c.baseImage.Some? && c.baseHash == Some(Key(inp)) && c.pageId == inp.tabId
    ensures c.source.Some? && Key(c.source.value) == Key(inp) && c.baseImage.value == Compose(c.source.value)
  {
  }

  // ---------------------------------------------------------------------
  // Group centroid
  // ---------------------------------------------------------------------

  /** The elements' masks, in order. */
  function ElementMasks(elements: seq<SegmentElement>): (masks: seq<Option<Mask>>)
    ensures |masks| == |elements| && forall k :: 0 <= k < |elements| ==> masks[k] == elements[k].mask
  {
    seq(|elements|, k requires 0 <= k < |elements| => elements[k].mask)
  }

  /**
   * `_calculate_group_centroid`: None when no element has a pixel on;
   * otherwise the floored mean position of all on pixels of all elements.
   */
  function GroupCentroid(elements: seq<SegmentElement>): (r: Option<Point>)
    requires forall k :: 0 <= k < |elements| ==> ElementOk(elements[k])
    ensures r.None? <==> forall k :: 0 <= k < |elements| ==> Empty(elements[k])
    ensures r.Some? ==> var masks := ElementMasks(elements);
      var n := MaskGeometry.TotalCount(masks);
      r.value.0 * n <= MaskGeometry.TotalSumX(masks) < (r.value.0 + 1) * n &&
      r.value.1 * n <= MaskGeometry.TotalSumY(masks) < (r.value.1 + 1) * n
  {
    var masks := ElementMasks(elements);
    forall i | 0 <= i < |masks| && masks[i].Some?
      ensures WellFormed(masks[i].value)
    {
      assert ElementOk(elements[i]);
    }
    assert MaskGeometry.AnyOn(masks) <==> exists k :: 0 <= k < |elements| && !Empty(elements[k]);
    MaskGeometry.GroupCentroid(masks)
  }
}

=== FILE: rle.dfy ===
/**
 * The mask run-length codec: a mask is flattened in row-major order and
 * stored as `[value, count]` pairs. Runs are not alternating 0/1 runs, so
 * every byte value survives the round trip.
 */
module Rle {
  import opened Wrappers
  import opened Masks

  /** One `[value, count]` pair. */
  datatype Run = Run(value: int, count: int)

  /** `[v] * n` in Python: empty when n <= 0. */
  function Repeat(v: int, n: int): (s: seq<int>)
    ensures |s| == (if n <= 0 then 0 else n)
    ensures forall k :: 0 <= k < |s| ==> s[k] == v
  {
    seq(if n <= 0 then 0 else n, _ => v)
  }

  /** The flat pixel sequence a list of runs stands for (`flat.extend([val] * count)`). */
  function Expand(runs: seq<Run>): seq<int> {
    if runs == [] then [] else Repeat(runs[0].value, runs[0].count) + Expand(runs[1..])
  }

  lemma {:induction false} ExpandAppend(a: seq<Run>, b: seq<Run>)
    ensures Expand(a + b) == Expand(a) + Expand(b)
  {
    if a == [] {
      assert a + b == b;
    } else {
      assert (a + b)[1..] == a[1..] + b;
      ExpandAppend(a[1..], b);
    }
  }

  /**
   * The runs the encoder produces: every count is at least 1, every value
   * is a byte, and neighbouring runs never share a value (runs are maximal).
   */
  predicate Maximal(runs: seq<Run>) {
    (forall i :: 0 <= i < |runs| ==> runs[i].count >= 1 && 0 <= runs[i].value < 256) &&
    (forall i :: 0 < i < |runs| ==> runs[i - 1].value != runs[i].value)
  }

  /**
   * The run-length encoder of workspace.py, parts_library.py and
   * SegmentElement.to_dict (three textually identical copies): scan the
   * flattened mask, extend a run while the next pixel repeats its value.
   */
  method Encode(m: Mask) returns (runs: seq<Run>)
    ensures Maximal(runs)
    ensures Expand(runs) == Flatten(m.rows)
  {
    var flat := Flatten(m.rows);
    runs := [];
    var i := 0;
    while i < |flat|
      invariant 0 <= i <= |flat|
      invariant Maximal(runs)
      invariant Expand(runs) == flat[..i]
      invariant runs != [] && i < |flat| ==> runs[|runs| - 1].value != flat[i]
    {
      var val := flat[i];
      var count := 1;
      while i + count < |flat| && flat[i + count] == val
        invariant 1 <= count && i + count <= |flat|
        invariant forall k :: i <= k < i + count ==> flat[k] == val
      {
        count := count + 1;
      }
      EncodeStepMaximal(runs, val, count);
      EncodeStepExpand(runs, flat, i, count);
      runs := runs + [Run(val, count)];
      i := i + count;
    }
    assert flat[..i] == flat;
  }

  /** Appending the run that starts at i keeps the runs maximal. */
  lemma EncodeStepMaximal(runs: seq<Run>, v: Byte, count: nat)
    requires count >= 1
    requires Maximal(runs)
    requires runs != [] ==> runs[|runs| - 1].value != v
    ensures Maximal(runs + [Run(v, count)])
  {
    var r2 := runs + [Run(v, count)];
    assert forall j :: 0 <= j < |runs| ==> r2[j] == runs[j];
  }

  /** Appending the run that starts at i extends the expansion by that run's pixels. */
  lemma EncodeStepExpand(runs: seq<Run>, flat: seq<Byte>, i: nat, count: nat)
    requires i + count <= |flat| && count >= 1
    requires Expand(runs) == flat[..i]
    requires forall k :: i <= k < i + count ==> flat[k] == flat[i]
    ensures Expand(runs + [Run(flat[i], count)]) == flat[..i + count]
  {
    var run := Run(flat[i], count);
    ExpandAppend(runs, [run]);
    assert [run][1..] == [];
    var rep := Repeat(flat[i], count);
    assert Expand([run]) == rep + Expand([]);
    var piece := flat[i..i + count];
    assert forall k :: 0 <= k < count ==> rep[k] == piece[k];
    assert rep == piece;
    assert flat[..i + count] == flat[..i] + piece;
  }

  /** The sum of the counts of a maximal encoding is the pixel count. */
  lemma {:induction false} MaximalLength(runs: seq<Run>)
    requires Maximal(runs)
    ensures |Expand(runs)| == Sum(runs)
  {
    if runs != [] {
      MaximalLength(runs[1..]);
    }
  }

  function Sum(runs: seq<Run>): int {
    if runs == [] then 0 else runs[0].count + Sum(runs[1..])
  }

  /** A flat sequence has only one maximal encoding. */
  lemma {:induction false} MaximalUnique(a: seq<Run>, b: seq<Run>)
    requires Maximal(a) && Maximal(b)
    requires Expand(a) == Expand(b)
    ensures a == b
  {
    if a != [] && b != [] {
      ExpandFirstRun(a);
      ExpandFirstRun(b);
      assert a[0].value == Expand(a)[0] == b[0].value;
      if a[0].count < b[0].count {
        assert false;
      } else if b[0].count < a[0].count {
        assert false;
      }
      assert a[0] == b[0];
      var r := Repeat(a[0].value, a[0].count);
      assert Expand(a[1..]) == Expand(a)[|r|..] == Expand(b)[|r|..] == Expand(b[1..]);
      MaximalUnique(a[1..], b[1..]);
      assert a == [a[0]] + a[1..];
      assert b == [b[0]] + b[1..];
    }
  }

  /** The expansion of a maximal encoding starts with exactly `count` copies of the first value. */
  lemma ExpandFirstRun(runs: seq<Run>)
    requires Maximal(runs) && runs != []
    ensures |Expand(runs)| >= runs[0].count
    ensures forall k :: 0 <= k < runs[0].count ==> Expand(runs)[k] == runs[0].value
    ensures |runs| == 1 ==> |Expand(runs)| == runs[0].count
    ensures |runs| > 1 ==> |Expand(runs)| > runs[0].count && Expand(runs)[runs[0].count] == runs[1].value
  {
    if |runs| > 1 {
      assert Expand(runs[1..]) == Repeat(runs[1].value, runs[1].count) + Expand(runs[2..]);
    } else {
      assert runs[1..] == [];
    }
  }

  datatype DecodeError =
    | ValueOutOfRange            // numpy refuses a value outside uint8
    | ShapeMismatch(e: ShapeError)  // reshape raises ValueError

  predicate AllBytes(s: seq<int>) {
    forall k :: 0 <= k < |s| ==> 0 <= s[k] < 256
  }

  function ToBytes(s: seq<int>): (b: seq<Byte>)
    requires AllBytes(s)
    ensures b == s
  {
    seq(|s|, k requires 0 <= k < |s| => s[k] as Byte)
  }

  /**
   * What decoding means: expand the runs, convert to uint8, reshape to
   * (h, w); each step that raises in Python is an error here.
   */
  function DecodeSpec(runs: seq<Run>, h: int, w: int): Result<Mask, DecodeError> {
    var flat := Expand(runs);
    if !AllBytes(flat) then Err(ValueOutOfRange)
    else match Reshape(ToBytes(flat), h, w)
      case Ok(m) => Ok(m)
      case Err(e) => Err(ShapeMismatch(e))
  }

  /** The decoder (`_decode_rle`, `_decode_mask_rle`): extend a flat list run by run, then reshape. */
  method Decode(runs: seq<Run>, h: int, w: int) returns (r: Result<Mask, DecodeError>)
    ensures r == DecodeSpec(runs, h, w)
    ensures r.Ok? <==> AllBytes(Expand(runs)) && h >= 0 && w >= 0 && |Expand(runs)| == h * w
    ensures r.Ok? ==> WellFormed(r.value) && r.value.h == h && r.value.w == w
  {
    var flat: seq<int> := [];
    for i := 0 to |runs|
      invariant flat == Expand(runs[..i])
    {
      ExpandAppend(runs[..i], [runs[i]]);
      assert runs[..i + 1] == runs[..i] + [runs[i]];
      flat := flat + Repeat(runs[i].value, runs[i].count);
    }
    assert runs[..|runs|] == runs;
    if !AllBytes(flat) {
      return Err(ValueOutOfRange);
    }
    var shaped := Reshape(ToBytes(flat), h, w);
    if shaped.Err? {
      return Err(ShapeMismatch(shaped.error));
    }
    r := Ok(shaped.value);
  }

  /** Any runs that expand to a mask's flattening decode, at that mask's shape, to the mask. */
  lemma DecodeOfFlattening(m: Mask, runs: seq<Run>)
    requires WellFormed(m)
    requires Expand(runs) == Flatten(m.rows)
    ensures DecodeSpec(runs, m.h, m.w) == Ok(m)
  {
    ReshapeFlatten(m);
    assert ToBytes(Expand(runs)) == Flatten(m.rows);
  }

  /** Encoding then decoding at the mask's own shape is the identity, for every byte value. */
  method RoundTrip(m: Mask) returns (r: Result<Mask, DecodeError>)
    requires WellFormed(m)
    ensures r == Ok(m)
  {
    var runs := Encode(m);
    r := Decode(runs, m.h, m.w);
    DecodeOfFlattening(m, runs);
  }
}

=== FILE: segmentation.dfy ===
/**
 * Mask algebra shared by the desktop and iPad segmentation engines
 * (`masks_overlap`, `combine_masks`, identical in both), and the early-exit
 * guards of the desktop engine's mask creators. Rasterisation itself
 * (cv2.floodFill, fillPoly, polylines) is a function parameter.
 */
module Segmentation {
  import opened Wrappers
  import opened Masks

  /** `np.any((mask1 > 0) & (mask2 > 0))` after the shape check. */
  predicate MasksOverlap(a: Mask, b: Mask)
    requires WellFormed(a) && WellFormed(b)
  {
    SameShape(a, b) && exists x, y :: 0 <= x < a.w && 0 <= y < a.h && a.rows[y][x] > 0 && b.rows[y][x] > 0
  }

  /** One pixel of one step of `combine_masks`; an unknown operation leaves the running result alone. */
  function PixelOp(operation: string, p: Byte, q: Byte): Byte {
    if operation == "union" then (if p >= q then p else q)            // np.maximum
    else if operation == "intersection" then (if p <= q then p else q) // np.minimum
    else if operation == "xor" then ((p as bv8) ^ (q as bv8)) as int   // np.bitwise_xor
    else p
  }

  function ZipRow(r1: seq<Byte>, r2: seq<Byte>, operation: string): (r: seq<Byte>)
    requires |r1| == |r2|
    ensures |r| == |r1| && forall x :: 0 <= x < |r| ==> r[x] == PixelOp(operation, r1[x], r2[x])
  {
    seq(|r1|, x requires 0 <= x < |r1| => PixelOp(operation, r1[x], r2[x]))
  }

  /** The pixel-wise combination of two masks of one shape. */
  function Zip(a: Mask, b: Mask, operation: string): (r: Mask)
    requires WellFormed(a) && WellFormed(b) && SameShape(a, b)
    ensures WellFormed(r) && SameShape(r, a)
    ensures forall y :: 0 <= y < r.h ==> r.rows[y] == ZipRow(a.rows[y], b.rows[y], operation)
  {
    Grid(a.h, a.w, seq(a.h, y requires 0 <= y < a.h => ZipRow(a.rows[y], b.rows[y], operation)))
  }

  /** One loop step: a mask whose shape differs from the running result is skipped. */
  function CombineStep(result: Mask, mask: Mask, operation: string): (r: Mask)
    requires WellFormed(result) && WellFormed(mask)
    ensures WellFormed(r) && SameShape(r, result)
  {
    if !SameShape(mask, result) then result else Zip(result, mask, operation)
  }

  predicate AllWellFormed(masks: seq<Mask>) {
    forall i :: 0 <= i < |masks| ==> WellFormed(masks[i])
  }

  /** The left fold of the loop over `masks[1:]`. */
  function Fold(result: Mask, rest: seq<Mask>, operation: string): (r: Mask)
    requires WellFormed(result) && AllWellFormed(rest)
    ensures WellFormed(r) && SameShape(r, result)
    decreases |rest|
  {
    if rest == [] then result
    else Fold(CombineStep(result, rest[0], operation), rest[1..], operation)
  }

  /** What `combine_masks` returns: a 1x1 zero mask for no masks, else the fold from the first. */
  function CombineSpec(masks: seq<Mask>, operation: string): (r: Mask)
    requires AllWellFormed(masks)
    ensures WellFormed(r)
  {
    if masks == [] then Zeros(1, 1) else Fold(masks[0], masks[1..], operation)
  }

  /** `combine_masks`: copy the first mask, then combine every later mask of the same shape into it. */
  method CombineMasks(masks: seq<Mask>, operation: string) returns (result: Mask)
    requires AllWellFormed(masks)
    ensures result == CombineSpec(masks, operation)
    ensures masks == [] ==> result == Zeros(1, 1)
    ensures masks != [] ==> WellFormed(result) && SameShape(result, masks[0])
  {
    if masks == [] {
      return Zeros(1, 1);
    }
    result := masks[0];
    for i := 1 to |masks|
      invariant WellFormed(result) && SameShape(result, masks[0])
      invariant Fold(result, masks[i..], operation) == Fold(masks[0], masks[1..], operation)
    {
      assert masks[i..][1..] == masks[i + 1..];
      if SameShape(masks[i], result) {
        result := Zip(result, masks[i], operation);
      }
    }
  }

  /** An operation none of the three branches names: the loop body does nothing. */
  predicate UnknownOp(operation: string) {
    operation != "union" && operation != "intersection" && operation != "xor"
  }

  /** With an unknown operation a step leaves the running result as it was. */
  lemma StepUnknown(result: Mask, mask: Mask, operation: string)
    requires WellFormed(result) && WellFormed(mask) && UnknownOp(operation)
    ensures CombineStep(result, mask, operation) == result
  {
    if SameShape(mask, result) {
      var z := Zip(result, mask, operation);
      forall y | 0 <= y < z.h ensures z.rows[y] == result.rows[y] {
        assert |z.rows[y]| == |result.rows[y]|;
      }
      assert z.rows == result.rows;
    }
  }

  /** With an unknown operation the fold returns the mask it starts from. */
  lemma {:induction false} FoldUnknown(result: Mask, rest: seq<Mask>, operation: string)
    requires WellFormed(result) && AllWellFormed(rest) && UnknownOp(operation)
    ensures Fold(result, rest, operation) == result
    decreases |rest|
  {
    if rest != [] {
      StepUnknown(result, rest[0], operation);
      FoldUnknown(result, rest[1..], operation);
    }
  }

  /** `combine_masks` with an operation it does not know returns (a copy of) the first mask. */
  lemma CombineUnknown(masks: seq<Mask>, operation: string)
    requires AllWellFormed(masks) && UnknownOp(operation)
    ensures masks != [] ==> CombineSpec(masks, operation) == masks[0]
  {
    if masks != [] {
      FoldUnknown(masks[0], masks[1..], operation);
    }
  }

  /**
   * Union: a pixel of the result is on iff it is on in the running mask or
   * in some later mask of that mask's shape.
   */
  lemma {:induction false} FoldUnionOn(result: Mask, rest: seq<Mask>, x: int, y: int)
    requires WellFormed(result) && AllWellFormed(rest) && InBounds(result, x, y)
    ensures On(Fold(result, rest, "union"), x, y) <==>
      On(result, x, y) || exists j :: 0 <= j < |rest| && SameShape(rest[j], result) && On(rest[j], x, y)
    decreases |rest|
  {
    if rest != [] {
      var next := CombineStep(result, rest[0], "union");
      FoldUnionOn(next, rest[1..], x, y);
      assert forall j :: 1 <= j < |rest| ==> rest[j] == rest[1..][j - 1];
      if On(Fold(result, rest, "union"), x, y) && !On(result, x, y) {
        if On(next, x, y) {
          assert SameShape(rest[0], result) && On(rest[0], x, y);
        } else {
          var j :| 0 <= j < |rest[1..]| && SameShape(rest[1..][j], next) && On(rest[1..][j], x, y);
          assert rest[1..][j] == rest[j + 1];
        }
      }
    }
  }

  /** The union of a list of masks is on exactly where the first mask or a same-shaped later mask is on. */
  lemma UnionOn(masks: seq<Mask>, x: int, y: int)
    requires AllWellFormed(masks) && masks != [] && InBounds(masks[0], x, y)
    ensures On(CombineSpec(masks, "union"), x, y) <==>
      exists j :: 0 <= j < |masks| && SameShape(masks[j], masks[0]) && On(masks[j], x, y)
  {
    FoldUnionOn(masks[0], masks[1..], x, y);
    assert forall j :: 1 <= j < |masks| ==> masks[j] == masks[1..][j - 1];
    if exists j :: 0 <= j < |masks| && SameShape(masks[j], masks[0]) && On(masks[j], x, y) {
      var j :| 0 <= j < |masks| && SameShape(masks[j], masks[0]) && On(masks[j], x, y);
      if j > 0 {
        assert masks[1..][j - 1] == masks[j];
      }
    }
  }

  /**
   * Intersection: a pixel of the result is on iff it is on in the running
   * mask and in every later mask of that mask's shape.
   */
  lemma {:induction false} FoldIntersectionOn(result: Mask, rest: seq<Mask>, x: int, y: int)
    requires WellFormed(result) && AllWellFormed(rest) && InBounds(result, x, y)
    ensures On(Fold(result, rest, "intersection"), x, y) <==>
      On(result, x, y) && forall j :: 0 <= j < |rest| && SameShape(rest[j], result) ==> On(rest[j], x, y)
    decreases |rest|
  {
    if rest != [] {
      var next := CombineStep(result, rest[0], "intersection");
      FoldIntersectionOn(next, rest[1..], x, y);
      assert forall j :: 1 <= j < |rest| ==> rest[j] == rest[1..][j - 1];
    }
  }

  /** Two masks overlap iff they have one shape and their intersection has a pixel that is on. */
  lemma OverlapIsIntersection(a: Mask, b: Mask)
    requires WellFormed(a) && WellFormed(b)
    ensures MasksOverlap(a, b) <==> SameShape(a, b) && HasOn(CombineSpec([a, b], "intersection"))
  {
    var c := CombineSpec([a, b], "intersection");
    assert [a, b][1..] == [b] && [b][1..] == [];
    assert c == Fold(a, [b], "intersection") == Fold(CombineStep(a, b, "intersection"), [], "intersection");
    if SameShape(a, b) && HasOn(c) {
      var x, y :| 0 <= x < c.w && 0 <= y < c.h && c.rows[y][x] > 0;
      assert a.rows[y][x] > 0 && b.rows[y][x] > 0;
    }
    if MasksOverlap(a, b) {
      var x, y :| 0 <= x < a.w && 0 <= y < a.h && a.rows[y][x] > 0 && b.rows[y][x] > 0;
      assert c.rows[y][x] > 0;
    }
  }

  lemma {:induction false} RowCountDisjointUnion(r1: seq<Byte>, r2: seq<Byte>)
    requires |r1| == |r2|
    requires forall x :: 0 <= x < |r1| ==> r1[x] == 0 || r2[x] == 0
    ensures RowCount(ZipRow(r1, r2, "union")) == RowCount(r1) + RowCount(r2)
  {
    if r1 != [] {
      var n := |r1| - 1;
      assert ZipRow(r1, r2, "union")[..n] == ZipRow(r1[..n], r2[..n], "union");
      RowCountDisjointUnion(r1[..n], r2[..n]);
    }
  }

  lemma {:induction false} RowsCountDisjointUnion(a: Mask, b: Mask)
    requires WellFormed(a) && WellFormed(b) && SameShape(a, b)
    requires !MasksOverlap(a, b)
    ensures OnCount(Zip(a, b, "union")) == OnCount(a) + OnCount(b)
    decreases a.h
  {
    if a.h > 0 {
      var n := a.h - 1;
      var a', b' := Grid(n, a.w, a.rows[..n]), Grid(n, b.w, b.rows[..n]);
      assert Zip(a, b, "union").rows[..n] == Zip(a', b', "union").rows;
      RowsCountDisjointUnion(a', b');
      RowCountDisjointUnion(a.rows[n], b.rows[n]);
    }
  }

  /** The union of two disjoint masks has as many pixels on as the two together. */
  lemma DisjointUnionCount(a: Mask, b: Mask)
    requires WellFormed(a) && WellFormed(b) && SameShape(a, b)
    requires !MasksOverlap(a, b)
    ensures OnCount(CombineSpec([a, b], "union")) == OnCount(a) + OnCount(b)
  {
    assert [a, b][1..] == [b] && [b][1..] == [];
    assert CombineSpec([a, b], "union") == Fold(a, [b], "union") == Zip(a, b, "union");
    RowsCountDisjointUnion(a, b);
  }

  // ---------------------------------------------------------------------
  // Guards of the desktop engine's mask creators
  // ---------------------------------------------------------------------

  /** Python's `thickness or default`: None and 0 both fall back to the default. */
  function OrDefault(thickness: Option<int>, default: int): (t: int)
    ensures t == default <== thickness.None? || thickness == Some(0)
    ensures thickness.Some? && thickness.value != 0 ==> t == thickness.value
  {
    if thickness.None? || thickness.value == 0 then default else thickness.value
  }

  /** `flood_fill`: a seed outside the image yields an all-zero mask of the image's size. */
  function FloodFillGuarded<T>(image: Grid<T>, seed: Point, fill: (Grid<T>, Point) -> Mask): (m: Mask)
    ensures !InBounds(image, seed.0, seed.1) ==> m == Zeros(image.h, image.w)
    ensures InBounds(image, seed.0, seed.1) ==> m == fill(image, seed)
  {
    if !InBounds(image, seed.0, seed.1) then Zeros(image.h, image.w) else fill(image, seed)
  }

  /** `create_polygon_mask`: fewer than 3 vertices give an all-zero mask. */
  function CreatePolygonMask(h: nat, w: nat, points: seq<Point>, closed: bool, lineThickness: int,
                             fillPoly: (Mask, seq<Point>) -> Mask,
                             polylines: (Mask, seq<Point>, int) -> Mask): (m: Mask)
    ensures |points| < 3 ==> m == Zeros(h, w)
    ensures |points| >= 3 && closed ==> m == fillPoly(Zeros(h, w), points)
    ensures |points| >= 3 && !closed ==> m == polylines(Zeros(h, w), points, lineThickness * 3)
  {
    if |points| < 3 then Zeros(h, w)
    else if closed then fillPoly(Zeros(h, w), points)
    else polylines(Zeros(h, w), points, lineThickness * 3)
  }

  /** `create_line_mask`: fewer than 2 points give an all-zero mask; the thickness defaults to the engine's. */
  function CreateLineMask(h: nat, w: nat, points: seq<Point>, thickness: Option<int>, lineThickness: int,
                          polylines: (Mask, seq<Point>, int) -> Mask): (m: Mask)
    ensures |points| < 2 ==> m == Zeros(h, w)
    ensures |points| >= 2 ==> m == polylines(Zeros(h, w), points, OrDefault(thickness, lineThickness))
  {
    if |points| < 2 then Zeros(h, w) else polylines(Zeros(h, w), points, OrDefault(thickness, lineThickness))
  }

  /** `create_freeform_mask`: a line mask whose default thickness is three times the engine's. */
  function CreateFreeformMask(h: nat, w: nat, points: seq<Point>, thickness: Option<int>, lineThickness: int,
                              polylines: (Mask, seq<Point>, int) -> Mask): (m: Mask)
    ensures |points| < 2 ==> m == Zeros(h, w)
    ensures |points| >= 2 && (thickness.None? || thickness == Some(0)) ==>
      m == polylines(Zeros(h, w), points, 3 * lineThickness)
    ensures |points| >= 2 && thickness.Some? && thickness.value != 0 ==>
      m == polylines(Zeros(h, w), points, thickness.value)
  {
    CreateLineMask(h, w, points, Some(OrDefault(thickness, lineThickness * 3)), lineThickness, polylines)
  }
}

=== FILE: textract.dfy ===
/**
 * Text regions from a document-analysis response: WORD and LINE blocks
 * become pixel regions with a rectangular mask, and word regions are
 * grouped into lines by vertical alignment.
 */
module Textract {
  import opened Wrappers
  import opened Masks
  import opened Arith
  import Segmentation

  /** A block's bounding box in coordinates normalised to [0, 1]; a missing key reads as 0. */
  datatype NormBox = NormBox(left: real, top: real, width: real, height: real)

  /**
   * One response block. Missing keys read as their defaults: "" for the
   * type, text and id, 0 for the confidence; `bbox` is None when the
   * geometry or its bounding box is missing or empty.
   */
  datatype Block = Block(blockType: string, bbox: Option<NormBox>, text: string, confidence: real, id: string)

  /** The response: its `blocks` list, and the `Blocks` list used when the first is missing or empty. */
  datatype Response = Response(blocks: seq<Block>, blocksUpper: seq<Block>)

  /** A pixel box (x1, y1, x2, y2). */
  type Box = (int, int, int, int)

  datatype Region = Region(bbox: Box, text: string, confidence: int, blockId: string, blockType: string, mask: Mask)

  datatype LineGroup = LineGroup(bbox: Box, text: string, confidence: int, blockType: string, mask: Mask, wordRegions: seq<Region>)

  // ---------------------------------------------------------------------------
  // Text
  // ---------------------------------------------------------------------------

  /** Python's `str.isspace` for one character. */
  predicate IsSpace(c: char) {
    var n := c as int;
    (9 <= n <= 13) || (28 <= n <= 32) || n == 0x85 || n == 0xA0 || n == 0x1680 ||
    (0x2000 <= n <= 0x200A) || n == 0x2028 || n == 0x2029 || n == 0x202F || n == 0x205F || n == 0x3000
  }

  /** How many whitespace characters s starts with. */
  function LeadingSpaces(s: string): (n: nat)
    ensures n <= |s| && (n == |s| || !IsSpace(s[n]))
    ensures forall i :: 0 <= i < n ==> IsSpace(s[i])
  {
    if s != [] && IsSpace(s[0]) then 1 + LeadingSpaces(s[1..]) else 0
  }

  /** How many whitespace characters s ends with. */
  function TrailingSpaces(s: string): (n: nat)
    ensures n <= |s| && (n == |s| || !IsSpace(s[|s| - 1 - n]))
    ensures forall i :: |s| - n <= i < |s| ==> IsSpace(s[i])
  {
    if s != [] && IsSpace(s[|s| - 1]) then 1 + TrailingSpaces(s[..|s| - 1]) else 0
  }

  /** `str.strip()`: the slice of s without its leading and trailing whitespace. */
  function Strip(s: string): (r: string)
    ensures exists i, j :: (0 <= i <= j <= |s| && r == s[i..j] &&
                           (forall k :: 0 <= k < i ==> IsSpace(s[k])) && (forall k :: j <= k < |s| ==> IsSpace(s[k])))
    ensures r != [] ==> !IsSpace(r[0]) && !IsSpace(r[|r| - 1])
  {
    var i := LeadingSpaces(s);
    var t := s[i..];
    var k := TrailingSpaces(t);
    assert t[..|t| - k] == s[i..|s| - k];
    s[i..|s| - k]
  }

  /** Stripping twice is stripping once. */
  lemma StripIdempotent(s: string)
    ensures Strip(Strip(s)) == Strip(s)
  {
    var r := Strip(s);
    if r != [] {
      assert LeadingSpaces(r) == 0;
      assert TrailingSpaces(r) == 0;
      assert r[0..|r|] == r;
    }
  }

  /** `' '.join(words)`. */
  function JoinSpace(words: seq<string>): (r: string)
    ensures |words| == 1 ==> r == words[0]
    ensures |words| == 0 ==> r == ""
  {
    if |words| == 0 then ""
    else if |words| == 1 then words[0]
    else JoinSpace(words[..|words| - 1]) + " " + words[|words| - 1]
  }

  function TotalLength(words: seq<string>): nat {
    if words == [] then 0 else TotalLength(words[..|words| - 1]) + |words[|words| - 1]|
  }

  /** The joined text holds every word and one separator between each two. */
  lemma {:induction false} JoinSpaceLength(words: seq<string>)
    requires |words| > 0
    ensures |JoinSpace(words)| == TotalLength(words) + |words| - 1
  {
    if |words| > 1 {
      JoinSpaceLength(words[..|words| - 1]);
      assert words[..|words| - 1][..|words| - 2] == words[..|words| - 2];
    }
  }

  // ---------------------------------------------------------------------------
  // Parsing blocks
  // ---------------------------------------------------------------------------

  /** `max(0, min(v, hi))`. */
  function Clamp(v: int, hi: nat): (r: int)
    ensures 0 <= r <= hi
    ensures 0 <= v <= hi ==> r == v
  {
    if v < 0 then 0 else if v > hi then hi else v
  }

  /** The pixel box of a normalised box: each coordinate truncated, then clamped to the image. */
  function PixelBox(b: NormBox, h: nat, w: nat): (r: Box)
    ensures 0 <= r.0 <= w && 0 <= r.2 <= w && 0 <= r.1 <= h && 0 <= r.3 <= h
  {
    (Clamp(TruncReal(b.left * w as real), w),
     Clamp(TruncReal(b.top * h as real), h),
     Clamp(TruncReal((b.left + b.width) * w as real), w),
     Clamp(TruncReal((b.top + b.height) * h as real), h))
  }

  /** A box of non-negative width and height never has its far edge before its near edge. */
  lemma PixelBoxOrdered(b: NormBox, h: nat, w: nat)
    ensures b.width >= 0.0 ==> PixelBox(b, h, w).0 <= PixelBox(b, h, w).2
    ensures b.height >= 0.0 ==> PixelBox(b, h, w).1 <= PixelBox(b, h, w).3
  {
    if b.width >= 0.0 {
      assert (b.left + b.width) * w as real == b.left * w as real + b.width * w as real;
      TruncRealMono(b.left * w as real, (b.left + b.width) * w as real);
    }
    if b.height >= 0.0 {
      assert (b.top + b.height) * h as real == b.top * h as real + b.height * h as real;
      TruncRealMono(b.top * h as real, (b.top + b.height) * h as real);
    }
  }

  /** What every parsed region satisfies. */
  predicate RegionOk(r: Region, h: nat, w: nat) {
    0 <= r.bbox.0 < r.bbox.2 <= w && 0 <= r.bbox.1 < r.bbox.3 <= h &&
    (r.blockType == "WORD" || r.blockType == "LINE") &&
    r.text != [] && !IsSpace(r.text[0]) && !IsSpace(r.text[|r.text| - 1]) &&
    WellFormed(r.mask) && r.mask.h == h && r.mask.w == w &&
    forall x, y :: 0 <= x < w && 0 <= y < h ==>
      (r.mask.rows[y][x] == 255 <==> r.bbox.0 <= x < r.bbox.2 && r.bbox.1 <= y < r.bbox.3) &&
      (r.mask.rows[y][x] == 0 <==> !(r.bbox.0 <= x < r.bbox.2 && r.bbox.1 <= y < r.bbox.3))
  }

  /**
   * One block: None when it is not a WORD or LINE, has no bounding box, its
   * clamped box is empty, or its stripped text is empty.
   */
  function ParseBlock(b: Block, h: nat, w: nat): (r: Option<Region>)
    ensures r.Some? <==> ((b.blockType == "WORD" || b.blockType == "LINE") && b.bbox.Some? &&
                          (var p := PixelBox(b.bbox.value, h, w); p.0 < p.2 && p.1 < p.3) && Strip(b.text) != [])
    ensures r.Some? ==> (RegionOk(r.value, h, w) && r.value.text == Strip(b.text) &&
                         r.value.bbox == PixelBox(b.bbox.value, h, w) && r.value.blockId == b.id &&
                         r.value.confidence == TruncReal(b.confidence))
  {
    if b.blockType != "WORD" && b.blockType != "LINE" then None
    else if b.bbox.None? then None
    else
      var p := PixelBox(b.bbox.value, h, w);
      if p.2 <= p.0 || p.3 <= p.1 then None
      else
        var text := Strip(b.text);
        if text == [] then None
        else Some(Region(p, text, TruncReal(b.confidence), b.id, b.blockType, RectMask(h, w, p.0, p.1, p.2, p.3)))
  }

  /** The regions of the accepted blocks, in block order. */
  function ParseAll(blocks: seq<Block>, h: nat, w: nat): (rs: seq<Region>)
    ensures |rs| <= |blocks|
    ensures forall i :: 0 <= i < |rs| ==> RegionOk(rs[i], h, w)
  {
    if blocks == [] then []
    else
      var rest := ParseAll(blocks[..|blocks| - 1], h, w);
      match ParseBlock(blocks[|blocks| - 1], h, w)
      case Some(r) => rest + [r]
      case None => rest
  }

  /** The block list read: `blocks`, or `Blocks` when that is missing or empty. */
  function BlockList(response: Response): seq<Block> {
    if |response.blocks| > 0 then response.blocks else response.blocksUpper
  }

  /** `parse_textract_blocks`. */
  method ParseTextractBlocks(response: Response, h: nat, w: nat) returns (regions: seq<Region>)
    ensures regions == ParseAll(BlockList(response), h, w)
    ensures forall i :: 0 <= i < |regions| ==> RegionOk(regions[i], h, w)
  {
    var blocks := BlockList(response);
    regions := [];
    for i := 0 to |blocks|
      invariant regions == ParseAll(blocks[..i], h, w)
    {
      assert blocks[..i + 1][..i] == blocks[..i];
      var r := ParseBlock(blocks[i], h, w);
      if r.Some? {
        regions := regions + [r.value];
      }
    }
    assert blocks[..|blocks|] == blocks;
  }

  // ---------------------------------------------------------------------------
  // Sorting
  // ---------------------------------------------------------------------------

  /** Lexicographic order on pairs. */
  predicate PairLe(a: (int, int), b: (int, int)) {
    a.0 < b.0 || (a.0 == b.0 && a.1 <= b.1)
  }

  predicate SortedByKey<T>(s: seq<T>, key: T -> (int, int)) {
    forall i, j :: 0 <= i < j < |s| ==> PairLe(key(s[i]), key(s[j]))
  }

  /** Puts x after every entry whose key is not above its own, so equal keys keep their order. */
  function InsertByKey<T>(x: T, s: seq<T>, key: T -> (int, int)): (r: seq<T>)
    requires SortedByKey(s, key)
    ensures |r| == |s| + 1 && SortedByKey(r, key)
    ensures multiset(r) == multiset(s) + multiset{x}
    ensures r[0] == x || (|s| > 0 && r[0] == s[0])
  {
    if |s| == 0 then [x]
    else if !PairLe(key(s[0]), key(x)) then [x] + s
    else
      var rest := InsertByKey(x, s[1..], key);
      assert s == [s[0]] + s[1..];
      [s[0]] + rest
  }

  /** Python's `sorted(s, key=key)` for a key that is a pair of integers. */
  function SortByKey<T>(xs: seq<T>, key: T -> (int, int)): (r: seq<T>)
    ensures SortedByKey(r, key)
    ensures multiset(r) == multiset(xs)
    ensures |r| == |xs|
  {
    if |xs| == 0 then []
    else
      var r := InsertByKey(xs[|xs| - 1], SortByKey(xs[..|xs| - 1], key), key);
      assert xs == xs[..|xs| - 1] + [xs[|xs| - 1]];
      r
  }

  /** The entries of `s` whose key is `v`, in their order in `s`. */
  function WithPairKey<T>(s: seq<T>, key: T -> (int, int), v: (int, int)): (r: seq<T>)
    ensures |r| <= |s|
  {
    if |s| == 0 then [] else (if key(s[0]) == v then [s[0]] else []) + WithPairKey(s[1..], key, v)
  }

  lemma {:induction false} WithPairKeySnoc<T>(s: seq<T>, x: T, key: T -> (int, int), v: (int, int))
    ensures WithPairKey(s + [x], key, v) == WithPairKey(s, key, v) + (if key(x) == v then [x] else [])
  {
    if |s| == 0 {
      assert [x][1..] == [];
    } else {
      var head := if key(s[0]) == v then [s[0]] else [];
      var last := if key(x) == v then [x] else [];
      assert (s + [x])[0] == s[0] && (s + [x])[1..] == s[1..] + [x];
      WithPairKeySnoc(s[1..], x, key, v);
      calc {
        WithPairKey(s + [x], key, v);
        head + WithPairKey(s[1..] + [x], key, v);
        head + (WithPairKey(s[1..], key, v) + last);
        (head + WithPairKey(s[1..], key, v)) + last;
      }
    }
  }

  /** A sorted sequence whose first key is above `v` has no entry with key `v`. */
  lemma {:induction false} WithPairKeyAbove<T>(s: seq<T>, key: T -> (int, int), v: (int, int))
    requires SortedByKey(s, key) && |s| > 0 && !PairLe(key(s[0]), v)
    ensures WithPairKey(s, key, v) == []
  {
    if |s| > 1 {
      assert PairLe(key(s[0]), key(s[1]));
      WithPairKeyAbove(s[1..], key, v);
    }
  }

  /** The entries with key `v` of a sequence with a first entry `a`. */
  lemma WithPairKeyCons<T>(a: T, rest: seq<T>, key: T -> (int, int), v: (int, int))
    ensures WithPairKey([a] + rest, key, v) == (if key(a) == v then [a] else []) + WithPairKey(rest, key, v)
  {
    assert ([a] + rest)[0] == a && ([a] + rest)[1..] == rest;
  }

  /** Putting the same entry in front of both sides keeps an appended tail apart. */
  lemma WithPairKeyShift<T>(a: T, rest: seq<T>, tail: seq<T>, key: T -> (int, int), v: (int, int), last: seq<T>)
    requires WithPairKey(rest, key, v) == WithPairKey(tail, key, v) + last
    ensures WithPairKey([a] + rest, key, v) == ((if key(a) == v then [a] else []) + WithPairKey(tail, key, v)) + last
  {
    WithPairKeyCons(a, rest, key, v);
  }

  /** x put in front of a sorted sequence whose keys are all above its own. */
  lemma WithPairKeyFront<T>(x: T, s: seq<T>, key: T -> (int, int), v: (int, int))
    requires SortedByKey(s, key) && |s| > 0 && !PairLe(key(s[0]), key(x))
    ensures WithPairKey([x] + s, key, v) == WithPairKey(s, key, v) + (if key(x) == v then [x] else [])
  {
    WithPairKeyCons(x, s, key, v);
    if key(x) == v {
      WithPairKeyAbove(s, key, v);
    }
  }

  /** Inserting x adds it after every entry with the same key. */
  lemma {:induction false} InsertByKeyKeepsOrder<T>(x: T, s: seq<T>, key: T -> (int, int), v: (int, int))
    requires SortedByKey(s, key)
    ensures WithPairKey(InsertByKey(x, s, key), key, v) == WithPairKey(s, key, v) + (if key(x) == v then [x] else [])
  {
    var last := if key(x) == v then [x] else [];
    if |s| == 0 {
      WithPairKeyCons(x, [], key, v);
    } else if !PairLe(key(s[0]), key(x)) {
      WithPairKeyFront(x, s, key, v);
    } else {
      InsertByKeyKeepsOrder(x, s[1..], key, v);
      WithPairKeyShift(s[0], InsertByKey(x, s[1..], key), s[1..], key, v, last);
    }
  }

  /** The entries with key `v`, read up to the last entry and then that entry. */
  lemma WithPairKeyLast<T>(xs: seq<T>, key: T -> (int, int), v: (int, int))
    requires |xs| > 0
    ensures WithPairKey(xs, key, v) ==
      WithPairKey(xs[..|xs| - 1], key, v) + (if key(xs[|xs| - 1]) == v then [xs[|xs| - 1]] else [])
  {
    WithPairKeySnoc(xs[..|xs| - 1], xs[|xs| - 1], key, v);
    assert xs == xs[..|xs| - 1] + [xs[|xs| - 1]];
  }

  /** Stability: the entries with any one key come out in their input order. */
  lemma {:induction false} SortByKeyStable<T>(xs: seq<T>, key: T -> (int, int), v: (int, int))
    ensures WithPairKey(SortByKey(xs, key), key, v) == WithPairKey(xs, key, v)
  {
    if |xs| > 0 {
      var n := |xs| - 1;
      SortByKeyStable(xs[..n], key, v);
      InsertByKeyKeepsOrder(xs[n], SortByKey(xs[..n], key), key, v);
      WithPairKeyLast(xs, key, v);
    }
  }


  /** The reading-order key: top edge, then left edge. */
  function TopLeft(r: Region): (int, int) {
    (r.bbox.1, r.bbox.0)
  }

  /** The left edge, as a key. */
  function LeftEdge(r: Region): (int, int) {
    (r.bbox.0, 0)
  }

  // ---------------------------------------------------------------------------
  // Line groups
  // ---------------------------------------------------------------------------

  function Confidences(regions: seq<Region>): (c: seq<int>)
    ensures |c| == |regions| && forall i :: 0 <= i < |c| ==> c[i] == regions[i].confidence
  {
    seq(|regions|, i requires 0 <= i < |regions| => regions[i].confidence)
  }

  function Texts(regions: seq<Region>): (t: seq<string>)
    ensures |t| == |regions| && forall i :: 0 <= i < |t| ==> t[i] == regions[i].text
  {
    seq(|regions|, i requires 0 <= i < |regions| => regions[i].text)
  }

  function MaskList(regions: seq<Region>): (m: seq<Mask>)
    ensures |m| == |regions| && forall i :: 0 <= i < |m| ==> m[i] == regions[i].mask
  {
    seq(|regions|, i requires 0 <= i < |regions| => regions[i].mask)
  }

  /** The smallest box holding both a and b. */
  function Hull(a: Box, b: Box): Box {
    (if a.0 <= b.0 then a.0 else b.0, if a.1 <= b.1 then a.1 else b.1,
     if a.2 >= b.2 then a.2 else b.2, if a.3 >= b.3 then a.3 else b.3)
  }

  /** The union of the members' bounding boxes: each edge the outermost of the members' edges. */
  function UnionBox(regions: seq<Region>): (b: Box)
    requires |regions| > 0
    ensures forall i :: 0 <= i < |regions| ==>
      b.0 <= regions[i].bbox.0 && b.1 <= regions[i].bbox.1 && regions[i].bbox.2 <= b.2 && regions[i].bbox.3 <= b.3
    ensures exists i :: 0 <= i < |regions| && b.0 == regions[i].bbox.0
    ensures exists i :: 0 <= i < |regions| && b.1 == regions[i].bbox.1
    ensures exists i :: 0 <= i < |regions| && b.2 == regions[i].bbox.2
    ensures exists i :: 0 <= i < |regions| && b.3 == regions[i].bbox.3
  {
    if |regions| == 1 then regions[0].bbox
    else
      var init := regions[..|regions| - 1];
      var u := UnionBox(init);
      assert forall i :: 0 <= i < |init| ==> init[i] == regions[i];
      Hull(u, regions[|regions| - 1].bbox)
  }

  predicate MasksWellFormed(regions: seq<Region>) {
    forall i :: 0 <= i < |regions| ==> WellFormed(regions[i].mask)
  }

  /** The pixel-wise maximum of the word masks shaped like the first, from a zero mask of that shape. */
  function LineMask(regions: seq<Region>): (m: Mask)
    requires MasksWellFormed(regions) && regions != []
    ensures WellFormed(m) && SameShape(m, regions[0].mask)
  {
    var first := regions[0].mask;
    Segmentation.Fold(Zeros(first.h, first.w), MaskList(regions), "union")
  }

  /**
   * `_create_line_group`: None (the empty dict) for no regions; otherwise
   * the union box, the texts in left-to-right order joined by spaces, the
   * mean confidence rounded toward zero, and the pixel-wise maximum of the
   * masks shaped like the first one.
   */
  function CreateLineGroup(regions: seq<Region>): (g: Option<LineGroup>)
    requires MasksWellFormed(regions)
    ensures g.None? <==> regions == []
    ensures g.Some? ==> g.value.wordRegions == regions && g.value.blockType == "LINE"
    ensures g.Some? ==> g.value.bbox == UnionBox(regions)
    ensures g.Some? ==> g.value.text == JoinSpace(Texts(SortByKey(regions, LeftEdge)))
    ensures g.Some? ==> WellFormed(g.value.mask) && SameShape(g.value.mask, regions[0].mask)
    ensures g.Some? ==> TruncQuotient(Sum(Confidences(regions)), |regions|, g.value.confidence)
  {
    if regions == [] then None
    else
      var first := regions[0].mask;
      var confidence := TruncDiv(Sum(Confidences(regions)), |regions|);
      Some(LineGroup(
        UnionBox(regions),
        JoinSpace(Texts(SortByKey(regions, LeftEdge))),
        confidence,
        "LINE",
        LineMask(regions),
        regions))
  }

  /** The confidence of a line lies within the range of its words' confidences. */
  lemma LineConfidenceRange(regions: seq<Region>, lo: int, hi: int)
    requires MasksWellFormed(regions) && regions != [] && 0 <= lo
    requires forall i :: 0 <= i < |regions| ==> lo <= regions[i].confidence <= hi
    ensures lo <= CreateLineGroup(regions).value.confidence <= hi
  {
    MeanBounds(Confidences(regions), lo, hi);
  }

  /** A pixel of a line's mask is on exactly when some word mask shaped like the first one has it on. */
  lemma LineMaskOn(regions: seq<Region>, x: int, y: int)
    requires MasksWellFormed(regions) && regions != [] && InBounds(regions[0].mask, x, y)
    ensures On(CreateLineGroup(regions).value.mask, x, y) <==>
      exists j :: 0 <= j < |regions| && SameShape(regions[j].mask, regions[0].mask) && On(regions[j].mask, x, y)
  {
    assert CreateLineGroup(regions).value.mask == LineMask(regions);
    LineMaskUnion(regions, x, y);
  }

  lemma LineMaskUnion(regions: seq<Region>, x: int, y: int)
    requires MasksWellFormed(regions) && regions != [] && InBounds(regions[0].mask, x, y)
    ensures On(LineMask(regions), x, y) <==>
      exists j :: 0 <= j < |regions| && SameShape(regions[j].mask, regions[0].mask) && On(regions[j].mask, x, y)
  {
    var first := regions[0].mask;
    var z := Zeros(first.h, first.w);
    var ms := MaskList(regions);
    Segmentation.FoldUnionOn(z, ms, x, y);
    assert !On(z, x, y);
  }

  /** The pixel gap below which two words share a line: max_vertical_gap of the lowest bottom edge. */
  function GapPixels(regions: seq<Region>, maxVerticalGap: real): int
    requires |regions| > 0
  {
    TruncReal(maxVerticalGap * UnionBox(regions).3 as real)
  }

  /** A region continues the line whose last region is `last`: their rows overlap, or their tops are within the gap. */
  predicate SameLine(last: Region, r: Region, gap: int) {
    var overlap := (if last.bbox.3 < r.bbox.3 then last.bbox.3 else r.bbox.3) -
                   (if last.bbox.1 > r.bbox.1 then last.bbox.1 else r.bbox.1);
    var dy := if r.bbox.1 >= last.bbox.1 then r.bbox.1 - last.bbox.1 else last.bbox.1 - r.bbox.1;
    overlap > 0 || dy <= gap
  }

  /** Each two neighbours of a run are on the same line. */
  predicate OneLine(run: seq<Region>, gap: int) {
    forall k :: 1 <= k < |run| ==> SameLine(run[k - 1], run[k], gap)
  }

  function WordRuns(groups: seq<LineGroup>): (runs: seq<seq<Region>>)
    ensures |runs| == |groups| && forall i :: 0 <= i < |runs| ==> runs[i] == groups[i].wordRegions
  {
    seq(|groups|, i requires 0 <= i < |groups| => groups[i].wordRegions)
  }

  function LastRegion(run: seq<Region>): Region
    requires |run| > 0
  {
    run[|run| - 1]
  }

  predicate RunsBuildable(runs: seq<seq<Region>>) {
    forall i :: 0 <= i < |runs| ==> |runs[i]| > 0 && MasksWellFormed(runs[i])
  }

  /** f applied to each element, in order. */
  function MapSeq<A, B>(xs: seq<A>, f: A --> B): (ys: seq<B>)
    requires forall i :: 0 <= i < |xs| ==> f.requires(xs[i])
    ensures |ys| == |xs| && forall i :: 0 <= i < |xs| ==> ys[i] == f(xs[i])
  {
    seq(|xs|, i requires 0 <= i < |xs| => f(xs[i]))
  }

  lemma MapSeqAppend<A, B>(xs: seq<A>, x: A, f: A --> B)
    requires forall i :: 0 <= i < |xs| ==> f.requires(xs[i])
    requires f.requires(x)
    ensures MapSeq(xs + [x], f) == MapSeq(xs, f) + [f(x)]
  {
    var a, b := MapSeq(xs + [x], f), MapSeq(xs, f) + [f(x)];
    forall i | 0 <= i < |a| ensures a[i] == b[i] {
      if i < |xs| { assert (xs + [x])[i] == xs[i]; }
    }
  }

  /** The group of one nonempty run. */
  function BuildGroup(run: seq<Region>): (g: LineGroup)
    requires |run| > 0 && MasksWellFormed(run)
    ensures Some(g) == CreateLineGroup(run)
  {
    CreateLineGroup(run).value
  }

  /** One group per run, in order. */
  function GroupsOf(runs: seq<seq<Region>>): (gs: seq<LineGroup>)
    requires RunsBuildable(runs)
    ensures |gs| == |runs|
  {
    MapSeq(runs, BuildGroup)
  }

  /** The runs are lines: nonempty, each a line, each split from the next. */
  ghost predicate RunsOk(runs: seq<seq<Region>>, gap: int) {
    RunsBuildable(runs) &&
    (forall i :: 0 <= i < |runs| ==> OneLine(runs[i], gap)) &&
    (forall i, j :: 0 <= i < j < |runs| && j == i + 1 ==> !SameLine(LastRegion(runs[i]), runs[j][0], gap))
  }

  lemma FlattenAppend<T>(rows: seq<seq<T>>, row: seq<T>)
    ensures Flatten(rows + [row]) == Flatten(rows) + row
  {
    if rows != [] {
      assert (rows + [row])[1..] == rows[1..] + [row];
      FlattenAppend(rows[1..], row);
    }
  }

  /** Closing a line that does not continue the last run keeps the runs lines. */
  lemma CloseRun(runs: seq<seq<Region>>, line: seq<Region>, gap: int)
    requires RunsOk(runs, gap) && |line| > 0 && OneLine(line, gap) && MasksWellFormed(line)
    requires |runs| > 0 ==> !SameLine(LastRegion(runs[|runs| - 1]), line[0], gap)
    ensures RunsOk(runs + [line], gap)
  {
    var runs' := runs + [line];
    assert RunsBuildable(runs') by {
      forall i | 0 <= i < |runs'| ensures |runs'[i]| > 0 && MasksWellFormed(runs'[i]) {
        if i < |runs| { assert runs'[i] == runs[i]; }
      }
    }
    forall i | 0 <= i < |runs'| ensures OneLine(runs'[i], gap) {
      if i < |runs| { assert runs'[i] == runs[i]; }
    }
    forall i, j | 0 <= i < j < |runs'| && j == i + 1 ensures !SameLine(LastRegion(runs'[i]), runs'[j][0], gap) {
      assert runs'[i] == runs[i];
      if j < |runs| {
        assert runs'[j] == runs[j];
      }
    }
  }

  /** A region on the same line as the run's last region extends the run. */
  lemma ExtendRun(line: seq<Region>, r: Region, gap: int)
    requires |line| > 0 && OneLine(line, gap) && MasksWellFormed(line) && WellFormed(r.mask)
    requires SameLine(LastRegion(line), r, gap)
    ensures OneLine(line + [r], gap) && MasksWellFormed(line + [r])
  {
    var line' := line + [r];
    forall k | 1 <= k < |line'| ensures SameLine(line'[k - 1], line'[k], gap) {
      if k < |line| { assert line'[k - 1] == line[k - 1] && line'[k] == line[k]; }
    }
  }

  /** The groups built from runs hold exactly those runs. */
  lemma GroupsOfRuns(runs: seq<seq<Region>>)
    requires RunsBuildable(runs)
    ensures WordRuns(GroupsOf(runs)) == runs
  {
    forall i | 0 <= i < |runs| ensures GroupsOf(runs)[i].wordRegions == runs[i] {
    }
  }

  /**
   * `group_textract_regions_by_line`: the regions in reading order, cut
   * into consecutive runs wherever a region is not on the same line as the
   * one before it; one group per run.
   */
  method GroupByLine(regions: seq<Region>, maxVerticalGap: real) returns (groups: seq<LineGroup>)
    requires MasksWellFormed(regions)
    ensures regions == [] ==> groups == []
    ensures regions != [] ==> |groups| > 0 && RunsOk(WordRuns(groups), GapPixels(regions, maxVerticalGap))
    ensures RunsBuildable(WordRuns(groups)) && groups == GroupsOf(WordRuns(groups))
    ensures Flatten(WordRuns(groups)) == SortByKey(regions, TopLeft)
  {
    if regions == [] {
      groups := [];
      assert WordRuns(groups) == [];
      return;
    }
    var sorted := SortByKey(regions, TopLeft);
    assert MasksWellFormed(sorted) by {
      forall i | 0 <= i < |sorted| ensures WellFormed(sorted[i].mask) {
        assert sorted[i] in multiset(regions);
      }
    }
    ghost var runs;
    groups, runs := SplitLines(sorted, GapPixels(regions, maxVerticalGap), BuildGroup);
    GroupsOfRuns(runs);
  }

  /** A builder defined on every nonempty run of well-formed masks. */
  ghost predicate Builds<G>(build: seq<Region> --> G) {
    forall run :: |run| > 0 && MasksWellFormed(run) ==> build.requires(run)
  }

  /** Closes the current line: its group is appended, and the runs stay lines. */
  method AppendGroup<G>(groups: seq<G>, ghost runs: seq<seq<Region>>, line: seq<Region>, gap: int, build: seq<Region> --> G)
    returns (groups': seq<G>, ghost runs': seq<seq<Region>>)
    requires Builds(build) && RunsOk(runs, gap) && groups == MapSeq(runs, build)
    requires |line| > 0 && OneLine(line, gap) && MasksWellFormed(line)
    requires |runs| > 0 ==> !SameLine(LastRegion(runs[|runs| - 1]), line[0], gap)
    ensures runs' == runs + [line] && RunsOk(runs', gap) && groups' == MapSeq(runs', build)
    ensures Flatten(runs') == Flatten(runs) + line
  {
    CloseRun(runs, line, gap);
    MapSeqAppend(runs, line, build);
    FlattenAppend(runs, line);
    groups' := groups + [build(line)];
    runs' := runs + [line];
  }

  /** The next element extends a prefix, whichever way the prefix is split. */
  lemma PrefixSnoc<T>(flat: seq<T>, line: seq<T>, s: seq<T>, i: int)
    requires 0 <= i < |s| && flat + line == s[..i]
    ensures flat + (line + [s[i]]) == s[..i + 1]
    ensures (flat + line) + [s[i]] == s[..i + 1]
  {
    assert s[..i + 1] == s[..i] + [s[i]];
  }

  /** What holds after the first i regions of `sorted` have been placed. */
  ghost predicate Placed<G>(sorted: seq<Region>, i: int, gap: int, build: seq<Region> --> G,
                            groups: seq<G>, runs: seq<seq<Region>>, line: seq<Region>)
    requires Builds(build)
  {
    1 <= i <= |sorted| && RunsOk(runs, gap) && groups == MapSeq(runs, build) &&
    |line| > 0 && OneLine(line, gap) && MasksWellFormed(line) &&
    Flatten(runs) + line == sorted[..i] && line[|line| - 1] == sorted[i - 1] &&
    (|runs| > 0 ==> !SameLine(LastRegion(runs[|runs| - 1]), line[0], gap))
  }

  /** One turn of the loop: region i continues the current line or closes it and starts the next. */
  method PlaceNext<G>(sorted: seq<Region>, i: int, gap: int, build: seq<Region> --> G,
                      groups: seq<G>, ghost runs: seq<seq<Region>>, line: seq<Region>)
    returns (groups': seq<G>, ghost runs': seq<seq<Region>>, line': seq<Region>)
    requires Builds(build) && MasksWellFormed(sorted) && i < |sorted|
    requires Placed(sorted, i, gap, build, groups, runs, line)
    ensures Placed(sorted, i + 1, gap, build, groups', runs', line')
  {
    PrefixSnoc(Flatten(runs), line, sorted, i);
    if SameLine(line[|line| - 1], sorted[i], gap) {
      ExtendRun(line, sorted[i], gap);
      groups', runs', line' := groups, runs, line + [sorted[i]];
    } else {
      groups', runs' := AppendGroup(groups, runs, line, gap, build);
      assert LastRegion(runs'[|runs'| - 1]) == LastRegion(line) == sorted[i - 1];
      line' := [sorted[i]];
    }
  }

  /**
   * The loop of `group_textract_regions_by_line` over regions already in
   * reading order, with the group builder as a parameter.
   */
  method SplitLines<G>(sorted: seq<Region>, gap: int, build: seq<Region> --> G)
    returns (groups: seq<G>, ghost runs: seq<seq<Region>>)
    requires |sorted| > 0 && MasksWellFormed(sorted) && Builds(build)
    ensures |runs| > 0 && RunsOk(runs, gap) && groups == MapSeq(runs, build)
    ensures Flatten(runs) == sorted
  {
    groups, runs := [], [];
    var line := [sorted[0]];
    for i := 1 to |sorted|
      invariant Placed(sorted, i, gap, build, groups, runs, line)
    {
      groups, runs, line := PlaceNext(sorted, i, gap, build, groups, runs, line);
    }
    groups, runs := AppendGroup(groups, runs, line, gap, build);
    assert sorted[..|sorted|] == sorted;
  }
}

=== FILE: trace.dfy ===
/**
 * Leader-line tracing on a skeletonised drawing.
 *
 * The skeleton is a greyscale image in which a pixel darker than 127 lies
 * on a line. Junctions are skeleton pixels with three or more skeleton
 * neighbours; a trace walks from one point towards another along skeleton
 * pixels, never stepping on a pixel twice; collisions are junctions near a
 * traced path. Distances are compared through their squares, so no square
 * root appears.
 */
module Trace {
  import opened Wrappers
  import opened Masks
  import opened Arith

  /** A skeleton pixel: inside the image and darker than 127. */
  predicate Dark(sk: Grid<Byte>, x: int, y: int)
    requires WellFormed(sk)
  {
    InBounds(sk, x, y) && sk.rows[y][x] < 127
  }

  function Shift(p: Point, o: (int, int)): Point {
    (p.0 + o.0, p.1 + o.1)
  }

  function D2(p: Point, q: Point): nat {
    (p.0 - q.0) * (p.0 - q.0) + (p.1 - q.1) * (p.1 - q.1)
  }

  function AbsInt(a: int): nat {
    if a < 0 then -a else a
  }

  /** The chessboard distance: how many king moves apart two pixels are. */
  function Chebyshev(p: Point, q: Point): nat {
    var dx := AbsInt(p.0 - q.0);
    var dy := AbsInt(p.1 - q.1);
    if dx < dy then dy else dx
  }

  /** The eight neighbour offsets (dx, dy), dx varying slowest, as the 3 x 3 scans visit them. */
  const Around: seq<(int, int)> := [(-1, -1), (-1, 0), (-1, 1), (0, -1), (0, 1), (1, -1), (1, 0), (1, 1)]

  lemma AroundIsRing(p: Point)
    ensures forall k :: 0 <= k < |Around| ==> Chebyshev(p, Shift(p, Around[k])) == 1
  {
  }

  // ---------------------------------------------------------------------------
  // Junctions
  // ---------------------------------------------------------------------------

  /** How many of the pixels at (x, y) + offs are skeleton pixels. */
  function DarkAmong(sk: Grid<Byte>, x: int, y: int, offs: seq<(int, int)>): (n: nat)
    requires WellFormed(sk)
    ensures n <= |offs|
  {
    if offs == [] then 0
    else
      var o := offs[|offs| - 1];
      DarkAmong(sk, x, y, offs[..|offs| - 1]) + (if Dark(sk, x + o.0, y + o.1) then 1 else 0)
  }

  function NeighbourCount(sk: Grid<Byte>, x: int, y: int): nat
    requires WellFormed(sk)
  {
    DarkAmong(sk, x, y, Around)
  }

  /** An interior skeleton pixel with at least three skeleton neighbours. */
  predicate IsJunction(sk: Grid<Byte>, p: Point)
    requires WellFormed(sk)
  {
    1 <= p.0 < sk.w - 1 && 1 <= p.1 < sk.h - 1 && Dark(sk, p.0, p.1) && NeighbourCount(sk, p.0, p.1) >= 3
  }

  /** Row-major order: by y, then by x. */
  predicate RowMajorBefore(p: Point, q: Point) {
    p.1 < q.1 || (p.1 == q.1 && p.0 < q.0)
  }

  /** Strictly increasing in row-major order, so in particular without repeats. */
  predicate RowMajorSorted(s: seq<Point>) {
    forall i, j :: 0 <= i < j < |s| ==> RowMajorBefore(s[i], s[j])
  }

  /** The neighbour count of one pixel, one offset at a time. */
  method CountNeighbours(sk: Grid<Byte>, x: int, y: int) returns (n: nat)
    requires WellFormed(sk)
    ensures n == NeighbourCount(sk, x, y)
  {
    n := 0;
    for i := 0 to |Around|
      invariant n == DarkAmong(sk, x, y, Around[..i])
    {
      assert Around[..i + 1][..i] == Around[..i];
      var o := Around[i];
      if Dark(sk, x + o.0, y + o.1) {
        n := n + 1;
      }
    }
    assert Around[..|Around|] == Around;
  }

  /**
   * `find_skeleton_junctions`: exactly the junction pixels, each once, in
   * row-major order.
   */
  method FindJunctions(sk: Grid<Byte>) returns (js: seq<Point>)
    requires WellFormed(sk)
    ensures forall p :: p in js <==> IsJunction(sk, p)
    ensures RowMajorSorted(js)
  {
    js := [];
    if sk.h < 3 || sk.w < 3 {
      return;
    }
    for y := 1 to sk.h - 1
      invariant forall p :: p in js <==> IsJunction(sk, p) && p.1 < y
      invariant forall i, j :: 0 <= i < j < |js| ==> RowMajorBefore(js[i], js[j])
    {
      for x := 1 to sk.w - 1
        invariant forall p :: p in js <==> IsJunction(sk, p) && (p.1 < y || (p.1 == y && p.0 < x))
        invariant forall i, j :: 0 <= i < j < |js| ==> RowMajorBefore(js[i], js[j])
        invariant forall i :: 0 <= i < |js| ==> RowMajorBefore(js[i], (x, y))
      {
        if Dark(sk, x, y) {
          var n := CountNeighbours(sk, x, y);
          if n >= 3 {
            js := js + [(x, y)];
          }
        }
      }
    }
  }

  // ---------------------------------------------------------------------------
  // Tracing
  // ---------------------------------------------------------------------------

  /** The most steps a trace takes before giving up. */
  const MaxSteps: nat := 2000

  /** A pixel the trace may step on next: an unvisited skeleton pixel. */
  predicate Open(sk: Grid<Byte>, visited: seq<Point>, q: Point)
    requires WellFormed(sk)
  {
    Dark(sk, q.0, q.1) && q !in visited
  }

  /** Some neighbour of cur is open. */
  predicate HasOpenNeighbour(sk: Grid<Byte>, visited: seq<Point>, cur: Point)
    requires WellFormed(sk)
  {
    exists k :: 0 <= k < |Around| && Open(sk, visited, Shift(cur, Around[k]))
  }

  /** A fallback target: an open pixel other than cur, strictly nearer the end. */
  predicate Nearer(sk: Grid<Byte>, visited: seq<Point>, cur: Point, end: Point, q: Point)
    requires WellFormed(sk)
  {
    q != cur && Open(sk, visited, q) && D2(q, end) < D2(cur, end)
  }

  /**
   * One step of the trace from the last pixel of `visited`: either the open
   * neighbour nearest the end, or, when no neighbour is open, an open pixel
   * within four pixels that is nearer the end than the current one. The
   * current pixel is still three or more pixels from the end.
   */
  predicate StepOk(sk: Grid<Byte>, visited: seq<Point>, q: Point, end: Point)
    requires WellFormed(sk) && |visited| > 0
  {
    var cur := visited[|visited| - 1];
    D2(cur, end) >= 9 && Open(sk, visited, q) &&
    ((Chebyshev(cur, q) == 1 &&
      forall k :: 0 <= k < |Around| && Open(sk, visited, Shift(cur, Around[k])) ==> D2(q, end) <= D2(Shift(cur, Around[k]), end)) ||
     (!HasOpenNeighbour(sk, visited, cur) && Chebyshev(cur, q) <= 4 && Nearer(sk, visited, cur, end, q)))
  }

  /** A sequence of pixels each reached from the ones before by a legal step. */
  predicate Walk(sk: Grid<Byte>, w: seq<Point>, end: Point)
    requires WellFormed(sk)
  {
    |w| > 0 && forall k :: 1 <= k < |w| ==> StepOk(sk, w[..k], w[k], end)
  }

  /** Nothing left to step on: no open neighbour and no nearer open pixel within four. */
  ghost predicate Stuck(sk: Grid<Byte>, w: seq<Point>, end: Point)
    requires WellFormed(sk) && |w| > 0
  {
    var cur := w[|w| - 1];
    !HasOpenNeighbour(sk, w, cur) &&
    forall q :: Chebyshev(cur, q) <= 4 ==> !Nearer(sk, w, cur, end, q)
  }

  /** A walk never steps on a pixel twice. */
  lemma {:induction false} WalkNoRevisit(sk: Grid<Byte>, w: seq<Point>, end: Point)
    requires WellFormed(sk) && Walk(sk, w, end)
    ensures forall i, j :: 0 <= i < j < |w| ==> w[i] != w[j]
  {
    forall i, j | 0 <= i < j < |w| ensures w[i] != w[j] {
      assert StepOk(sk, w[..j], w[j], end);
      assert w[i] in w[..j];
    }
  }

  lemma WalkExtend(sk: Grid<Byte>, w: seq<Point>, q: Point, end: Point)
    requires WellFormed(sk) && Walk(sk, w, end) && StepOk(sk, w, q, end)
    ensures Walk(sk, w + [q], end)
  {
    var w' := w + [q];
    forall k | 1 <= k < |w'| ensures StepOk(sk, w'[..k], w'[k], end) {
      if k < |w| {
        assert w'[..k] == w[..k];
      } else {
        assert w'[..k] == w;
      }
    }
  }

  /**
   * The 8-neighbourhood scan: the open neighbour with the smallest distance
   * to the end, the first one met on a tie; None when no neighbour is open.
   */
  method BestNeighbour(sk: Grid<Byte>, visited: seq<Point>, cur: Point, end: Point) returns (best: Option<Point>)
    requires WellFormed(sk)
    ensures best.None? <==> !HasOpenNeighbour(sk, visited, cur)
    ensures best.Some? ==> Open(sk, visited, best.value) && Chebyshev(cur, best.value) == 1
    ensures best.Some? ==> forall k :: 0 <= k < |Around| && Open(sk, visited, Shift(cur, Around[k])) ==>
      D2(best.value, end) <= D2(Shift(cur, Around[k]), end)
  {
    AroundIsRing(cur);
    best := None;
    for i := 0 to |Around|
      invariant best.None? <==> forall k :: 0 <= k < i ==> !Open(sk, visited, Shift(cur, Around[k]))
      invariant best.Some? ==> Open(sk, visited, best.value) && Chebyshev(cur, best.value) == 1
      invariant best.Some? ==> forall k :: 0 <= k < i && Open(sk, visited, Shift(cur, Around[k])) ==>
        D2(best.value, end) <= D2(Shift(cur, Around[k]), end)
    {
      var q := Shift(cur, Around[i]);
      if Open(sk, visited, q) && (best.None? || D2(q, end) < D2(best.value, end)) {
        best := Some(q);
      }
    }
  }

  /**
   * The fallback search: squares of radius 2, 3 and 4 around cur, each
   * scanned by dx then dy, stopping at the first pixel that is nearer.
   */
  method FallbackStep(sk: Grid<Byte>, visited: seq<Point>, cur: Point, end: Point) returns (next: Option<Point>)
    requires WellFormed(sk)
    ensures next.Some? ==> Nearer(sk, visited, cur, end, next.value) && Chebyshev(cur, next.value) <= 4
    ensures next.None? ==> forall q :: Chebyshev(cur, q) <= 4 ==> !Nearer(sk, visited, cur, end, q)
  {
    next := None;
    var radius := 2;
    while radius < 5 && next.None?
      invariant 2 <= radius <= 5
      invariant next.Some? ==> Nearer(sk, visited, cur, end, next.value) && Chebyshev(cur, next.value) <= 4
      invariant next.None? && radius > 2 ==> forall q :: Chebyshev(cur, q) <= radius - 1 ==> !Nearer(sk, visited, cur, end, q)
      decreases 5 - radius
    {
      next := ScanSquare(sk, visited, cur, end, radius);
      radius := radius + 1;
    }
  }

  /** One square of the fallback search. */
  method ScanSquare(sk: Grid<Byte>, visited: seq<Point>, cur: Point, end: Point, radius: int) returns (next: Option<Point>)
    requires WellFormed(sk) && radius >= 0
    ensures next.Some? ==> Nearer(sk, visited, cur, end, next.value) && Chebyshev(cur, next.value) <= radius
    ensures next.None? ==> forall q :: Chebyshev(cur, q) <= radius ==> !Nearer(sk, visited, cur, end, q)
  {
    next := None;
    var dx := -radius;
    while dx <= radius && next.None?
      invariant -radius <= dx <= radius + 1
      invariant next.Some? ==> Nearer(sk, visited, cur, end, next.value) && Chebyshev(cur, next.value) <= radius
      invariant next.None? ==> forall q :: Chebyshev(cur, q) <= radius && q.0 < cur.0 + dx ==> !Nearer(sk, visited, cur, end, q)
      decreases radius + 1 - dx, next.None?
    {
      var dy := -radius;
      while dy <= radius && next.None?
        invariant -radius <= dy <= radius + 1
        invariant next.Some? ==> Nearer(sk, visited, cur, end, next.value) && Chebyshev(cur, next.value) <= radius
        invariant next.None? ==> forall q :: Chebyshev(cur, q) <= radius && (q.0 < cur.0 + dx || (q.0 == cur.0 + dx && q.1 < cur.1 + dy)) ==>
          !Nearer(sk, visited, cur, end, q)
        decreases radius + 1 - dy, next.None?
      {
        var q := (cur.0 + dx, cur.1 + dy);
        if !(dx == 0 && dy == 0) && Nearer(sk, visited, cur, end, q) {
          next := Some(q);
        }
        dy := dy + 1;
      }
      dx := dx + 1;
    }
  }

  /** Every point before the last n of w is at least three pixels from the end. */
  predicate FarBefore(w: seq<Point>, end: Point, n: nat) {
    forall k :: 0 <= k < |w| - n ==> D2(w[k], end) >= 9
  }

  /** Appending a point keeps the earlier points far, and the old last point too when it was far. */
  lemma FarExtend(w: seq<Point>, q: Point, end: Point, lastFar: bool)
    requires |w| > 0 && FarBefore(w, end, 1)
    requires lastFar ==> D2(w[|w| - 1], end) >= 9
    ensures FarBefore(w + [q], end, if lastFar then 1 else 2)
  {
  }

  /**
   * `trace_between_points`: a walk from start that ends either by arriving
   * within three pixels of the end (the end itself is then appended), by
   * getting stuck at least three pixels from the end, or after MaxSteps
   * steps. Every point it passed through before the last was checked to be
   * at least three pixels from the end.
   */
  method TraceBetweenPoints(sk: Grid<Byte>, start: Point, end: Point) returns (path: seq<Point>)
    requires WellFormed(sk)
    ensures |path| > 0 && path[0] == start
    ensures |path| <= MaxSteps + 2
    ensures Walk(sk, path, end) ||
            (|path| >= 2 && Walk(sk, path[..|path| - 1], end) && path[|path| - 1] == end && D2(path[|path| - 2], end) < 9)
    ensures Walk(sk, path, end) ==> |path| == MaxSteps + 1 || Stuck(sk, path, end)
    ensures Walk(sk, path, end) && |path| < MaxSteps + 1 ==> D2(path[|path| - 1], end) >= 9
    ensures FarBefore(path, end, 2)
  {
    var cur := start;
    path := [start];
    var visited: set<Point> := {start};
    var step := 0;
    while step < MaxSteps
      invariant step <= MaxSteps && |path| == step + 1 && path[0] == start && path[|path| - 1] == cur
      invariant forall q :: q in visited <==> q in path
      invariant Walk(sk, path, end)
      invariant FarBefore(path, end, 1)
    {
      if D2(cur, end) < 9 {
        assert path == (path + [end])[..|path|];
        FarExtend(path, end, end, false);
        path := path + [end];
        return;
      }
      var best := BestNeighbour(sk, path, cur, end);
      if best.None? {
        best := FallbackStep(sk, path, cur, end);
        if best.None? {
          return;
        }
      }
      var q := best.value;
      assert StepOk(sk, path, q, end);
      WalkExtend(sk, path, q, end);
      FarExtend(path, q, end, true);
      cur := q;
      path := path + [q];
      visited := visited + {q};
      step := step + 1;
    }
  }

  // ---------------------------------------------------------------------------
  // Thickness and collisions
  // ---------------------------------------------------------------------------

  /** The default thickness when nothing can be measured. */
  const DefaultThickness: int := 3

  /**
   * `measure_line_thickness`: the mean of the thicknesses measured across
   * the first sample_length segments of the path, at least 1, or 3 when
   * fewer than two points are sampled or no segment gives a measurement.
   * The per-segment measurement (edges found along the perpendicular) is
   * the parameter `across`.
   */
  method MeasureLineThickness(path: seq<Point>, sampleLength: int, across: (Point, Point) -> Option<int>)
    returns (t: int, measured: seq<int>)
    ensures measured == Measurements(Take(path, if sampleLength < |path| then sampleLength else |path|), across)
    ensures |measured| == 0 ==> t == DefaultThickness
    ensures |measured| > 0 ==> t >= 1 && t == Max1(TruncDiv(Sum(measured), |measured|))
  {
    var sample := Take(path, if sampleLength < |path| then sampleLength else |path|);
    measured := [];
    if |sample| < 2 {
      return DefaultThickness, measured;
    }
    for i := 0 to |sample| - 1
      invariant measured == Measurements(sample[..i + 1], across)
    {
      assert sample[..i + 2][..i + 1] == sample[..i + 1];
      var m := across(sample[i], sample[i + 1]);
      if m.Some? {
        measured := measured + [m.value];
      }
    }
    assert sample[..|sample|] == sample;
    if |measured| > 0 {
      t := Max1(TruncDiv(Sum(measured), |measured|));
    } else {
      t := DefaultThickness;
    }
  }

  function Max1(a: int): (r: int)
    ensures r >= 1 && r >= a && (r == 1 || r == a)
  {
    if a < 1 then 1 else a
  }

  /** The measurements of the consecutive segments of a sample, skipping the unmeasurable ones. */
  function Measurements(sample: seq<Point>, across: (Point, Point) -> Option<int>): (m: seq<int>)
    ensures |m| < |sample| || |sample| == 0
  {
    if |sample| < 2 then []
    else
      var n := |sample|;
      var rest := Measurements(sample[..n - 1], across);
      match across(sample[n - 2], sample[n - 1])
      case Some(v) => rest + [v]
      case None => rest
  }

  /**
   * Every segment measurement is the sum of two edge distances, each found
   * within 1..19 pixels, so the reported thickness lies within 2..38.
   */
  lemma ThicknessRange(measured: seq<int>)
    requires |measured| > 0
    requires forall i :: 0 <= i < |measured| ==> 2 <= measured[i] <= 38
    ensures 2 <= Max1(TruncDiv(Sum(measured), |measured|)) <= 38
  {
    MeanBounds(measured, 2, 38);
  }

  /** Junction p lies within `limit` pixels of some path point (squared comparison). */
  predicate NearPath(path: seq<Point>, p: Point, limit: int) {
    exists k :: 0 <= k < |path| && D2(path[k], p) <= limit * limit
  }

  /** p lies strictly closer than `thickness` to q; never when the thickness is not positive. */
  predicate Close(p: Point, q: Point, thickness: int) {
    thickness > 0 && D2(p, q) < thickness * thickness
  }

  /** p is close to one of the points already found. */
  predicate Clashes(found: seq<Point>, p: Point, close: (Point, Point) -> bool) {
    exists i :: 0 <= i < |found| && close(p, found[i])
  }

  /**
   * The junction loop's result over js: each junction that is near the path
   * and not close to one already kept. Nearness and closeness are
   * parameters, so these lemmas hold for any such tests.
   */
  function Kept(js: seq<Point>, near: Point -> bool, close: (Point, Point) -> bool): seq<Point> {
    if js == [] then []
    else
      var kept := Kept(js[..|js| - 1], near, close);
      var p := js[|js| - 1];
      if near(p) && !Clashes(kept, p, close) then kept + [p] else kept
  }

  /** Every kept point is one of the junctions, and near. */
  lemma {:induction false} KeptSound(js: seq<Point>, near: Point -> bool, close: (Point, Point) -> bool)
    ensures forall q :: q in Kept(js, near, close) ==> q in js && near(q)
  {
    if js != [] {
      KeptSound(js[..|js| - 1], near, close);
      assert js == js[..|js| - 1] + [js[|js| - 1]];
    }
  }

  /** No point of cs is close to one before it. */
  predicate Spread(cs: seq<Point>, close: (Point, Point) -> bool) {
    forall i, j :: 0 <= i < j < |cs| ==> !close(cs[j], cs[i])
  }

  /** No kept point is close to one kept before it. */
  lemma {:induction false} KeptSpread(js: seq<Point>, near: Point -> bool, close: (Point, Point) -> bool)
    ensures Spread(Kept(js, near, close), close)
  {
    if js != [] {
      var init := js[..|js| - 1];
      KeptSpread(init, near, close);
      var before := Kept(init, near, close);
      var cs := Kept(js, near, close);
      if cs != before {
        var p := js[|js| - 1];
        assert cs == before + [p];
        assert near(p) && !Clashes(before, p, close);
        forall i, j | 0 <= i < j < |cs| ensures !close(cs[j], cs[i]) {
          if j < |before| {
            assert cs[j] == before[j] && cs[i] == before[i];
            assert !close(before[j], before[i]);
          } else {
            assert cs[j] == p && cs[i] == before[i];
            assert !close(p, before[i]);
          }
        }
      }
    }
  }

  /** Every near junction is kept, or is close to a kept one. */
  lemma {:induction false} KeptCovers(js: seq<Point>, near: Point -> bool, close: (Point, Point) -> bool)
    ensures var cs := Kept(js, near, close);
            forall q :: q in js && near(q) ==> q in cs || Clashes(cs, q, close)
  {
    if js != [] {
      var init := js[..|js| - 1];
      KeptCovers(init, near, close);
      var before := Kept(init, near, close);
      var cs := Kept(js, near, close);
      assert before <= cs;
      forall q | q in js && near(q) ensures q in cs || Clashes(cs, q, close) {
        if q in init && q !in before {
          var i :| 0 <= i < |before| && close(q, before[i]);
          assert cs[i] == before[i];
        }
        if q !in init {
          assert q == js[|js| - 1] by { assert js == init + [js[|js| - 1]]; }
        }
      }
    }
  }

  /** Kept points keep the junctions' order. */
  lemma {:induction false} KeptOrdered(js: seq<Point>, near: Point -> bool, close: (Point, Point) -> bool)
    requires RowMajorSorted(js)
    ensures RowMajorSorted(Kept(js, near, close))
  {
    if js != [] {
      var init := js[..|js| - 1];
      KeptOrdered(init, near, close);
      KeptSound(init, near, close);
      var before := Kept(init, near, close);
      var cs := Kept(js, near, close);
      var p := js[|js| - 1];
      forall i | 0 <= i < |before| ensures RowMajorBefore(before[i], p) {
        assert before[i] in before;
        var k :| 0 <= k < |init| && init[k] == before[i];
        assert init[k] == js[k];
      }
      if cs != before {
        assert cs == before + [p];
        forall i, j | 0 <= i < j < |cs| ensures RowMajorBefore(cs[i], cs[j]) {
          if j < |before| {
            assert cs[j] == before[j] && cs[i] == before[i];
            assert RowMajorBefore(before[i], before[j]);
          } else {
            assert cs[j] == p && cs[i] == before[i];
            assert RowMajorBefore(before[i], p);
          }
        }
      }
    }
  }

  method IsNearPath(path: seq<Point>, p: Point, limit: int) returns (b: bool)
    ensures b <==> NearPath(path, p, limit)
  {
    for k := 0 to |path|
      invariant forall i :: 0 <= i < k ==> D2(path[i], p) > limit * limit
    {
      if D2(path[k], p) <= limit * limit {
        return true;
      }
    }
    return false;
  }

  method IsDuplicate(found: seq<Point>, p: Point, thickness: int) returns (b: bool)
    ensures b <==> exists i :: 0 <= i < |found| && Close(p, found[i], thickness)
  {
    for i := 0 to |found|
      invariant forall j :: 0 <= j < i ==> !Close(p, found[j], thickness)
    {
      if Close(p, found[i], thickness) {
        return true;
      }
    }
    return false;
  }

  /**
   * `detect_collisions`: with no skeleton, none. Otherwise the junctions
   * within max(thickness, 5) of the path, in row-major order, dropping any
   * that is closer than the thickness to one already kept.
   */
  method DetectCollisions(path: seq<Point>, thickness: int, skeleton: Option<Grid<Byte>>) returns (cs: seq<Point>)
    requires skeleton.Some? ==> WellFormed(skeleton.value)
    ensures skeleton.None? ==> cs == []
    ensures skeleton.Some? ==> forall i :: 0 <= i < |cs| ==>
      IsJunction(skeleton.value, cs[i]) && NearPath(path, cs[i], if thickness < 5 then 5 else thickness)
    ensures RowMajorSorted(cs)
    ensures forall i, j :: 0 <= i < j < |cs| ==> !Close(cs[j], cs[i], thickness)
    ensures skeleton.Some? ==> forall p :: IsJunction(skeleton.value, p) && NearPath(path, p, if thickness < 5 then 5 else thickness) ==>
      p in cs || exists i :: 0 <= i < |cs| && Close(p, cs[i], thickness)
  {
    cs := [];
    if skeleton.None? {
      return;
    }
    var sk := skeleton.value;
    var js := FindJunctions(sk);
    var limit := if thickness < 5 then 5 else thickness;
    var near := p => NearPath(path, p, limit);
    var close := (p, q) => Close(p, q, thickness);
    for n := 0 to |js|
      invariant cs == Kept(js[..n], near, close)
    {
      assert js[..n + 1][..n] == js[..n];
      var isNear := IsNearPath(path, js[n], limit);
      if isNear {
        var dup := IsDuplicate(cs, js[n], thickness);
        if !dup {
          cs := cs + [js[n]];
        }
      }
    }
    assert js[..|js|] == js;
    KeptSound(js, near, close);
    KeptSpread(js, near, close);
    KeptCovers(js, near, close);
    KeptOrdered(js, near, close);
    forall i | 0 <= i < |cs| ensures IsJunction(sk, cs[i]) && NearPath(path, cs[i], limit) {
      assert cs[i] in cs;
    }
  }
}

=== FILE: undo.dfy ===
/**
 * The undo manager: a bounded stack of executed commands and a stack of
 * undone ones. A command's own effect on the document is outside this
 * model; the manager's calls into it are recorded in a log.
 */
module Undo {
  import opened Wrappers

  /** A command: its description and an identity standing for its execute/undo callbacks. */
  datatype Command = Command(description: string, action: nat)

  /** A call the manager makes into a command. */
  datatype Call = Ran(c: Command) | Reverted(c: Command)

  /** The two stacks; the top of each is its last entry. */
  datatype History = History(undo: seq<Command>, redo: seq<Command>)

  /** The most entries the undo stack can hold: max_depth, or none when it is negative. */
  function Cap(maxDepth: int): nat {
    if maxDepth < 0 then 0 else maxDepth
  }

  /**
   * The invariant: undone and executed commands together never exceed the
   * cap, since only `execute` adds new entries and it empties the redo stack.
   */
  predicate Bounded(h: History, maxDepth: int) {
    |h.undo| + |h.redo| <= Cap(maxDepth)
  }

  /** `execute`: push the command, drop the oldest entry when over max_depth, empty the redo stack. */
  function ExecuteStep(h: History, c: Command, maxDepth: int): (r: History)
    ensures r.redo == []
    ensures maxDepth > 0 ==> |r.undo| > 0 && r.undo[|r.undo| - 1] == c
    ensures maxDepth <= 0 && |h.undo| == 0 ==> r.undo == []
    ensures |h.undo| + 1 <= maxDepth ==> r.undo == h.undo + [c]
    ensures |h.undo| + 1 > maxDepth ==> r.undo == (h.undo + [c])[1..]
  {
    var pushed := h.undo + [c];
    if |pushed| > maxDepth then History(pushed[1..], []) else History(pushed, [])
  }

  /** `undo`: move the top of the undo stack to the redo stack; nothing when it is empty. */
  function UndoStep(h: History): (r: History)
    ensures |h.undo| == 0 ==> r == h
    ensures |h.undo| > 0 ==> r.undo == h.undo[..|h.undo| - 1] && r.redo == h.redo + [h.undo[|h.undo| - 1]]
  {
    if |h.undo| == 0 then h
    else History(h.undo[..|h.undo| - 1], h.redo + [h.undo[|h.undo| - 1]])
  }

  /** `redo`: move the top of the redo stack to the undo stack; nothing when it is empty. */
  function RedoStep(h: History): (r: History)
    ensures |h.redo| == 0 ==> r == h
    ensures |h.redo| > 0 ==> r.redo == h.redo[..|h.redo| - 1] && r.undo == h.undo + [h.redo[|h.redo| - 1]]
  {
    if |h.redo| == 0 then h
    else History(h.undo + [h.redo[|h.redo| - 1]], h.redo[..|h.redo| - 1])
  }

  /** Executing keeps the bound, so the undo stack never holds more than max_depth entries. */
  lemma ExecuteBounded(h: History, c: Command, maxDepth: int)
    requires Bounded(h, maxDepth)
    ensures Bounded(ExecuteStep(h, c, maxDepth), maxDepth)
    ensures |ExecuteStep(h, c, maxDepth).undo| <= Cap(maxDepth)
  {
  }

  /** Undo and redo move one entry between the stacks, so they keep the bound. */
  lemma UndoRedoBounded(h: History, maxDepth: int)
    requires Bounded(h, maxDepth)
    ensures Bounded(UndoStep(h), maxDepth) && Bounded(RedoStep(h), maxDepth)
  {
  }

  /** A successful undo followed by a redo restores both stacks. */
  lemma UndoThenRedo(h: History)
    requires |h.undo| > 0
    ensures RedoStep(UndoStep(h)) == h
  {
    assert h.undo[..|h.undo| - 1] + [h.undo[|h.undo| - 1]] == h.undo;
    assert (h.redo + [h.undo[|h.undo| - 1]])[..|h.redo|] == h.redo;
  }

  /** A successful redo followed by an undo restores both stacks. */
  lemma RedoThenUndo(h: History)
    requires |h.redo| > 0
    ensures UndoStep(RedoStep(h)) == h
  {
    assert h.redo[..|h.redo| - 1] + [h.redo[|h.redo| - 1]] == h.redo;
    assert (h.undo + [h.redo[|h.redo| - 1]])[..|h.undo|] == h.undo;
  }

  class UndoManager {
    var maxDepth: int
    var undoStack: seq<Command>
    var redoStack: seq<Command>
    /** The calls made into commands, oldest first. */
    var log: seq<Call>

    /** The two stacks as a value. */
    function Stacks(): History
      reads this
    {
      History(undoStack, redoStack)
    }

    ghost predicate Valid()
      reads this
    {
      Bounded(Stacks(), maxDepth)
    }

    constructor(maxDepth: int)
      ensures Valid()
      ensures this.maxDepth == maxDepth && undoStack == [] && redoStack == [] && log == []
    {
      this.maxDepth := maxDepth;
      undoStack := [];
      redoStack := [];
      log := [];
    }

    /** `execute`: runs the command, then records it as `ExecuteStep` says. */
    method Execute(c: Command)
      requires Valid()
      modifies this
      ensures Valid()
      ensures Stacks() == ExecuteStep(old(Stacks()), c, maxDepth)
      ensures log == old(log) + [Ran(c)] && maxDepth == old(maxDepth)
    {
      log := log + [Ran(c)];
      undoStack := undoStack + [c];
      if |undoStack| > maxDepth {
        undoStack := undoStack[1..];
      }
      redoStack := [];
    }

    /**
     * `undo`: False with nothing changed on an empty undo stack; otherwise
     * pops the top, calls its undo, pushes it on the redo stack, True.
     */
    method Undo() returns (ok: bool)
      requires Valid()
      modifies this
      ensures Valid()
      ensures ok <==> |old(undoStack)| > 0
      ensures Stacks() == UndoStep(old(Stacks()))
      ensures !ok ==> log == old(log)
      ensures ok ==> log == old(log) + [Reverted(old(undoStack)[|old(undoStack)| - 1])]
      ensures maxDepth == old(maxDepth)
    {
      if |undoStack| == 0 {
        return false;
      }
      var c := undoStack[|undoStack| - 1];
      undoStack := undoStack[..|undoStack| - 1];
      log := log + [Reverted(c)];
      redoStack := redoStack + [c];
      return true;
    }

    /**
     * `redo`: False with nothing changed on an empty redo stack; otherwise
     * pops the top, runs it again, pushes it on the undo stack, True.
     */
    method Redo() returns (ok: bool)
      requires Valid()
      modifies this
      ensures Valid()
      ensures ok <==> |old(redoStack)| > 0
      ensures Stacks() == RedoStep(old(Stacks()))
      ensures !ok ==> log == old(log)
      ensures ok ==> log == old(log) + [Ran(old(redoStack)[|old(redoStack)| - 1])]
      ensures maxDepth == old(maxDepth)
    {
      if |redoStack| == 0 {
        return false;
      }
      var c := redoStack[|redoStack| - 1];
      redoStack := redoStack[..|redoStack| - 1];
      log := log + [Ran(c)];
      undoStack := undoStack + [c];
      return true;
    }

    function CanUndo(): (r: bool)
      reads this
      ensures r <==> |undoStack| > 0
    {
      |undoStack| > 0
    }

    function CanRedo(): (r: bool)
      reads this
      ensures r <==> |redoStack| > 0
    {
      |redoStack| > 0
    }

    /** The description of the command an undo would revert, or None. */
    function UndoDescription(): (r: Option<string>)
      reads this
      ensures r.None? <==> !CanUndo()
      ensures r.Some? ==> r.value == undoStack[|undoStack| - 1].description
    {
      if |undoStack| > 0 then Some(undoStack[|undoStack| - 1].description) else None
    }

    /** The description of the command a redo would run again, or None. */
    function RedoDescription(): (r: Option<string>)
      reads this
      ensures r.None? <==> !CanRedo()
      ensures r.Some? ==> r.value == redoStack[|redoStack| - 1].description
    {
      if |redoStack| > 0 then Some(redoStack[|redoStack| - 1].description) else None
    }

    /** `clear`: both stacks empty. */
    method Clear()
      modifies this
      ensures undoStack == [] && redoStack == []
      ensures maxDepth == old(maxDepth) && log == old(log)
      ensures Valid()
    {
      undoStack := [];
      redoStack := [];
    }
  }
}

=== FILE: workspace.dfy ===
/**
 * Saving and loading a workspace: the text and hatching regions of a page
 * with their masks, the run-length-encoded element masks of saved objects,
 * and the loop that rebuilds saved objects one by one.
 */
module Workspace {
  import opened Wrappers
  import opened Masks
  import opened Rle
  import opened MaskGeometry
  import Elements
  import Objects

  const Auto := "auto"

  /** A region dictionary as saved; None is a missing key. */
  datatype RegionRecord = RegionRecord(
    id: Option<string>,
    mode: Option<string>,
    bbox: Option<seq<int>>,
    point: Option<seq<int>>,
    text: Option<string>,
    confidence: Option<real>,
    area: Option<int>,
    center: Option<seq<int>>,
    maskBbox: Option<seq<int>>,
    maskShape: Option<seq<int>>,
    maskRle: Option<seq<Run>>)

  /** A region in memory: its fields and its `mask` entry, if any. */
  datatype Region = Region(record: RegionRecord, mask: Option<Mask>)

  predicate RegionsOk(regions: seq<Region>) {
    forall i :: 0 <= i < |regions| ==> regions[i].mask.Some? ==> WellFormed(regions[i].mask.value)
  }

  /** `max(0, min(v, hi))`. */
  function Clamp(v: int, hi: nat): (r: nat)
    ensures r <= hi
    ensures 0 <= v <= hi ==> r == v
    ensures v < 0 ==> r == 0
    ensures v > hi ==> r == hi
  {
    if v < 0 then 0 else if v > hi then hi else v
  }

  // ---------------------------------------------------------------------
  // Saving regions
  // ---------------------------------------------------------------------

  /** A region whose mask is saved: its mode is not 'auto' and its mask has an on pixel. */
  predicate StoresMask(r: Region)
    requires r.mask.Some? ==> WellFormed(r.mask.value)
  {
    r.record.mode != Some(Auto) && r.mask.Some? && HasOn(r.mask.value)
  }

  /**
   * The saved form of a region: id and mode with their defaults, the optional
   * fields copied, and the three mask keys exactly when the mask is stored,
   * holding the mask cropped to its bounds.
   */
  predicate SavedAs(r: Region, d: RegionRecord)
    requires r.mask.Some? ==> WellFormed(r.mask.value)
  {
    d.id == Some(r.record.id.GetOr("")) && d.mode == Some(r.record.mode.GetOr(Auto)) &&
    d.bbox == r.record.bbox && d.point == r.record.point && d.text == r.record.text &&
    d.confidence == r.record.confidence && d.area == r.record.area && d.center == r.record.center &&
    (d.maskBbox.Some? <==> StoresMask(r)) && (d.maskShape.Some? <==> StoresMask(r)) &&
    (d.maskRle.Some? <==> StoresMask(r)) &&
    (StoresMask(r) ==>
      Elements.HoldsCrop(r.mask.value, Elements.MaskRecord(d.maskBbox.value, d.maskShape.value, d.maskRle.value)))
  }

  /** `_serialize_mask_regions`: one saved record per region, in order. */
  method SerializeMaskRegions(regions: seq<Region>) returns (out: seq<RegionRecord>)
    requires RegionsOk(regions)
    ensures |out| == |regions|
    ensures forall i :: 0 <= i < |regions| ==> SavedAs(regions[i], out[i])
  {
    out := [];
    for i := 0 to |regions|
      invariant |out| == i
      invariant forall k :: 0 <= k < i ==> SavedAs(regions[k], out[k])
    {
      var r := regions[i];
      var d := RegionRecord(Some(r.record.id.GetOr("")), Some(r.record.mode.GetOr(Auto)),
                            r.record.bbox, r.record.point, r.record.text, r.record.confidence,
                            r.record.area, r.record.center, None, None, None);
      if r.record.mode != Some(Auto) && r.mask.Some? {
        var m := r.mask.value;
        var b := Bounds(m);
        if b.Some? {
          var cropped := Elements.CropToBounds(m);
          var runs := Encode(cropped);
          d := d.(maskBbox := Some(Elements.ExclusiveBox(b.value)),
                  maskShape := Some([cropped.h, cropped.w]), maskRle := Some(runs));
        }
      }
      out := out + [d];
    }
  }

  // ---------------------------------------------------------------------
  // Loading regions
  // ---------------------------------------------------------------------

  /**
   * The mask of an 'auto' region: 255 on its bbox, clamped to the image, and
   * 0 elsewhere. Clamping is intersection with the image, so a pixel is on
   * exactly when the unclamped bbox covers it; a bbox that is missing or
   * not of four numbers gives an all-zero mask.
   */
  function AutoMask(bbox: Option<seq<int>>, h: nat, w: nat): (m: Mask)
    ensures WellFormed(m) && m.h == h && m.w == w
    ensures var b := bbox.GetOr([0, 0, 0, 0]);
      forall x, y :: 0 <= x < w && 0 <= y < h ==>
        m.rows[y][x] == (if |b| == 4 && b[0] <= x < b[2] && b[1] <= y < b[3] then 255 else 0)
  {
    var b := bbox.GetOr([0, 0, 0, 0]);
    if |b| == 4 then
      var x1, y1, x2, y2 := Clamp(b[0], w), Clamp(b[1], h), Clamp(b[2], w), Clamp(b[3], h);
      if x2 > x1 && y2 > y1 then RectMask(h, w, x1, y1, x2, y2) else Zeros(h, w)
    else Zeros(h, w)
  }

  /** The square of side 20 around a point of two numbers. */
  predicate InMarker(p: seq<int>, x: int, y: int) {
    |p| == 2 && p[0] - 10 <= x < p[0] + 10 && p[1] - 10 <= y < p[1] + 10
  }

  /**
   * The point-marker fallback: 255 on the square [px-10, px+10) x
   * [py-10, py+10) clamped to the image, 0 elsewhere; a missing point is
   * (0, 0) and a point not of two numbers gives an all-zero mask.
   */
  function PointMarker(point: Option<seq<int>>, h: nat, w: nat): (m: Mask)
    ensures WellFormed(m) && m.h == h && m.w == w
    ensures forall x, y :: 0 <= x < w && 0 <= y < h ==>
      m.rows[y][x] == (if InMarker(point.GetOr([0, 0]), x, y) then 255 else 0)
  {
    var p := point.GetOr([0, 0]);
    if |p| == 2 then
      var y1 := if p[1] - 10 > 0 then p[1] - 10 else 0;
      var y2 := if p[1] + 10 < h then p[1] + 10 else h;
      var x1 := if p[0] - 10 > 0 then p[0] - 10 else 0;
      var x2 := if p[0] + 10 < w then p[0] + 10 else w;
      if x2 > x1 && y2 > y1 then RectMask(h, w, x1, y1, x2, y2) else Zeros(h, w)
    else Zeros(h, w)
  }

  /**
   * The decoded crop written with its top-left corner at (x1, y1) into a
   * blank h x w mask, clipped both to the image and to the bbox's extent:
   * a pixel takes the crop's value exactly when it lies in the bbox and
   * inside the crop, and is 0 otherwise.
   */
  function PlaceCrop(crop: Mask, x1: int, y1: int, x2: int, y2: int, h: nat, w: nat): (m: Mask)
    requires WellFormed(crop)
    ensures WellFormed(m) && m.h == h && m.w == w
    ensures forall x, y :: 0 <= x < w && 0 <= y < h ==>
      m.rows[y][x] == (if x1 <= x < x2 && y1 <= y < y2 && x - x1 < crop.w && y - y1 < crop.h
                       then crop.rows[y - y1][x - x1] else 0)
  {
    var dx1, dy1, dx2, dy2 := Clamp(x1, w), Clamp(y1, h), Clamp(x2, w), Clamp(y2, h);
    var sx1, sy1 := dx1 - x1, dy1 - y1;
    var sx2 := if sx1 + (dx2 - dx1) < crop.w then sx1 + (dx2 - dx1) else crop.w;
    var sy2 := if sy1 + (dy2 - dy1) < crop.h then sy1 + (dy2 - dy1) else crop.h;
    if dx2 > dx1 && dy2 > dy1 && sx2 > sx1 && sy2 > sy1 then
      var aw := if dx2 - dx1 < sx2 - sx1 then dx2 - dx1 else sx2 - sx1;
      var ah := if dy2 - dy1 < sy2 - sy1 then dy2 - dy1 else sy2 - sy1;
      assert 0 <= sx1 && 0 <= sy1;
      Tabulate(h, w, (x, y) =>
        if dx1 <= x < dx1 + aw && dy1 <= y < dy1 + ah && 0 <= y < h && 0 <= x < w
        then crop.rows[y - dy1 + sy1][x - dx1 + sx1] else 0)
    else Zeros(h, w)
  }

  /** What stops a page's regions from loading at all: a mask bbox or shape that does not unpack. */
  datatype RegionError = MalformedMaskBbox | MalformedMaskShape

  /**
   * The mask of a region that is not 'auto': with `mask_rle` and `mask_bbox`
   * the crop is decoded (shape from `mask_shape`, else from the bbox with each
   * side at least 1) and placed at the bbox; a crop that does not decode
   * falls back to the point marker, as does a region without the two keys.
   * A `mask_bbox` not of four numbers or a `mask_shape` not of two is an error.
   */
  function ManualMask(d: RegionRecord, h: nat, w: nat): (r: Result<Mask, RegionError>)
    ensures r.Err? <==> (d.maskRle.Some? && d.maskBbox.Some? &&
                         (|d.maskBbox.value| != 4 || (d.maskShape.Some? && |d.maskShape.value| != 2)))
    ensures r.Ok? ==> WellFormed(r.value) && r.value.h == h && r.value.w == w
    ensures d.maskRle.None? || d.maskBbox.None? ==> r == Ok(PointMarker(d.point, h, w))
  {
    if d.maskRle.Some? && d.maskBbox.Some? then
      var b := d.maskBbox.value;
      if |b| != 4 then Err(MalformedMaskBbox)
      else if d.maskShape.Some? && |d.maskShape.value| != 2 then Err(MalformedMaskShape)
      else
        var ch := if d.maskShape.Some? then d.maskShape.value[0] else (if b[3] - b[1] > 1 then b[3] - b[1] else 1);
        var cw := if d.maskShape.Some? then d.maskShape.value[1] else (if b[2] - b[0] > 1 then b[2] - b[0] else 1);
        match DecodeSpec(d.maskRle.value, ch, cw)
        case Ok(crop) => Ok(PlaceCrop(crop, b[0], b[1], b[2], b[3], h, w))
        case Err(_) => Ok(PointMarker(d.point, h, w))
    else Ok(PointMarker(d.point, h, w))
  }

  predicate IsAuto(d: RegionRecord) {
    d.mode == Some(Auto)
  }

  /** The elements of s on which p is `want`, in order. */
  function Select<T>(s: seq<T>, p: T -> bool, want: bool): (r: seq<T>)
    ensures |r| <= |s|
  {
    if |s| == 0 then []
    else Select(s[..|s| - 1], p, want) + (if p(s[|s| - 1]) == want then [s[|s| - 1]] else [])
  }

  /** Every selected element has the wanted value of p. */
  lemma {:induction false} SelectAll<T>(s: seq<T>, p: T -> bool, want: bool)
    ensures forall x :: x in Select(s, p, want) ==> p(x) == want
  {
    if |s| > 0 {
      SelectAll(s[..|s| - 1], p, want);
    }
  }

  /** Selecting from s + [x] selects from s, then keeps x when p(x) is `want`. */
  lemma SelectSnoc<T>(s: seq<T>, x: T, p: T -> bool, want: bool)
    ensures Select(s + [x], p, want) == Select(s, p, want) + (if p(x) == want then [x] else [])
  {
    assert (s + [x])[..|s|] == s;
  }

  /** The two selections split s: together they hold every element exactly as often as s. */
  lemma {:induction false} SelectSplit<T>(s: seq<T>, p: T -> bool)
    ensures multiset(Select(s, p, true)) + multiset(Select(s, p, false)) == multiset(s)
  {
    if |s| > 0 {
      var init, last := s[..|s| - 1], s[|s| - 1];
      assert s == init + [last];
      SelectSplit(init, p);
      SelectSnoc(init, last, p, true);
      SelectSnoc(init, last, p, false);
      var t, f := Select(init, p, true), Select(init, p, false);
      assert multiset(t + [last]) == multiset(t) + multiset{last};
      assert multiset(f + [last]) == multiset(f) + multiset{last};
      assert multiset(s) == multiset(init) + multiset{last};
    }
  }

  /** Selecting from a prefix gives a prefix of the selection. */
  lemma {:induction false} SelectPrefix<T>(s: seq<T>, p: T -> bool, want: bool, n: nat)
    requires n <= |s|
    ensures Select(s[..n], p, want) <= Select(s, p, want)
    decreases |s| - n
  {
    if n < |s| {
      SelectPrefix(s, p, want, n + 1);
      assert s[..n + 1][..n] == s[..n];
    } else {
      assert s[..n] == s;
    }
  }

  /** The 'auto' records, in input order. */
  function Autos(data: seq<RegionRecord>): (r: seq<RegionRecord>)
    ensures |r| <= |data| && forall k :: 0 <= k < |r| ==> IsAuto(r[k])
  {
    SelectAll(data, IsAuto, true);
    Select(data, IsAuto, true)
  }

  /** The other records, in input order. */
  function Manuals(data: seq<RegionRecord>): (r: seq<RegionRecord>)
    ensures |r| <= |data| && forall k :: 0 <= k < |r| ==> !IsAuto(r[k])
  {
    SelectAll(data, IsAuto, false);
    Select(data, IsAuto, false)
  }

  /** The two filters split the records: together they hold every record exactly as often as the input. */
  lemma AutosManualsSplit(data: seq<RegionRecord>)
    ensures multiset(Autos(data)) + multiset(Manuals(data)) == multiset(data)
    ensures |Autos(data)| + |Manuals(data)| == |data|
  {
    SelectSplit(data, IsAuto);
    assert |multiset(data)| == |data|;
  }

  /**
   * `_deserialize_mask_regions`: nothing without an image or without data;
   * otherwise every 'auto' region in input order, then every other region in
   * input order, each with its fields kept and its mask rebuilt. A mask
   * bbox or shape that does not unpack makes the whole call fail.
   */
  method DeserializeMaskRegions(data: seq<RegionRecord>, image: Option<(nat, nat)>)
    returns (r: Result<seq<Region>, RegionError>)
    ensures image.None? || |data| == 0 ==> r == Ok([])
    ensures image.Some? && |data| > 0 ==>
      (r.Err? <==> exists k :: 0 <= k < |Manuals(data)| && ManualMask(Manuals(data)[k], image.value.0, image.value.1).Err?)
    ensures r.Ok? && image.Some? && |data| > 0 ==>
      var h, w, autos, manuals := image.value.0, image.value.1, Autos(data), Manuals(data);
      |r.value| == |autos| + |manuals| &&
      (forall k :: 0 <= k < |autos| ==> r.value[k] == Region(autos[k], Some(AutoMask(autos[k].bbox, h, w)))) &&
      (forall k :: 0 <= k < |manuals| ==>
        ManualMask(manuals[k], h, w).Ok? &&
        r.value[|autos| + k] == Region(manuals[k], Some(ManualMask(manuals[k], h, w).value)))
  {
    if image.None? || |data| == 0 {
      return Ok([]);
    }
    var h, w := image.value.0, image.value.1;
    var out: seq<Region> := [];
    for i := 0 to |data|
      invariant |out| == |Autos(data[..i])|
      invariant forall k :: 0 <= k < |out| ==>
        out[k] == Region(Autos(data[..i])[k], Some(AutoMask(Autos(data[..i])[k].bbox, h, w)))
    {
      assert data[..i + 1][..i] == data[..i];
      if IsAuto(data[i]) {
        out := out + [Region(data[i], Some(AutoMask(data[i].bbox, h, w)))];
      }
    }
    assert data[..|data|] == data;
    ghost var na := |out|;
    for i := 0 to |data|
      invariant |out| == na + |Manuals(data[..i])|
      invariant forall k :: 0 <= k < na ==> out[k] == Region(Autos(data)[k], Some(AutoMask(Autos(data)[k].bbox, h, w)))
      invariant forall k :: 0 <= k < |Manuals(data[..i])| ==>
        ManualMask(Manuals(data[..i])[k], h, w).Ok? &&
        out[na + k] == Region(Manuals(data[..i])[k], Some(ManualMask(Manuals(data[..i])[k], h, w).value))
    {
      assert data[..i + 1][..i] == data[..i];
      if !IsAuto(data[i]) {
        var m := ManualMask(data[i], h, w);
        if m.Err? {
          assert Manuals(data[..i + 1])[|Manuals(data[..i])|] == data[i];
          ManualsPrefix(data, i + 1);
          return Err(m.error);
        }
        out := out + [Region(data[i], Some(m.value))];
      }
    }
    r := Ok(out);
  }

  /** The records kept from a prefix are a prefix of those kept from the whole. */
  lemma ManualsPrefix(data: seq<RegionRecord>, n: nat)
    requires n <= |data|
    ensures Manuals(data[..n]) <= Manuals(data)
  {
    SelectPrefix(data, IsAuto, false, n);
  }

  /** Loading regions reorders them, 'auto' first, but neither drops nor duplicates any. */
  lemma LoadedRegionsArePermutation(data: seq<RegionRecord>, regions: seq<Region>, h: nat, w: nat)
    requires |regions| == |Autos(data)| + |Manuals(data)|
    requires forall k :: 0 <= k < |Autos(data)| ==> regions[k].record == Autos(data)[k]
    requires forall k :: 0 <= k < |Manuals(data)| ==> regions[|Autos(data)| + k].record == Manuals(data)[k]
    ensures multiset(seq(|regions|, k requires 0 <= k < |regions| => regions[k].record)) == multiset(data)
  {
    var recs := seq(|regions|, k requires 0 <= k < |regions| => regions[k].record);
    assert recs == Autos(data) + Manuals(data);
    AutosManualsSplit(data);
  }

  /**
   * A region with a mode other than 'auto' saved with its mask comes back
   * with the same mask when loaded against an image of the mask's size.
   */
  lemma SavedRegionReloads(r: Region, d: RegionRecord)
    requires r.mask.Some? ==> WellFormed(r.mask.value)
    requires SavedAs(r, d) && StoresMask(r) && r.record.mode.Some?
    ensures !IsAuto(d)
    ensures ManualMask(d, r.mask.value.h, r.mask.value.w) == Ok(r.mask.value)
  {
    var m := r.mask.value;
    StoredCropReloads(m, d);
  }

  /**
   * A region saved without a mode but with a mask is saved with mode 'auto':
   * on loading, its stored mask is ignored and rebuilt from its bbox.
   */
  lemma ModelessRegionReloadsAsAuto(r: Region, d: RegionRecord)
    requires r.mask.Some? ==> WellFormed(r.mask.value)
    requires SavedAs(r, d) && r.record.mode.None? && r.mask.Some? && HasOn(r.mask.value)
    ensures d.maskRle.Some? && IsAuto(d)
  {
  }

  lemma StoredCropReloads(m: Mask, d: RegionRecord)
    requires WellFormed(m) && HasOn(m)
    requires d.maskBbox.Some? && d.maskShape.Some? && d.maskRle.Some?
    requires Elements.HoldsCrop(m, Elements.MaskRecord(d.maskBbox.value, d.maskShape.value, d.maskRle.value))
    ensures ManualMask(d, m.h, m.w) == Ok(m)
  {
    var md := Elements.MaskRecord(d.maskBbox.value, d.maskShape.value, d.maskRle.value);
    Elements.CropRoundTrip(m, md);
    Elements.PasteCropToBounds(m);
    var crop := Elements.CropToBounds(m);
    var b := md.bbox;
    ManualMaskDecodes(d, crop, m.h, m.w);
    PlaceCropInside(crop, b[0], b[1], b[2], b[3], m.h, m.w);
  }

  /** A region whose stored crop decodes has that crop placed at its mask bbox. */
  lemma ManualMaskDecodes(d: RegionRecord, crop: Mask, h: nat, w: nat)
    requires d.maskRle.Some? && d.maskBbox.Some? && |d.maskBbox.value| == 4
    requires d.maskShape.Some? && |d.maskShape.value| == 2
    requires DecodeSpec(d.maskRle.value, d.maskShape.value[0], d.maskShape.value[1]) == Ok(crop)
    ensures WellFormed(crop)
    ensures var b := d.maskBbox.value; ManualMask(d, h, w) == Ok(PlaceCrop(crop, b[0], b[1], b[2], b[3], h, w))
  {
  }

  /** A crop that fits inside the image is placed exactly as a paste into a blank mask. */
  lemma PlaceCropInside(crop: Mask, x1: int, y1: int, x2: int, y2: int, h: nat, w: nat)
    requires WellFormed(crop) && 0 <= x1 && x2 == x1 + crop.w <= w && 0 <= y1 && y2 == y1 + crop.h <= h
    ensures PlaceCrop(crop, x1, y1, x2, y2, h, w) == Paste(Zeros(h, w), crop, x1, y1)
  {
    var placed := PlaceCrop(crop, x1, y1, x2, y2, h, w);
    var pasted := Paste(Zeros(h, w), crop, x1, y1);
    forall x, y | 0 <= x < w && 0 <= y < h ensures placed.rows[y][x] == pasted.rows[y][x] {
    }
    GridExt(placed, pasted);
  }

  // ---------------------------------------------------------------------
  // Element masks of saved objects
  // ---------------------------------------------------------------------

  /** Python's normalisation of a slice bound into [0, n]: negative bounds count from the end. */
  function SliceBound(i: int, n: nat): (r: nat)
    ensures r <= n
    ensures 0 <= i ==> r == (if i < n then i else n)
    ensures i < 0 && i + n >= 0 ==> r == i + n
    ensures i + n < 0 ==> r == 0
  {
    if i < 0 then (if i + n < 0 then 0 else i + n) else if i > n then n else i
  }

  /** A crop side of length a can be written into a slice of length t: equal, or broadcast from 1. */
  predicate Broadcasts(a: nat, t: nat) {
    a == t || a == 1
  }

  /**
   * The RLE branch of `_deserialize_object` for an 'auto' or 'rect' element:
   * decode the crop with `mask_shape` (default: the image size) and assign it
   * to the slice `mask[y1:y2, x1:x2]` of a blank mask (bbox default: the whole
   * image). Any failure (a bbox not of four numbers, a shape not of two, a
   * crop that does not decode or does not fit the slice) gives a blank mask.
   */
  function ElementMaskFromRle(bbox: Option<seq<int>>, shape: Option<seq<int>>, rle: seq<Run>, h: nat, w: nat)
    : (m: Mask)
    ensures WellFormed(m) && m.h == h && m.w == w
    ensures var b, s := bbox.GetOr([0, 0, w, h]), shape.GetOr([h, w]);
      |s| != 2 || |b| != 4 || DecodeSpec(rle, s[0], s[1]).Err? ==> m == Zeros(h, w)
    ensures var b := bbox.GetOr([0, 0, w, h]);
      forall x, y :: 0 <= x < w && 0 <= y < h && m.rows[y][x] > 0 ==>
        |b| == 4 && SliceBound(b[0], w) <= x < SliceBound(b[2], w) && SliceBound(b[1], h) <= y < SliceBound(b[3], h)
  {
    var b := bbox.GetOr([0, 0, w, h]);
    var s := shape.GetOr([h, w]);
    if |s| != 2 || |b| != 4 then Zeros(h, w)
    else match DecodeSpec(rle, s[0], s[1])
      case Err(_) => Zeros(h, w)
      case Ok(crop) =>
        var x1, y1, x2, y2 := SliceBound(b[0], w), SliceBound(b[1], h), SliceBound(b[2], w), SliceBound(b[3], h);
        var th := if y2 > y1 then y2 - y1 else 0;
        var tw := if x2 > x1 then x2 - x1 else 0;
        if Broadcasts(crop.h, th) && Broadcasts(crop.w, tw) then
          Tabulate(h, w, (x, y) =>
            if x1 <= x < x2 && y1 <= y < y2 && 0 <= x && 0 <= y
            then crop.rows[if crop.h == 1 then 0 else y - y1][if crop.w == 1 then 0 else x - x1]
            else 0)
        else Zeros(h, w)
  }

  /**
   * An element saved by `to_dict` (its mask cropped to its bounds) comes
   * back from the RLE branch as the same mask, when the image has the
   * mask's size.
   */
  lemma SavedElementReloads(m: Mask, md: Elements.MaskRecord)
    requires WellFormed(m) && HasOn(m) && Elements.HoldsCrop(m, md)
    ensures ElementMaskFromRle(Some(md.bbox), Some(md.shape), md.rle, m.h, m.w) == m
  {
    Elements.CropRoundTrip(m, md);
    Elements.PasteCropToBounds(m);
    var crop := Elements.CropToBounds(m);
    var b := md.bbox;
    assert DecodeSpec(md.rle, md.shape[0], md.shape[1]) == Ok(crop);
    RleSliceInside(crop, md.bbox, md.shape, md.rle, m.h, m.w);
  }

  /** A crop of the recorded shape whose bbox lies inside the image is pasted at the bbox. */
  lemma RleSliceInside(crop: Mask, b: seq<int>, s: seq<int>, rle: seq<Run>, h: nat, w: nat)
    requires WellFormed(crop) && |b| == 4 && |s| == 2 && DecodeSpec(rle, s[0], s[1]) == Ok(crop)
    requires 0 <= b[0] && b[2] == b[0] + crop.w <= w && 0 <= b[1] && b[3] == b[1] + crop.h <= h
    ensures ElementMaskFromRle(Some(b), Some(s), rle, h, w) == Paste(Zeros(h, w), crop, b[0], b[1])
  {
    var r := ElementMaskFromRle(Some(b), Some(s), rle, h, w);
    var pasted := Paste(Zeros(h, w), crop, b[0], b[1]);
    forall x, y | 0 <= x < w && 0 <= y < h ensures r.rows[y][x] == pasted.rows[y][x] {
      RleSliceCell(crop, b, s, rle, h, w, x, y);
    }
    GridExt(r, pasted);
  }

  /** One pixel of `RleSliceInside`: the crop's pixel inside the bbox, 0 outside. */
  lemma RleSliceCell(crop: Mask, b: seq<int>, s: seq<int>, rle: seq<Run>, h: nat, w: nat, x: int, y: int)
    requires WellFormed(crop) && |b| == 4 && |s| == 2 && DecodeSpec(rle, s[0], s[1]) == Ok(crop)
    requires 0 <= b[0] && b[2] == b[0] + crop.w <= w && 0 <= b[1] && b[3] == b[1] + crop.h <= h
    requires 0 <= x < w && 0 <= y < h
    ensures ElementMaskFromRle(Some(b), Some(s), rle, h, w).rows[y][x] ==
      (if b[0] <= x < b[2] && b[1] <= y < b[3] then crop.rows[y - b[1]][x - b[0]] else 0)
  {
    assert SliceBound(b[0], w) == b[0] && SliceBound(b[2], w) == b[2];
    assert SliceBound(b[1], h) == b[1] && SliceBound(b[3], h) == b[3];
    assert Broadcasts(crop.h, b[3] - b[1]) && Broadcasts(crop.w, b[2] - b[0]);
  }

  // ---------------------------------------------------------------------
  // Rebuilding saved objects
  // ---------------------------------------------------------------------

  /**
   * What rebuilding one saved object gives: an exception (memory or other),
   * no page image to rebuild against, or the rebuilt object, which may be None.
   */
  datatype Rebuilt = Raised(memoryError: bool) | NoImage | Built(obj: Option<Objects.SegmentedObject>)

  /** The object a rebuild adds to the workspace: a rebuilt object that has instances. */
  predicate Adds(b: Rebuilt) {
    b.Built? && b.obj.Some? && |b.obj.value.instances| > 0
  }

  /** The objects the load loop keeps from a list of saved objects, in order. */
  function Kept<R>(records: seq<R>, rebuild: R -> Rebuilt): (r: seq<Objects.SegmentedObject>)
    ensures |r| <= |records|
    ensures forall k :: 0 <= k < |r| ==> |r[k].instances| > 0
  {
    if |records| == 0 then []
    else
      var last := rebuild(records[|records| - 1]);
      Kept(records[..|records| - 1], rebuild) + (if Adds(last) then [last.obj.value] else [])
  }

  lemma {:induction false} KeptAppend<R>(a: seq<R>, b: seq<R>, rebuild: R -> Rebuilt)
    ensures Kept(a + b, rebuild) == Kept(a, rebuild) + Kept(b, rebuild)
    decreases |b|
  {
    if |b| == 0 {
      assert a + b == a;
    } else {
      var b' := b[..|b| - 1];
      assert (a + b)[..|a + b| - 1] == a + b';
      KeptAppend(a, b', rebuild);
    }
  }

  /**
   * A saved object whose rebuild raises is skipped and the others are still
   * processed: the workspace gets what it would have got without that object.
   */
  lemma FailedObjectSkipped<R>(records: seq<R>, i: nat, rebuild: R -> Rebuilt)
    requires i < |records| && rebuild(records[i]).Raised?
    ensures Kept(records, rebuild) == Kept(records[..i] + records[i + 1..], rebuild)
  {
    var pre, x, post := records[..i], records[i], records[i + 1..];
    assert records == pre + [x] + post;
    assert Kept([x], rebuild) == [] by {
      assert [x][..0] == [];
    }
    KeptAppend(pre, [x], rebuild);
    assert Kept(pre + [x], rebuild) == Kept(pre, rebuild);
    KeptAppend(pre + [x], post, rebuild);
    KeptAppend(pre, post, rebuild);
    assert Kept(records, rebuild) == Kept(pre, rebuild) + Kept(post, rebuild);
  }

  /** The global-object loop of `load`: rebuild each saved object, skipping any that raise. */
  method LoadObjects<R>(records: seq<R>, rebuild: R -> Rebuilt) returns (objects: seq<Objects.SegmentedObject>)
    ensures objects == Kept(records, rebuild)
  {
    objects := [];
    for i := 0 to |records|
      invariant objects == Kept(records[..i], rebuild)
    {
      assert records[..i + 1][..i] == records[..i];
      var b := rebuild(records[i]);
      match b
      case Raised(_) =>
      case NoImage =>
      case Built(o) =>
        if o.Some? && |o.value.instances| > 0 {
          objects := objects + [o.value];
        }
    }
    assert records[..|records|] == records;
  }
}

=== FILE: wrappers.dfy ===
/**
 * Option and Result values standing for Python's `None` and for raised
 * exceptions, and Python's slicing of a list prefix.
 */
module Wrappers {

  datatype Option<+T> = None | Some(value: T) {
    /** `dict.get(key, default)` for a key that may be missing. */
    function GetOr(default: T): T {
      if Some? then value else default
    }
  }

  datatype Result<+T, +E> = Ok(value: T) | Err(error: E)

  /** Python's `s[:n]`: a negative n counts from the end, and the bound is clamped. */
  function Take<T>(s: seq<T>, n: int): (r: seq<T>)
    ensures r <= s
    ensures n >= 0 ==> |r| == if n <= |s| then n else |s|
    ensures n < 0 ==> |r| == if |s| + n >= 0 then |s| + n else 0
  {
    if n >= 0 then (if n <= |s| then s[..n] else s)
    else if |s| + n >= 0 then s[..|s| + n]
    else []
  }

}
